=== FILE: README.md ===
# A verified model of the WINCE booking app's rules

WINCE is a session-booking web app with two parts. A React client lists
sessions, books them, and takes payment through a checkout widget. A Django
REST backend stores users, sessions and bookings, signs people in with a
password, Google or GitHub, and creates payment orders. This project models
the rules underneath both parts as pure Dafny functions over immutable
datatypes, and proves what those rules promise.

Whatever the program gets from outside is passed in as a parameter:

- every HTTP reply;
- every database result;
- the OAuth provider's answers;
- the payment gateway's results;
- the clock;
- the local-date conversion of a timestamp.

With those fixed, every operation is a deterministic function.

One module per concern of the source:

| module | file | models |
|---|---|---|
| `Wrappers` | wrappers.dfy | `Option` / `Result` |
| `Strings` | strings.dfy | character classes; trimming in JavaScript and Python; `split` / `join`; decimal printing and parsing |
| `Js` | json.dfy | JSON values as the client and server exchange them |
| `JsNumber` | js_number.dfy | `Number(s)` for the strings the client converts |
| `Uri` | uri.dfy | `encodeURIComponent` and its inverse |
| `Domain` | domain.dfy | `User`, `Session`, `Booking` and the `number \| Session` reference of `types.ts` |
| `Sorting` | sorting.dfy | stable sort by key; order-preserving filter |
| `AuthStore` | auth_store.dfy | the client's token store and `apiFetch` |
| `AuthFlows` | auth_flows.dfy | login, registration, OAuth exchanges, profile update, startup restore |
| `BookingFlow` | booking_flow.dfy | the booking and payment outcome machine of the explore and session pages |
| `AuthPages` | auth_pages.dfy | the signup and login pages: error formatting, redirect targets, GitHub callback |
| `Durations` | durations.dfy | `minutesToDuration` and the three `formatDuration` variants |
| `Dashboards` | dashboards.dfy | the creator and user dashboards |
| `Calendar` | calendar.dfy | the two calendars: event merge, day filter, month arithmetic, grid |
| `Navigation` | navigation.dfy | the route guards and the navigation bar |
| `Server` | server.dfy | shared backend shapes: requester, verbs, replies, table rows; loading the URL configuration; resolving a path of the bookings app |
| `UsersApi` | users_api.dfy | registration validators and replies; Google and GitHub sign-in |
| `BookingsApi` | bookings_api.dfy | booking permissions, listing, creation, `verify_payment` |
| `Payments` | payments.dfy | the payment-order ladder and the Stripe checkout parameters |
| `SessionsApi` | sessions_api.dfy | session permissions, serialisation, listing, creation, image upload |
| `Settings` | settings.dfy | the `.env` loader and the comma-list settings |
| `RemoveComments` | remove_comments.dfy | the comment-stripping maintenance script |

Two rules hold throughout:

- Every operation that can fail returns its error as a value: an `Option`, a
  `Result`, a refused `Answer`, or a thrown `Step`.
- Every operation has a partner: an inverse, a property it keeps, or an
  independent reference definition. A lemma connects the two.

## Model

| member | source | states |
|---|---|---|
| AuthStore.BaseWithoutSlash | frontend/src/state/auth/AuthContext.tsx:10 | exactly one trailing '/' is removed when the base has one; any other base is returned unchanged |
| AuthStore.RootedPath | frontend/src/state/auth/AuthContext.tsx:11 | a path that already starts with '/' is kept; any other path gets one '/' in front |
| AuthStore.JoinUrl | frontend/src/state/auth/AuthContext.tsx:9-13 | the URL starts with the base without its trailing '/', then has a '/', and ends with the path; its length is within one character of base plus path |
| AuthStore.JoinUrlSlashes | frontend/src/state/auth/AuthContext.tsx:9-13 | a trailing '/' on the base and a leading '/' on the path are each optional; with both present exactly one '/' separates them |
| AuthStore.JoinUrlExample | frontend/src/state/auth/AuthContext.tsx:9-13 | ("http://h/", "api/x") joins to "http://h/api/x" |
| AuthStore.Mirror | frontend/src/state/auth/AuthContext.tsx:63-66 | afterwards the key is stored exactly when the token is non-empty, and holds that token; every other key is untouched |
| AuthStore.PersistTokens | frontend/src/state/auth/AuthContext.tsx:60-67 | both tokens are replaced in the state, the storage is in step with them, and no other storage key changes |
| AuthStore.Logout | frontend/src/state/auth/AuthContext.tsx:69-72 | both tokens and the user are cleared; both storage keys are removed; the loading flag and every other key are kept |
| AuthStore.LogoutIdempotent | frontend/src/state/auth/AuthContext.tsx:69-72 | logging out twice leaves the same store as logging out once |
| AuthStore.PersistRestoreRoundTrip | frontend/src/state/auth/AuthContext.tsx:57-67 | non-empty tokens that were persisted are exactly the ones a reloaded provider reads back from storage |
| AuthStore.PersistOverwrites | frontend/src/state/auth/AuthContext.tsx:60-72 | a later persist or logout overwrites both tokens and both storage keys, so an earlier persist makes no difference to the store it leaves |
| AuthStore.RefreshSession | frontend/src/state/auth/AuthContext.tsx:74-88 | no refresh token: false, no request, nothing changed; a non-OK reply: logout and false; an OK reply with a JSON body: true, and the access token becomes the body's `access` while the refresh token and the user are kept; an OK reply without a JSON body breaks the call exactly; exactly one request is sent whenever a refresh token is held |
| AuthStore.RefreshReplacesOnlyAccess | frontend/src/state/auth/AuthContext.tsx:81-87 | a successful refresh changes the state only in its access token and the storage only under the access key; the refresh key keeps its value |
| AuthStore.RequestHeaders | frontend/src/state/auth/AuthContext.tsx:95-104 | a Bearer authorization exactly when auth is not skipped and an access token is held; JSON Content-Type only for a JSON body without one; a caller's own Content-Type is kept |
| AuthStore.SafeJson | frontend/src/state/auth/AuthContext.tsx:15-23 | a reply not labelled application/json, or whose body does not parse, reads as null; a JSON-labelled reply with a parsed body reads as exactly that body |
| AuthStore.ApiFetchReadsReply | frontend/src/state/auth/AuthContext.tsx:106-128 | the reply that decides is the retry exactly when a 401 led to a successful refresh, else the first reply; an OK decisive reply returns its JSON body (null when it has none); any other throws its status, the body as details, and the body's string `detail` or "Request failed (<status>)" as message; the call breaks exactly when the refresh breaks; one, two or three requests as the path taken |
| AuthStore.ApiFetch | frontend/src/state/auth/AuthContext.tsx:90-129 | the first request carries the joined URL and the header rules; unless the first reply is a 401 with auth in use, it is the only request and nothing changes; otherwise the refresh-and-retry branch decides |
| AuthStore.AfterUnauthorized | frontend/src/state/auth/AuthContext.tsx:109-115 | the store is the one the refresh left; a successful refresh leads to exactly one retry (three requests in all); a broken refresh breaks the call after two requests; otherwise the call does not break; with no refresh token nothing else is sent |
| AuthStore.RetryCarriesNewToken | frontend/src/state/auth/AuthContext.tsx:108-115 | after a successful refresh the third request is the first one with its Authorization header replaced by "Bearer " and the new access token, and the retry's reply settles the call |
| AuthStore.ApiFetchFrame | frontend/src/state/auth/AuthContext.tsx:106-128 | a returned body always answers a request to the caller's URL; the user is kept or cleared, never replaced; the base URL never changes |
| AuthStore.GenericSettle | frontend/src/state/auth/AuthContext.tsx:117-124 | a 500 reply without a JSON body throws "Request failed (500)" with null details |
| AuthStore.GenericMessageExample | frontend/src/state/auth/AuthContext.tsx:117-124 | the same 500 reply, seen through a whole `apiFetch`, throws the same error |
| AuthFlows.FetchMe | frontend/src/state/auth/AuthContext.tsx:131-134 | a successful GET of /api/users/me/ stores the decoded user, and its last request went to that URL; a failed one leaves what `apiFetch` left |
| AuthFlows.Login | frontend/src/state/auth/AuthContext.tsx:145-153 | the credentials go to /api/auth/token/ without a Bearer header; a rejected login changes nothing and is one request; an accepted one persists the returned pair before fetching the user |
| AuthFlows.LoginAsWritten | frontend/src/state/auth/AuthContext.tsx:145-153 | as written, `fetchMe` runs in the closure of the render `login` started in: the /me request carries the headers of the store before login, a refresh reads the old refresh token, and the pair is still persisted; a rejected login is the same as the corrected one |
| AuthFlows.SignedOutLoginRejected | frontend/src/state/auth/AuthContext.tsx:104 | a signed-out visitor with accepted credentials: as written the /me request has no Authorization header, its 401 finds no refresh token, and login rejects with 401 while the new pair stays persisted and no user is set; the corrected login sends the new access token as Bearer |
| AuthFlows.TokenExchange | frontend/src/state/auth/AuthContext.tsx:155-185 | exactly one unauthenticated JSON POST; on failure the store is unchanged and the server's error is thrown; on success both returned tokens and the returned user are stored, storage is in step, and loading is untouched |
| AuthFlows.ProfilePayload | frontend/src/state/auth/AuthContext.tsx:136-140 | the PUT body holds exactly the given fields: `name` iff given, `avatar` iff given, with their values |
| AuthFlows.UpdateProfile | frontend/src/state/auth/AuthContext.tsx:136-143 | a PUT of that body to /api/users/me/; success replaces the user with the server's copy; failure leaves what `apiFetch` left |
| AuthFlows.RetryStartup | frontend/src/state/auth/AuthContext.tsx:192-201 | loading ends; the base URL is kept; a user left signed in is the one it started with or the answer to its final /me request |
| AuthFlows.Startup | frontend/src/state/auth/AuthContext.tsx:187-210 | loading ends on every path; without a stored access token nothing is sent; a first successful /me is the whole story; a signed-out visitor ends up signed in only through a reply to a /me request |
| BookingFlow.CanBookAgrees | frontend/src/pages/SessionDetailPage.tsx:53-58 | the session page's `canBook` on a loaded session equals the explore page's `canBookSession`: a user, with role USER, who did not create it; nothing can be booked before the session loads |
| BookingFlow.GatewayFailureShown | frontend/src/pages/ExploreSessionsPage.tsx:243-258 | when the booking succeeds and the order call throws, exactly the booking and order requests are sent, the busy marker is cleared, and the line reads back as "gateway not configured" exactly when the message contains "not configured" or "503", otherwise as a setup failure carrying the message, or "Payment gateway not available" when the thrown value has none |
| BookingFlow.Outcome | frontend/src/pages/ExploreSessionsPage.tsx:174-270 | a failed booking ends as "booking failed" whatever follows; a failed order goes through the gateway test; confirmed exactly when booking, order, payment and verification all succeed; awaiting payment exactly when the checkout was dismissed; a payment failure always has a description ("Unknown error" when none was given) |
| BookingFlow.Calls | frontend/src/pages/ExploreSessionsPage.tsx:174-207 | the booking POST always comes first; it is the only request exactly when it fails; the order POST follows a successful booking and names it; the verify POST is sent exactly when booking and order succeeded and the widget reported a payment |
| BookingFlow.ExploreMessageRoundTrip | frontend/src/pages/ExploreSessionsPage.tsx:208-269 | every outcome has its own status line: the line reads back as the outcome that produced it |
| BookingFlow.ExploreMessageInjective | frontend/src/pages/ExploreSessionsPage.tsx:208-269 | two outcomes that show the same line are the same outcome |
| BookingFlow.HandleBook | frontend/src/pages/ExploreSessionsPage.tsx:168-271 | nothing happens without a user; otherwise exactly the attempt's requests are sent, only this session's line changes, it shows the outcome's line, and the busy marker is cleared exactly on a terminal outcome |
| BookingFlow.BookingFailureStopsExplore | frontend/src/pages/ExploreSessionsPage.tsx:261-270 | a failed booking POST sends nothing more, shows "Booking failed: <message>" and clears the busy marker |
| BookingFlow.BookClick | frontend/src/pages/ExploreSessionsPage.tsx:40-48 | booking starts exactly when allowed and idle; otherwise a visitor without a user is sent to /login with from = /sessions/<id> |
| BookingFlow.Upcoming | frontend/src/pages/ExploreSessionsPage.tsx:273-278 | exactly the sessions starting strictly after now, each as often as in the filter, sorted by ascending start |
| BookingFlow.DetailBookingFailedRoundTrip | frontend/src/pages/SessionDetailPage.tsx:139-143 | "Booking failed: <m>" reads back as a failed booking with message m |
| BookingFlow.DetailSetupFailedRoundTrip | frontend/src/pages/SessionDetailPage.tsx:134-136 | "Payment setup failed: <m>. Booking created but payment pending." reads back as a setup failure with message m |
| BookingFlow.DetailVerifyFailedRoundTrip | frontend/src/pages/SessionDetailPage.tsx:101-106 | "Payment verification failed: <m>" reads back as a verification failure with message m |
| BookingFlow.DetailPaymentFailedRoundTrip | frontend/src/pages/SessionDetailPage.tsx:121-124 | "Payment failed: <d>" reads back as a payment failure with description d |
| BookingFlow.DetailMessageRoundTrip | frontend/src/pages/SessionDetailPage.tsx:100-141 | on the session page too, the status each outcome leaves (a line, or none) reads back as that outcome, so no two outcomes look alike |
| BookingFlow.Book | frontend/src/pages/SessionDetailPage.tsx:60-144 | the line shown is the outcome's line; processing continues exactly while the payment is pending; the requests are those of the attempt, only the booking POST when it fails |
| BookingFlow.PagesAgreeOnFailures | frontend/src/pages/SessionDetailPage.tsx:132-141 | a failed booking shows the same line on both pages; a setup failure's session-page line is the explore line plus ". Booking created but payment pending." |
| BookingFlow.RouteIdExamples | frontend/src/pages/SessionDetailPage.tsx:146-152 | the route id "abc" takes the invalid-session branch, and "7" does not |
| Durations.JsRem | frontend/src/pages/CreatorDashboardPage.tsx:10 | JavaScript's `%` for a positive divisor: the mathematical remainder for a non-negative dividend, and minus the remainder of the negated dividend (a value in (-divisor, 0]) for a negative one |
| Durations.MinutesToDuration | frontend/src/pages/CreatorDashboardPage.tsx:8-14 | always ends in ":00"; for a non-negative count it is pad2(hours) ":" pad2(minutes) ":00" |
| Durations.Pad2Value | frontend/src/pages/CreatorDashboardPage.tsx:11-12 | `padStart(2, '0')` of a number gives at least two digits whose value is the number |
| Durations.DurationParts | frontend/src/pages/CreatorDashboardPage.tsx:8-14 | the duration splits at ':' into the padded hours, the padded minutes and "00" |
| Durations.MinutesRoundTrip | frontend/src/pages/CreatorDashboardPage.tsx:8-14 | HH*60+MM of the produced text gives back the minute count |
| Durations.MinutesExample | frontend/src/pages/CreatorDashboardPage.tsx:8-14 | 90 minutes gives "01:30:00" |
| Durations.ExploreShowsCreatedDuration | frontend/src/pages/ExploreSessionsPage.tsx:19-27 | a duration the creator dashboard produced shows on the explore page as "<h>h <m>m" when both are positive, "<h>h" on the hour, "<m>m" under an hour, and as itself for zero minutes |
| Durations.ShortDurationShown | frontend/src/pages/ExploreSessionsPage.tsx:21-26 | under an hour the hours field is 0, so a positive count shows as "<m>m" and zero falls through to the duration text |
| Durations.LongDurationShown | frontend/src/pages/ExploreSessionsPage.tsx:21-24 | from an hour up the text is "<h>h <m>m", or "<h>h" when the minutes field is 0 |
| Durations.CreatedDurationFields | frontend/src/pages/CreatorDashboardPage.tsx:8-14 | the produced text has three ':' fields, and `Number` of the first two gives the hours and the remaining minutes |
| Durations.FirstMatch | frontend/src/components/SessionCalendar.tsx:125 | the search for the pattern digits ':' digits ':' digits finds its leftmost match, and reports none only when there is none |
| Durations.FieldsMatch | frontend/src/components/SessionCalendar.tsx:125-128 | in "hh:mm:ss" made of digit fields the pattern matches at the start, and its first two groups are hh and mm |
| Durations.CalendarOfFields | frontend/src/components/SessionCalendar.tsx:124-134 | for "hh:mm:00" the calendar shows "<h>h <m>m" when h > 0 and "<m>m" otherwise, with h and m the fields' decimal values |
| Durations.CalendarShowsCreatedDuration | frontend/src/components/CreatorSessionCalendar.tsx:92-101 | a duration the creator dashboard produced shows on both calendars as "<hours>h <minutes>m", or "<minutes>m" under an hour |
| JsNumber.ToNumber | frontend/src/pages/ExploreSessionsPage.tsx:20 | `Number(s)`: NaN exactly when the trimmed text is not a numeric literal; an integer exactly for the empty text (0) or optionally signed decimal digits, with their value |
| JsNumber.ToNumberOfIntToString | frontend/src/pages/SessionDetailPage.tsx:146 | `Number(String(i)) == i` for every integer |
| JsNumber.DigitsToNumber | frontend/src/pages/ExploreSessionsPage.tsx:20 | a non-empty digit string converts to its decimal value |
| JsNumber.NotANumberExample | frontend/src/pages/SessionDetailPage.tsx:146 | `Number("abc")` is NaN |
| JsNumber.FractionExample | frontend/src/pages/ExploreSessionsPage.tsx:20 | `Number("1.5")` is a number, but not an integer |
| Dashboards.MySessions | frontend/src/pages/CreatorDashboardPage.tsx:59 | only sessions the user created, each taken from the list, and every one of them; nothing without a user |
| Dashboards.MySessionsInOrder | frontend/src/pages/CreatorDashboardPage.tsx:59 | the filter keeps the original order: it distributes over concatenation |
| Dashboards.ChooseFile | frontend/src/pages/CreatorDashboardPage.tsx:211-216 | choosing a file selects it and clears the typed image URL; nothing else in the form changes |
| Dashboards.ReplaceById | frontend/src/pages/CreatorDashboardPage.tsx:90 | same length; exactly the entries with the uploaded session's id are replaced |
| Dashboards.CreateSession | frontend/src/pages/CreatorDashboardPage.tsx:61-111 | an empty start time is an error and sends nothing; any failure before the session exists leaves list and form as they were; a created session is prepended, the form is reset, and the upload is tried exactly when a file is chosen and the id is non-zero; an upload replaces only that entry; an upload failure keeps the session and reports it |
| Dashboards.ResetKeepsSchedule | frontend/src/pages/CreatorDashboardPage.tsx:103-106 | the reset clears title, description, image URL and file, and keeps price, duration and start time |
| Dashboards.CreatedSessionHeadsMySessions | frontend/src/pages/CreatorDashboardPage.tsx:59-76 | the creator's new session heads their own list, in front of the ones they had |
| Dashboards.PayloadDurationRoundTrip | frontend/src/pages/CreatorDashboardPage.tsx:69-73 | the posted `duration` splits into three fields whose first two give back the form's minute count |
| Dashboards.PartitionStep | frontend/src/pages/UserDashboardPage.tsx:52-59 | one more booking goes to the end of exactly one of the two lists, the one its activity picks |
| Dashboards.PartitionBookings | frontend/src/pages/UserDashboardPage.tsx:47-62 | the loop builds exactly the order-preserving filters: active bookings have an expanded session starting after now, past ones are the rest, and together they are the input |
| Dashboards.ProgressDay | frontend/src/pages/UserDashboardPage.tsx:65-66 | never above 14; 14 exactly when there are at least 14 bookings; otherwise the number of bookings |
| Dashboards.PartitionCount | frontend/src/pages/UserDashboardPage.tsx:47-62 | the two lists together are as long as the input |
| Dashboards.PartitionMultiset | frontend/src/pages/UserDashboardPage.tsx:47-62 | the two lists together hold exactly the input's bookings |
| Dashboards.ProgressCountsAllBookings | frontend/src/pages/UserDashboardPage.tsx:47-66 | the progress day is min(number of bookings, 14) |
| Dashboards.FormatSessionTitle | frontend/src/pages/UserDashboardPage.tsx:83-86 | the session's title when it is expanded; otherwise "Session #" followed by text that converts back to the id |
| Dashboards.SessionStartTime | frontend/src/pages/UserDashboardPage.tsx:88-91 | null exactly when the session is not expanded, otherwise its start |
| Dashboards.ActiveBookingsHaveStartTimes | frontend/src/pages/UserDashboardPage.tsx:47-91 | every active booking has a start time, and it lies after now |
| Dashboards.LoadBookings | frontend/src/pages/UserDashboardPage.tsx:28-45 | after unmount only the earlier error reset shows; while mounted, loading ends, and the list or the error is set from the result |
| Calendar.MakeMonth | frontend/src/components/SessionCalendar.tsx:112-118 | `new Date(y, m, 1)` normalises the month: the year*12 + month index is kept, including JavaScript's 1900 offset for years 0..99 |
| Calendar.NavigationSteps | frontend/src/components/SessionCalendar.tsx:112-118 | previous and next move one month back and forward, wrapping January and December across years |
| Calendar.NavigationInverse | frontend/src/components/SessionCalendar.tsx:112-118 | outside the two-digit years, next undoes previous and previous undoes next |
| Calendar.TwoDigitYearJump | frontend/src/components/SessionCalendar.tsx:112-118 | from January 100 the previous month is December 99, and the next month after that is January 2000 |
| Calendar.MonthLength | frontend/src/components/SessionCalendar.tsx:87-89 | between 28 and 31 days; 29 exactly for a leap February; 28 exactly for a common February |
| Calendar.DaysInMonth | frontend/src/components/SessionCalendar.tsx:88-89 | `new Date(year, month + 1, 0).getDate()` is between 28 and 31 |
| Calendar.YearStep | frontend/src/components/SessionCalendar.tsx:87-90 | the day count advances by the year's length from one 1 January to the next |
| Calendar.WeekdayAnchors | frontend/src/components/SessionCalendar.tsx:90 | 1 January 1970 is a Thursday and 1 January 2000 a Saturday |
| Calendar.NextMonthStartingDay | frontend/src/components/SessionCalendar.tsx:87-90 | the next month's grid starts on the weekday after this month's last day |
| Calendar.Grid | frontend/src/components/SessionCalendar.tsx:193-199 | startingDayOfWeek empty cells, then one cell per day of the month |
| Calendar.GridColumns | frontend/src/components/SessionCalendar.tsx:193-201 | day d sits in cell startingDayOfWeek + d - 1, and that cell's column is d's weekday |
| Calendar.EventsForDay | frontend/src/components/SessionCalendar.tsx:100-109 | exactly the events whose local day, month and year are the ones asked for, each taken from the list |
| Calendar.DaysAreDisjoint | frontend/src/components/SessionCalendar.tsx:100-109 | no event is listed under two different days |
| Calendar.Pills | frontend/src/components/SessionCalendar.tsx:215 | the first two events of the day, or all of them when there are fewer |
| Calendar.MoreLabel | frontend/src/components/SessionCalendar.tsx:232-234 | a "+N more" label appears exactly when the day has more than two events |
| Calendar.PillsAccountForAll | frontend/src/components/SessionCalendar.tsx:215-234 | the pills plus N account for every event of the day, and the label reads "+<count - 2> more" |
| Calendar.BookedEvents | frontend/src/components/SessionCalendar.tsx:42-57 | only booked events, at most one per booking |
| Calendar.BookedEventsCover | frontend/src/components/SessionCalendar.tsx:42-57 | every booking with an expanded session has its booked event, carrying the booking's id and status |
| Calendar.BookedEventsFrom | frontend/src/components/SessionCalendar.tsx:42-57 | every booked event is the event of one of the bookings |
| Calendar.BookedEventsCount | frontend/src/components/SessionCalendar.tsx:42-57 | there are exactly as many booked events as bookings with an expanded session |
| Calendar.AvailableEvents | frontend/src/components/SessionCalendar.tsx:60-78 | only available events, none for a booked session id |
| Calendar.AvailableEventsCover | frontend/src/components/SessionCalendar.tsx:65-78 | every session whose id no booking refers to has its available event |
| Calendar.AvailableEventsFrom | frontend/src/components/SessionCalendar.tsx:65-78 | every available event is the event of an unbooked session |
| Calendar.Events | frontend/src/components/SessionCalendar.tsx:38-81 | booked events precede available ones; booked ones name booked sessions, available ones never do; every session is booked or has its available event |
| Calendar.NoSessionBothWays | frontend/src/components/SessionCalendar.tsx:60-78 | no session id is both booked and available |
| Calendar.CreatorEvents | frontend/src/components/CreatorSessionCalendar.tsx:36-48 | one event per session, in the same order, with the session's id and start; none carries a booking count |
| Calendar.SessionOnItsDay | frontend/src/components/CreatorSessionCalendar.tsx:67-76 | every session's event is listed under its own local day |
| Calendar.PastAndUpcoming | frontend/src/components/CreatorSessionCalendar.tsx:114-116 | `isPast` is a strict comparison: no upcoming session is past, and one starting exactly now is neither past nor upcoming |
| Calendar.BookingLabel | frontend/src/components/CreatorSessionCalendar.tsx:264 | "<n> Booking", plural exactly when the count is not 1 |
| Navigation.ProtectedRoute | frontend/src/components/ProtectedRoute.tsx:9-12 | loading shows the placeholder; otherwise no user exactly when the visitor is sent to /login remembering the path, and a user exactly when the page shows |
| Navigation.CreatorRoute | frontend/src/components/CreatorRoute.tsx:10-14 | as the protected route, and a signed-in non-creator exactly when the visitor is sent to /dashboard without a remembered path; the page shows exactly for a creator |
| Navigation.CreatorRouteStricter | frontend/src/components/CreatorRoute.tsx:10-14 | whatever the creator guard lets through the plain guard lets through; for a creator the two agree |
| Navigation.RouteKey | frontend/src/App.tsx:19-60 | the form in which a location is compared with a route path: no trailing '/', no upper-case ASCII letter, never longer than the location |
| Navigation.GuardOf | frontend/src/App.tsx:27-60 | a location matching /dashboard, /profile or /settings (any letter case, any trailing slashes) is guarded by sign-in, one matching /creator by the creator role, every other location is open |
| Navigation.TrailingSlashIgnored | frontend/src/App.tsx:27-60 | a trailing '/' never changes the route a location matches |
| Navigation.CaseIgnored | frontend/src/App.tsx:27-60 | lower-casing a location never changes the route it matches |
| Navigation.GuardIgnoresCaseAndSlash | frontend/src/App.tsx:27-60 | "/Dashboard" and "/dashboard/" sit behind the same guard as "/dashboard": the guard is unchanged by a trailing slash or by lower-casing |
| Navigation.Visit | frontend/src/App.tsx:19-63 | an open path always shows; a signed-out visitor, once loading is over, sees only open paths |
| Navigation.RedirectsSettle | frontend/src/App.tsx:19-63 | after loading, one redirect is enough: the page a guard redirects to is shown without a further redirect |
| Navigation.AvatarSrc | frontend/src/components/NavBar.tsx:49-63 | the default image without an avatar; an http(s) avatar as it is; any other avatar rooted at '/', adding one only when missing; the result is always absolute or rooted |
| Navigation.AvatarSrcIdempotent | frontend/src/components/NavBar.tsx:49-63 | feeding the computed source back as the avatar gives the same source |
| Navigation.AvatarFolderForms | frontend/src/components/NavBar.tsx:55-56 | "Avatar/<file>" and "/Avatar/<file>" show the same image |
| Navigation.DashboardPath | frontend/src/components/NavBar.tsx:47 | /creator exactly for a creator, /dashboard for everyone else |
| Navigation.HomeLinkOpens | frontend/src/components/NavBar.tsx:47 | the Home link of a signed-in user opens without a redirect, and is the role's home page |
| Navigation.HandleLogout | frontend/src/components/NavBar.tsx:41-45 | logout of the store, the menu closes, and a navigation to / happens exactly when not already there |
| Navigation.LogoutLocksGuardedPages | frontend/src/components/NavBar.tsx:41-45 | after the menu's logout every guarded page redirects to /login with that path, and the bar shows the guest links |
| Navigation.NavRight | frontend/src/components/NavBar.tsx:124-134 | guest links exactly without a user; the avatar menu shows the avatar source and the role's home link |
| AuthPages.Capitalize | frontend/src/pages/SignupPage.tsx:57 | same length; the first character upper-cased and the rest unchanged |
| AuthPages.NonArrayIsSingleton | frontend/src/pages/SignupPage.tsx:55-56 | a field's single message reads the same as a one-element list of it |
| AuthPages.FieldLines | frontend/src/pages/SignupPage.tsx:53-58 | one line per field of `errors`, in order |
| AuthPages.JoinEmpty | frontend/src/pages/SignupPage.tsx:59 | joined non-empty lines are empty exactly when there are none, so the `\|\|` fallback is taken only for an empty `errors` |
| AuthPages.DetailsMessage | frontend/src/pages/SignupPage.tsx:46-62 | no message (the page throws) exactly when `errors` is null; non-empty `errors` give their field lines joined by ", "; neither key gives "Signup failed"; only `detail` gives its text |
| AuthPages.FieldErrorExample | frontend/src/pages/SignupPage.tsx:53-59 | {errors: {email: ["already taken"]}} shows "Email: already taken" |
| AuthPages.SignupErrorMessage | frontend/src/pages/SignupPage.tsx:45-66 | an API error is read from its details; any other error shows its message, or "Signup failed" |
| AuthPages.NullDetailsFallBack | frontend/src/pages/SignupPage.tsx:46-48 | an API error with null details shows "Signup failed" |
| AuthPages.SignupSubmit | frontend/src/pages/SignupPage.tsx:32-70 | mismatched passwords exactly when nothing is sent, with "Passwords do not match"; otherwise the trimmed name and email are registered, success goes to the remembered page or /dashboard, and failure shows the error message |
| AuthPages.LoginSubmit | frontend/src/pages/LoginPage.tsx:30-43 | the trimmed email and the password are sent; success goes to /dashboard; failure shows the message or "Login failed" |
| AuthPages.FinalTarget | frontend/src/pages/LoginPage.tsx:59-63 | the remembered page when there is one and it is not a creator page for a non-creator; otherwise the role's home; never a creator page for a non-creator |
| AuthPages.OAuthResult | frontend/src/pages/LoginPage.tsx:94-105 | a successful Google or GitHub sign-in navigates to the final target; a failed one shows the error or the page's fallback |
| AuthPages.GithubAuthorize | frontend/src/pages/LoginPage.tsx:111-120 | no client id exactly when the error "GitHub OAuth client ID is not configured" shows; otherwise the authorize URL with the client id, the encoded origin and path as redirect, and the fixed scope and state |
| AuthPages.GithubRedirectRecoverable | frontend/src/pages/LoginPage.tsx:117-118 | the redirect parameter decodes back to the page's origin and path |
| AuthPages.AuthorizeStateAccepted | frontend/src/pages/SignupPage.tsx:111-115 | the authorize URL ends with state=github_oauth, a return with a code and that state is exchanged, and a return missing either is not |
| UsersApi.UserJson | backend/users/serializers.py:8-12 | a user is serialised as exactly five fields, never the password, with the account's email and role name |
| UsersApi.CleanChar | backend/users/serializers.py:16-24 | a missing field is "This field is required."; the field is accepted exactly when its stripped text is non-blank, within the length bounds and free of NUL characters, and the stripped text is what is kept; a refusal lists at least one message, and a NUL in a non-blank value is reported as "Null characters are not allowed." |
| UsersApi.NormalizeEmail | backend/users/serializers.py:35 | the normalised email has no upper-case ASCII letter and no surrounding white space |
| UsersApi.NormalizeEmailIdempotent | backend/users/serializers.py:35 | normalising twice is normalising once |
| UsersApi.ValidateEmail | backend/users/serializers.py:31-40 | accepted exactly when the normalised email is non-empty and not yet registered, and then it is the normalised email; a registered one gives "A user with this email already exists." |
| UsersApi.ValidatePassword | backend/users/serializers.py:42-55 | with Python's Unicode `isalpha` and `isdigit` as the given character classes: accepted exactly when at least 8 characters with a letter and a digit, unchanged; a long enough password missing either gives the letter-and-number message |
| UsersApi.PasswordExamples | backend/users/serializers.py:42-55 | for any character classes that agree with ASCII on ASCII: "password" is refused for lacking a digit, "passw0rd" is accepted, "abc123" is refused |
| UsersApi.CyrillicPasswordAccepted | backend/users/serializers.py:49-50 | when `isalpha` counts the Cyrillic letters as letters, as Python's does, "пароль123" is accepted |
| UsersApi.ValidateName | backend/users/serializers.py:57-68 | accepted exactly when the stripped name is non-empty and at most 150 characters, and then it is the stripped name |
| UsersApi.ValidatorsStable | backend/users/serializers.py:31-68 | a value a validator accepted is accepted again unchanged |
| UsersApi.EmailField | backend/users/serializers.py:23-40 | accepted exactly when the field passes its own checks, the email format check accepts it and the email validator accepts it; then it is normalised and not yet registered; a refusal lists at least one message, and a NUL in a non-blank value is reported as "Null characters are not allowed." |
| UsersApi.NameField | backend/users/serializers.py:24-68 | an accepted name is non-empty, at most 150 characters and free of NUL characters |
| UsersApi.PasswordField | backend/users/serializers.py:16-55 | accepted exactly when the field passes its own checks (length 8, no NUL) and holds a letter and a digit by the given character classes; then it is at least 8 characters long and free of NUL characters |
| UsersApi.FieldErrors | backend/users/serializers.py:31-68 | no field error exactly when all three fields are accepted |
| UsersApi.RegisterFields | backend/users/serializers.py:15-75 | accepted data is a new normalised email, a valid name and a strong password, none of them holding a NUL character; a refused email is the first error listed |
| UsersApi.ErrorsJson | backend/users/views.py:43 | one entry per field error, in order, each the list of that field's messages |
| UsersApi.NewAccount | backend/users/serializers.py:77-83 | a new account has role USER, the cleaned email and the assigned id |
| UsersApi.RegisterReply | backend/users/views.py:34-71 | invalid data is a 400 with "Validation failed" and the errors; a failed save is a 400 "Error creating user: ..."; 201 exactly when both succeed, and then only the new account is added and returned with tokens; otherwise the accounts are unchanged |
| UsersApi.RegisterReplyOnlyAdds | backend/users/views.py:34-71 | existing accounts are kept; anything added is a USER under its own email; 201 exactly when one account is added |
| UsersApi.RegisterOnlyAdds | backend/users/views.py:34-71 | the same for the whole registration request |
| UsersApi.EmailTaken | backend/users/serializers.py:38-39 | once an email is registered, a later validation of it fails with "A user with this email already exists." |
| UsersApi.RegisterTwice | backend/users/views.py:34-46 | registering the same data twice: the second attempt is a 400 whose first error is the email taken |
| UsersApi.UpdateMe | backend/users/serializers.py:8-12 | a profile update changes only name and avatar; id, email, role and password are read-only |
| UsersApi.LocalPart | backend/users/views.py:117 | `email.split("@", 1)[0]`: a prefix of the email without '@', ending where the first '@' is |
| UsersApi.MergeProfile | backend/users/views.py:125-138 | a name or avatar already set is kept, an empty one is filled; the account is reported as changed exactly when it differs |
| UsersApi.MergeProfileIdempotent | backend/users/views.py:125-138 | merging the same profile again changes nothing and reports no change |
| UsersApi.SignIn | backend/users/views.py:120-138 | `get_or_create` plus the merge: a new email creates a USER with the given name and avatar; a known one is merged; the result is stored under the email |
| UsersApi.SignInStable | backend/users/views.py:120-138 | signing in twice with the same profile gives the first sign-in's account and accounts |
| UsersApi.SignInKeepsKeys | backend/users/views.py:120-138 | accounts stay keyed by their own email |
| UsersApi.GoogleLogin | backend/users/views.py:91-150 | no client id is a 500; a missing credential a 400 on `credential`; an unverifiable one "Invalid Google credential."; no email "Google account email missing."; 200 exactly otherwise, signing in with the claims' name or the local part and the picture or "" |
| UsersApi.GoogleKeepsCustomProfile | backend/users/views.py:125-135 | a Google sign-in never overwrites a name or avatar the account already has, nor its role |
| UsersApi.FirstPrimary | backend/users/views.py:203 | the index of the first primary entry, and none only when no entry is primary |
| UsersApi.ListedEmail | backend/users/views.py:203-207 | the first primary entry's email, else the first entry's, else none |
| UsersApi.GithubEmail | backend/users/views.py:197-207 | the profile's email when present; otherwise the listed email when the list was fetched; otherwise none |
| UsersApi.PrimaryWins | backend/users/views.py:203-205 | with no profile email, the first primary entry's email is used |
| UsersApi.ChosenEmail | backend/users/views.py:197-207 | a failed email request is an error only when the profile has no email |
| UsersApi.ExchangeCode | backend/users/views.py:260-279 | without a client id or secret no exchange happens; otherwise the exchange's token |
| UsersApi.GithubToken | backend/users/views.py:165-187 | a code is exchanged, and a failed exchange is "Failed to obtain GitHub access token."; without a code a given access token is used; with neither "Either 'code' or 'access_token' is required."; a token is never empty |
| UsersApi.GithubLogin | backend/users/views.py:163-258 | every reply is 200 or 400, and a 400 changes no account; a refused token or profile is reported; 200 only with a token, a profile and an email, signing in with name, login or local part and the avatar URL or "" |
| UsersApi.CodeShadowsAccessToken | backend/users/views.py:168-187 | with a code present the access token is ignored: without a client id the request fails even when a token is given; a code holding a NUL character is refused as a 400 on `code` with the null-character message |
| BookingsApi.NewBooking | backend/bookings/models.py:13-19 | a new booking starts PENDING, with payment status "pending", an empty payment id and no amount paid, for the given user and session |
| BookingsApi.BookingText | backend/bookings/models.py:26-27 | a booking prints as its id: non-empty, and all digits for a non-negative id |
| BookingsApi.VisibleImpliesObjectPermission | backend/bookings/permissions.py:8-10 | every booking the listing shows passes the object permission: the booker or the session's creator |
| BookingsApi.VisibleRows | backend/bookings/views.py:20-25 | exactly the table's bookings the requester may see (a creator's sessions' bookings, or a user's own), newest first |
| BookingsApi.SerializeBooking | backend/bookings/serializers.py:8-26 | the serialised booking keeps id, user, status, creation time, payment status and amount; its session refers to the booking's session, and is expanded exactly when that session exists |
| BookingsApi.SerializeBookings | backend/bookings/serializers.py:8-26 | one serialised booking per row, in order |
| BookingsApi.SerializedListing | backend/bookings/serializers.py:8-26 | when every row's session exists, every row appears serialised, every session is expanded, and the creation times stay in place |
| BookingsApi.Locate | backend/bookings/views.py:47 | `get_object`: the position of a visible booking with the key, and none only when no visible booking has it |
| BookingsApi.ListBookings | backend/bookings/views.py:15-25 | anonymous exactly when refused; otherwise a 200 listing every visible booking and nothing else (each listed booking is a visible row of the table, serialised), with sessions expanded, newest first |
| BookingsApi.ListedFromVisible | backend/bookings/views.py:20-25 | every booking in the listing is the serialisation of a row the requester may see |
| BookingsApi.CreatorListing | backend/bookings/views.py:23-24 | a creator sees a booking exactly when it is for one of their sessions |
| BookingsApi.RetrieveBooking | backend/bookings/views.py:15-25 | a signed-in requester gets a booking exactly when a visible booking has that key, otherwise "Not found."; the answer is that booking with its session expanded |
| BookingsApi.Validate | backend/bookings/serializers.py:28-37 | no requester exactly when "Authentication required."; otherwise refused exactly when the requester created the session, with "You cannot book your own session." |
| BookingsApi.CreateBooking | backend/bookings/views.py:32-42 | created exactly when a signed-in requester names an existing session they did not create and have not booked; then a 201 and one PENDING row appended; a second booking is the duplicate error; a refusal changes nothing; one booking per user and session is kept |
| BookingsApi.BookTwice | backend/bookings/models.py:21-24 | booking the same session again is refused with the duplicate message and changes nothing |
| BookingsApi.CreatorBookingHidden | backend/bookings/views.py:23-24 | a creator who books someone else's session does not see that booking in their own listing |
| BookingsApi.Settle | backend/bookings/views.py:74-86 | the payment id and status are copied from the checkout; CONFIRMED exactly when "paid", PENDING otherwise; the amount becomes the session's price only when paid |
| BookingsApi.SettleIdempotent | backend/bookings/views.py:74-86 | verifying the same checkout twice is verifying it once |
| BookingsApi.DowngradeKeepsAmount | backend/bookings/views.py:77-83 | a paid checkout followed by an unpaid one leaves the booking PENDING but keeps the amount paid |
| BookingsApi.VerifyPayment | backend/bookings/views.py:44-106 | answered only for the booker of a visible booking with a checkout id, a configured secret key, and a checkout whose reference is the booking's id and whose payment intent is set, and then only that row is settled and returned; a missing key is "Payment verification failed: " with the attribute error; a null intent is "Payment verification failed: " with the save's error; a reference mismatch is "Session does not match booking."; someone else's booking is "Not found."; a refusal changes nothing |
| BookingsApi.VerifyPaymentAsWritten | backend/bookings/views.py:59-62 | with the settings module as written the table never changes |
| BookingsApi.VerifyAlwaysFailsAsWritten | backend/bookings/views.py:59-106 | as written every call is refused, and for the booker with a checkout id the reply is "Payment verification failed: 'Settings' object has no attribute 'STRIPE_SECRET_KEY'" |
| BookingsApi.CreatorNeverVerifies | backend/bookings/views.py:47-49 | a creator, who never books their own sessions, always gets "Not found." |
| BookingsApi.VerifyKeepsPairs | backend/bookings/models.py:21-24 | verification keeps one booking per user and session |
| Payments.OwnBooking | backend/bookings/payment_views.py:40-46 | `Booking.objects.get(id=..., user=...)`: the position of the requester's booking with that id, and none only when there is none |
| Payments.OrderLadder | backend/bookings/payment_views.py:18-69 | anonymous is refused; no key id is a 503 "Payment gateway is not configured."; a missing or zero booking id is "booking_id is required."; a 201 with the order's id, amount and currency and the key id exactly when the requester's unpaid booking exists and the order succeeds; a 500 only for a failed order, carrying its message |
| Payments.CreatePaymentOrderAsWritten | backend/bookings/payment_views.py:48-52 | as written, "Booking already paid." is answered exactly when the booking's payment status is "captured" |
| Payments.CreatePaymentOrder | backend/bookings/payment_views.py:48-52 | corrected: "Booking already paid." exactly when the booking is paid by the status either payment path writes; an order is only ever made for the requester's own unpaid booking |
| Payments.PaidBookingReorderedAsWritten | backend/bookings/payment_views.py:48-52 | a booking confirmed by `verify_payment` (status "paid") still gets a new order as written, and is refused by the corrected ladder |
| Payments.NoOrderAfterVerify | backend/bookings/payment_views.py:48-52 | after a successful verification of a paid checkout, no new payment order is made for that booking |
| Payments.Trunc | backend/bookings/payments.py:20 | Python's `int()` on a number: truncation toward zero |
| Payments.SmallestUnitExact | backend/bookings/payments.py:20 | a price of c/100 becomes exactly c smallest units; -0.015 truncates to -1 rather than -2 |
| Payments.CheckoutRequest | backend/bookings/payments.py:10-54 | an unassigned secret key raises AttributeError exactly; an empty one raises ValueError "Stripe credentials not configured" exactly; no library raises ImportError exactly; it succeeds exactly when the key is set, the library is there and FRONTEND_URL is assigned, and then gives one line item of quantity 1 in payment mode with the amount in smallest units, "Booking #<id>", the booking id as reference and metadata, success and cancel URLs under FRONTEND_URL, and the customer's email and name exactly when given |
| Payments.CheckoutRequestAsWritten | backend/bookings/payments.py:12 | with the settings module as written it never succeeds |
| Payments.CheckoutAlwaysRaisesAsWritten | backend/bookings/payments.py:12 | as written every call raises AttributeError for STRIPE_SECRET_KEY, before any other check |
| Payments.SuccessUrlCarriesBooking | backend/bookings/payments.py:36 | the booking id reads back from the end of the success URL |
| Payments.CheckoutVerifies | backend/bookings/payments.py:38 | a checkout created for a booking, paid, with a payment intent, passes `verify_payment` for that booking's owner and confirms it, given a configured secret key |
| Payments.ImportFromPayments | backend/bookings/payment_views.py:11 | `from .payments import name` succeeds exactly when the module defines the name, and otherwise fails with Python's "cannot import name" message |
| Payments.PaymentOrderRoute | backend/bookings/urls.py:4-12 | a POST to create-payment-order/ answers the generic 500 exactly when the URL configuration cannot be loaded (either `bookings/urls.py` or `users/urls.py` imports an undefined name); once it loads, with the router's include listed first the POST gets the booking detail route's refusal, and with the order path listed first it gets the order ladder |
| Payments.PaymentOrderRouteAsWritten | backend/bookings/payment_views.py:11 | as written the route always answers with status 500 |
| Payments.OrderRouteFailsAsWritten | backend/bookings/payment_views.py:11 | as written the import of `create_razorpay_order` fails and the route answers the server error; defining that name alone still leaves the route failing, because the users URL module's import fails too |
| Payments.OrderRouteShadowedAsWritten | backend/bookings/urls.py:11-12 | with both imports repaired but the patterns in their shipped order, the POST is refused by the detail route, 401 when anonymous and 405 "Method \"POST\" not allowed." when signed in, and a signed-in user never gets the ladder's answer |
| Payments.LadderNeverNotAllowed | backend/bookings/payment_views.py:18-69 | the ladder refuses only with 401, 503, 400, 404 or 500, never 405 |
| Payments.OrderRouteRunsLadder | backend/bookings/payment_views.py:18-69 | once the URL configuration loads and the order path is listed before the router, an order for the requester's unpaid booking is a 201 with the order and key id, and a paid one is "Booking already paid." |
| SessionsApi.WriteAccess | backend/sessions/permissions.py:4-15 | a write to a session passes both checks exactly when a creator acts on their own session; a USER never writes, even to a row naming them; the object check implies the view check |
| SessionsApi.ImageUrl | backend/sessions/serializers.py:27-33 | an uploaded file's URL, made absolute against the request's origin when there is a request and it is relative; otherwise the image field; empty exactly when neither is set |
| SessionsApi.SerializeSession | backend/sessions/serializers.py:6-33 | the serialised session keeps the row's fields and carries `image_url`; it names a file exactly when the row has one |
| SessionsApi.ServedPicture | backend/sessions/serializers.py:27-33 | the calendars show the picture the server computed |
| SessionsApi.SerializeAll | backend/sessions/serializers.py:6-33 | one serialised session per row, in order |
| SessionsApi.NewestFirst | backend/sessions/views.py:15 | the same sessions, latest start first |
| SessionsApi.ListSessions | backend/sessions/views.py:24-33 | a database failure exactly when the 500 "An error occurred while fetching sessions." is answered; otherwise every session, once each, latest start first |
| SessionsApi.NewRow | backend/sessions/views.py:35-36 | the new row has the given id, creator and times and the submitted fields |
| SessionsApi.CreateSession | backend/sessions/views.py:35-36 | only a creator with valid fields creates a session; it is appended and nothing else changes; its creator is the requester; refusals change nothing |
| SessionsApi.CreatorIsRequester | backend/sessions/views.py:35-36 | a creator's new session is theirs to edit |
| SessionsApi.UploadImage | backend/sessions/views.py:38-58 | only the session's creator with an image file succeeds, and only that row's file and update time change; an unknown id is "Not found.", someone else's session is refused, no file is "No image file provided." |
| SessionsApi.UploadOwnerTestRedundant | backend/sessions/views.py:41-46 | the explicit owner check in `upload_image` never refuses anyone the object permission let through |
| SessionsApi.UploadShows | backend/sessions/views.py:38-58 | after an upload the calendars show the uploaded file's URL |
| Settings.BreakAt | backend/config/settings.py:17 | the position of the first line break, or the end when there is none |
| Settings.SplitLines | backend/config/settings.py:17 | `splitlines()`: no line holds a break, and there are no lines exactly for empty text |
| Settings.SplitLinesUnlines | backend/config/settings.py:17 | lines without breaks, each ended by "\n" or "\r\n", split back into the same lines |
| Settings.ParseLine | backend/config/settings.py:18-23 | blank lines, comments and lines without '=' are skipped exactly; a parsed key has no '=' and no surrounding white space, and a parsed value no quote at either end |
| Settings.CleanKey | backend/config/settings.py:22 | the key is stripped, and has no '=' when its part had none |
| Settings.CleanValue | backend/config/settings.py:23 | the value has no single quote at either end |
| Settings.ParseLineRoundTrip | backend/config/settings.py:18-23 | KEY=value and KEY="value" both parse to (KEY, value) for a plain key and value |
| Settings.ParseAll | backend/config/settings.py:17-23 | one parse result per line, in order |
| Settings.Apply | backend/config/settings.py:24-25 | a variable already set is never overwritten; a new one comes from this line, with a non-empty key |
| Settings.LoadEntries | backend/config/settings.py:17-28 | variables already set are kept; each new one comes from some line of the file and holds no NUL; the load stops at the first write that would raise |
| Settings.RaiseKeepsPrefix | backend/config/settings.py:24-28 | a line whose write raises (a new key, NUL in key or value) ends the load: the result is the load of the lines before it |
| Settings.FirstWins | backend/config/settings.py:24-25 | within a file the first line defining a new key decides its value, when no line up to it holds a NUL |
| Settings.LoadFile | backend/config/settings.py:8-28 | a missing or unreadable file changes nothing; the environment's own variables are never overwritten; nothing added holds a NUL |
| Settings.Startup | backend/config/settings.py:34-35 | loading both files never overwrites a variable the process already had |
| Settings.BackendFileWins | backend/config/settings.py:34-35 | a key defined in backend/.env takes that file's first value, whatever the repository-root file says |
| Settings.LoadOneLine | backend/config/settings.py:8-28 | a file holding the single line KEY=value sets exactly KEY to value; with a NUL in the value the write raises and nothing is set |
| Settings.CommaList | backend/config/settings.py:39 | every entry is non-empty, stripped and free of commas |
| Settings.CommaListJoin | backend/config/settings.py:39 | a list of clean entries joined with ',' reads back as the same list |
| Settings.CommaListDropsBlanks | backend/config/settings.py:39 | blank entries and a trailing comma are dropped: "a, ,b," reads as [a, b] |
| Settings.Debug | backend/config/settings.py:38 | on when unset; otherwise on exactly when the variable is "1" |
| Settings.AllowedHosts | backend/config/settings.py:39 | the comma list of DJANGO_ALLOWED_HOSTS when set, ["*"] when unset |
| Settings.CorsOrigins | backend/config/settings.py:150-154 | the comma list of the variable when set, the two Vite development origins when unset |
| Settings.CsrfOrigins | backend/config/settings.py:170-174 | the comma list of the variable when set, http://localhost and http://127.0.0.1 when unset |
| Settings.TwoUrls | backend/config/settings.py:150-154 | "a,b" of two clean origins reads as [a, b] |
| Settings.PaymentSettings | backend/config/settings.py:184-185 | the payment attributes the settings module assigns: exactly the two Razorpay keys, read from the environment with "" as default; neither STRIPE_SECRET_KEY nor FRONTEND_URL |
| Settings.Attr | backend/config/settings.py:184-185 | reading a settings attribute succeeds exactly for an assigned name, with its value; any other name fails with Django's "'Settings' object has no attribute '<name>'" |
| RemoveComments.SkipBlockFirstClose | remove_comments.py:95-100 | inside a block comment the scan stops just after the first "*/" |
| RemoveComments.SkipBlockOpen | remove_comments.py:96-100 | without a "*/" the scan stops one character before the end |
| RemoveComments.SkipBlockClosed | remove_comments.py:95-100 | a comment body without "*/" followed by "*/" is skipped exactly through the "*/" |
| RemoveComments.StripCss | remove_comments.py:113-129 | the loop computes the recursive definition of the CSS stripper |
| RemoveComments.CssNoComment | remove_comments.py:113-129 | a stylesheet without "/*" is unchanged |
| RemoveComments.CssPrefix | remove_comments.py:117-127 | text without "/*" that does not end in '/' is copied unchanged in front of the rest's result |
| RemoveComments.CssDropsComment | remove_comments.py:117-127 | a closed comment disappears entirely and the text around it is kept |
| RemoveComments.CssUnterminated | remove_comments.py:118-127 | an unterminated comment is dropped except for its last character |
| RemoveComments.StripTsAsWritten | remove_comments.py:62-111 | as written: the output is never longer than the input |
| RemoveComments.StripTs | remove_comments.py:62-111 | corrected: the output is never longer than the input |
| RemoveComments.TsPrefix | remove_comments.py:101-102 | code with no slash, backslash or quote is copied unchanged |
| RemoveComments.TsDropsLineComment | remove_comments.py:89-93 | a "//" comment is removed up to, not including, its line break |
| RemoveComments.TsDropsLastLineComment | remove_comments.py:89-93 | a "//" comment on the last line is removed with nothing in its place |
| RemoveComments.TsBlockStep | remove_comments.py:94-109 | after a block comment, as written, the character following "*/" is skipped too; corrected, scanning resumes right after "*/" |
| RemoveComments.TsDropsBlockComment | remove_comments.py:94-100 | corrected: a block comment disappears and the code on both sides is kept |
| RemoveComments.BlockCommentEatsNextChar | remove_comments.py:94-109 | as written: the character right after any block comment is lost |
| RemoveComments.BlockCommentCounterexample | remove_comments.py:94-109 | "a/*x*/b" becomes "a" as written and "ab" corrected |
| RemoveComments.TsKeepsLiteral | remove_comments.py:84-107 | a quoted literal, comment markers included, is copied unchanged |
| RemoveComments.TsEscape | remove_comments.py:72-82 | a backslash and the character after it are always copied |
| RemoveComments.ScanCutsAtHash | remove_comments.py:39-40 | on a line without quotes or backslashes everything from the first '#' is cut |
| RemoveComments.ScanPlain | remove_comments.py:19-49 | a line without quotes, backslashes or '#' is copied unchanged |
| RemoveComments.HashAfterQuote | remove_comments.py:39 | after an empty literal such as '' the Python stripper keeps the following '#' and the rest of the line, and the config stripper cuts there |
| RemoveComments.ScanEscape | remove_comments.py:28-32 | on either line stripper a backslash and the next character are copied, and the scan goes on in the same literal state |
| RemoveComments.ScanPlainRun | remove_comments.py:34-49 | a stretch without quotes, backslashes or '#' is copied as it is |
| RemoveComments.ScanEscapeKept | remove_comments.py:151-163 | an escaped quote opens no literal, so a later '#' still cuts the line, and an escaped '#' is kept |
| RemoveComments.Keep | remove_comments.py:51-53 | a line is dropped exactly when it is empty and the previous kept line is blank |
| RemoveComments.CleanLine | remove_comments.py:51 | a cleaned line never ends in white space and is never longer than the original |
| RemoveComments.Collect | remove_comments.py:12-53 | the lines kept so far stay, and at most one line is added per input line |
| RemoveComments.CollectTidy | remove_comments.py:174-176 | no output line ends in white space, and no two blank lines are adjacent |
| RemoveComments.StripLinesShape | remove_comments.py:131-178 | the output is the tidy cleaned lines joined with "\n", no more of them than there were input lines |
| RemoveComments.StripLinesUnchanged | remove_comments.py:131-178 | an already tidy file without quotes, backslashes or '#' is unchanged |
| RemoveComments.ConfigCutsComment | remove_comments.py:162-163 | a config line's comment is removed and the rest right-stripped |
| RemoveComments.LastIndexOf | remove_comments.py:185 | the position of the last occurrence, or -1 when there is none |
| RemoveComments.Suffix | remove_comments.py:185 | `Path.suffix`: empty, or a final '.'-part of at least two characters that is not the whole name |
| RemoveComments.HandlerFor | remove_comments.py:185-196 | a lower-cased ".py" suffix exactly picks the Python stripper, ".ts"/".tsx"/".js"/".jsx" exactly the script stripper, ".css" exactly the style stripper; the config stripper only for the three named files and the four suffixes; skipped exactly when neither the suffix nor the name is known |
| RemoveComments.ReadText | remove_comments.py:182-183 | the text as `open` in text mode reads it: no carriage return is left, and it is never longer |
| RemoveComments.ReadTextPlain | remove_comments.py:182-183 | a file without carriage returns reads as it is |
| RemoveComments.ReadTextCrLf | remove_comments.py:182-183 | every "\r\n" reads as one "\n", whatever precedes it |
| RemoveComments.ProcessFile | remove_comments.py:180-205 | an unreadable file or unknown kind reports False and writes nothing; the handler works on the newline-translated text, which is written back exactly when the result differs from it; True exactly when it was written and the write succeeded |
| RemoveComments.UpperCaseSuffix | remove_comments.py:185 | "App.TSX" goes to the script stripper |
| RemoveComments.DockerfileIsConfig | remove_comments.py:193 | a Dockerfile goes to the config stripper |
| RemoveComments.DotFileSkipped | remove_comments.py:185 | a file named ".sh" has no suffix and is skipped |
| RemoveComments.CleanStylesheetUntouched | remove_comments.py:198-202 | a stylesheet without comments is reported unchanged and not written, whatever its line endings |
| Uri.Utf8 | frontend/src/pages/LoginPage.tsx:118 | a character's UTF-8 form is one to four bytes |
| Uri.Utf8RoundTrip | frontend/src/pages/LoginPage.tsx:118 | the UTF-8 form of every character decodes back to it |
| Uri.Encode | frontend/src/pages/LoginPage.tsx:118 | `encodeURIComponent` never shortens its input, and leaves text made of unreserved characters unchanged |
| Uri.DecodeEncode | frontend/src/pages/LoginPage.tsx:118 | decoding the encoded text gives back the text, for every string |
| Strings.PyStrip | backend/users/serializers.py:63 | `str.strip()`: no white space at either end, and text already without it unchanged |
| Strings.PyStripTwice | backend/users/serializers.py:63 | stripping twice is stripping once |
| Strings.PyStripKeeps | backend/users/serializers.py:63 | stripping removes only white space: any other character is in the stripped text exactly when it is in the text |
| Strings.Split | frontend/src/pages/ExploreSessionsPage.tsx:20 | `split(':')`: at least one part, none containing the separator |
| Strings.JoinSplit | frontend/src/pages/ExploreSessionsPage.tsx:20 | the parts joined with the separator give back the text |
| Strings.SplitJoin | backend/config/settings.py:39 | parts without the separator, joined, split back into the same parts |
| Strings.NatToStringRoundTrip | frontend/src/pages/UserDashboardPage.tsx:85 | a number's decimal text reads back as the number |
| Strings.PadStart | frontend/src/pages/CreatorDashboardPage.tsx:11-12 | `padStart`: the requested width or the original length, the original at the end, the fill in front |
| Strings.Lower | backend/users/serializers.py:35 | the same length, each character lower-cased |
| Sorting.Insert | frontend/src/pages/ExploreSessionsPage.tsx:273-278 | inserting into a sorted list keeps it sorted and adds exactly that element |
| Sorting.SortBy | frontend/src/pages/ExploreSessionsPage.tsx:273-278 | sorted by the key, and a permutation of the input |
| Sorting.InsertStable | frontend/src/pages/ExploreSessionsPage.tsx:273-278 | among elements of one key, the inserted element comes first and the others keep their order |
| Sorting.SortByStable | frontend/src/pages/ExploreSessionsPage.tsx:273-278 | `Array.prototype.sort` is stable: the elements of any one key come out in their input order |
| Sorting.FilterFacts | frontend/src/pages/CreatorDashboardPage.tsx:59 | `filter`: only kept elements, drawn from the input, and every kept element of the input |
| Sorting.FilterAppend | frontend/src/pages/UserDashboardPage.tsx:47-62 | filtering distributes over concatenation, so the order is kept |
| Sorting.FilterSortFacts | backend/bookings/views.py:22-25 | filtering then ordering gives exactly the kept elements, sorted |
| Json.Get | frontend/src/state/auth/AuthContext.tsx:119-122 | a key's value is found exactly when the object has an entry with that key |
| Json.LookupAt | frontend/src/state/auth/AuthContext.tsx:119-122 | a key's first entry decides its value |
| Domain.EventImage | frontend/src/components/SessionCalendar.tsx:54 | the calendar picture: the image URL, else the file, else the image field |
| Server.FindSession | backend/bookings/serializers.py:9 | the position of the session with that id, and none only when no session has it |
| Server.ImportFrom | backend/users/urls.py:3 | `from module import a, b, ...` succeeds exactly when the module defines every name; otherwise it fails on the first name the module does not define, with Python's "cannot import name" message naming it |
| Server.Serve | backend/config/settings.py:66 | Django loads the whole URL configuration before any view runs: a request gets its view's answer when both URL modules import, and the generic 500 otherwise |
| Server.EveryRouteFailsAsWritten | backend/users/urls.py:3 | as written every route answers the generic 500; defining only `create_razorpay_order`, or only `BecomeCreatorView`, still leaves every route failing; the users import fails naming `BecomeCreatorView` |
| Server.RepairedServerServes | backend/users/urls.py:3 | with both missing names defined, every route is answered by its view |
| Server.RouterMatch | backend/bookings/urls.py:7-8 | the router registered with the empty prefix: the empty path is the list, a single lookup segment followed by '/' is the detail route with that key, and nothing it matches is the order view |
| Server.ResolveBookings | backend/bookings/urls.py:10-13 | patterns are tried in order: the order path reaches the order view when listed first; any path the router matches goes to the router's view unless it is the order path listed first; otherwise the order path reaches the order view and every other path matches nothing |
| Server.OrderPathShadowed | backend/bookings/urls.py:11-12 | as shipped, create-payment-order/ resolves to the detail route with key "create-payment-order"; listed first, it reaches the order view, and no other path resolves differently |
| Server.DetailPost | backend/bookings/views.py:15-17 | a POST to the GET-only detail route: the permission check first (401 without credentials), then 405 "Method \"POST\" not allowed." for a signed-in user |

## Left out

- Rendering: the JSX, CSS, hooks, effects and the script tags that load the Google and checkout widgets. Only the decisions the components compute are modelled.
- Browser and server I/O: `fetch`, `localStorage`, the Django ORM and its queries, and the throttle rates. Storage is a map. Every reply and query result is a parameter.
- Third-party services: Google token verification, the GitHub API and token exchange, Stripe's `Session.retrieve` / `Session.create`, and the Razorpay order. Each is an oracle result.
- `create_razorpay_order`: `payments.py` does not define it, so there is no body to model. The order a fixed import would return is a parameter, a `Result` (see Findings for the failing import).
- Time: "now" and the local-date view of a timestamp (`getDate`, `getMonth`, `getFullYear`) are parameters. JavaScript `Date` parsing and time zones are not modelled; times are integers.
- Timing and concurrency in the auth store: parallel 401s refreshing at once, and the second refresh at startup. Of the stale React closures, only the one in `login` is modelled (AuthFlows.LoginAsWritten); the other flows are modelled as if each call saw the latest state.
- AuthStore.ApiFetch: a `fetch` that rejects (a network failure, a DNS error, a CORS refusal) is not a reply. The rejection propagates out of `apiFetch` and `refreshSession` with no state change, and the pages show its message. The model has no such outcome: every request gets a reply.
- Locale formatting: `formatMoney` and `toLocaleString`.
- Transient UI states: the page clears a session's status line and sets "busy" before the requests go out. The model states the final status and busy marker after the attempt.
- Durations.ExploreFormatDuration: fractional, exponent, hexadecimal or infinite fields (`Number("1.5")` and the like) give None, because the model does not print non-integer numbers.
- JsNumber.ToNumber: only decimal-digit literals (optionally signed) and the empty text get a value. Every other numeric literal (fraction, exponent, hexadecimal, octal, binary, Infinity) is an unvalued `OtherNumber`.
- Navigation.ProtectedRoute: the redirect's `replace` flag (history replacement instead of a push) is not modelled.
- Navigation.Visit: the catch-all route that redirects unknown paths to / is treated as an open page.
- Navigation.GuardOf: React Router percent-decodes a location before matching it ("/%64ashboard" matches /dashboard). The model matches the location as given.
- Character classes: upper- and lower-casing are ASCII-only. White space is ASCII, plus the extra code points Python's `str.strip` and JavaScript's `trim` remove where each is used.
- UsersApi.EmailField: Django's `EmailField` format check is a parameter (`TextChecks.isEmail`), not a model of its regular expression.
- UsersApi.ValidatePassword: Python's Unicode `str.isalpha` and `str.isdigit` are parameters (`TextChecks.isAlpha`, `TextChecks.isDigit`), constrained only to agree with ASCII on ASCII characters.
- UsersApi.CleanChar: DRF's surrogate-character validator is not modelled, because a Dafny `char` cannot be a surrogate.
- SessionsApi/UsersApi/BookingsApi/Payments: these members model the views of a server whose URL imports are repaired. As written no route is ever reached (see Server.Serve and Findings). The order view is reached only when, in addition, the order path is listed before the router (see Server.ResolveBookings). `config/urls.py` is not part of this model; it is taken to include the users and bookings URL modules.
- Settings.LoadFile: an unreadable or undecodable file is modelled as an absent one. Inside the loop, only the NUL rejection of `os.environ` is modelled as a raise; the stripped key never holds '=', so the other rejection cannot occur.
- RemoveComments.ProcessFile: a failed write is the `writeOk` flag. The file is given as its decoded text, and a file that does not decode as UTF-8 is an unreadable one. It dispatches `.ts`/`.tsx`/`.js`/`.jsx` files to the corrected stripper `StripTs` (see Findings).
- `remove_comments.py` `main`: the directory walk, the excluded directories, the case-sensitive suffix pre-filter and the printing are not modelled.
- The two empty-pattern `re.sub` calls in `remove_python_comments`: they replace nothing, so they are not part of the model.
- AuthFlows.DecodeUser: a /me reply that is not a well-formed user record is stored as no user. The client stores whatever JSON came back, but the model's user is a typed record.
- AuthStore.RefreshSession: an `access` field that is not a string counts as missing, so the access token is cleared. The client would store the value itself.
- Js: JSON numbers are integers. A fractional number in a reply cannot be represented.
- BookingsApi.VerifyPayment: the `stripe` package is assumed to be installed. Without it, `import stripe` raises and the `except stripe.error.StripeError` clause then fails on the unbound name, which gives a server error that is not modelled.
- Client/server mismatch: the client posts Razorpay fields to `verify_payment`, while the server requires a Stripe `session_id`. Each side is modelled as written.
- Server.RouterMatch: the router's format-suffix patterns (a path ending in ".json" and the like) and its API root view are not modelled; neither matches a path without '.' other than the empty one, where the list pattern comes first.
- Models, migrations, admin, the URL tables other than the bookings patterns, management commands and the presentational components (Layout, Sidebar, LandingPage, SettingsPage, HomePage, AvatarSelector, UserProfilePage).

## Findings

| source | as written | input that shows it | evidently intended | confidence | as-written member | corrected member |
|---|---|---|---|---|---|---|
| remove_comments.py:94-109 | after skipping a block comment through its "*/", the loop's final `i += 1` also skips the next character | "a/*x*/b" becomes "a" | the comment is removed and the code after it kept: "ab" | high (not executed) | RemoveComments.StripTsAsWritten, with RemoveComments.BlockCommentEatsNextChar and RemoveComments.BlockCommentCounterexample | RemoveComments.StripTs, with RemoveComments.TsDropsBlockComment |
| backend/bookings/payment_views.py:48-52 | a booking counts as already paid only when its payment status is "captured", but `verify_payment` records "paid"; this matters only once both URL imports below are repaired and the order path is listed before the router | a booking confirmed by `verify_payment` with status "paid" is given a second payment order | a verified payment blocks a new order | medium (not executed) | Payments.CreatePaymentOrderAsWritten, with Payments.PaidBookingReorderedAsWritten | Payments.CreatePaymentOrder, with Payments.NoOrderAfterVerify |
| backend/bookings/payment_views.py:11 | the view module imports `create_razorpay_order` from `payments.py`, which defines only `create_stripe_checkout_session`; `bookings/urls.py:4` imports the view module, so the URL configuration named by `ROOT_URLCONF` fails to load | any request to the backend, a POST to create-payment-order/ included: the URL configuration fails to import and the server answers 500 | the order function exists, so the URL configuration loads (the order view is then reached only with the pattern order fixed too, see the bookings/urls.py:11-12 row) | high (not executed) | Payments.PaymentOrderRouteAsWritten, with Payments.OrderRouteFailsAsWritten and Server.EveryRouteFailsAsWritten | Payments.PaymentOrderRoute, with Payments.OrderRouteRunsLadder and Server.RepairedServerServes |
| backend/users/urls.py:3 | the users URL module imports `BecomeCreatorView`, which `users/views.py` does not define, so the URL configuration fails to load on this import as well | any request to the backend, a POST to register/ included: the server answers 500 | the view exists, or the import and its route are dropped | high (not executed) | Server.EveryRouteFailsAsWritten | Server.RepairedServerServes, with Server.Serve |
| backend/bookings/urls.py:11-12 | the router, registered with the empty prefix, is included before the order path, and its detail pattern `^(?P<pk>[^/.]+)/$` matches "create-payment-order/" | with both imports repaired, a signed-in user POSTs to create-payment-order/ with an unpaid booking: the booking detail route answers 405 "Method \"POST\" not allowed." (401 when anonymous), and no order is made | the order path is listed before the router's include, so the POST reaches `create_payment_order` | high (not executed) | Payments.OrderRouteShadowedAsWritten, with Server.OrderPathShadowed | Payments.PaymentOrderRoute, with Payments.OrderRouteRunsLadder |
| frontend/src/state/auth/AuthContext.tsx:145-153 | after persisting the new pair, `login` calls `fetchMe` from the same render, whose `apiFetch` reads the access token and refresh token of that render | a signed-out visitor logs in with valid credentials: /api/users/me/ is sent without Authorization, the 401 finds no refresh token, and login rejects with "Request failed (401)" or the server's detail while the pair is stored | the /me request carries the new access token and the user is signed in | medium (not executed) | AuthFlows.LoginAsWritten, with AuthFlows.SignedOutLoginRejected | AuthFlows.Login |
| backend/bookings/views.py:62, backend/bookings/payments.py:12 | `settings.STRIPE_SECRET_KEY` and `settings.FRONTEND_URL` are read, but the settings module assigns neither | any `verify_payment` call by the booker with a session_id: AttributeError, caught, answered 400 "Payment verification failed: 'Settings' object has no attribute 'STRIPE_SECRET_KEY'"; any checkout creation raises the same AttributeError | both settings are assigned from the environment, so a paid checkout confirms its booking | high (not executed) | BookingsApi.VerifyPaymentAsWritten, with BookingsApi.VerifyAlwaysFailsAsWritten; Payments.CheckoutRequestAsWritten, with Payments.CheckoutAlwaysRaisesAsWritten | BookingsApi.VerifyPayment, with Payments.CheckoutVerifies; Payments.CheckoutRequest, with Payments.SuccessUrlCarriesBooking |

=== FILE: auth_flows.dfy ===
/** The token-handling operations built on `apiFetch` in `AuthContext.tsx`:
    password login, the three exchanges that return tokens with a user
    (registration, Google and GitHub), fetching and updating the current user,
    and the restore step the provider runs once at startup. Each network reply
    is an oracle input. */
module AuthFlows {

  import opened Wrappers
  import opened Strings
  import opened Js
  import opened Domain
  import opened AuthStore

  /** The endpoint that reads and updates the signed-in user. */
  const MePath := "/api/users/me/"

  /** The replies one `apiFetch` call may consume: first attempt, refresh, retry. */
  datatype Replies = Replies(first: Response, refresh: Response, retry: Response)

  /** Reads the `User` record out of a JSON reply; None when it does not have that shape. */
  function DecodeUser(j: Json): (u: Option<User>)
    ensures u.Some? ==> j.JObj?
  {
    match (Get(j, "id"), GetString(j, "email"), GetString(j, "name"), GetString(j, "avatar"), GetString(j, "role"))
    case (Some(JNum(id)), Some(email), Some(name), Some(avatar), Some(role)) =>
      if role == "USER" then Some(User(id, email, name, avatar, USER))
      else if role == "CREATOR" then Some(User(id, email, name, avatar, CREATOR))
      else None
    case _ => None
  }

  function Fetch(st: Store, path: string, init: Init, skipAuth: bool, rs: Replies): (r: FetchResult)
    ensures r == ApiFetch(st, path, init, skipAuth, rs.first, rs.refresh, rs.retry)
    ensures 1 <= |r.calls|
    ensures r.outcome.Ok? ==> r.calls[|r.calls| - 1].url == r.calls[0].url
    ensures r.store.state.user == st.state.user || r.store.state.user.None?
    ensures r.store.apiBase == st.apiBase
  {
    ApiFetchFrame(st, path, init, skipAuth, rs.first, rs.refresh, rs.retry);
    ApiFetch(st, path, init, skipAuth, rs.first, rs.refresh, rs.retry)
  }

  /** `fetchMe()`: GET the current user and store it. */
  function FetchMe(st: Store, rs: Replies): (r: FetchResult)
    ensures r.calls == Fetch(st, MePath, Init("GET", map[], NoBody), false, rs).calls
    ensures r.outcome.Ok? ==> r.store.state.user == DecodeUser(r.outcome.value)
    ensures !r.outcome.Ok? ==> r == Fetch(st, MePath, Init("GET", map[], NoBody), false, rs)
    ensures r.outcome.Ok? ==> LastUrlIs(r.calls, JoinUrl(st.apiBase, MePath))
    ensures !r.outcome.Ok? ==> r.store.state.user == st.state.user || r.store.state.user.None?
    ensures r.store.apiBase == st.apiBase
  {
    var f := Fetch(st, MePath, Init("GET", map[], NoBody), false, rs);
    if f.outcome.Ok? then f.(store := f.store.(state := f.store.state.(user := DecodeUser(f.outcome.value))))
    else f
  }

  function CredentialsPayload(email: string, password: string): Json {
    JObj([("email", JStr(email)), ("password", JStr(password))])
  }

  /** `login(email, password)`: the token request sent without a Bearer header,
      the returned pair persisted, then the user fetched. */
  function Login(st: Store, email: string, password: string, tokenReply: Response, me: Replies): (r: FetchResult)
    ensures |r.calls| >= 1
    ensures r.calls[0].verb == "POST" && r.calls[0].url == JoinUrl(st.apiBase, "/api/auth/token/")
    ensures r.calls[0].body == JsonPayload(CredentialsPayload(email, password))
    ensures "authorization" !in r.calls[0].headers
    // a rejected login changes nothing and surfaces the server's error
    ensures !IsOk(tokenReply.status) ==> r == FetchResult(st, Settle(tokenReply), r.calls) && |r.calls| == 1
    // an accepted login persists the returned pair before asking for the user
    ensures IsOk(tokenReply.status) && SafeJson(tokenReply).JObj? ==>
      var m := FetchMe(PersistTokens(st, GetString(SafeJson(tokenReply), "access"), GetString(SafeJson(tokenReply), "refresh")), me);
      r == FetchResult(m.store, m.outcome, r.calls[..1] + m.calls)
  {
    var f := Fetch(st, "/api/auth/token/", Init("POST", map[], JsonPayload(CredentialsPayload(email, password))), true,
                   Replies(tokenReply, tokenReply, tokenReply));
    if !f.outcome.Ok? then f
    else
      var data := f.outcome.value;
      if data.JNull? then FetchResult(f.store, Broken, f.calls)
      else
        var persisted := PersistTokens(f.store, GetString(data, "access"), GetString(data, "refresh"));
        var m := FetchMe(persisted, me);
        FetchResult(m.store, m.outcome, f.calls + m.calls)
  }

  /** `login` as the provider ships it. The `fetchMe` it awaits is the one of
      the render that created `login`, so the request for the user carries
      that render's access token, the one from before sign-in, and a refresh
      it triggers sends that render's refresh token. What those calls write
      (the refreshed pair, a logout, the user) lands on the live state, where
      the new pair has already been persisted: a write of the refresh step
      replaces every token field (`PersistOverwrites`), so it is the same
      write applied to the old store. */
  function LoginAsWritten(st: Store, email: string, password: string, tokenReply: Response, me: Replies): (r: FetchResult)
    ensures |r.calls| >= 1 && r.calls[0] == Login(st, email, password, tokenReply, me).calls[0]
    ensures !IsOk(tokenReply.status) ==> r == Login(st, email, password, tokenReply, me)
    ensures IsOk(tokenReply.status) && SafeJson(tokenReply).JObj? ==>
      var m := FetchMe(st, me);
      var persisted := PersistTokens(st, GetString(SafeJson(tokenReply), "access"), GetString(SafeJson(tokenReply), "refresh"));
      && r.outcome == m.outcome
      && r.calls == r.calls[..1] + m.calls
      // the request for the user is the one the old tokens produce
      && r.calls[1] == Request("GET", JoinUrl(st.apiBase, MePath), RequestHeaders(st, Init("GET", map[], NoBody), false), NoBody)
      // without a refresh the only write after the pair is the user
      && (|m.calls| == 1 ==> r.store == persisted.(state := persisted.state.(user := m.store.state.user)))
      // a refused refresh logs the live state out, new pair included
      && (Present(st.state.refreshToken) && me.first.status == 401 && !IsOk(me.refresh.status) ==> r.store == Logout(persisted))
  {
    var f := Fetch(st, "/api/auth/token/", Init("POST", map[], JsonPayload(CredentialsPayload(email, password))), true,
                   Replies(tokenReply, tokenReply, tokenReply));
    if !f.outcome.Ok? then f
    else
      var data := f.outcome.value;
      if data.JNull? then FetchResult(f.store, Broken, f.calls)
      else
        var persisted := PersistTokens(f.store, GetString(data, "access"), GetString(data, "refresh"));
        var m := FetchMe(f.store, me);
        PersistOverwrites(f.store, GetString(data, "access"), GetString(data, "refresh"), None, None);
        var refreshWrote := |m.calls| >= 2 && !m.outcome.Broken?;
        var live := if refreshWrote then m.store else persisted.(state := persisted.state.(user := m.store.state.user));
        FetchResult(live, m.outcome, f.calls + m.calls)
  }

  /** The login of a visitor who holds no tokens, as shipped: the pair is
      stored, but the request for the user goes out without credentials, the
      server refuses it, and with no refresh token to try the login throws
      that 401. No user is set; the corrected `Login` instead sends the new
      access token. */
  lemma SignedOutLoginRejected(st: Store, email: string, password: string, tokenReply: Response, me: Replies)
    requires !Present(st.state.accessToken) && !Present(st.state.refreshToken) && st.state.user.None?
    requires IsOk(tokenReply.status) && SafeJson(tokenReply).JObj?
    requires me.first.status == 401
    ensures var r := LoginAsWritten(st, email, password, tokenReply, me);
      var data := SafeJson(tokenReply);
      && |r.calls| == 2
      && "authorization" !in r.calls[1].headers
      && r.outcome.Failed? && r.outcome.error.status == 401
      && r.store == PersistTokens(st, GetString(data, "access"), GetString(data, "refresh"))
      && r.store.state.user.None?
    ensures var data := SafeJson(tokenReply);
      Present(GetString(data, "access")) ==>
        var c := Login(st, email, password, tokenReply, me).calls;
        |c| >= 2 && "authorization" in c[1].headers
        && c[1].headers["authorization"] == "Bearer " + GetString(data, "access").value
  {
    var data := SafeJson(tokenReply);
    var get := Init("GET", map[], NoBody);
    assert !SendsBearer(st, false);
    var persisted := PersistTokens(st, GetString(data, "access"), GetString(data, "refresh"));
    if Present(GetString(data, "access")) {
      assert SendsBearer(persisted, false);
      assert Fetch(persisted, MePath, get, false, me).calls[0].headers == RequestHeaders(persisted, get, false);
    }
  }

  /** The shared shape of `register`, `googleLogin` and `githubLogin`: one
      unauthenticated POST whose reply carries the token pair and the user,
      which are stored as they are. */
  function TokenExchange(st: Store, path: string, payload: Json, reply: Response): (r: FetchResult)
    ensures |r.calls| == 1
    ensures r.calls[0] == Request("POST", JoinUrl(st.apiBase, path), map["content-type" := "application/json"], JsonPayload(payload))
    ensures !IsOk(reply.status) ==> r.store == st && r.outcome == Settle(reply) && r.outcome.Failed?
    ensures IsOk(reply.status) && SafeJson(reply).JObj? ==>
      && r.outcome == Ok(SafeJson(reply))
      && r.store.state.accessToken == GetString(SafeJson(reply), "access")
      && r.store.state.refreshToken == GetString(SafeJson(reply), "refresh")
      && r.store.state.user == DecodeUser(Get(SafeJson(reply), "user").GetOr(JNull))
      && r.store.state.isLoading == st.state.isLoading
      && InSync(r.store)
    ensures IsOk(reply.status) && SafeJson(reply).JNull? ==> r.store == st && r.outcome.Broken?
  {
    var f := Fetch(st, path, Init("POST", map[], JsonPayload(payload)), true, Replies(reply, reply, reply));
    if !f.outcome.Ok? then f
    else
      var data := f.outcome.value;
      if data.JNull? then FetchResult(f.store, Broken, f.calls)
      else
        var persisted := PersistTokens(f.store, GetString(data, "access"), GetString(data, "refresh"));
        var user := DecodeUser(Get(data, "user").GetOr(JNull));
        FetchResult(persisted.(state := persisted.state.(user := user)), f.outcome, f.calls)
  }

  /** `register(input)`: the form fields, with `avatar` only when given. */
  function RegisterPayload(name: string, email: string, password: string, avatar: Option<string>): Json {
    var base := [("name", JStr(name)), ("email", JStr(email)), ("password", JStr(password))];
    JObj(if avatar.Some? then base + [("avatar", JStr(avatar.value))] else base)
  }

  function Register(st: Store, name: string, email: string, password: string, avatar: Option<string>, reply: Response): FetchResult {
    TokenExchange(st, "/api/users/register/", RegisterPayload(name, email, password, avatar), reply)
  }

  function GoogleLogin(st: Store, credential: string, reply: Response): FetchResult {
    TokenExchange(st, "/api/users/google-login/", JObj([("credential", JStr(credential))]), reply)
  }

  function GithubLogin(st: Store, code: string, reply: Response): FetchResult {
    TokenExchange(st, "/api/users/github-login/", JObj([("code", JStr(code))]), reply)
  }

  /** The PUT body of `updateProfile`: `JSON.stringify` leaves out absent fields. */
  function ProfilePayload(name: Option<string>, avatar: Option<string>): (j: Json)
    ensures j.JObj? && |j.entries| == (if name.Some? then 1 else 0) + (if avatar.Some? then 1 else 0)
    ensures name.Some? ==> GetString(j, "name") == name
    ensures avatar.Some? ==> GetString(j, "avatar") == avatar
    ensures name.None? ==> !Has(j, "name")
    ensures avatar.None? ==> !Has(j, "avatar")
  {
    var n := if name.Some? then [("name", JStr(name.value))] else [];
    var a := if avatar.Some? then [("avatar", JStr(avatar.value))] else [];
    var j := JObj(n + a);
    assert avatar.Some? ==> Lookup(j.entries, "avatar") == Some(JStr(avatar.value)) by {
      if avatar.Some? && name.Some? {
        assert j.entries[1..] == a;
      }
    }
    j
  }

  /** `updateProfile(data)`: the server's copy of the user replaces the local one. */
  function UpdateProfile(st: Store, name: Option<string>, avatar: Option<string>, rs: Replies): (r: FetchResult)
    ensures |r.calls| >= 1 && r.calls[0].verb == "PUT" && r.calls[0].url == JoinUrl(st.apiBase, MePath)
    ensures r.calls[0].body == JsonPayload(ProfilePayload(name, avatar))
    ensures r.outcome.Ok? ==> r.store.state.user == DecodeUser(r.outcome.value)
    ensures !r.outcome.Ok? ==> r.store.state.user == Fetch(st, MePath, Init("PUT", map[], JsonPayload(ProfilePayload(name, avatar))), false, rs).store.state.user
  {
    var f := Fetch(st, MePath, Init("PUT", map[], JsonPayload(ProfilePayload(name, avatar))), false, rs);
    if f.outcome.Ok? then f.(store := f.store.(state := f.store.state.(user := DecodeUser(f.outcome.value))))
    else f
  }

  datatype StartupResult = StartupResult(store: Store, calls: seq<Request>)

  function Loaded(st: Store): Store {
    st.(state := st.state.(isLoading := false))
  }

  /** The `catch` branch of the provider's mount effect, run after the first
      fetch of the user threw: refresh once and fetch again, logging out when
      the second fetch throws. A user it leaves signed in is either the one
      it started with or the answer to its final /me request. */
  function RetryStartup(st: Store, refreshReply: Response, second: Replies): (r: StartupResult)
    ensures !r.store.state.isLoading
    ensures r.store.apiBase == st.apiBase
    ensures r.store.state.user.Some? ==>
      r.store.state.user == st.state.user || LastUrlIs(r.calls, JoinUrl(st.apiBase, MePath))
  {
    var rs := RefreshSession(st, refreshReply);
    if !rs.ok then StartupResult(Loaded(rs.store), rs.calls)
    else
      var b := FetchMe(rs.store, second);
      if b.outcome.Ok? then
        LastUrlJoin(rs.calls, b.calls, JoinUrl(st.apiBase, MePath));
        StartupResult(Loaded(b.store), rs.calls + b.calls)
      else StartupResult(Loaded(Logout(b.store)), rs.calls + b.calls)
  }

  /** The provider's mount effect: with a stored access token, fetch the user;
      if that throws, go through `RetryStartup`; in every case loading ends. */
  function Startup(st: Store, first: Replies, refreshReply: Response, second: Replies): (r: StartupResult)
    ensures !r.store.state.isLoading
    ensures !Present(st.state.accessToken) ==> r == StartupResult(Loaded(st), [])
    ensures Present(st.state.accessToken) && FetchMe(st, first).outcome.Ok? ==>
      r == StartupResult(Loaded(FetchMe(st, first).store), FetchMe(st, first).calls)
    // a signed-out visitor only becomes signed in through a reply to a /me request
    ensures st.state.user.None? && r.store.state.user.Some? ==> LastUrlIs(r.calls, JoinUrl(st.apiBase, MePath))
  {
    if !Present(st.state.accessToken) then StartupResult(Loaded(st), [])
    else
      var a := FetchMe(st, first);
      if a.outcome.Ok? then StartupResult(Loaded(a.store), a.calls)
      else
        var t := RetryStartup(a.store, refreshReply, second);
        LastUrlJoin(a.calls, t.calls, JoinUrl(st.apiBase, MePath));
        StartupResult(t.store, a.calls + t.calls)
  }

  /** The last request sent went to `url`. */
  predicate LastUrlIs(calls: seq<Request>, url: string) {
    |calls| >= 1 && calls[|calls| - 1].url == url
  }

  lemma LastUrlJoin(x: seq<Request>, y: seq<Request>, url: string)
    ensures LastUrlIs(y, url) ==> LastUrlIs(x + y, url)
  {
  }
}

=== FILE: auth_pages.dfy ===
/** The decisions of the sign-up and login pages (`SignupPage.tsx`,
    `LoginPage.tsx`): the password-confirmation check, the formatting of a
    failed registration's validation errors, where to go after an OAuth
    sign-in, when a GitHub callback is exchanged, and the GitHub authorize URL. */
module AuthPages {

  import opened Wrappers
  import opened Strings
  import opened Js
  import opened Domain
  import opened AuthStore
  import opened Uri

  /** A value a rejected `await` threw: an `ApiError` from `apiFetch` (it
      always has a `details` key), or another error with or without `message`. */
  datatype Thrown = ApiThrown(error: ApiError) | OtherError(message: Option<string>)

  /** What the page does once the submit or callback has finished. */
  datatype PageResult = Navigate(target: string) | ShowError(message: string) | Unhandled  // the catch block itself threw: no message, no navigation

  // ---- sign-up submit ----

  /** `field.charAt(0).toUpperCase() + field.slice(1)` (ASCII case mapping). */
  function Capitalize(field: string): (r: string)
    ensures |r| == |field|
    ensures |r| > 0 ==> r[0] == UpperChar(field[0]) && r[1..] == field[1..]
  {
    if |field| == 0 then "" else [UpperChar(field[0])] + field[1..]
  }

  /** The first message of a field: `messages[0]` of an array (the text
      "undefined" for an empty one), the value itself otherwise. */
  function FirstMessage(messages: Json): string {
    match messages
    case JArr(items) => if |items| == 0 then "undefined" else ToJsString(items[0])
    case _ => ToJsString(messages)
  }

  /** A value that is not an array is read as a one-element list. */
  lemma NonArrayIsSingleton(v: Json)
    requires !v.JArr?
    ensures FirstMessage(JArr([v])) == FirstMessage(v)
  {
  }

  function FieldLine(entry: (string, Json)): string {
    Capitalize(entry.0) + ": " + FirstMessage(entry.1)
  }

  function FieldLines(entries: seq<(string, Json)>): (lines: seq<string>)
    ensures |lines| == |entries|
    ensures forall i :: 0 <= i < |entries| ==> lines[i] == FieldLine(entries[i])
  {
    seq(|entries|, i requires 0 <= i < |entries| => FieldLine(entries[i]))
  }

  lemma JoinEmpty(lines: seq<string>)
    requires forall i :: 0 <= i < |lines| ==> lines[i] != ""
    ensures Join(lines, ", ") == "" <==> |lines| == 0
  {
    if |lines| > 1 {
      assert |Join(lines, ", ")| >= |lines[0]|;
    }
  }

  /** The message the sign-up form shows for the `details` of an `ApiError`;
      None where formatting throws (an `errors` value of null). */
  function DetailsMessage(details: Json): (r: Option<string>)
    ensures r.None? <==> Get(details, "errors") == Some(JNull)
    // errors present and non-empty: one line per field, joined
    ensures Has(details, "errors") && Entries(Get(details, "errors").value).Some? && |Entries(Get(details, "errors").value).value| > 0 ==>
      r == Some(Join(FieldLines(Entries(Get(details, "errors").value).value), ", "))
    // neither errors nor detail: the fixed fallback
    ensures !Has(details, "errors") && !Has(details, "detail") ==> r == Some("Signup failed")
    ensures !Has(details, "errors") && Has(details, "detail") ==> r == Some(ToJsString(Get(details, "detail").value))
  {
    if Has(details, "errors") then
      match Entries(Get(details, "errors").value)
      case None => None
      case Some(es) =>
        var lines := FieldLines(es);
        assert forall i :: 0 <= i < |lines| ==> lines[i] != "" by {
          forall i | 0 <= i < |lines| ensures lines[i] != "" {
            assert |lines[i]| >= 2;
          }
        }
        JoinEmpty(lines);
        var joined := Join(lines, ", ");
        if joined != "" then Some(joined)
        else if Has(details, "detail") && Truthy(Get(details, "detail").value) then Some(ToJsString(Get(details, "detail").value))
        else Some("Signup failed")
    else if Has(details, "detail") then Some(ToJsString(Get(details, "detail").value))
    else Some("Signup failed")
  }

  /** The message for any rejection of `register`: an `ApiError` is judged by
      its details alone, never by its message. */
  function SignupErrorMessage(t: Thrown): (r: Option<string>)
    ensures t.ApiThrown? ==> r == DetailsMessage(t.error.details)
    ensures t.OtherError? ==> r == Some(t.message.GetOr("Signup failed"))
  {
    match t
    case ApiThrown(e) => DetailsMessage(e.details)
    case OtherError(m) => Some(m.GetOr("Signup failed"))
  }

  /** {email: ["already taken"]} reads "Email: already taken". */
  lemma FieldErrorExample()
    ensures DetailsMessage(JObj([("errors", JObj([("email", JArr([JStr("already taken")]))]))]))
      == Some("Email: already taken")
  {
    var errs := JObj([("email", JArr([JStr("already taken")]))]);
    assert Get(JObj([("errors", errs)]), "errors") == Some(errs);
    var lines := FieldLines(errs.entries);
    assert lines == [FieldLine(("email", JArr([JStr("already taken")])))];
    assert Capitalize("email") == "Email";
    assert FirstMessage(JArr([JStr("already taken")])) == "already taken";
    assert lines[0] == "Email: already taken";
    assert Join(lines, ", ") == "Email: already taken";
  }

  /** A null `details` (a reply without a JSON body) yields the fallback, not the error's message. */
  lemma NullDetailsFallBack(status: int, message: string)
    ensures SignupErrorMessage(ApiThrown(ApiError(status, message, JNull))) == Some("Signup failed")
  {
  }

  /** The registration form's fields. */
  datatype SignupForm = SignupForm(name: string, email: string, password: string, confirm: string, avatar: string)

  /** What `register` is called with. */
  datatype RegisterInput = RegisterInput(name: string, email: string, password: string, avatar: string)

  /** `onSubmit` of the sign-up form: the call it makes (if any) and where it ends. */
  function SignupSubmit(form: SignupForm, requested: Option<string>, register: Option<Thrown>): (r: (Option<RegisterInput>, PageResult))
    ensures form.password != form.confirm <==> r.0.None?
    ensures form.password != form.confirm ==> r.1 == ShowError("Passwords do not match")
    ensures r.0.Some? ==> r.0.value == RegisterInput(JsTrim(form.name), JsTrim(form.email), form.password, form.avatar)
    ensures r.0.Some? && register.None? ==> r.1 == Navigate(requested.GetOr("/dashboard"))
    ensures r.0.Some? && register.Some? && SignupErrorMessage(register.value).Some? ==>
      r.1 == ShowError(SignupErrorMessage(register.value).value)
  {
    if form.password != form.confirm then (None, ShowError("Passwords do not match"))
    else
      var input := RegisterInput(JsTrim(form.name), JsTrim(form.email), form.password, form.avatar);
      match register
      case None => (Some(input), Navigate(requested.GetOr("/dashboard")))
      case Some(t) =>
        match SignupErrorMessage(t)
        case None => (Some(input), Unhandled)
        case Some(m) => (Some(input), ShowError(m))
  }

  // ---- login submit ----

  /** `onSubmit` of the login form: `login` gets the trimmed email and the raw
      password; success goes to /dashboard; failure shows the error's message. */
  function LoginSubmit(email: string, password: string, login: Option<Option<string>>): (r: ((string, string), PageResult))
    ensures r.0 == (JsTrim(email), password)
    ensures login.None? ==> r.1 == Navigate("/dashboard")
    ensures login.Some? ==> r.1 == ShowError(login.value.GetOr("Login failed"))
  {
    ((JsTrim(email), password),
     match login
     case None => Navigate("/dashboard")
     case Some(m) => ShowError(m.GetOr("Login failed")))
  }

  // ---- after OAuth ----

  /** The landing page for a role. */
  function RoleHome(role: Role): string {
    if role == CREATOR then "/creator" else "/dashboard"
  }

  /** Where an OAuth sign-in lands: the requested path when there is one and
      it is allowed for the role, the role's home otherwise. */
  function FinalTarget(requested: Option<string>, role: Role): (r: string)
    ensures r == (if Present(requested) && (!StartsWith(requested.value, "/creator") || role == CREATOR)
                  then requested.value else RoleHome(role))
    ensures StartsWith(r, "/creator") ==> role == CREATOR
  {
    if Present(requested) && (if StartsWith(requested.value, "/creator") then role == CREATOR else true)
    then requested.value
    else
      assert "/dashboard"[1] != "/creator"[1];
      RoleHome(role)
  }

  /** The Google and GitHub callbacks: navigate on success, else show the error. */
  function OAuthResult(signedIn: Result<User, Option<string>>, requested: Option<string>, fallback: string): (r: PageResult)
    ensures signedIn.Success? ==> r == Navigate(FinalTarget(requested, signedIn.value.role))
    ensures signedIn.Failure? ==> r == ShowError(signedIn.error.GetOr(fallback))
  {
    match signedIn
    case Success(me) => Navigate(FinalTarget(requested, me.role))
    case Failure(m) => ShowError(m.GetOr(fallback))
  }

  /** The GitHub callback is exchanged only for a non-empty code with the expected state. */
  predicate IsGithubCallback(code: Option<string>, state: Option<string>) {
    Present(code) && state == Some(CallbackState)
  }

  /** The `state` value the authorize URL carries and the callback expects. */
  const CallbackState := "github_oauth"
  const GithubAuthorizeUrl := "https://github.com/login/oauth/authorize?client_id="
  const GithubQueryTail := "&scope=user:email&state=" + CallbackState

  /** `handleGitHubLogin`: the authorize URL to go to, or the error when no client id is set. */
  function GithubAuthorize(clientId: string, origin: string, pathname: string): (r: Result<string, string>)
    ensures clientId == "" <==> r.Failure?
    ensures r.Failure? ==> r.error == "GitHub OAuth client ID is not configured"
    ensures r.Success? ==>
      && StartsWith(r.value, GithubAuthorizeUrl + clientId + "&redirect_uri=")
      && EndsWith(r.value, GithubQueryTail)
      && |r.value| == |GithubAuthorizeUrl + clientId + "&redirect_uri="| + |Encode(origin + pathname)| + |GithubQueryTail|
      && r.value[|GithubAuthorizeUrl + clientId + "&redirect_uri="|..|r.value| - |GithubQueryTail|] == Encode(origin + pathname)
  {
    if clientId == "" then Failure("GitHub OAuth client ID is not configured")
    else
      var head := GithubAuthorizeUrl + clientId + "&redirect_uri=";
      var url := head + Encode(origin + pathname) + GithubQueryTail;
      assert url[..|head|] == head;
      assert url[|url| - |GithubQueryTail|..] == GithubQueryTail;
      assert url[|head|..|url| - |GithubQueryTail|] == Encode(origin + pathname);
      Success(url)
  }

  /** The redirect URI travels intact: decoding the parameter gives it back. */
  lemma GithubRedirectRecoverable(clientId: string, origin: string, pathname: string)
    requires clientId != ""
    ensures var url := GithubAuthorize(clientId, origin, pathname).value;
      var head := GithubAuthorizeUrl + clientId + "&redirect_uri=";
      Decode(url[|head|..|url| - |GithubQueryTail|]) == Some(origin + pathname)
  {
    DecodeEncode(origin + pathname);
  }

  /** The state the authorize URL sends GitHub is the one the callback
      accepts; a return without it, or without a code, is not exchanged. */
  lemma AuthorizeStateAccepted(clientId: string, origin: string, pathname: string, code: string)
    requires clientId != "" && code != ""
    ensures EndsWith(GithubAuthorize(clientId, origin, pathname).value, "&state=" + CallbackState)
    ensures IsGithubCallback(Some(code), Some(CallbackState))
    ensures !IsGithubCallback(Some(code), None) && !IsGithubCallback(Some(code), Some(""))
    ensures !IsGithubCallback(None, Some(CallbackState)) && !IsGithubCallback(Some(""), Some(CallbackState))
  {
    var url := GithubAuthorize(clientId, origin, pathname).value;
    assert GithubQueryTail == "&scope=user:email" + ("&state=" + CallbackState);
    EndsWithTail(url, "&scope=user:email", "&state=" + CallbackState);
  }

  /** A text that ends with a + b also ends with b. */
  lemma EndsWithTail(s: string, a: string, b: string)
    requires EndsWith(s, a + b)
    ensures EndsWith(s, b)
  {
    assert s[|s| - |b|..] == s[|s| - |a + b|..][|a|..];
  }
}

=== FILE: auth_store.dfy ===
/** The client's authentication store (`AuthContext.tsx`): the token pair, the
    current user and the loading flag, mirrored into browser storage, and the
    authenticated request primitive `apiFetch` with its single
    refresh-and-retry on a 401 reply (section 15.5.2 of RFC 9110), sending the
    access token as a Bearer credential (section 2.1 of RFC 6750).

    The network is an oracle: each fetch the primitive makes is answered by
    one of the replies passed in, in order (first request, refresh, retry). */
module AuthStore {

  import opened Wrappers
  import opened Strings
  import opened Js
  import opened Domain

  const AccessTokenKey := "accessToken"
  const RefreshTokenKey := "refreshToken"
  const DefaultApiBaseUrl := "http://localhost:8000"
  const RefreshPath := "/api/auth/token/refresh/"

  datatype AuthState = AuthState(
    user: Option<User>,
    isLoading: bool,
    accessToken: Option<string>,
    refreshToken: Option<string>)

  /** The provider's state, the browser's key/value storage and the API base URL. */
  datatype Store = Store(state: AuthState, storage: map<string, string>, apiBase: string)

  /** What a request carries: nothing, a JSON-serialised value, or multipart form data. */
  datatype Body = NoBody | JsonPayload(value: Json) | FormData(fields: seq<(string, string)>)

  /** `RequestInit`; header names are kept lower-case, as `Headers` compares them. */
  datatype Init = Init(verb: string, headers: map<string, string>, body: Body)

  datatype Request = Request(verb: string, url: string, headers: map<string, string>, body: Body)

  /** A reply: its status, its Content-Type header ("" when absent) and its
      body when that parses as JSON (None when it does not). */
  datatype Response = Response(status: int, contentType: string, body: Option<Json>)

  datatype ApiError = ApiError(status: int, message: string, details: Json)

  /** How a call ends: a parsed body, a thrown `ApiError`, or another thrown
      error (a refresh reply whose body could not be read as a token object). */
  datatype Outcome = Ok(value: Json) | Failed(error: ApiError) | Broken

  /** `VITE_API_BASE_URL ?? 'http://localhost:8000'`. */
  function ApiBaseUrl(configured: Option<string>): string {
    configured.GetOr(DefaultApiBaseUrl)
  }

  predicate IsOk(status: int) {
    200 <= status <= 299
  }

  // ---- joinUrl ----

  /** The base with at most one trailing '/' removed. */
  function BaseWithoutSlash(base: string): (b: string)
    ensures EndsWith(base, "/") ==> base == b + "/"
    ensures !EndsWith(base, "/") ==> b == base
  {
    if EndsWith(base, "/") then base[..|base| - 1] else base
  }

  /** The path with a leading '/' added when it has none. */
  function RootedPath(path: string): (p: string)
    ensures StartsWith(path, "/") ==> p == path
    ensures !StartsWith(path, "/") ==> p == "/" + path
  {
    if StartsWith(path, "/") then path else "/" + path
  }

  /** `joinUrl(base, path)`. */
  function JoinUrl(base: string, path: string): (r: string)
    ensures EndsWith(r, path)
    ensures StartsWith(r, BaseWithoutSlash(base))
    ensures |BaseWithoutSlash(base)| < |r|
    ensures r[|BaseWithoutSlash(base)|] == '/'
    ensures |base| - 1 + |path| <= |r| <= |base| + |path| + 1
  {
    var b := BaseWithoutSlash(base);
    var p := RootedPath(path);
    assert (b + p)[..|b|] == b;
    assert (b + p)[|b + p| - |path|..] == path;
    b + p
  }

  /** A leading '/' on the path and a single trailing '/' on the base are both optional. */
  lemma JoinUrlSlashes(base: string, path: string)
    requires !EndsWith(base, "/") && !StartsWith(path, "/")
    ensures JoinUrl(base + "/", path) == JoinUrl(base, path)
    ensures JoinUrl(base, "/" + path) == JoinUrl(base, path)
    ensures JoinUrl(base + "/", "/" + path) == base + "/" + path
  {
    assert EndsWith(base + "/", "/");
    assert (base + "/")[..|base|] == base;
    assert StartsWith("/" + path, "/");
  }

  lemma JoinUrlExample()
    ensures JoinUrl("http://h/", "api/x") == "http://h/api/x"
  {
    assert EndsWith("http://h/", "/");
    assert "api/x"[..1] == "a";
  }

  // ---- persistTokens / logout ----

  /** Storage holds a key exactly when the matching token is non-empty, and then holds that token. */
  predicate StoredAs(storage: map<string, string>, key: string, token: Option<string>) {
    (key in storage <==> Present(token)) && (key in storage ==> storage[key] == token.value)
  }

  predicate InSync(st: Store) {
    StoredAs(st.storage, AccessTokenKey, st.state.accessToken)
    && StoredAs(st.storage, RefreshTokenKey, st.state.refreshToken)
  }

  /** `setItem` for a truthy value, `removeItem` otherwise. */
  function Mirror(storage: map<string, string>, key: string, token: Option<string>): (m: map<string, string>)
    ensures StoredAs(m, key, token)
    ensures forall k :: k != key ==> (k in m <==> k in storage) && (k in m ==> m[k] == storage[k])
  {
    if Present(token) then storage[key := token.value] else storage - {key}
  }

  /** `persistTokens(nextAccess, nextRefresh)`. */
  function PersistTokens(st: Store, nextAccess: Option<string>, nextRefresh: Option<string>): (r: Store)
    ensures r.state == st.state.(accessToken := nextAccess, refreshToken := nextRefresh)
    ensures r.apiBase == st.apiBase
    ensures InSync(r)
    ensures forall k :: k != AccessTokenKey && k != RefreshTokenKey ==>
      (k in r.storage <==> k in st.storage) && (k in r.storage ==> r.storage[k] == st.storage[k])
  {
    var m := Mirror(Mirror(st.storage, AccessTokenKey, nextAccess), RefreshTokenKey, nextRefresh);
    Store(st.state.(accessToken := nextAccess, refreshToken := nextRefresh), m, st.apiBase)
  }

  /** `logout()`: both tokens and the user cleared, in state and in storage. */
  function Logout(st: Store): (r: Store)
    ensures r.state.accessToken.None? && r.state.refreshToken.None? && r.state.user.None?
    ensures r.state.isLoading == st.state.isLoading
    ensures AccessTokenKey !in r.storage && RefreshTokenKey !in r.storage
    ensures forall k :: k != AccessTokenKey && k != RefreshTokenKey ==>
      (k in r.storage <==> k in st.storage) && (k in r.storage ==> r.storage[k] == st.storage[k])
  {
    var p := PersistTokens(st, None, None);
    p.(state := p.state.(user := None))
  }

  lemma LogoutIdempotent(st: Store)
    ensures Logout(Logout(st)) == Logout(st)
  {
    var once := Logout(st);
    var twice := Logout(once);
    assert twice.storage == once.storage;
  }

  /** The tokens the provider reads back from storage when it is constructed. */
  function RestoredTokens(storage: map<string, string>): (Option<string>, Option<string>) {
    (if AccessTokenKey in storage then Some(storage[AccessTokenKey]) else None,
     if RefreshTokenKey in storage then Some(storage[RefreshTokenKey]) else None)
  }

  /** Persisting non-empty tokens and reloading the page gives the same tokens back. */
  lemma PersistRestoreRoundTrip(st: Store, access: string, refresh: string)
    requires access != "" && refresh != ""
    ensures RestoredTokens(PersistTokens(st, Some(access), Some(refresh)).storage) == (Some(access), Some(refresh))
  {
  }

  /** A later `persistTokens` or `logout` overwrites everything an earlier
      `persistTokens` wrote, so its result does not depend on that write. */
  lemma PersistOverwrites(st: Store, a1: Option<string>, r1: Option<string>, a2: Option<string>, r2: Option<string>)
    ensures PersistTokens(PersistTokens(st, a1, r1), a2, r2) == PersistTokens(st, a2, r2)
    ensures Logout(PersistTokens(st, a1, r1)) == Logout(st)
  {
    var m := Mirror(st.storage, AccessTokenKey, a1);
    MirrorSwap(m, RefreshTokenKey, AccessTokenKey, r1, a2);
    MirrorTwice(st.storage, AccessTokenKey, a1, a2);
    MirrorTwice(Mirror(st.storage, AccessTokenKey, a2), RefreshTokenKey, r1, r2);
    m := Mirror(st.storage, AccessTokenKey, a1);
    MirrorSwap(m, RefreshTokenKey, AccessTokenKey, r1, None);
    MirrorTwice(st.storage, AccessTokenKey, a1, None);
    MirrorTwice(Mirror(st.storage, AccessTokenKey, None), RefreshTokenKey, r1, None);
  }

  /** Mirroring one key twice keeps only the second write. */
  lemma MirrorTwice(storage: map<string, string>, key: string, t1: Option<string>, t2: Option<string>)
    ensures Mirror(Mirror(storage, key, t1), key, t2) == Mirror(storage, key, t2)
  {
    var a, b := Mirror(Mirror(storage, key, t1), key, t2), Mirror(storage, key, t2);
    assert a.Keys == b.Keys;
  }

  /** Mirroring two different keys can be done in either order. */
  lemma MirrorSwap(storage: map<string, string>, k1: string, k2: string, t1: Option<string>, t2: Option<string>)
    requires k1 != k2
    ensures Mirror(Mirror(storage, k1, t1), k2, t2) == Mirror(Mirror(storage, k2, t2), k1, t1)
  {
    var a, b := Mirror(Mirror(storage, k1, t1), k2, t2), Mirror(Mirror(storage, k2, t2), k1, t1);
    assert a.Keys == b.Keys;
  }

  // ---- refreshSession ----

  datatype RefreshResult = RefreshResult(store: Store, ok: bool, calls: seq<Request>, broken: bool)

  function RefreshRequest(st: Store): Request
    requires st.state.refreshToken.Some?
  {
    Request("POST", JoinUrl(st.apiBase, RefreshPath), map["content-type" := "application/json"],
            JsonPayload(JObj([("refresh", JStr(st.state.refreshToken.value))])))
  }

  /** `refreshSession()`, with the token endpoint's reply as an oracle. */
  function RefreshSession(st: Store, reply: Response): (r: RefreshResult)
    ensures !Present(st.state.refreshToken) ==> r == RefreshResult(st, false, [], false)
    ensures Present(st.state.refreshToken) ==> r.calls == [RefreshRequest(st)]
    ensures Present(st.state.refreshToken) && !IsOk(reply.status) ==> r == RefreshResult(Logout(st), false, r.calls, false)
    ensures r.broken <==>
      Present(st.state.refreshToken) && IsOk(reply.status) && (reply.body.None? || reply.body == Some(JNull))
    ensures Present(st.state.refreshToken) && IsOk(reply.status) && reply.body.Some? && reply.body.value != JNull ==>
      r.ok && r.store == PersistTokens(st, GetString(reply.body.value, "access"), st.state.refreshToken)
    ensures r.ok ==>
      && !r.broken && IsOk(reply.status)
      && r.store.state.refreshToken == st.state.refreshToken
      && r.store.state.user == st.state.user
      && InSync(r.store)
    ensures r.broken ==> r.store == st && !r.ok
    ensures r.store.state.user == st.state.user || r.store.state.user.None?
    ensures r.store.apiBase == st.apiBase
  {
    if !Present(st.state.refreshToken) then RefreshResult(st, false, [], false)
    else
      var call := [RefreshRequest(st)];
      if !IsOk(reply.status) then RefreshResult(Logout(st), false, call, false)
      else match reply.body
        case None => RefreshResult(st, false, call, true)
        case Some(JNull) => RefreshResult(st, false, call, true)
        case Some(data) =>
          RefreshResult(PersistTokens(st, GetString(data, "access"), st.state.refreshToken), true, call, false)
  }

  // ---- apiFetch ----

  /** `body && !(body instanceof FormData)` with no Content-Type header yet. */
  predicate NeedsJsonContentType(init: Init) {
    init.body.JsonPayload? && "content-type" !in init.headers
  }

  predicate SendsBearer(st: Store, skipAuth: bool) {
    !skipAuth && Present(st.state.accessToken)
  }

  /** The headers of the first attempt. */
  function RequestHeaders(st: Store, init: Init, skipAuth: bool): (h: map<string, string>)
    ensures NeedsJsonContentType(init) ==> "content-type" in h && h["content-type"] == "application/json"
    ensures !NeedsJsonContentType(init) && "content-type" in init.headers ==>
      "content-type" in h && h["content-type"] == init.headers["content-type"]
    ensures !NeedsJsonContentType(init) && "content-type" !in init.headers ==> "content-type" !in h
    ensures SendsBearer(st, skipAuth) ==> "authorization" in h && h["authorization"] == "Bearer " + st.state.accessToken.value
    ensures !SendsBearer(st, skipAuth) ==> ("authorization" in h <==> "authorization" in init.headers)
  {
    var h1 := if NeedsJsonContentType(init) then init.headers["content-type" := "application/json"] else init.headers;
    if SendsBearer(st, skipAuth) then h1["authorization" := "Bearer " + st.state.accessToken.value] else h1
  }

  /** `safeJson(res)`: the parsed body when the reply says it is JSON, null otherwise. */
  function SafeJson(res: Response): (j: Json)
    ensures !Contains(res.contentType, "application/json") ==> j == JNull
    ensures res.body.None? ==> j == JNull
    ensures Contains(res.contentType, "application/json") && res.body.Some? ==> j == res.body.value
  {
    if Contains(res.contentType, "application/json") then res.body.GetOr(JNull) else JNull
  }

  /** The message of a thrown `ApiError`: the body's string `detail`, else the generic text. */
  function ErrorMessage(body: Json, status: int): (m: string)
    ensures GetString(body, "detail").Some? ==> m == GetString(body, "detail").value
    ensures GetString(body, "detail").None? ==> m == "Request failed (" + IntToString(status) + ")"
  {
    match GetString(body, "detail")
    case Some(d) => d
    case None => "Request failed (" + IntToString(status) + ")"
  }

  /** The last step of `apiFetch`: return the JSON body of an OK reply or throw an `ApiError`. */
  function Settle(res: Response): (o: Outcome)
    ensures IsOk(res.status) ==> o == Ok(SafeJson(res))
    ensures !IsOk(res.status) ==> o == Failed(ApiError(res.status, ErrorMessage(SafeJson(res), res.status), SafeJson(res)))
  {
    var body := SafeJson(res);
    if IsOk(res.status) then Ok(body)
    else Failed(ApiError(res.status, ErrorMessage(body, res.status), body))
  }

  datatype FetchResult = FetchResult(store: Store, outcome: Outcome, calls: seq<Request>)

  /** `apiFetch(path, init, {skipAuth})` answered by `first`, then (only after a
      401 without skipAuth) `refreshReply` for the refresh call, then `retry`
      for the one repeated request. */
  function ApiFetch(st: Store, path: string, init: Init, skipAuth: bool,
                    first: Response, refreshReply: Response, retry: Response): (r: FetchResult)
    // the first request: the URL, Bearer and Content-Type rules
    ensures 1 <= |r.calls| <= 3
    ensures r.calls[0] == Request(init.verb, JoinUrl(st.apiBase, path), RequestHeaders(st, init, skipAuth), init.body)
    // no refresh unless the first reply is 401 and auth is in use
    ensures first.status != 401 || skipAuth ==> r == FetchResult(st, Settle(first), r.calls[..1])
    // otherwise the refresh-and-retry branch, whose contract states the rest
    ensures first.status == 401 && !skipAuth ==> r == AfterUnauthorized(st, r.calls[0], first, refreshReply, retry)
  {
    var headers := RequestHeaders(st, init, skipAuth);
    var req := Request(init.verb, JoinUrl(st.apiBase, path), headers, init.body);
    if first.status == 401 && !skipAuth then AfterUnauthorized(st, req, first, refreshReply, retry)
    else FetchResult(st, Settle(first), [req])
  }

  /** The 401 branch of `apiFetch` after sending `req`: one refresh, then
      one retry with the new Bearer token, or the original reply as the
      outcome when the refresh is refused or impossible. */
  function AfterUnauthorized(st: Store, req: Request, first: Response, refreshReply: Response,
                             retry: Response): (r: FetchResult)
    ensures 1 <= |r.calls| <= 3 && r.calls[0] == req
    ensures |r.calls| >= 2 ==> Present(st.state.refreshToken) && r.calls[1] == RefreshRequest(st)
    ensures |r.calls| == 3 ==>
      var stored := RefreshSession(st, refreshReply).store.storage;
      var token := if AccessTokenKey in stored then stored[AccessTokenKey] else "";
      r.calls[2] == req.(headers := req.headers["authorization" := "Bearer " + token]) && r.outcome == Settle(retry)
    ensures Present(st.state.refreshToken) && !IsOk(refreshReply.status) ==>
      |r.calls| == 2 && r.store == Logout(st) && r.outcome == Settle(first)
    ensures first.status == 401 && Present(st.state.refreshToken) && !IsOk(refreshReply.status) ==>
      r.outcome.Failed? && r.outcome.error.status == 401
    ensures !Present(st.state.refreshToken) ==> r == FetchResult(st, Settle(first), [req])
    ensures r.store == RefreshSession(st, refreshReply).store
    ensures RefreshSession(st, refreshReply).ok ==> |r.calls| == 3
    ensures RefreshSession(st, refreshReply).broken ==> r.outcome == Broken && |r.calls| == 2
    ensures !RefreshSession(st, refreshReply).broken ==> !r.outcome.Broken?
  {
    var rs := RefreshSession(st, refreshReply);
    if !Present(st.state.refreshToken) then FetchResult(st, Settle(first), [req])
    else if rs.broken then FetchResult(st, Broken, [req, RefreshRequest(st)])
    else if rs.ok then
      var stored := rs.store.storage;
      var token := if AccessTokenKey in stored then stored[AccessTokenKey] else "";
      var again := req.(headers := req.headers["authorization" := "Bearer " + token]);
      FetchResult(rs.store, Settle(retry), [req, RefreshRequest(st), again])
    else FetchResult(rs.store, Settle(first), [req, RefreshRequest(st)])
  }

  /** A successful refresh changes nothing but the access token, which
      becomes the reply's `access` (and is stored only when non-empty); the
      refresh token, the user and every other storage key stay as they were. */
  lemma RefreshReplacesOnlyAccess(st: Store, reply: Response, data: Json)
    requires Present(st.state.refreshToken) && IsOk(reply.status)
    requires reply.body == Some(data) && data != JNull
    ensures var r := RefreshSession(st, reply);
      && r.ok && !r.broken && r.calls == [RefreshRequest(st)]
      && r.store.state == st.state.(accessToken := GetString(data, "access"))
      && r.store.apiBase == st.apiBase
      && (AccessTokenKey in r.store.storage <==> Present(GetString(data, "access")))
      && (AccessTokenKey in r.store.storage ==> r.store.storage[AccessTokenKey] == GetString(data, "access").value)
      && RefreshTokenKey in r.store.storage && r.store.storage[RefreshTokenKey] == st.state.refreshToken.value
      && (forall k :: k != AccessTokenKey && k != RefreshTokenKey ==>
            (k in r.store.storage <==> k in st.storage) && (k in r.store.storage ==> r.store.storage[k] == st.storage[k]))
  {
    var r := RefreshSession(st, reply);
    assert InSync(r.store);
  }

  /** What `apiFetch` hands its caller, for every combination of replies. The
      reply that decides is the retry when a 401 led to a successful refresh,
      and the first reply otherwise. An OK reply yields its JSON body (null
      when it is not labelled or not parsed as JSON); any other reply throws
      an error with that reply's status, its JSON body as the details, and
      the body's string `detail` as the message, else "Request failed
      (<status>)". Only a refresh reply that cannot be read as a token
      object ends the call some other way. */
  lemma ApiFetchReadsReply(st: Store, path: string, init: Init, skipAuth: bool,
                           first: Response, refreshReply: Response, retry: Response)
    ensures var r := ApiFetch(st, path, init, skipAuth, first, refreshReply, retry);
      var rs := RefreshSession(st, refreshReply);
      var refreshes := first.status == 401 && !skipAuth;
      var last := if refreshes && rs.ok then retry else first;
      var body := if Contains(last.contentType, "application/json") && last.body.Some? then last.body.value else JNull;
      && (r.outcome.Broken? <==> refreshes && rs.broken)
      && (|r.calls| == 1 <==> !refreshes || !Present(st.state.refreshToken))
      && (|r.calls| == 3 <==> refreshes && rs.ok)
      && (!r.outcome.Broken? && IsOk(last.status) ==> r.outcome == Ok(body))
      && (!r.outcome.Broken? && !IsOk(last.status) ==>
            r.outcome.Failed? && r.outcome.error.status == last.status && r.outcome.error.details == body)
      && (!r.outcome.Broken? && !IsOk(last.status) && GetString(body, "detail").Some? ==>
            r.outcome.error.message == GetString(body, "detail").value)
      && (!r.outcome.Broken? && !IsOk(last.status) && GetString(body, "detail").None? ==>
            r.outcome.error.message == "Request failed (" + IntToString(last.status) + ")")
  {
  }

  /** After a 401 and a refresh that returns a non-empty access token, the
      request is repeated once, identical except for a Bearer header with the
      new token, and the repeat's reply decides the outcome. */
  lemma RetryCarriesNewToken(st: Store, path: string, init: Init, first: Response,
                             refreshReply: Response, retry: Response, data: Json, access: string)
    requires first.status == 401 && Present(st.state.refreshToken) && IsOk(refreshReply.status)
    requires refreshReply.body == Some(data) && data != JNull
    requires GetString(data, "access") == Some(access) && access != ""
    ensures var r := ApiFetch(st, path, init, false, first, refreshReply, retry);
      && |r.calls| == 3 && r.calls[1] == RefreshRequest(st)
      && r.calls[2] == r.calls[0].(headers := r.calls[0].headers["authorization" := "Bearer " + access])
      && r.outcome == Settle(retry)
      && r.store.state.accessToken == Some(access) && r.store.state.refreshToken == st.state.refreshToken
  {
    RefreshReplacesOnlyAccess(st, refreshReply, data);
  }

  /** A body is only returned from a reply to the request itself; the user is
      kept or cleared, never replaced; the base URL never changes. */
  lemma ApiFetchFrame(st: Store, path: string, init: Init, skipAuth: bool,
                      first: Response, refreshReply: Response, retry: Response)
    ensures var r := ApiFetch(st, path, init, skipAuth, first, refreshReply, retry);
      && (r.outcome.Ok? ==> r.calls[|r.calls| - 1].url == r.calls[0].url)
      && (r.store.state.user == st.state.user || r.store.state.user.None?)
      && r.store.apiBase == st.apiBase
  {
  }

  /** A server error without a JSON body settles as the generic message. */
  lemma GenericSettle(first: Response)
    requires first == Response(500, "", None)
    ensures Settle(first) == Failed(ApiError(500, "Request failed (500)", JNull))
  {
    assert IntToString(500) == "500" by {
      assert NatToString(500) == NatToString(50) + "0";
      assert NatToString(50) == NatToString(5) + "0";
    }
  }

  /** A server error without a JSON body yields the generic message. */
  lemma GenericMessageExample(st: Store, first: Response, other: Response)
    requires first == Response(500, "", None)
    ensures ApiFetch(st, "/api/sessions/", Init("GET", map[], NoBody), true, first, other, other).outcome
      == Failed(ApiError(500, "Request failed (500)", JNull))
  {
    GenericSettle(first);
  }
}

=== FILE: booking_flow.dfy ===
/** The client's booking and payment flow, as the explore page
    (`ExploreSessionsPage.tsx`) and the session page (`SessionDetailPage.tsx`)
    run it: who may book, then create the booking, create a payment order,
    open the checkout and verify the payment, each step's result turned into
    exactly one status message.

    The three requests and the checkout widget are oracles: each step is given
    as what it returned or threw. */
module BookingFlow {

  import opened Wrappers
  import opened Strings
  import opened Js
  import opened Domain
  import opened Sorting
  import opened JsNumber

  /** What an awaited step did: returned a value or threw. A thrown value
      carries its `message` property when it has one. */
  datatype Step<T> = Returned(value: T) | Threw(message: Option<string>)

  /** What the checkout widget did once the order existed. */
  datatype Checkout =
    | CannotOpen(message: Option<string>)   // building or opening the widget threw
    | Dismissed                             // closed without paying: no callback runs
    | PaymentFailedEvent(description: string)  // the `payment.failed` callback ("" when absent)
    | Paid(verify: Step<Json>)              // the success handler ran the verify request

  /** The requests the flow sends, in order. */
  datatype Call = PostBooking(sessionId: int) | PostOrder(bookingId: int) | PostVerify(bookingId: int)

  /** Where a booking attempt ends. */
  datatype BookOutcome =
    | BookingFailed(message: string)
    | GatewayNotConfigured
    | SetupFailed(message: string)
    | Confirmed
    | VerifyFailed(message: string)
    | PaymentFailed(description: string)
    | AwaitingPayment

  predicate Terminal(o: BookOutcome) {
    !o.AwaitingPayment?
  }

  // ---- who may book ----

  /** `canBookSession(session)` on the explore page. */
  predicate CanBookSession(user: Option<User>, session: Session) {
    user.Some? && user.value.role == USER && session.creator != user.value.id
  }

  /** `canBook` on the session page, where the session may not be loaded yet. */
  predicate CanBook(user: Option<User>, session: Option<Session>) {
    if user.None? || session.None? then false
    else if user.value.role != USER then false
    else if session.value.creator == user.value.id then false
    else true
  }

  /** The two pages agree: a loaded session is bookable on one exactly when it is on the other. */
  lemma CanBookAgrees(user: Option<User>, session: Session)
    ensures CanBook(user, Some(session)) <==> CanBookSession(user, session)
    ensures !CanBook(user, None)
  {
  }

  // ---- the outcome machine ----

  /** `e && typeof e === 'object' && 'message' in e ? String(e.message) : fallback`. */
  function CaughtMessage(message: Option<string>, fallback: string): (m: string)
    ensures message.Some? ==> m == message.value
    ensures message.None? ==> m == fallback
  {
    message.GetOr(fallback)
  }

  /** The gateway-error test: such messages count as "no gateway configured". */
  predicate MeansNotConfigured(msg: string) {
    Contains(msg, "not configured") || Contains(msg, "503")
  }

  /** The catch around order creation and checkout. */
  function GatewayError(message: Option<string>): (o: BookOutcome)
    ensures MeansNotConfigured(CaughtMessage(message, "Payment gateway not available")) ==> o == GatewayNotConfigured
    ensures !MeansNotConfigured(CaughtMessage(message, "Payment gateway not available")) ==>
      o == SetupFailed(CaughtMessage(message, "Payment gateway not available"))
  {
    var msg := CaughtMessage(message, "Payment gateway not available");
    if MeansNotConfigured(msg) then GatewayNotConfigured else SetupFailed(msg)
  }

  /** Where one attempt ends, given what each step did. */
  function Outcome(booking: Step<int>, order: Step<Json>, checkout: Checkout): (o: BookOutcome)
    ensures booking.Threw? ==> o == BookingFailed(CaughtMessage(booking.message, "Booking failed"))
    ensures booking.Returned? && order.Threw? ==> o == GatewayError(order.message)
    ensures o.Confirmed? <==> booking.Returned? && order.Returned? && checkout.Paid? && checkout.verify.Returned?
    ensures o.AwaitingPayment? <==> booking.Returned? && order.Returned? && checkout.Dismissed?
    ensures o.PaymentFailed? ==> o.description != ""
  {
    match booking
    case Threw(m) => BookingFailed(CaughtMessage(m, "Booking failed"))
    case Returned(_) =>
      match order
      case Threw(m) => GatewayError(m)
      case Returned(_) =>
        match checkout
        case CannotOpen(m) => GatewayError(m)
        case Dismissed => AwaitingPayment
        case PaymentFailedEvent(d) => PaymentFailed(if d == "" then "Unknown error" else d)
        case Paid(Returned(_)) => Confirmed
        case Paid(Threw(m)) => VerifyFailed(CaughtMessage(m, "Payment verification failed"))
  }

  /** The requests one attempt sends: the order only after a booking, the
      verify only after a payment. */
  function Calls(sessionId: int, booking: Step<int>, order: Step<Json>, checkout: Checkout): (cs: seq<Call>)
    ensures 1 <= |cs| <= 3 && cs[0] == PostBooking(sessionId)
    ensures booking.Threw? <==> |cs| == 1
    ensures |cs| >= 2 ==> cs[1] == PostOrder(booking.value)
    ensures |cs| == 3 <==> booking.Returned? && order.Returned? && checkout.Paid?
    ensures |cs| == 3 ==> cs[2] == PostVerify(booking.value)
  {
    match booking
    case Threw(_) => [PostBooking(sessionId)]
    case Returned(id) =>
      if order.Returned? && checkout.Paid? then [PostBooking(sessionId), PostOrder(id), PostVerify(id)]
      else [PostBooking(sessionId), PostOrder(id)]
  }

  // ---- the explore page ----

  const ConfirmedText := "Booking confirmed! Payment successful."
  const NotConfiguredText := "Booked! (Payment gateway not configured)"

  /** The status line the explore page shows under a session; "" shows nothing. */
  function ExploreMessage(o: BookOutcome): string {
    match o
    case BookingFailed(m) => "Booking failed: " + m
    case GatewayNotConfigured => NotConfiguredText
    case SetupFailed(m) => "Payment setup failed: " + m
    case Confirmed => ConfirmedText
    case VerifyFailed(m) => "Payment verification failed: " + m
    case PaymentFailed(d) => "Payment failed: " + d
    case AwaitingPayment => ""
  }

  /** Reads an explore-page status line back as the outcome it reports. */
  function ParseExploreMessage(s: string): Option<BookOutcome> {
    if s == "" then Some(AwaitingPayment)
    else if s == ConfirmedText then Some(Confirmed)
    else if s == NotConfiguredText then Some(GatewayNotConfigured)
    else if StartsWith(s, "Booking failed: ") then Some(BookingFailed(s[16..]))
    else if StartsWith(s, "Payment setup failed: ") then Some(SetupFailed(s[22..]))
    else if StartsWith(s, "Payment verification failed: ") then Some(VerifyFailed(s[29..]))
    else if StartsWith(s, "Payment failed: ") then Some(PaymentFailed(s[16..]))
    else None
  }

  /** Each outcome has its own status line: reading the line back gives the outcome. */
  lemma ExploreMessageRoundTrip(o: BookOutcome)
    ensures ParseExploreMessage(ExploreMessage(o)) == Some(o)
  {
    var s := ExploreMessage(o);
    match o
    case BookingFailed(m) =>
      assert s[..16] == "Booking failed: " && s[16..] == m;
      assert s[8] != ConfirmedText[8] && s[4] != NotConfiguredText[4];
    case SetupFailed(m) =>
      assert s[..22] == "Payment setup failed: " && s[22..] == m;
      assert s[0] != ConfirmedText[0] && s[0] != NotConfiguredText[0];
      assert s[..16] != "Booking failed: ";
    case VerifyFailed(m) =>
      assert s[..29] == "Payment verification failed: " && s[29..] == m;
      assert s[0] != ConfirmedText[0] && s[0] != NotConfiguredText[0];
      assert s[0] != "Booking failed: "[0] && s[8] != "Payment setup failed: "[8];
    case PaymentFailed(d) =>
      assert s[..16] == "Payment failed: " && s[16..] == d;
      assert s[0] != ConfirmedText[0] && s[0] != NotConfiguredText[0];
      assert s[0] != "Booking failed: "[0] && s[8] != "Payment setup failed: "[8];
      assert s[8] != "Payment verification failed: "[8];
    case Confirmed =>
    case GatewayNotConfigured =>
      assert s != ConfirmedText by { assert s[4] != ConfirmedText[4]; }
    case AwaitingPayment =>
  }

  lemma ExploreMessageInjective(o1: BookOutcome, o2: BookOutcome)
    requires ExploreMessage(o1) == ExploreMessage(o2)
    ensures o1 == o2
  {
    ExploreMessageRoundTrip(o1);
    ExploreMessageRoundTrip(o2);
  }

  /** Per-session status lines and the id of the session being booked. */
  datatype ExploreState = ExploreState(statuses: map<int, string>, busy: Option<int>)

  /** `handleBook(session)`: nothing without a user; otherwise the session's
      status is cleared and it is marked busy, then the attempt runs to its
      outcome, whose line replaces the status. Busy is cleared on every
      terminal outcome; a dismissed checkout leaves the session busy. */
  function HandleBook(st: ExploreState, user: Option<User>, session: Session,
                      booking: Step<int>, order: Step<Json>, checkout: Checkout): (r: (ExploreState, seq<Call>))
    ensures user.None? ==> r == (st, [])
    ensures user.Some? ==>
      var o := Outcome(booking, order, checkout);
      && r.1 == Calls(session.id, booking, order, checkout)
      && r.0.statuses.Keys == st.statuses.Keys + {session.id}
      && r.0.statuses[session.id] == ExploreMessage(o)
      && (forall id :: id in st.statuses && id != session.id ==> r.0.statuses[id] == st.statuses[id])
      && (r.0.busy.None? <==> Terminal(o))
      && (r.0.busy.Some? ==> r.0.busy.value == session.id)
  {
    if user.None? then (st, [])
    else
      var started := ExploreState(st.statuses[session.id := ""], Some(session.id));
      var o := Outcome(booking, order, checkout);
      var line := if o.AwaitingPayment? then started.statuses[session.id] else ExploreMessage(o);
      (ExploreState(started.statuses[session.id := line], if Terminal(o) then None else started.busy),
       Calls(session.id, booking, order, checkout))
  }

  /** A failed booking request sends nothing more and reports "Booking failed: <message>". */
  lemma BookingFailureStopsExplore(st: ExploreState, user: User, session: Session, m: Option<string>,
                                    order: Step<Json>, checkout: Checkout)
    ensures var r := HandleBook(st, Some(user), session, Threw(m), order, checkout);
      && r.1 == [PostBooking(session.id)]
      && r.0.statuses[session.id] == "Booking failed: " + CaughtMessage(m, "Booking failed")
      && r.0.busy.None?
  {
  }

  /** When order creation throws after a booking, the explore line reads back
      as "no gateway configured" exactly when the thrown message mentions
      "not configured" or "503"; otherwise it reads back as a setup failure
      carrying that message, or the stock text when the error had none. No
      verify request is sent either way. */
  lemma GatewayFailureShown(st: ExploreState, user: User, session: Session, id: int,
                            m: Option<string>, checkout: Checkout)
    ensures var r := HandleBook(st, Some(user), session, Returned(id), Threw(m), checkout);
      var shown := ParseExploreMessage(r.0.statuses[session.id]);
      && r.1 == [PostBooking(session.id), PostOrder(id)]
      && r.0.busy.None?
      && (m.Some? ==> (shown == Some(GatewayNotConfigured) <==> MeansNotConfigured(m.value)))
      && (m.Some? && !MeansNotConfigured(m.value) ==> shown == Some(SetupFailed(m.value)))
      && (m.None? ==> shown == Some(SetupFailed("Payment gateway not available")))
  {
    var o := Outcome(Returned(id), Threw(m), checkout);
    ExploreMessageRoundTrip(o);
    if m.Some? && !MeansNotConfigured(m.value) {
      assert o == SetupFailed(m.value);
    }
    if m.None? {
      assert !MeansNotConfigured("Payment gateway not available") by {
        NotConfiguredFree();
      }
    }
  }

  /** The stock message contains neither marker. */
  lemma NotConfiguredFree()
    ensures !MeansNotConfigured("Payment gateway not available")
  {
    var s := "Payment gateway not available";
    forall i | 0 <= i <= |s| - 14 ensures !StartsWith(s[i..], "not configured") {
      assert s[i..][..14][4] == s[i + 4] != 'c';
    }
    forall i | 0 <= i <= |s| - 3 ensures !StartsWith(s[i..], "503") {
      assert s[i..][..3][0] == s[i] != '5';
    }
  }

  /** What a click on the card's button does. */
  datatype ClickAction = StartBooking | GoToLogin(from: string) | Ignore

  /** `handleBookClick`: book when allowed and idle; send a visitor to the login
      page with the session as the place to come back to. */
  function BookClick(canBook: bool, isBooking: bool, user: Option<User>, sessionId: int): (a: ClickAction)
    ensures a.StartBooking? <==> canBook && !isBooking
    ensures a.GoToLogin? <==> !(canBook && !isBooking) && user.None?
    ensures a.GoToLogin? ==> a.from == "/sessions/" + IntToString(sessionId)
  {
    if canBook && !isBooking then StartBooking
    else if user.None? then GoToLogin("/sessions/" + IntToString(sessionId))
    else Ignore
  }

  function StartOf(s: Session): int {
    s.startTime
  }

  function StartsAfter(now: int): Session -> bool {
    (s: Session) => s.startTime > now
  }

  /** `upcomingSessions`: the sessions that start strictly after `now`,
      earliest first. */
  function Upcoming(sessions: seq<Session>, now: int): (r: seq<Session>)
    ensures SortedBy(r, StartOf)
    ensures forall i :: 0 <= i < |r| ==> r[i].startTime > now
    ensures multiset(r) == multiset(Filter(sessions, StartsAfter(now)))
    ensures forall s :: s in r <==> s in sessions && s.startTime > now
  {
    var kept := Filter(sessions, StartsAfter(now));
    FilterFacts(sessions, StartsAfter(now));
    var r := SortBy(kept, StartOf);
    assert forall i :: 0 <= i < |r| ==> r[i].startTime > now by {
      forall i | 0 <= i < |r| ensures r[i].startTime > now {
        assert r[i] in multiset(kept);
      }
    }
    assert forall s :: s in r ==> s in sessions by {
      forall s | s in r ensures s in sessions {
        assert s in multiset(r);
        assert s in multiset(sessions);
      }
    }
    assert forall s :: s in sessions && s.startTime > now ==> s in r by {
      forall s | s in sessions && s.startTime > now ensures s in r {
        assert StartsAfter(now)(s);
        assert s in multiset(kept);
      }
    }
    r
  }

  // ---- the session page ----

  const DetailConfirmedText := ConfirmedText + " Check your dashboard."
  const DetailNotConfiguredText := "Booked! (Payment gateway not configured" + " - booking confirmed without payment)"
  const PendingSuffix := ". Booking created but payment pending."

  /** The status line on the session page; None while no line is shown. */
  function DetailMessage(o: BookOutcome): Option<string> {
    match o
    case BookingFailed(m) => Some("Booking failed: " + m)
    case GatewayNotConfigured => Some(DetailNotConfiguredText)
    case SetupFailed(m) => Some("Payment setup failed: " + m + PendingSuffix)
    case Confirmed => Some(DetailConfirmedText)
    case VerifyFailed(m) => Some("Payment verification failed: " + m)
    case PaymentFailed(d) => Some("Payment failed: " + d)
    case AwaitingPayment => None
  }

  function ParseDetailMessage(s: Option<string>): Option<BookOutcome> {
    match s
    case None => Some(AwaitingPayment)
    case Some(s) =>
      if s == DetailConfirmedText then Some(Confirmed)
      else if s == DetailNotConfiguredText then Some(GatewayNotConfigured)
      else if StartsWith(s, "Booking failed: ") then Some(BookingFailed(s[16..]))
      else if StartsWith(s, "Payment setup failed: ") && EndsWith(s, PendingSuffix) && |s| >= 22 + |PendingSuffix| then
        Some(SetupFailed(s[22..|s| - |PendingSuffix|]))
      else if StartsWith(s, "Payment verification failed: ") then Some(VerifyFailed(s[29..]))
      else if StartsWith(s, "Payment failed: ") then Some(PaymentFailed(s[16..]))
      else None
  }

  lemma DetailBookingFailedRoundTrip(m: string)
    ensures ParseDetailMessage(Some("Booking failed: " + m)) == Some(BookingFailed(m))
  {
    var s := "Booking failed: " + m;
    assert s[..16] == "Booking failed: " && s[16..] == m;
    assert s[8] != DetailConfirmedText[8] && s[4] != DetailNotConfiguredText[4];
  }

  lemma DetailSetupFailedRoundTrip(m: string)
    ensures ParseDetailMessage(Some("Payment setup failed: " + m + PendingSuffix)) == Some(SetupFailed(m))
  {
    var s := "Payment setup failed: " + m + PendingSuffix;
    assert s[..22] == "Payment setup failed: ";
    assert s[|s| - |PendingSuffix|..] == PendingSuffix;
    assert s[22..|s| - |PendingSuffix|] == m;
    assert s[0] == 'P' && DetailConfirmedText[0] == 'B' && DetailNotConfiguredText[0] == 'B';
    assert s[..16] != "Booking failed: ";
  }

  lemma DetailVerifyFailedRoundTrip(m: string)
    ensures ParseDetailMessage(Some("Payment verification failed: " + m)) == Some(VerifyFailed(m))
  {
    var s := "Payment verification failed: " + m;
    assert s[..29] == "Payment verification failed: " && s[29..] == m;
    assert s[0] == 'P' && DetailConfirmedText[0] == 'B' && DetailNotConfiguredText[0] == 'B';
    assert s[0] != "Booking failed: "[0] && s[8] != "Payment setup failed: "[8];
  }

  lemma DetailPaymentFailedRoundTrip(d: string)
    ensures ParseDetailMessage(Some("Payment failed: " + d)) == Some(PaymentFailed(d))
  {
    var s := "Payment failed: " + d;
    assert s[..16] == "Payment failed: " && s[16..] == d;
    assert s[0] == 'P' && DetailConfirmedText[0] == 'B' && DetailNotConfiguredText[0] == 'B';
    assert s[0] != "Booking failed: "[0] && s[8] != "Payment setup failed: "[8];
    assert s[8] != "Payment verification failed: "[8];
  }

  /** Each outcome has its own line on the session page too: reading the line
      back gives the outcome. */
  lemma DetailMessageRoundTrip(o: BookOutcome)
    ensures ParseDetailMessage(DetailMessage(o)) == Some(o)
  {
    match o
    case BookingFailed(m) => DetailBookingFailedRoundTrip(m);
    case SetupFailed(m) => DetailSetupFailedRoundTrip(m);
    case VerifyFailed(m) => DetailVerifyFailedRoundTrip(m);
    case PaymentFailed(d) => DetailPaymentFailedRoundTrip(d);
    case Confirmed =>
    case GatewayNotConfigured =>
      assert DetailNotConfiguredText != DetailConfirmedText by {
        assert DetailNotConfiguredText[4] == 'e' && DetailConfirmedText[4] == 'i';
      }
    case AwaitingPayment =>
  }

  /** The status line and the processing flag of the session page. */
  datatype DetailState = DetailState(status: Option<string>, processing: bool)

  /** `book()`: the line is cleared and processing starts; the attempt then
      runs to its outcome. Processing ends on every terminal outcome. */
  function Book(sessionId: int, booking: Step<int>, order: Step<Json>, checkout: Checkout): (r: (DetailState, seq<Call>))
    ensures r.0.status == DetailMessage(Outcome(booking, order, checkout))
    ensures r.0.processing <==> !Terminal(Outcome(booking, order, checkout))
    ensures r.1 == Calls(sessionId, booking, order, checkout)
    ensures booking.Threw? ==> r.1 == [PostBooking(sessionId)]
  {
    var started := DetailState(None, true);
    var o := Outcome(booking, order, checkout);
    (DetailState(if o.AwaitingPayment? then started.status else DetailMessage(o), !Terminal(o)),
     Calls(sessionId, booking, order, checkout))
  }

  /** Both pages reach the same outcome from the same step results, and the
      explore line is the session-page line up to its added wording. */
  lemma PagesAgreeOnFailures(m: string)
    ensures DetailMessage(BookingFailed(m)) == Some(ExploreMessage(BookingFailed(m)))
    ensures DetailMessage(SetupFailed(m)) == Some(ExploreMessage(SetupFailed(m)) + PendingSuffix)
  {
  }

  /** The session page's guard: the route id is unusable exactly when `Number(id)` is NaN. */
  predicate InvalidSessionId(routeId: string) {
    IsNaN(routeId)
  }

  lemma RouteIdExamples()
    ensures InvalidSessionId("abc")
    ensures !InvalidSessionId(IntToString(7))
  {
    NotANumberExample();
    ToNumberOfIntToString(7);
  }
}

=== FILE: bookings_api.dfy ===
/** The bookings API of the server (`backend/bookings/`): the booking row's
    defaults and its one-booking-per-user-and-session constraint, the
    serializer's own-session check, the permission predicates, which bookings
    a requester sees and in what order, creation with its duplicate reply,
    and the `verify_payment` action. Stripe's checkout-session lookup is an
    oracle passed in as a parameter, and so is the database's message for a
    rejected save. */
module BookingsApi {

  import opened Wrappers
  import opened Strings
  import opened Js
  import opened Domain
  import opened Server
  import opened Sorting
  import opened SessionsApi
  import opened Settings

  // ---- the table ----

  /** At most one booking per (user, session) pair, whatever its status. */
  predicate UniquePairs(table: seq<BookingRow>) {
    forall i, j :: 0 <= i < j < |table| ==>
      table[i].user != table[j].user || table[i].session != table[j].session
  }

  /** A booking as first saved: PENDING, payment status "pending", no payment
      id and no amount paid. */
  function NewBooking(id: int, user: int, session: int, now: int): (b: BookingRow)
    ensures b.status == PENDING && b.paymentStatus == "pending" && b.paymentId == "" && b.amountPaid.None?
    ensures b.id == id && b.user == user && b.session == session && b.createdAt == now
  {
    BookingRow(id, user, session, PENDING, "", "pending", None, now)
  }

  /** `str(booking)`: its id. */
  function BookingText(b: BookingRow): (s: string)
    ensures |s| >= 1 && (b.id >= 0 ==> AllDigits(s))
  {
    IntToString(b.id)
  }

  /** The session row a booking points at, found through the foreign key. */
  function SessionOf(b: BookingRow, sessions: seq<SessionRow>): Option<SessionRow> {
    match FindSession(sessions, b.session)
    case None => None
    case Some(k) => Some(sessions[k])
  }

  // ---- permissions ----

  /** `BookingPermission.has_permission`: any signed-in user. */
  predicate HasPermission(req: Requester) {
    req.Member?
  }

  /** `BookingPermission.has_object_permission`: the booking's own user, or
      the creator of the booked session. */
  predicate HasObjectPermission(req: Requester, b: BookingRow, sessions: seq<SessionRow>) {
    req.Member? && (b.user == req.id || (SessionOf(b, sessions).Some? && SessionOf(b, sessions).value.creator == req.id))
  }

  // ---- visibility and listing ----

  /** `get_queryset`: a CREATOR sees the bookings made on their own sessions,
      anybody else the bookings they made. The query joins the session table
      on a non-null foreign key, so a booking whose session row is missing
      is never listed. */
  predicate Visible(req: Requester, b: BookingRow, sessions: seq<SessionRow>) {
    req.Member? && SessionOf(b, sessions).Some? &&
    if req.role == CREATOR then SessionOf(b, sessions).value.creator == req.id else b.user == req.id
  }

  /** Whatever the query yields passes the object permission, so the
      object-level check after a lookup never refuses. */
  lemma VisibleImpliesObjectPermission(req: Requester, b: BookingRow, sessions: seq<SessionRow>)
    requires Visible(req, b, sessions)
    ensures HasObjectPermission(req, b, sessions)
  {
  }

  function NegCreated(b: BookingRow): int {
    -b.createdAt
  }

  /** The rows `get_queryset` yields, newest first: exactly the visible ones. */
  function VisibleRows(req: Requester, table: seq<BookingRow>, sessions: seq<SessionRow>): (rows: seq<BookingRow>)
    ensures forall b :: b in rows <==> b in table && Visible(req, b, sessions)
    ensures forall i, j :: 0 <= i < j < |rows| ==> rows[i].createdAt >= rows[j].createdAt
    ensures forall i :: 0 <= i < |rows| ==> Visible(req, rows[i], sessions)
    ensures |rows| <= |table|
  {
    var keep := b => Visible(req, b, sessions);
    FilterSortFacts(table, keep, NegCreated);
    var rows := SortBy(Filter(table, keep), NegCreated);
    assert forall i, j :: 0 <= i < j < |rows| ==> NegCreated(rows[i]) <= NegCreated(rows[j]);
    rows
  }

  /** `BookingSerializer(b).data`: the row with its session expanded
      (`session_id` is write-only, `session` is read back nested). */
  function SerializeBooking(b: BookingRow, sessions: seq<SessionRow>, origin: Option<string>): (r: Booking)
    ensures r.id == b.id && r.user == b.user && r.status == b.status && r.createdAt == b.createdAt
    ensures RefId(r.session) == b.session
    ensures r.session.Expanded? <==> SessionOf(b, sessions).Some?
    ensures r.paymentStatus == Some(b.paymentStatus) && r.amountPaid == b.amountPaid
  {
    var session := match SessionOf(b, sessions)
      case None => SessionId(b.session)
      case Some(row) => Expanded(SerializeSession(row, origin));
    Booking(b.id, b.user, session, b.status, Some(b.paymentId), Some(b.paymentStatus), b.amountPaid, b.createdAt)
  }

  function SerializeBookings(rows: seq<BookingRow>, sessions: seq<SessionRow>, origin: Option<string>): (r: seq<Booking>)
    ensures |r| == |rows|
    ensures forall i :: 0 <= i < |rows| ==> r[i] == SerializeBooking(rows[i], sessions, origin)
  {
    if |rows| == 0 then [] else [SerializeBooking(rows[0], sessions, origin)] + SerializeBookings(rows[1..], sessions, origin)
  }

  /** The serialised listing holds every row's booking, keeps the rows'
      order, and expands every session the table holds. */
  lemma SerializedListing(rows: seq<BookingRow>, sessions: seq<SessionRow>, origin: Option<string>)
    requires forall i :: 0 <= i < |rows| ==> SessionOf(rows[i], sessions).Some?
    ensures forall b :: b in rows ==> SerializeBooking(b, sessions, origin) in SerializeBookings(rows, sessions, origin)
    ensures forall i :: 0 <= i < |rows| ==> SerializeBookings(rows, sessions, origin)[i].session.Expanded?
    ensures forall i :: 0 <= i < |rows| ==> SerializeBookings(rows, sessions, origin)[i].createdAt == rows[i].createdAt
  {
    var out := SerializeBookings(rows, sessions, origin);
    forall b | b in rows ensures SerializeBooking(b, sessions, origin) in out {
      var i :| 0 <= i < |rows| && rows[i] == b;
      assert out[i] == SerializeBooking(b, sessions, origin);
    }
  }

  /** Every booking in the listing is the serialisation of a visible row. */
  lemma ListedFromVisible(req: Requester, table: seq<BookingRow>, sessions: seq<SessionRow>, origin: Option<string>)
    ensures forall x :: x in SerializeBookings(VisibleRows(req, table, sessions), sessions, origin) ==>
      exists b :: b in table && Visible(req, b, sessions) && x == SerializeBooking(b, sessions, origin)
  {
    var rows := VisibleRows(req, table, sessions);
    var out := SerializeBookings(rows, sessions, origin);
    forall x | x in out ensures exists b :: b in table && Visible(req, b, sessions) && x == SerializeBooking(b, sessions, origin) {
      var i :| 0 <= i < |out| && out[i] == x;
      assert rows[i] in rows;
    }
  }

  /** `get_object()`: the row of the listing query with the given id. */
  function Locate(req: Requester, pk: int, table: seq<BookingRow>, sessions: seq<SessionRow>): (k: Option<nat>)
    ensures k.Some? ==> k.value < |table| && table[k.value].id == pk && Visible(req, table[k.value], sessions)
    ensures k.None? ==> forall i :: 0 <= i < |table| ==> !(table[i].id == pk && Visible(req, table[i], sessions))
  {
    FindBooking(table, (b: BookingRow) => b.id == pk && Visible(req, b, sessions))
  }

  /** The list action: 401 without credentials, otherwise the visible
      bookings, newest first, each with its session expanded. */
  function ListBookings(req: Requester, table: seq<BookingRow>, sessions: seq<SessionRow>,
                        origin: Option<string>): (r: Answer<seq<Booking>>)
    ensures req.Anonymous? <==> r == Refused(Denied(req))
    ensures r.Answered? ==> r.status == 200
    ensures r.Answered? ==> forall b :: b in table && Visible(req, b, sessions) ==> SerializeBooking(b, sessions, origin) in r.value
    ensures r.Answered? ==> forall x :: x in r.value ==>
      exists b :: b in table && Visible(req, b, sessions) && x == SerializeBooking(b, sessions, origin)
    ensures r.Answered? ==> forall i :: 0 <= i < |r.value| ==> r.value[i].session.Expanded?
    ensures r.Answered? ==> forall i, j :: 0 <= i < j < |r.value| ==> r.value[i].createdAt >= r.value[j].createdAt
  {
    if req.Anonymous? then Refused(Denied(req))
    else
      var rows := VisibleRows(req, table, sessions);
      assert forall i :: 0 <= i < |rows| ==> SessionOf(rows[i], sessions).Some?;
      SerializedListing(rows, sessions, origin);
      ListedFromVisible(req, table, sessions, origin);
      Answered(200, SerializeBookings(rows, sessions, origin))
  }

  /** A creator's listing holds the bookings on their own sessions, other
      users' included, and never a booking the creator made themselves on
      somebody else's session. */
  lemma CreatorListing(req: Requester, table: seq<BookingRow>, sessions: seq<SessionRow>, b: BookingRow)
    requires req.Member? && req.role == CREATOR && b in table
    requires SessionOf(b, sessions).Some?
    ensures b in VisibleRows(req, table, sessions) <==> SessionOf(b, sessions).value.creator == req.id
  {
  }

  /** The retrieve action: 401 without credentials, 404 for a booking
      outside the requester's listing, otherwise the booking. */
  function RetrieveBooking(req: Requester, pk: int, table: seq<BookingRow>, sessions: seq<SessionRow>,
                           origin: Option<string>): (r: Answer<Booking>)
    ensures req.Anonymous? ==> r == Refused(Denied(req))
    ensures r.Answered? <==> req.Member? && exists i :: 0 <= i < |table| && table[i].id == pk && Visible(req, table[i], sessions)
    ensures r.Refused? && req.Member? ==> r.reply == NotFound
    ensures r.Answered? ==> r.status == 200 && r.value.id == pk && r.value.session.Expanded?
  {
    if req.Anonymous? then Refused(Denied(req))
    else match Locate(req, pk, table, sessions)
      case None => Refused(NotFound)
      case Some(k) => Answered(200, SerializeBooking(table[k], sessions, origin))
  }

  // ---- creation ----

  /** `BookingSerializer.validate`: a serializer used without a request is
      refused, and so is a booking on the requester's own session. The error
      map has the shape DRF renders: each message in a one-element list. */
  function Validate(req: Option<Requester>, session: Option<SessionRow>): (r: Result<(), Json>)
    ensures req.None? <==> r == Failure(JObj([("detail", JArr([JStr("Authentication required.")]))]))
    ensures r.Success? <==> req.Some? && !(session.Some? && req.value.Member? && session.value.creator == req.value.id)
    ensures r.Failure? && req.Some? ==> r.error == OwnSessionError
  {
    if req.None? then Failure(JObj([("detail", JArr([JStr("Authentication required.")]))]))
    else if session.Some? && req.value.Member? && session.value.creator == req.value.id then Failure(OwnSessionError)
    else Success(())
  }

  const OwnSessionError := JObj([("session_id", JArr([JStr("You cannot book your own session.")]))])

  const DuplicateText := "You have already booked this session. Check your dashboard to see your existing booking."

  /** The `session_id` field's own errors: missing, or naming no session. */
  function SessionIdError(sessionId: Option<int>): Json {
    var message := if sessionId.None? then "This field is required."
      else "Invalid pk \"" + IntToString(sessionId.value) + "\" - object does not exist.";
    JObj([("session_id", JArr([JStr(message)]))])
  }

  /** Whether the table already holds a booking for this pair. */
  predicate HasPair(table: seq<BookingRow>, user: int, session: int) {
    exists i :: 0 <= i < |table| && table[i].user == user && table[i].session == session
  }

  /** The create action: the permission (401), the `session_id` field (400),
      the own-session check (400), then the insert, where the unique
      constraint turns a second booking of the same session into a 400 with
      the fixed duplicate message. Only `session_id` comes from the client:
      user, status and the payment fields are read-only. */
  function CreateBooking(req: Requester, sessionId: Option<int>, table: seq<BookingRow>, sessions: seq<SessionRow>,
                         newId: int, now: int, origin: Option<string>): (r: (Answer<Booking>, seq<BookingRow>))
    ensures req.Anonymous? ==> r == (Refused(Denied(req)), table)
    ensures r.0.Refused? ==> r.1 == table
    ensures r.0.Answered? <==>
      req.Member? && sessionId.Some? && SessionOf(BookingRow(newId, req.id, sessionId.value, PENDING, "", "", None, now), sessions).Some? &&
      FindSession(sessions, sessionId.value).Some? && sessions[FindSession(sessions, sessionId.value).value].creator != req.id &&
      !HasPair(table, req.id, sessionId.value)
    ensures (req.Member? && sessionId.Some? && FindSession(sessions, sessionId.value).Some? &&
             sessions[FindSession(sessions, sessionId.value).value].creator != req.id &&
             HasPair(table, req.id, sessionId.value)) ==> r.0 == Refused(Reply(400, Detail(DuplicateText)))
    ensures r.0.Answered? ==> r.0.status == 201 && r.1 == table + [NewBooking(newId, req.id, sessionId.value, now)]
    ensures r.0.Answered? ==> r.0.value == SerializeBooking(r.1[|table|], sessions, origin)
    ensures UniquePairs(table) ==> UniquePairs(r.1)
  {
    if req.Anonymous? then (Refused(Denied(req)), table)
    else if sessionId.None? then (Refused(Reply(400, SessionIdError(sessionId))), table)
    else match FindSession(sessions, sessionId.value)
      case None => (Refused(Reply(400, SessionIdError(sessionId))), table)
      case Some(k) =>
        match Validate(Some(req), Some(sessions[k]))
        case Failure(e) => (Refused(Reply(400, e)), table)
        case Success(_) =>
          if HasPair(table, req.id, sessionId.value) then (Refused(Reply(400, Detail(DuplicateText))), table)
          else
            var row := NewBooking(newId, req.id, sessionId.value, now);
            (Answered(201, SerializeBooking(row, sessions, origin)), table + [row])
  }

  /** Booking the same session twice: the first request stores the booking,
      the second is the duplicate reply and stores nothing. */
  lemma BookTwice(req: Requester, sid: int, table: seq<BookingRow>, sessions: seq<SessionRow>,
                  id1: int, id2: int, t1: int, t2: int, origin: Option<string>)
    requires CreateBooking(req, Some(sid), table, sessions, id1, t1, origin).0.Answered?
    ensures var once := CreateBooking(req, Some(sid), table, sessions, id1, t1, origin).1;
      CreateBooking(req, Some(sid), once, sessions, id2, t2, origin) == (Refused(Reply(400, Detail(DuplicateText))), once)
  {
    var once := CreateBooking(req, Some(sid), table, sessions, id1, t1, origin).1;
    assert once[|table|].user == req.id && once[|table|].session == sid;
    assert HasPair(once, req.id, sid);
  }

  /** The server lets a CREATOR book another creator's session, but that
      creator's own listing never shows the booking. */
  lemma CreatorBookingHidden(req: Requester, sid: int, table: seq<BookingRow>, sessions: seq<SessionRow>,
                             newId: int, now: int, origin: Option<string>)
    requires req.Member? && req.role == CREATOR
    requires FindSession(sessions, sid).Some? && sessions[FindSession(sessions, sid).value].creator != req.id
    requires !HasPair(table, req.id, sid)
    ensures var r := CreateBooking(req, Some(sid), table, sessions, newId, now, origin);
      r.0.Answered? && r.1[|table|] !in VisibleRows(req, r.1, sessions)
  {
    var r := CreateBooking(req, Some(sid), table, sessions, newId, now, origin);
    assert SessionOf(r.1[|table|], sessions) == Some(sessions[FindSession(sessions, sid).value]);
  }

  // ---- verify_payment ----

  /** What Stripe reports for a checkout session; the payment intent is
      null until a payment was attempted. */
  datatype Checkout = Checkout(clientReferenceId: Option<string>, paymentIntent: Option<string>, paymentStatus: string)

  /** The outcome of retrieving the checkout session: found, a Stripe error,
      or any other exception (its message). */
  datatype StripeLookup = Retrieved(checkout: Checkout) | StripeFailed(message: string) | OtherFailed(message: string)

  /** Python's `str()` of an optional string: "None" for null. */
  function PyStr(o: Option<string>): string {
    if o.Some? then o.value else "None"
  }

  /** The booking update after a retrieved checkout: the payment id becomes
      the payment intent and the payment status is copied; "paid" confirms
      the booking and records the session's price as paid, any other status
      leaves (or puts) it back to PENDING. */
  function Settle(b: BookingRow, c: Checkout, price: string): (r: BookingRow)
    requires c.paymentIntent.Some?
    ensures r.id == b.id && r.user == b.user && r.session == b.session && r.createdAt == b.createdAt
    ensures r.paymentId == c.paymentIntent.value && r.paymentStatus == c.paymentStatus
    ensures r.status == CONFIRMED <==> c.paymentStatus == "paid"
    ensures r.status == CONFIRMED || r.status == PENDING
    ensures r.amountPaid == if c.paymentStatus == "paid" then Some(price) else b.amountPaid
  {
    var b1 := b.(paymentId := c.paymentIntent.value);
    if c.paymentStatus == "paid" then b1.(paymentStatus := "paid", amountPaid := Some(price), status := CONFIRMED)
    else if c.paymentStatus == "unpaid" then b1.(paymentStatus := "unpaid", status := PENDING)
    else b1.(paymentStatus := c.paymentStatus, status := PENDING)
  }

  /** Verifying the same checkout again changes nothing. */
  lemma SettleIdempotent(b: BookingRow, c: Checkout, price: string)
    requires c.paymentIntent.Some?
    ensures Settle(Settle(b, c, price), c, price) == Settle(b, c, price)
  {
  }

  /** A later "unpaid" report puts a confirmed booking back to PENDING but
      keeps the amount recorded as paid. */
  lemma DowngradeKeepsAmount(b: BookingRow, paid: Checkout, unpaid: Checkout, price: string)
    requires paid.paymentStatus == "paid" && unpaid.paymentStatus == "unpaid"
    requires paid.paymentIntent.Some? && unpaid.paymentIntent.Some?
    ensures var r := Settle(Settle(b, paid, price), unpaid, price);
      r.status == PENDING && r.amountPaid == Some(price) && r.paymentStatus == "unpaid"
  {
  }

  const SessionIdRequired := Reply(400, Detail("session_id is required."))
  const MismatchReply := Reply(400, Detail("Session does not match booking."))

  datatype Verified = Verified(detail: string, booking: Booking)

  /** The 400 every exception other than a Stripe error becomes. */
  function VerificationFailed(message: string): Reply {
    Reply(400, Detail("Payment verification failed: " + message))
  }

  /** `verify_payment`: the permission (401), the lookup through the listing
      query (404), the booking's own user only (404 "Not found." for anybody
      else), a `session_id` (400), then inside the `try`: the secret key read
      from the settings (an AttributeError when it is not assigned), the
      Stripe lookup (400 with its message), the reference check (400), and
      the settled booking saved and returned. A null payment intent fails
      the save on the non-null `payment_id` column: the 400 carries the
      database's message `nullIntentError` and nothing is stored. */
  function VerifyPayment(req: Requester, pk: int, sessionId: Option<string>, config: map<string, string>,
                         stripe: StripeLookup, nullIntentError: string,
                         table: seq<BookingRow>, sessions: seq<SessionRow>, origin: Option<string>)
    : (r: (Answer<Verified>, seq<BookingRow>))
    ensures req.Anonymous? ==> r == (Refused(Denied(req)), table)
    ensures r.0.Refused? ==> r.1 == table
    ensures r.0.Answered? ==>
      req.Member? && Present(sessionId) && StripeSecretKeyName in config &&
      stripe.Retrieved? && stripe.checkout.paymentIntent.Some?
    ensures r.0.Answered? ==>
      var k := Locate(req, pk, table, sessions);
      k.Some? && table[k.value].user == req.id &&
      PyStr(stripe.checkout.clientReferenceId) == IntToString(table[k.value].id) &&
      r.0.status == 200 && r.0.value.detail == "Payment verified successfully." &&
      r.1 == table[k.value := Settle(table[k.value], stripe.checkout, SessionOf(table[k.value], sessions).value.price)] &&
      r.0.value.booking == SerializeBooking(r.1[k.value], sessions, origin)
    ensures (req.Member? && var k := Locate(req, pk, table, sessions);
             k.None? || table[k.value].user != req.id) ==> r.0 == Refused(NotFound)
    ensures (req.Member? && var k := Locate(req, pk, table, sessions);
             k.Some? && table[k.value].user == req.id && !Present(sessionId)) ==> r.0 == Refused(SessionIdRequired)
    ensures (req.Member? && Present(sessionId) && StripeSecretKeyName !in config &&
             var k := Locate(req, pk, table, sessions);
             k.Some? && table[k.value].user == req.id) ==>
      r.0 == Refused(VerificationFailed(Attr(config, StripeSecretKeyName).error))
    ensures (req.Member? && stripe.Retrieved? && Present(sessionId) && StripeSecretKeyName in config &&
             var k := Locate(req, pk, table, sessions);
             k.Some? && table[k.value].user == req.id &&
             PyStr(stripe.checkout.clientReferenceId) != IntToString(table[k.value].id)) ==> r.0 == Refused(MismatchReply)
    ensures (req.Member? && stripe.Retrieved? && Present(sessionId) && StripeSecretKeyName in config &&
             var k := Locate(req, pk, table, sessions);
             k.Some? && table[k.value].user == req.id &&
             PyStr(stripe.checkout.clientReferenceId) == IntToString(table[k.value].id) &&
             stripe.checkout.paymentIntent.None?) ==> r.0 == Refused(VerificationFailed(nullIntentError))
  {
    if req.Anonymous? then (Refused(Denied(req)), table)
    else match Locate(req, pk, table, sessions)
      case None => (Refused(NotFound), table)
      case Some(k) =>
        var b := table[k];
        if b.user != req.id then (Refused(NotFound), table)
        else if !Present(sessionId) then (Refused(SessionIdRequired), table)
        else match Attr(config, StripeSecretKeyName)
          case Failure(e) => (Refused(VerificationFailed(e)), table)
          case Success(_) =>
            match stripe
            case StripeFailed(m) => (Refused(Reply(400, Detail("Stripe error: " + m))), table)
            case OtherFailed(m) => (Refused(VerificationFailed(m)), table)
            case Retrieved(c) =>
              if PyStr(c.clientReferenceId) != IntToString(b.id) then (Refused(MismatchReply), table)
              else if c.paymentIntent.None? then (Refused(VerificationFailed(nullIntentError)), table)
              else
                var settled := Settle(b, c, SessionOf(b, sessions).value.price);
                var t := table[k := settled];
                (Answered(200, Verified("Payment verified successfully.", SerializeBooking(settled, sessions, origin))), t)
  }

  /** The action as the repository configures it: the settings module never
      assigns `STRIPE_SECRET_KEY`. */
  function VerifyPaymentAsWritten(req: Requester, pk: int, sessionId: Option<string>, env: Env,
                                  stripe: StripeLookup, nullIntentError: string,
                                  table: seq<BookingRow>, sessions: seq<SessionRow>, origin: Option<string>)
    : (r: (Answer<Verified>, seq<BookingRow>))
    ensures r.1 == table
  {
    VerifyPayment(req, pk, sessionId, PaymentSettings(env), stripe, nullIntentError, table, sessions, origin)
  }

  /** As configured, no payment can be verified: a booking's owner who sends
      a `session_id` always gets the AttributeError's 400, whatever Stripe
      would have said, and the table never changes. */
  lemma VerifyAlwaysFailsAsWritten(req: Requester, pk: int, sessionId: Option<string>, env: Env,
                                   stripe: StripeLookup, nullIntentError: string,
                                   table: seq<BookingRow>, sessions: seq<SessionRow>, origin: Option<string>)
    ensures var r := VerifyPaymentAsWritten(req, pk, sessionId, env, stripe, nullIntentError, table, sessions, origin);
      && r.0.Refused? && r.1 == table
      && (req.Member? && Present(sessionId) &&
          var k := Locate(req, pk, table, sessions);
          k.Some? && table[k.value].user == req.id) ==>
         r.0.reply == VerificationFailed("'Settings' object has no attribute 'STRIPE_SECRET_KEY'")
  {
    var r := VerifyPaymentAsWritten(req, pk, sessionId, env, stripe, nullIntentError, table, sessions, origin);
    var config := PaymentSettings(env);
    assert Attr(config, StripeSecretKeyName).error == Attr(map[], StripeSecretKeyName).error;
    NoAttributeMessages();
  }

  /** A creator can never verify a payment: the bookings the listing query
      shows a creator are on their own sessions, which they cannot have
      booked themselves, and the action serves only a booking's own user. */
  lemma CreatorNeverVerifies(req: Requester, pk: int, sessionId: Option<string>, config: map<string, string>,
                             stripe: StripeLookup, nullIntentError: string, table: seq<BookingRow>, sessions: seq<SessionRow>, origin: Option<string>)
    requires req.Member? && req.role == CREATOR
    requires forall i :: 0 <= i < |table| && SessionOf(table[i], sessions).Some? ==>
      SessionOf(table[i], sessions).value.creator != table[i].user
    ensures VerifyPayment(req, pk, sessionId, config, stripe, nullIntentError, table, sessions, origin).0 == Refused(NotFound)
  {
  }

  /** Verification keeps the table's invariant: only the one row changes, and
      never its user or session. */
  lemma VerifyKeepsPairs(req: Requester, pk: int, sessionId: Option<string>, config: map<string, string>,
                         stripe: StripeLookup, nullIntentError: string, table: seq<BookingRow>, sessions: seq<SessionRow>, origin: Option<string>)
    requires UniquePairs(table)
    ensures UniquePairs(VerifyPayment(req, pk, sessionId, config, stripe, nullIntentError, table, sessions, origin).1)
  {
    var r := VerifyPayment(req, pk, sessionId, config, stripe, nullIntentError, table, sessions, origin);
    if r.0.Answered? {
      var k := Locate(req, pk, table, sessions).value;
      assert |r.1| == |table|;
      assert forall i :: 0 <= i < |table| ==> r.1[i].user == table[i].user && r.1[i].session == table[i].session;
    }
  }
}

=== FILE: calendar.dfy ===
/** The two month calendars (`SessionCalendar.tsx` for users,
    `CreatorSessionCalendar.tsx` for creators): turning bookings and sessions
    into events, the events of one day, moving between months, the month grid,
    and the "+N more" pills.

    A timestamp's local calendar date (JavaScript's `getDate`, `getMonth`,
    `getFullYear` in the browser's time zone) is an oracle `local`. Dates
    built from a year and a month follow the proleptic Gregorian calendar of
    section 21.4.1 of ECMA-262, including its rule that a year argument of
    0..99 means 1900..1999 (MakeFullYear in section 21.4.2.1). */
module Calendar {

  import opened Wrappers
  import opened Strings
  import opened Domain
  import opened Sorting
  import opened BookingFlow

  /** A month as `getMonth` reports it: 0 is January. */
  type Month = m: int | 0 <= m < 12

  /** A local calendar date. */
  datatype Ymd = Ymd(year: int, month: Month, day: int)

  // ---- moving between months ----

  /** The year `new Date(y, m, d)` uses: 0..99 read as 1900..1999. */
  function FullYear(y: int): int {
    if 0 <= y <= 99 then 1900 + y else y
  }

  /** The year and month of `new Date(y, m, 1)`: a month outside 0..11 carries into the year. */
  function MakeMonth(y: int, m: int): (r: (int, Month))
    ensures r.0 * 12 + r.1 == FullYear(y) * 12 + m
  {
    (FullYear(y) + m / 12, m % 12)
  }

  /** `goToPreviousMonth`: `new Date(year, month - 1, 1)`. */
  function PreviousMonth(year: int, month: Month): (int, Month) {
    MakeMonth(year, month - 1)
  }

  /** `goToNextMonth`: `new Date(year, month + 1, 1)`. */
  function NextMonth(year: int, month: Month): (int, Month) {
    MakeMonth(year, month + 1)
  }

  /** Outside the two-digit years each button moves exactly one month,
      wrapping between December and January across the year boundary. */
  lemma NavigationSteps(year: int, month: Month)
    requires !(0 <= year <= 99)
    ensures var p := PreviousMonth(year, month); p.0 * 12 + p.1 == year * 12 + month - 1
    ensures var n := NextMonth(year, month); n.0 * 12 + n.1 == year * 12 + month + 1
    ensures month == 0 ==> PreviousMonth(year, month) == (year - 1, 11)
    ensures month > 0 ==> PreviousMonth(year, month) == (year, month - 1)
    ensures month == 11 ==> NextMonth(year, month) == (year + 1, 0)
    ensures month < 11 ==> NextMonth(year, month) == (year, month + 1)
  {
  }

  /** Next undoes previous and previous undoes next (away from the two-digit years). */
  lemma NavigationInverse(year: int, month: Month)
    requires year >= 101 || year <= -2
    ensures var p := PreviousMonth(year, month); NextMonth(p.0, p.1) == (year, month)
    ensures var n := NextMonth(year, month); PreviousMonth(n.0, n.1) == (year, month)
  {
    NavigationSteps(year, month);
    var p := PreviousMonth(year, month);
    NavigationSteps(p.0, p.1);
    var n := NextMonth(year, month);
    NavigationSteps(n.0, n.1);
  }

  /** Going back from January of year 100 shows December 99, and going
      forward from there jumps to January 2000. */
  lemma TwoDigitYearJump()
    ensures PreviousMonth(100, 0) == (99, 11)
    ensures NextMonth(99, 11) == (2000, 0)
  {
  }

  // ---- month lengths and weekdays ----

  predicate IsLeap(y: int) {
    y % 4 == 0 && (y % 100 != 0 || y % 400 == 0)
  }

  function MonthLength(y: int, m: Month): (n: int)
    ensures 28 <= n <= 31
    ensures n == 29 <==> m == 1 && IsLeap(y)
    ensures n == 28 <==> m == 1 && !IsLeap(y)
  {
    if m == 1 then (if IsLeap(y) then 29 else 28)
    else if m == 3 || m == 5 || m == 8 || m == 10 then 30
    else 31
  }

  /** `daysInMonth`: `new Date(year, month + 1, 0).getDate()`, the last day of the shown month. */
  function DaysInMonth(year: int, month: Month): (n: int)
    ensures 28 <= n <= 31
  {
    MonthLength(FullYear(year), month)
  }

  function YearLength(y: int): int {
    if IsLeap(y) then 366 else 365
  }

  /** Days of year `y` before the first of month `m`. */
  function DaysBeforeMonth(y: int, m: Month): (n: nat)
    decreases m
  {
    if m == 0 then 0 else DaysBeforeMonth(y, m - 1) + MonthLength(y, m - 1)
  }

  /** The twelve months make up the year. */
  lemma MonthsFillYear(y: int)
    ensures DaysBeforeMonth(y, 11) + MonthLength(y, 11) == YearLength(y)
  {
  }

  /** Days from 1 January of year 1 to 1 January of year `y`. */
  function DaysBeforeYear(y: int): int {
    365 * (y - 1) + (y - 1) / 4 - (y - 1) / 100 + (y - 1) / 400
  }

  lemma FloorStep(y: int, k: int)
    requires k == 4 || k == 100 || k == 400
    ensures y / k - (y - 1) / k == if y % k == 0 then 1 else 0
  {
    var q := (y - 1) / k;
    var r := (y - 1) % k;
    assert y - 1 == k * q + r && 0 <= r < k;
    if r == k - 1 {
      assert y == k * (q + 1);
      DivOf(y, k, q + 1, 0);
    } else {
      DivOf(y, k, q, r + 1);
    }
  }

  lemma DivOf(y: int, k: int, q: int, r: int)
    requires k == 4 || k == 100 || k == 400
    requires y == k * q + r && 0 <= r < k
    ensures y / k == q && y % k == r
  {
  }

  lemma YearStep(y: int)
    ensures DaysBeforeYear(y + 1) == DaysBeforeYear(y) + YearLength(y)
  {
    FloorStep(y, 4);
    FloorStep(y, 100);
    FloorStep(y, 400);
  }

  /** Days from 1 January of year 1 to the given date. */
  function DayNumber(y: int, m: Month, d: int): int {
    DaysBeforeYear(y) + DaysBeforeMonth(y, m) + (d - 1)
  }

  /** `getDay()`: 0 is Sunday; 1 January of year 1 was a Monday. */
  function Weekday(y: int, m: Month, d: int): (w: int)
    ensures 0 <= w < 7
  {
    (DayNumber(y, m, d) + 1) % 7
  }

  /** 1 January 1970 was a Thursday and 1 January 2000 a Saturday. */
  lemma WeekdayAnchors()
    ensures Weekday(1970, 0, 1) == 4
    ensures Weekday(2000, 0, 1) == 6
  {
  }

  /** `startingDayOfWeek`: `new Date(year, month, 1).getDay()`. */
  function StartingDayOfWeek(year: int, month: Month): (w: int)
    ensures 0 <= w < 7
  {
    Weekday(FullYear(year), month, 1)
  }

  /** The first of the next month follows the last day of this one. */
  lemma NextMonthFollows(y: int, m: Month)
    ensures var next := if m == 11 then DayNumber(y + 1, 0, 1) else DayNumber(y, m + 1, 1);
      next == DayNumber(y, m, 1) + MonthLength(y, m)
  {
    if m == 11 {
      YearStep(y);
      MonthsFillYear(y);
    }
  }

  lemma ModShift(a: int, n: int)
    ensures (a + n) % 7 == (a % 7 + n) % 7
  {
  }

  /** The next month's grid starts on the weekday after this month's last day. */
  lemma NextMonthStartingDay(year: int, month: Month)
    requires year >= 100 || year <= -2
    ensures var n := NextMonth(year, month);
      StartingDayOfWeek(n.0, n.1) == (StartingDayOfWeek(year, month) + DaysInMonth(year, month)) % 7
  {
    NavigationSteps(year, month);
    NextMonthFollows(year, month);
    ModShift(DayNumber(year, month, 1) + 1, DaysInMonth(year, month));
  }

  /** The month grid: `startingDayOfWeek` empty cells, then the days 1..daysInMonth. */
  function Grid(year: int, month: Month): (cells: seq<Option<int>>)
    ensures |cells| == StartingDayOfWeek(year, month) + DaysInMonth(year, month)
  {
    var start := StartingDayOfWeek(year, month);
    seq(start, _ => None) + seq(DaysInMonth(year, month), i => Some(i + 1))
  }

  /** Day `d` sits in the grid column of its weekday. */
  lemma GridColumns(year: int, month: Month, d: int)
    requires 1 <= d <= DaysInMonth(year, month)
    ensures var i := StartingDayOfWeek(year, month) + d - 1;
      && 0 <= i < |Grid(year, month)|
      && Grid(year, month)[i] == Some(d)
      && i % 7 == Weekday(FullYear(year), month, d)
  {
    var start := StartingDayOfWeek(year, month);
    ModShift(DayNumber(FullYear(year), month, 1) + 1, d - 1);
  }

  // ---- the events of one day ----

  /** Local date of a timestamp, as the browser computes it. */
  type LocalDate = int -> Ymd

  function OnDay<E>(start: E -> int, local: LocalDate, date: Ymd): E -> bool {
    (e: E) => local(start(e)) == date
  }

  /** `getEventsForDay(day)`: the events whose local day, month and year are
      the given ones, in event order. */
  function EventsForDay<E>(events: seq<E>, start: E -> int, local: LocalDate, year: int, month: Month, day: int): (r: seq<E>)
    ensures forall i :: 0 <= i < |r| ==> local(start(r[i])) == Ymd(year, month, day)
    ensures forall e :: e in events && local(start(e)) == Ymd(year, month, day) ==> e in r
    ensures multiset(r) <= multiset(events)
  {
    var r := Filter(events, OnDay(start, local, Ymd(year, month, day)));
    FilterFacts(events, OnDay(start, local, Ymd(year, month, day)));
    assert forall i :: 0 <= i < |r| ==> OnDay(start, local, Ymd(year, month, day))(r[i]);
    r
  }

  /** The events of two different days never overlap. */
  lemma DaysAreDisjoint<E>(events: seq<E>, start: E -> int, local: LocalDate, year: int, month: Month, d1: int, d2: int)
    requires d1 != d2
    ensures forall e :: e in EventsForDay(events, start, local, year, month, d1) ==>
      e !in EventsForDay(events, start, local, year, month, d2)
  {
    var a := EventsForDay(events, start, local, year, month, d1);
    var b := EventsForDay(events, start, local, year, month, d2);
    forall e | e in a ensures e !in b {
      var i :| 0 <= i < |a| && a[i] == e;
      assert local(start(e)) == Ymd(year, month, d1);
    }
  }

  // ---- pills ----

  /** `dayEvents.slice(0, 2)`: the pills shown in a day cell. */
  function Pills<E>(dayEvents: seq<E>): (r: seq<E>)
    ensures |r| <= 2 && |r| <= |dayEvents| && r == dayEvents[..|r|]
    ensures |r| == 2 || |r| == |dayEvents|
  {
    if |dayEvents| <= 2 then dayEvents else dayEvents[..2]
  }

  /** The "+N more" line under the pills, when there are more than two events. */
  function MoreLabel(count: nat): (r: Option<string>)
    ensures r.Some? <==> count > 2
  {
    if count > 2 then Some("+" + IntToString(count - 2) + " more") else None
  }

  /** The pills and the "+N more" count account for every event of the day, none twice. */
  lemma PillsAccountForAll<E>(dayEvents: seq<E>)
    ensures var more := MoreLabel(|dayEvents|);
      && |Pills(dayEvents)| + (if more.Some? then |dayEvents| - 2 else 0) == |dayEvents|
      && (more.Some? ==> more.value == "+" + IntToString(|dayEvents| - |Pills(dayEvents)|) + " more")
  {
  }

  // ---- the user's calendar ----

  datatype EventKind = Booked(status: BookingStatus) | Available

  datatype CalendarEvent = CalendarEvent(
    id: int,
    title: string,
    startTime: int,
    price: string,
    duration: string,
    kind: EventKind,
    sessionId: int,
    image: string)

  function StartOfEvent(e: CalendarEvent): int {
    e.startTime
  }

  /** The event for a booking whose session `s` came expanded: it carries the booking's id and status. */
  function BookedEvent(b: Booking, s: Session): CalendarEvent {
    CalendarEvent(b.id, s.title, s.startTime, s.price, s.duration, Booked(b.status), s.id, EventImage(s))
  }

  /** `e` is the booked event of `b`. */
  predicate EventOfBooking(b: Booking, e: CalendarEvent) {
    b.session.Expanded? && e == BookedEvent(b, b.session.session)
  }

  /** The event for a session the user has not booked. */
  function AvailableEvent(s: Session): CalendarEvent {
    CalendarEvent(s.id, s.title, s.startTime, s.price, s.duration, Available, s.id, EventImage(s))
  }

  predicate HasSession(b: Booking) {
    b.session.Expanded?
  }

  /** The first loop: one booked event per booking with an expanded session, in order. */
  function BookedEvents(bookings: seq<Booking>): (r: seq<CalendarEvent>)
    ensures forall i :: 0 <= i < |r| ==> r[i].kind.Booked?
    ensures |r| <= |bookings|
  {
    if |bookings| == 0 then []
    else if HasSession(bookings[0]) then [BookedEvent(bookings[0], bookings[0].session.session)] + BookedEvents(bookings[1..])
    else BookedEvents(bookings[1..])
  }

  /** Every booking with an expanded session gets its event. */
  lemma {:induction false} BookedEventsCover(bookings: seq<Booking>)
    ensures forall b :: b in bookings && HasSession(b) ==> BookedEvent(b, b.session.session) in BookedEvents(bookings)
  {
    if |bookings| > 0 {
      BookedEventsCover(bookings[1..]);
      forall b | b in bookings && HasSession(b)
        ensures BookedEvent(b, b.session.session) in BookedEvents(bookings)
      {
        if b != bookings[0] {
          assert b in bookings[1..];
        } else {
          assert BookedEvents(bookings)[0] == BookedEvent(b, b.session.session);
        }
      }
    }
  }

  /** `e` is the booked event of one of `bookings`. */
  predicate FromBooking(bookings: seq<Booking>, e: CalendarEvent) {
    exists b :: b in bookings && EventOfBooking(b, e)
  }

  /** Every booked event comes from one of the bookings. */
  lemma {:induction false} BookedEventsFrom(bookings: seq<Booking>)
    ensures forall i :: 0 <= i < |BookedEvents(bookings)| ==> FromBooking(bookings, BookedEvents(bookings)[i])
  {
    if |bookings| > 0 {
      BookedEventsFrom(bookings[1..]);
      var r := BookedEvents(bookings);
      var rest := BookedEvents(bookings[1..]);
      var b0 := bookings[0];
      forall i | 0 <= i < |r| ensures FromBooking(bookings, r[i]) {
        if HasSession(b0) && i == 0 {
          assert EventOfBooking(b0, r[0]);
        } else {
          var j := if HasSession(b0) then i - 1 else i;
          assert r[i] == rest[j];
          assert FromBooking(bookings[1..], rest[j]);
          var b :| b in bookings[1..] && EventOfBooking(b, rest[j]);
          assert b in bookings;
        }
      }
    }
  }

  function HasSessionF(): Booking -> bool {
    (b: Booking) => HasSession(b)
  }

  /** Exactly one booked event per booking that has its session. */
  lemma {:induction false} BookedEventsCount(bookings: seq<Booking>)
    ensures |BookedEvents(bookings)| == |Filter(bookings, HasSessionF())|
  {
    if |bookings| > 0 {
      BookedEventsCount(bookings[1..]);
    }
  }

  /** `bookedSessionIds`: the session of every booking, expanded or not. */
  function BookedIds(bookings: seq<Booking>): set<int> {
    set b | b in bookings :: RefId(b.session)
  }

  /** The second loop: an available event for each session no booking refers to, in order. */
  function AvailableEvents(sessions: seq<Session>, booked: set<int>): (r: seq<CalendarEvent>)
    ensures forall i :: 0 <= i < |r| ==> r[i].kind.Available? && r[i].sessionId !in booked
    ensures |r| <= |sessions|
  {
    if |sessions| == 0 then []
    else if sessions[0].id !in booked then [AvailableEvent(sessions[0])] + AvailableEvents(sessions[1..], booked)
    else AvailableEvents(sessions[1..], booked)
  }

  /** Every session nobody booked gets its available event. */
  lemma {:induction false} AvailableEventsCover(sessions: seq<Session>, booked: set<int>)
    ensures forall s :: s in sessions && s.id !in booked ==> AvailableEvent(s) in AvailableEvents(sessions, booked)
  {
    if |sessions| > 0 {
      AvailableEventsCover(sessions[1..], booked);
      forall s | s in sessions && s.id !in booked
        ensures AvailableEvent(s) in AvailableEvents(sessions, booked)
      {
        if s != sessions[0] {
          assert s in sessions[1..];
        } else {
          assert AvailableEvents(sessions, booked)[0] == AvailableEvent(s);
        }
      }
    }
  }

  /** `e` is the available event of a session of `sessions` outside `booked`. */
  predicate FromSession(sessions: seq<Session>, booked: set<int>, e: CalendarEvent) {
    exists s :: s in sessions && s.id !in booked && e == AvailableEvent(s)
  }

  /** Every available event comes from an unbooked session. */
  lemma {:induction false} AvailableEventsFrom(sessions: seq<Session>, booked: set<int>)
    ensures forall i :: 0 <= i < |AvailableEvents(sessions, booked)| ==>
      FromSession(sessions, booked, AvailableEvents(sessions, booked)[i])
  {
    if |sessions| > 0 {
      AvailableEventsFrom(sessions[1..], booked);
      var r := AvailableEvents(sessions, booked);
      var rest := AvailableEvents(sessions[1..], booked);
      var s0 := sessions[0];
      forall i | 0 <= i < |r| ensures FromSession(sessions, booked, r[i]) {
        if s0.id !in booked && i == 0 {
          assert r[0] == AvailableEvent(s0);
        } else {
          var j := if s0.id !in booked then i - 1 else i;
          assert r[i] == rest[j];
          assert FromSession(sessions[1..], booked, rest[j]);
          var s :| s in sessions[1..] && s.id !in booked && rest[j] == AvailableEvent(s);
          assert s in sessions;
        }
      }
    }
  }

  /** `events`: the booked events, then the available ones. */
  function Events(bookings: seq<Booking>, sessions: seq<Session>): (r: seq<CalendarEvent>)
    ensures forall i, j :: 0 <= i < j < |r| && r[i].kind.Available? ==> r[j].kind.Available?
    ensures forall i :: 0 <= i < |r| && r[i].kind.Booked? ==> r[i].sessionId in BookedIds(bookings)
    ensures forall i :: 0 <= i < |r| && r[i].kind.Available? ==> r[i].sessionId !in BookedIds(bookings)
    ensures forall s :: s in sessions ==> s.id in BookedIds(bookings) || AvailableEvent(s) in r
  {
    var booked := BookedEvents(bookings);
    var available := AvailableEvents(sessions, BookedIds(bookings));
    BookedEventsFrom(bookings);
    AvailableEventsCover(sessions, BookedIds(bookings));
    forall i | 0 <= i < |booked| ensures booked[i].sessionId in BookedIds(bookings) {
      assert FromBooking(bookings, booked[i]);
      var b :| b in bookings && EventOfBooking(b, booked[i]);
      assert RefId(b.session) == booked[i].sessionId;
    }
    booked + available
  }

  /** No session shows up both as booked and as available. */
  lemma NoSessionBothWays(bookings: seq<Booking>, sessions: seq<Session>)
    ensures var r := Events(bookings, sessions);
      forall i, j :: 0 <= i < |r| && 0 <= j < |r| && r[i].kind.Booked? && r[j].kind.Available? ==>
        r[i].sessionId != r[j].sessionId
  {
  }

  // ---- the creator's calendar ----

  datatype CreatorEvent = CreatorEvent(
    id: int,
    title: string,
    startTime: int,
    price: string,
    duration: string,
    description: string,
    image: string,
    bookingCount: Option<int>)

  function StartOfCreatorEvent(e: CreatorEvent): int {
    e.startTime
  }

  function CreatorEventOf(s: Session): CreatorEvent {
    CreatorEvent(s.id, s.title, s.startTime, s.price, s.duration, s.description, EventImage(s), None)
  }

  /** `events` of the creator's calendar: one per session, in the same order,
      and none of them carries a booking count. */
  function CreatorEvents(sessions: seq<Session>): (r: seq<CreatorEvent>)
    ensures |r| == |sessions|
    ensures forall i :: 0 <= i < |r| ==> r[i].id == sessions[i].id && r[i].startTime == sessions[i].startTime
    ensures forall i :: 0 <= i < |r| ==> r[i].bookingCount.None?
  {
    seq(|sessions|, i requires 0 <= i < |sessions| => CreatorEventOf(sessions[i]))
  }

  /** Every session's event is listed under its own local day. */
  lemma SessionOnItsDay(sessions: seq<Session>, local: LocalDate, i: int)
    requires 0 <= i < |sessions|
    ensures var d := local(sessions[i].startTime);
      CreatorEvents(sessions)[i] in EventsForDay(CreatorEvents(sessions), StartOfCreatorEvent, local, d.year, d.month, d.day)
  {
    var r := CreatorEvents(sessions);
    assert r[i] in r;
  }

  /** `isPast(event)`: the start lies strictly before now. */
  predicate IsPast(startTime: int, now: int) {
    startTime < now
  }

  /** A session the explore page lists as upcoming is never drawn as past,
      and one starting exactly now is neither. */
  lemma PastAndUpcoming(sessions: seq<Session>, now: int)
    ensures forall s :: s in Upcoming(sessions, now) ==> !IsPast(s.startTime, now)
    ensures forall s :: s in sessions && s.startTime == now ==> !IsPast(s.startTime, now) && s !in Upcoming(sessions, now)
  {
  }

  /** "<n> Booking" or "<n> Bookings": the singular only for exactly one. */
  function BookingLabel(count: int): (r: string)
    ensures EndsWith(r, "Bookings") <==> count != 1
    ensures StartsWith(r, IntToString(count) + " Booking")
  {
    var head := IntToString(count) + " Booking";
    var r := head + (if count != 1 then "s" else "");
    assert r[..|head|] == head;
    if count != 1 then
      assert r[|r| - 8..] == "Bookings";
      r
    else
      assert r[|r| - 1] == 'g';
      r
  }
}

=== FILE: dashboards.dfy ===
/** The two dashboards: the creator's (`CreatorDashboardPage.tsx`) lists the
    creator's own sessions and creates new ones, uploading an image file
    afterwards when one was chosen; the user's (`UserDashboardPage.tsx`)
    splits the user's bookings into upcoming and past ones.

    The requests are oracles, given as what each one returned or threw;
    "now" is a parameter. */
module Dashboards {

  import opened Wrappers
  import opened Strings
  import opened Js
  import opened Domain
  import opened Sorting
  import opened JsNumber
  import opened BookingFlow
  import opened Durations

  // ---- the creator dashboard ----

  /** `s.creator === user?.id`: the signed-in user created `s`; with no user
      signed in nothing matches. */
  predicate Owns(user: Option<User>, s: Session) {
    user.Some? && s.creator == user.value.id
  }

  function OwnedBy(user: Option<User>): Session -> bool {
    (s: Session) => Owns(user, s)
  }

  /** `mySessions`: the signed-in creator's sessions, in list order. */
  function MySessions(sessions: seq<Session>, user: Option<User>): (r: seq<Session>)
    ensures forall i :: 0 <= i < |r| ==> Owns(user, r[i])
    ensures forall s :: s in sessions && Owns(user, s) ==> s in r
    ensures multiset(r) <= multiset(sessions)
    ensures user.None? ==> r == []
  {
    var r := Filter(sessions, OwnedBy(user));
    FilterFacts(sessions, OwnedBy(user));
    assert forall i :: 0 <= i < |r| ==> Owns(user, r[i]) by {
      forall i | 0 <= i < |r| ensures Owns(user, r[i]) {
        assert OwnedBy(user)(r[i]);
      }
    }
    assert |r| > 0 ==> Owns(user, r[0]);
    r
  }

  /** Order is kept: the creator's sessions of a joined list are those of
      each part, one after the other. */
  lemma MySessionsInOrder(a: seq<Session>, b: seq<Session>, user: Option<User>)
    ensures MySessions(a + b, user) == MySessions(a, user) + MySessions(b, user)
  {
    FilterAppend(a, b, OwnedBy(user));
  }

  /** The session form's fields (`imageFile` is the chosen file's name). */
  datatype CreatorForm = CreatorForm(
    title: string,
    description: string,
    price: string,
    image: string,
    imageFile: Option<string>,
    startTime: string,
    durationMinutes: int)

  /** The form as the page opens: a price of 499.00 and an hour. */
  const InitialForm := CreatorForm("", "", "499.00", "", None, "", 60)

  datatype CreatorPage = CreatorPage(sessions: seq<Session>, form: CreatorForm, notice: Option<string>, error: Option<string>)

  /** The requests `createSession` sends. */
  datatype CreatorCall = PostSession(payload: Json) | PostImage(sessionId: int, file: string)

  /** Choosing a file in the file input: the file is kept and a typed image URL is cleared. */
  function ChooseFile(form: CreatorForm, file: string): (r: CreatorForm)
    ensures r.imageFile == Some(file) && r.image == ""
    ensures r.(imageFile := form.imageFile, image := form.image) == form
  {
    form.(imageFile := Some(file), image := "")
  }

  /** The body of the create request; `startIso` is the start time as an ISO string. */
  function SessionPayload(form: CreatorForm, startIso: string): Json {
    JObj([("title", JStr(form.title)), ("description", JStr(form.description)),
          ("price", JStr(form.price)), ("image", JStr(form.image)),
          ("start_time", JStr(startIso)), ("duration", JStr(MinutesToDuration(form.durationMinutes)))])
  }

  /** `prev.map((s) => (s.id === id ? updated : s))`. */
  function ReplaceById(sessions: seq<Session>, id: int, updated: Session): (r: seq<Session>)
    ensures |r| == |sessions|
    ensures forall i :: 0 <= i < |r| ==> r[i] == if sessions[i].id == id then updated else sessions[i]
  {
    seq(|sessions|, i requires 0 <= i < |sessions| => if sessions[i].id == id then updated else sessions[i])
  }

  /** What a successful create clears: title, description, image URL and file. */
  function ResetForm(form: CreatorForm): CreatorForm {
    form.(title := "", description := "", image := "", imageFile := None)
  }

  /** `createSession`. `startIso` is `new Date(startTime).toISOString()`
      (which throws for a start time it cannot read), `created` the create
      request and `upload` the image upload, consulted only when it is sent. */
  function CreateSession(page: CreatorPage, startIso: Step<string>, created: Step<Session>, upload: Step<Session>): (r: (CreatorPage, seq<CreatorCall>))
    // no start time: an error and no request
    ensures page.form.startTime == "" ==>
      r == (page.(notice := None, error := Some("Start time is required")), [])
    // any failure before the session exists: the list and the form stay as they were
    ensures r.0.error.Some? ==> r.0.sessions == page.sessions && r.0.form == page.form && r.0.notice.None?
    ensures r.0.error.None? <==> page.form.startTime != "" && startIso.Returned? && created.Returned?
    ensures startIso.Threw? && page.form.startTime != "" ==> r.1 == []
    ensures page.form.startTime != "" && startIso.Returned? ==>
      1 <= |r.1| && r.1[0] == PostSession(SessionPayload(page.form, startIso.value))
    ensures created.Threw? && page.form.startTime != "" && startIso.Returned? ==>
      r.0.error == Some(CaughtMessage(created.message, "Create failed")) && |r.1| == 1
    // the session exists: it is listed first, the form is reset and the upload is tried when due
    ensures r.0.error.None? ==>
      var c := created.value;
      var uploads := page.form.imageFile.Some? && c.id != 0;
      && r.0.form == ResetForm(page.form)
      && (uploads <==> |r.1| == 2)
      && (uploads ==> r.1[1] == PostImage(c.id, page.form.imageFile.value))
      && (!uploads ==> r.0.sessions == [c] + page.sessions && r.0.notice == Some("Session created."))
      && (uploads && upload.Returned? ==>
            r.0.sessions == ReplaceById([c] + page.sessions, c.id, upload.value)
            && r.0.notice == Some("Session created and image uploaded."))
      && (uploads && upload.Threw? ==>
            r.0.sessions == [c] + page.sessions
            && r.0.notice == Some("Session created, but image upload failed: " + CaughtMessage(upload.message, "Image upload failed")))
  {
    var cleared := page.(notice := None, error := None);
    if page.form.startTime == "" then (cleared.(error := Some("Start time is required")), [])
    else match startIso
      case Threw(m) => (cleared.(error := Some(CaughtMessage(m, "Create failed"))), [])
      case Returned(iso) =>
        var post := PostSession(SessionPayload(page.form, iso));
        match created
        case Threw(m) => (cleared.(error := Some(CaughtMessage(m, "Create failed"))), [post])
        case Returned(c) =>
          var listed := [c] + page.sessions;
          var form := ResetForm(page.form);
          if page.form.imageFile.Some? && c.id != 0 then
            var calls := [post, PostImage(c.id, page.form.imageFile.value)];
            match upload
            case Returned(u) =>
              (cleared.(sessions := ReplaceById(listed, c.id, u), form := form,
                        notice := Some("Session created and image uploaded.")), calls)
            case Threw(m) =>
              (cleared.(sessions := listed, form := form,
                        notice := Some("Session created, but image upload failed: " + CaughtMessage(m, "Image upload failed"))), calls)
          else
            (cleared.(sessions := listed, form := form, notice := Some("Session created.")), [post])
  }

  /** A reset keeps what the next session most likely shares: price, duration and start time. */
  lemma ResetKeepsSchedule(form: CreatorForm)
    ensures var r := ResetForm(form);
      && r.price == form.price && r.durationMinutes == form.durationMinutes && r.startTime == form.startTime
      && r.title == "" && r.description == "" && r.image == "" && r.imageFile.None?
  {
  }

  /** A created session of the signed-in creator heads their list, whether or
      not an upload followed; a failed upload leaves the rest of the list alone. */
  lemma CreatedSessionHeadsMySessions(page: CreatorPage, iso: string, c: Session, upload: Step<Session>, user: User)
    requires page.form.startTime != "" && c.creator == user.id
    requires !(page.form.imageFile.Some? && c.id != 0) || upload.Threw?
    ensures var r := CreateSession(page, Returned(iso), Returned(c), upload).0;
      MySessions(r.sessions, Some(user)) == [c] + MySessions(page.sessions, Some(user))
  {
    var r := CreateSession(page, Returned(iso), Returned(c), upload).0;
    assert r.sessions == [c] + page.sessions;
    MySessionsInOrder([c], page.sessions, Some(user));
    assert MySessions([c], Some(user)) == [c] by {
      assert [c][1..] == [];
    }
  }

  /** The duration the create request carries reads back as the minutes typed in. */
  lemma PayloadDurationRoundTrip(form: CreatorForm, iso: string)
    requires form.durationMinutes >= 0
    ensures Get(SessionPayload(form, iso), "duration").Some?
    ensures var d := Get(SessionPayload(form, iso), "duration").value;
      && d.JStr?
      && var parts := Split(d.s, ':');
         |parts| == 3 && AllDigits(parts[0]) && AllDigits(parts[1])
         && DigitsValue(parts[0]) * 60 + DigitsValue(parts[1]) == form.durationMinutes
  {
    var p := SessionPayload(form, iso);
    LookupAt(p.entries, "duration", 5);
    MinutesRoundTrip(form.durationMinutes);
  }

  // ---- the user dashboard ----

  /** An upcoming booking: its session is expanded and starts after `now`. */
  predicate IsActive(now: int, b: Booking) {
    b.session.Expanded? && b.session.session.startTime > now
  }

  function ActiveAt(now: int): Booking -> bool {
    (b: Booking) => IsActive(now, b)
  }

  function PastAt(now: int): Booking -> bool {
    (b: Booking) => !IsActive(now, b)
  }

  lemma PartitionStep(prefix: seq<Booking>, b: Booking, now: int)
    ensures Filter(prefix + [b], ActiveAt(now)) == Filter(prefix, ActiveAt(now)) + (if IsActive(now, b) then [b] else [])
    ensures Filter(prefix + [b], PastAt(now)) == Filter(prefix, PastAt(now)) + (if IsActive(now, b) then [] else [b])
  {
    FilterAppend(prefix, [b], ActiveAt(now));
    FilterAppend(prefix, [b], PastAt(now));
    FilterSingleton(b, ActiveAt(now));
    FilterSingleton(b, PastAt(now));
  }

  /** The `forEach` that fills `activeBookings` and `pastBookings`: the two
      lists partition the bookings, each in the original order. */
  method PartitionBookings(bookings: seq<Booking>, now: int) returns (active: seq<Booking>, past: seq<Booking>)
    ensures active == Filter(bookings, ActiveAt(now))
    ensures past == Filter(bookings, PastAt(now))
    ensures forall i :: 0 <= i < |active| ==> IsActive(now, active[i])
    ensures forall i :: 0 <= i < |past| ==> !IsActive(now, past[i])
    ensures |active| + |past| == |bookings|
    ensures multiset(active) + multiset(past) == multiset(bookings)
  {
    active := [];
    past := [];
    var i := 0;
    while i < |bookings|
      invariant 0 <= i <= |bookings|
      invariant active == Filter(bookings[..i], ActiveAt(now))
      invariant past == Filter(bookings[..i], PastAt(now))
    {
      var b := bookings[i];
      PartitionStep(bookings[..i], b, now);
      TakeNext(bookings, i);
      if IsActive(now, b) {
        active := active + [b];
      } else {
        past := past + [b];
      }
      i := i + 1;
    }
    assert bookings[..i] == bookings;
    PartitionCount(bookings, now);
    PartitionMultiset(bookings, now);
    FilterFacts(bookings, ActiveAt(now));
    FilterFacts(bookings, PastAt(now));
  }

  const ProgressTotal := 14

  /** `progressDay`: the number of bookings, capped at 14. */
  function ProgressDay(active: seq<Booking>, past: seq<Booking>): (r: nat)
    ensures r <= ProgressTotal
    ensures r == ProgressTotal <==> |active| + |past| >= ProgressTotal
    ensures r < ProgressTotal ==> r == |active| + |past|
  {
    if |active| + |past| < ProgressTotal then |active| + |past| else ProgressTotal
  }

  /** Each booking lands in exactly one of the two lists. */
  lemma PartitionCount(bookings: seq<Booking>, now: int)
    ensures |Filter(bookings, ActiveAt(now))| + |Filter(bookings, PastAt(now))| == |bookings|
  {
    FilterPartition(bookings, ActiveAt(now), PastAt(now));
  }

  /** Each booking lands in exactly one of the two lists, as often as it occurs. */
  lemma {:induction false} PartitionMultiset(bookings: seq<Booking>, now: int)
    ensures multiset(Filter(bookings, ActiveAt(now))) + multiset(Filter(bookings, PastAt(now))) == multiset(bookings)
  {
    if |bookings| > 0 {
      var b := bookings[0];
      var rest := bookings[1..];
      PartitionMultiset(rest, now);
      assert multiset(bookings) == multiset{b} + multiset(rest) by {
        assert bookings == [b] + rest;
      }
      if IsActive(now, b) {
        assert Filter(bookings, ActiveAt(now)) == [b] + Filter(rest, ActiveAt(now));
        assert Filter(bookings, PastAt(now)) == Filter(rest, PastAt(now));
      } else {
        assert Filter(bookings, ActiveAt(now)) == Filter(rest, ActiveAt(now));
        assert Filter(bookings, PastAt(now)) == [b] + Filter(rest, PastAt(now));
      }
    }
  }

  /** Progress counts every booking, upcoming or past, up to the cap. */
  lemma ProgressCountsAllBookings(bookings: seq<Booking>, now: int)
    ensures var p := ProgressDay(Filter(bookings, ActiveAt(now)), Filter(bookings, PastAt(now)));
      p == if |bookings| < ProgressTotal then |bookings| else ProgressTotal
  {
    PartitionCount(bookings, now);
  }

  /** `formatSessionTitle`: the title of an expanded session, "Session #<id>" otherwise. */
  function FormatSessionTitle(b: Booking): (r: string)
    ensures b.session.Expanded? ==> r == b.session.session.title
    ensures b.session.SessionId? ==> StartsWith(r, "Session #") && ToNumber(r[9..]) == Int(b.session.id)
  {
    match b.session
    case Expanded(s) => s.title
    case SessionId(id) =>
      var r := "Session #" + IntToString(id);
      assert r[9..] == IntToString(id);
      ToNumberOfIntToString(id);
      r
  }

  /** `getSessionStartTime`: the start of an expanded session, null otherwise. */
  function SessionStartTime(b: Booking): (r: Option<int>)
    ensures r.None? <==> b.session.SessionId?
    ensures r.Some? ==> r.value == b.session.session.startTime
  {
    match b.session
    case Expanded(s) => Some(s.startTime)
    case SessionId(_) => None
  }

  /** Every upcoming booking shows a start time, and it lies after `now`. */
  lemma ActiveBookingsHaveStartTimes(bookings: seq<Booking>, now: int)
    ensures forall b :: b in Filter(bookings, ActiveAt(now)) ==>
      SessionStartTime(b).Some? && SessionStartTime(b).value > now
  {
    var a := Filter(bookings, ActiveAt(now));
    FilterFacts(bookings, ActiveAt(now));
    forall b | b in a ensures SessionStartTime(b).Some? && SessionStartTime(b).value > now {
      var i :| 0 <= i < |a| && a[i] == b;
      assert ActiveAt(now)(a[i]);
    }
  }

  /** The user dashboard's loaded state. */
  datatype UserDashboard = UserDashboard(bookings: seq<Booking>, isLoading: bool, error: Option<string>)

  /** The load effect: the error is cleared when it starts; the result, an
      error and the end of loading are applied only while the page is still
      mounted when the request settles. */
  function LoadBookings(d: UserDashboard, mounted: bool, data: Step<seq<Booking>>): (r: UserDashboard)
    ensures !mounted ==> r == d.(error := None)
    ensures mounted ==> !r.isLoading
    ensures mounted && data.Returned? ==> r.bookings == data.value && r.error.None?
    ensures mounted && data.Threw? ==> r.bookings == d.bookings && r.error == Some(CaughtMessage(data.message, "Failed to load"))
  {
    var started := d.(error := None);
    if !mounted then started
    else match data
      case Returned(bs) => started.(bookings := bs, isLoading := false)
      case Threw(m) => started.(error := Some(CaughtMessage(m, "Failed to load")), isLoading := false)
  }
}

=== FILE: domain.dfy ===
/** The shared entities: the client's `Role`, `User`, `Session`, `BookingStatus`
    and `Booking` types, whose fields mirror the server's Session and Booking
    models. Timestamps are integers (milliseconds since the epoch); prices are
    kept as the decimal strings the API sends. */
module Domain {

  import opened Wrappers
  import opened Strings

  datatype Role = USER | CREATOR

  datatype BookingStatus = PENDING | CONFIRMED | CANCELLED

  datatype User = User(id: int, email: string, name: string, avatar: string, role: Role)

  datatype Session = Session(
    id: int,
    title: string,
    description: string,
    price: string,
    creator: int,
    image: string,
    imageFile: Option<string>,
    imageUrl: Option<string>,
    startTime: int,
    duration: string,
    createdAt: int,
    updatedAt: int)

  /** `session: number | Session`: a booking carries either the session's id or the expanded session. */
  datatype SessionRef = SessionId(id: int) | Expanded(session: Session)

  datatype Booking = Booking(
    id: int,
    user: int,
    session: SessionRef,
    status: BookingStatus,
    paymentId: Option<string>,
    paymentStatus: Option<string>,
    amountPaid: Option<string>,
    createdAt: int)

  /** `typeof b.session === 'object' ? b.session.id : b.session`. */
  function RefId(r: SessionRef): int {
    match r
    case SessionId(id) => id
    case Expanded(s) => s.id
  }

  /** An optional string is truthy when present and non-empty. */
  predicate Present(o: Option<string>) {
    o.Some? && o.value != ""
  }

  /** JavaScript `a || b` on optional strings. */
  function OrElse(a: Option<string>, b: Option<string>): (r: Option<string>)
    ensures Present(a) ==> r == a
    ensures !Present(a) ==> r == b
  {
    if Present(a) then a else b
  }

  /** `session.image_url || session.image_file || session.image`: the picture
      the calendars show for a session, "" when there is none. */
  function EventImage(s: Session): (r: string)
    ensures Present(s.imageUrl) ==> r == s.imageUrl.value
    ensures !Present(s.imageUrl) && Present(s.imageFile) ==> r == s.imageFile.value
    ensures !Present(s.imageUrl) && !Present(s.imageFile) ==> r == s.image
  {
    OrElse(OrElse(s.imageUrl, s.imageFile), Some(s.image)).GetOr("")
  }
}

=== FILE: durations.dfy ===
/** Session durations as the client writes and reads them: the creator
    dashboard turns a minute count into the "HH:MM:00" text the server stores
    (`minutesToDuration`), the explore page renders it by splitting on ':'
    and the two calendars by a regular-expression match (`formatDuration`). */
module Durations {

  import opened Wrappers
  import opened Strings
  import opened JsNumber

  // ---- minutesToDuration ----

  /** JavaScript `a % b` for b > 0: the remainder takes the sign of `a`. */
  function JsRem(a: int, b: int): (r: int)
    requires b > 0
    ensures a >= 0 ==> r == a % b
    ensures a < 0 ==> r <= 0 && -b < r && r == -((-a) % b)
  {
    if a >= 0 then a % b else -((-a) % b)
  }

  /** `String(n).padStart(2, '0')`. */
  function Pad2(n: int): string {
    PadStart(IntToString(n), 2, '0')
  }

  /** `minutesToDuration(minutes)` for a whole number of minutes. */
  function MinutesToDuration(minutes: int): (r: string)
    ensures EndsWith(r, ":00")
    ensures minutes >= 0 ==> r == Pad2(minutes / 60) + ":" + Pad2(minutes % 60) + ":" + "00"
  {
    var h := minutes / 60;   // Math.floor(minutes / 60): floor division by a positive divisor
    var m := JsRem(minutes, 60);
    var r := Pad2(h) + ":" + Pad2(m) + ":" + "00";
    assert r[|r| - 3..] == ":00";
    r
  }

  lemma {:induction false} LeadingZero(s: string)
    requires AllDigits(s)
    ensures AllDigits("0" + s)
    ensures DigitsValue("0" + s) == DigitsValue(s)
    decreases |s|
  {
    if |s| > 0 {
      var t := "0" + s;
      assert t[..|t| - 1] == "0" + s[..|s| - 1];
      LeadingZero(s[..|s| - 1]);
    }
  }

  /** A two-digit field of a non-negative number reads back as that number. */
  lemma Pad2Value(n: nat)
    ensures var p := Pad2(n);
      |p| >= 2 && AllDigits(p) && DigitsValue(p) == n
  {
    var s := NatToString(n);
    NatToStringRoundTrip(n);
    var p := Pad2(n);
    if |s| < 2 {
      assert p == "0" + s by {
        assert p[1..] == s;
      }
      LeadingZero(s);
    }
  }

  lemma NoColon(p: string)
    requires AllDigits(p)
    ensures ':' !in p
  {
    forall k | 0 <= k < |p| ensures p[k] != ':' {
      assert IsDigit(p[k]);
    }
  }

  /** Three colon-free fields joined by ':' split back into those fields. */
  lemma SplitFields(a: string, b: string, c: string)
    requires ':' !in a && ':' !in b && ':' !in c
    ensures Split(a + ":" + b + ":" + c, ':') == [a, b, c]
  {
    var bc := b + ":" + c;
    assert a + ":" + b + ":" + c == a + [':'] + bc;
    SplitCons(a, bc, ':');
    SplitCons(b, c, ':');
    SplitNone(c, ':');
  }

  /** The three fields of a dashboard-made duration. */
  lemma DurationParts(minutes: nat)
    ensures var hh := Pad2(minutes / 60);
      var mm := Pad2(minutes % 60);
      && |hh| >= 2 && AllDigits(hh) && DigitsValue(hh) == minutes / 60
      && |mm| >= 2 && AllDigits(mm) && DigitsValue(mm) == minutes % 60
      && MinutesToDuration(minutes) == hh + ":" + mm + ":" + "00"
      && Split(MinutesToDuration(minutes), ':') == [hh, mm, "00"]
  {
    var hh := Pad2(minutes / 60);
    var mm := Pad2(minutes % 60);
    Pad2Value(minutes / 60);
    Pad2Value(minutes % 60);
    NoColon(hh);
    NoColon(mm);
    NoColon("00");
    SplitFields(hh, mm, "00");
  }

  /** "HH:MM:00" carries the minute count: hours * 60 + minutes gives it back. */
  lemma MinutesRoundTrip(minutes: nat)
    ensures var parts := Split(MinutesToDuration(minutes), ':');
      && |parts| == 3 && parts[2] == "00"
      && AllDigits(parts[0]) && AllDigits(parts[1])
      && DigitsValue(parts[0]) * 60 + DigitsValue(parts[1]) == minutes
  {
    DurationParts(minutes);
  }

  lemma MinutesExample()
    ensures MinutesToDuration(90) == "01:30:00"
  {
    assert NatToString(1) == "1";
    assert NatToString(30) == NatToString(3) + "0";
  }

  // ---- formatDuration on the explore page ----

  /** `Number(part) || 0`. */
  function NumberOr0(part: string): Num {
    match ToNumber(part)
    case NaN => Int(0)
    case other => other
  }

  /** `formatDuration(duration)` on the explore page. None where an hours or
      minutes field is a numeric literal this model does not evaluate
      (a fraction, an exponent, hexadecimal, Infinity). */
  function ExploreFormatDuration(duration: string): (r: Option<string>)
    ensures var parts := Split(duration, ':');
      var h := NumberOr0(parts[0]);
      var m := if |parts| > 1 then NumberOr0(parts[1]) else Int(0);
      && (r.None? <==> h.OtherNumber? || m.OtherNumber?)
      && (h.Int? && m.Int? ==>
           r == Some(if h.n > 0 && m.n > 0 then IntToString(h.n) + "h " + IntToString(m.n) + "m"
                     else if h.n > 0 then IntToString(h.n) + "h"
                     else if m.n > 0 then IntToString(m.n) + "m"
                     else duration))
  {
    var parts := Split(duration, ':');
    var h := NumberOr0(parts[0]);
    var m := if |parts| > 1 then NumberOr0(parts[1]) else Int(0);
    if h.OtherNumber? || m.OtherNumber? then None
    else if h.n > 0 && m.n > 0 then Some(IntToString(h.n) + "h " + IntToString(m.n) + "m")
    else if h.n > 0 then Some(IntToString(h.n) + "h")
    else if m.n > 0 then Some(IntToString(m.n) + "m")
    else Some(duration)
  }

  lemma Pad2Number(n: nat)
    ensures NumberOr0(Pad2(n)) == Int(n)
  {
    Pad2Value(n);
    DigitsToNumber(Pad2(n));
  }

  /** The explore page's rendering of numeric hour and minute fields. */
  lemma ExploreOfFields(d: string, h: int, m: int)
    requires |Split(d, ':')| > 1
    requires NumberOr0(Split(d, ':')[0]) == Int(h) && NumberOr0(Split(d, ':')[1]) == Int(m)
    ensures h > 0 && m > 0 ==> ExploreFormatDuration(d) == Some(IntToString(h) + "h " + IntToString(m) + "m")
    ensures h > 0 && m <= 0 ==> ExploreFormatDuration(d) == Some(IntToString(h) + "h")
    ensures h <= 0 && m > 0 ==> ExploreFormatDuration(d) == Some(IntToString(m) + "m")
    ensures h <= 0 && m <= 0 ==> ExploreFormatDuration(d) == Some(d)
  {
  }

  /** The explore page shows a dashboard-made duration by its hours and
      minutes: both when both are non-zero, only the non-zero one otherwise,
      and the stored text itself for zero minutes. */
  lemma ExploreShowsCreatedDuration(minutes: nat)
    ensures var shown := ExploreFormatDuration(MinutesToDuration(minutes));
      && (minutes >= 60 && minutes % 60 > 0 ==>
            shown == Some(IntToString(minutes / 60) + "h " + IntToString(minutes % 60) + "m"))
      && (minutes >= 60 && minutes % 60 == 0 ==> shown == Some(IntToString(minutes / 60) + "h"))
      && (0 < minutes < 60 ==> shown == Some(IntToString(minutes) + "m"))
      && (minutes == 0 ==> shown == Some(MinutesToDuration(0)))
  {
    if minutes < 60 {
      ShortDurationShown(minutes);
    } else {
      LongDurationShown(minutes);
    }
  }

  lemma ShortDurationShown(minutes: nat)
    requires minutes < 60
    ensures var shown := ExploreFormatDuration(MinutesToDuration(minutes));
      && (0 < minutes ==> shown == Some(IntToString(minutes) + "m"))
      && (minutes == 0 ==> shown == Some(MinutesToDuration(0)))
  {
    CreatedDurationFields(minutes);
    assert minutes / 60 == 0 && minutes % 60 == minutes;
    ExploreOfFields(MinutesToDuration(minutes), 0, minutes);
  }

  lemma LongDurationShown(minutes: nat)
    requires minutes >= 60
    ensures var shown := ExploreFormatDuration(MinutesToDuration(minutes));
      && (minutes % 60 > 0 ==> shown == Some(IntToString(minutes / 60) + "h " + IntToString(minutes % 60) + "m"))
      && (minutes % 60 == 0 ==> shown == Some(IntToString(minutes / 60) + "h"))
  {
    CreatedDurationFields(minutes);
    assert minutes / 60 > 0;
    ExploreOfFields(MinutesToDuration(minutes), minutes / 60, minutes % 60);
  }

  /** The hour and minute fields of a dashboard-made duration read as numbers. */
  lemma CreatedDurationFields(minutes: nat)
    ensures var parts := Split(MinutesToDuration(minutes), ':');
      |parts| == 3 && NumberOr0(parts[0]) == Int(minutes / 60) && NumberOr0(parts[1]) == Int(minutes % 60)
  {
    var hh, mm := Pad2(minutes / 60), Pad2(minutes % 60);
    assert Split(MinutesToDuration(minutes), ':') == [hh, mm, "00"] by {
      DurationParts(minutes);
    }
    Pad2Number(minutes / 60);
    Pad2Number(minutes % 60);
  }

  // ---- formatDuration in the calendars ----

  /** The length of the run of digits starting at `i`. */
  function DigitRun(s: string, i: nat): (n: nat)
    requires i <= |s|
    ensures i + n <= |s|
    ensures i + n < |s| ==> !IsDigit(s[i + n])
    decreases |s| - i
  {
    if i == |s| || !IsDigit(s[i]) then 0 else 1 + DigitRun(s, i + 1)
  }

  /** Every character of the run is a digit. */
  lemma {:induction false} RunIsDigits(s: string, i: nat)
    requires i <= |s|
    ensures forall k :: i <= k < i + DigitRun(s, i) ==> IsDigit(s[k])
    decreases |s| - i
  {
    if i < |s| && IsDigit(s[i]) {
      RunIsDigits(s, i + 1);
    }
  }

  /** `(\d+):(\d+):(\d+)` matches at `i`; \d+ is greedy and the next
      character must be ':', so each group is a maximal run of digits. */
  predicate MatchAt(s: string, i: nat)
    requires i <= |s|
  {
    var a := DigitRun(s, i);
    a > 0 && i + a < |s| && s[i + a] == ':'
    && var j := i + a + 1;
       var b := DigitRun(s, j);
       b > 0 && j + b < |s| && s[j + b] == ':'
       && DigitRun(s, j + b + 1) > 0
  }

  /** The leftmost position at or after `i` where the pattern matches. */
  function FirstMatch(s: string, i: nat): (r: Option<nat>)
    requires i <= |s|
    ensures r.Some? ==> i <= r.value <= |s| && MatchAt(s, r.value)
    ensures r.Some? ==> forall k :: i <= k < r.value ==> !MatchAt(s, k)
    ensures r.None? ==> forall k :: i <= k <= |s| ==> !MatchAt(s, k)
    decreases |s| - i
  {
    if MatchAt(s, i) then Some(i)
    else if i == |s| then None
    else FirstMatch(s, i + 1)
  }

  /** The digit run starting at `i` (a group of the match). */
  function RunText(s: string, i: nat): (t: string)
    requires i <= |s|
    ensures |t| == DigitRun(s, i) && AllDigits(t)
  {
    var n := DigitRun(s, i);
    var t := s[i..i + n];
    RunIsDigits(s, i);
    assert forall k :: 0 <= k < |t| ==> t[k] == s[i + k];
    t
  }

  /** `formatDuration(duration)` in both calendars: hours and minutes from
      the first H:M:S group (`parseInt`), "Hh Mm" when there are hours, "Mm"
      otherwise; the text unchanged when nothing matches. */
  function CalendarFormatDuration(duration: string): string {
    match FirstMatch(duration, 0)
    case None => duration
    case Some(i) =>
      var hours := DigitsValue(RunText(duration, i));                              // parseInt(match[1])
      var minutes := DigitsValue(RunText(duration, i + DigitRun(duration, i) + 1));  // parseInt(match[2])
      if hours > 0 then NatToString(hours) + "h " + NatToString(minutes) + "m" else NatToString(minutes) + "m"
  }

  /** A maximal run of `n` digits at `i` is the run DigitRun finds. */
  lemma {:induction false} RunOfField(s: string, i: nat, n: nat)
    requires i + n <= |s|
    requires forall k :: i <= k < i + n ==> IsDigit(s[k])
    requires i + n == |s| || !IsDigit(s[i + n])
    ensures DigitRun(s, i) == n
    decreases n
  {
    if n > 0 {
      RunOfField(s, i + 1, n - 1);
    }
  }

  /** Text put in front of `t` moves its digit runs along unchanged. */
  lemma {:induction false} RunShift(pre: string, t: string, i: nat)
    requires i <= |t|
    ensures DigitRun(pre + t, |pre| + i) == DigitRun(t, i)
    ensures RunText(pre + t, |pre| + i) == RunText(t, i)
    decreases |t| - i
  {
    var s := pre + t;
    if i < |t| {
      assert s[|pre| + i] == t[i];
      RunShift(pre, t, i + 1);
    }
    var n := DigitRun(t, i);
    assert s[|pre| + i..|pre| + i + n] == t[i..i + n];
  }

  /** A digit field followed by ':' (or by nothing) is the run at the start. */
  lemma RunHead(f: string, rest: string)
    requires AllDigits(f)
    requires |rest| == 0 || rest[0] == ':'
    ensures DigitRun(f + rest, 0) == |f| && RunText(f + rest, 0) == f
  {
    var s := f + rest;
    assert forall k :: 0 <= k < |f| ==> IsDigit(s[k]) by {
      forall k | 0 <= k < |f| ensures IsDigit(s[k]) {
        assert s[k] == f[k];
      }
    }
    RunOfField(s, 0, |f|);
    assert s[0..|f|] == f;
  }

  /** The first field of "HH:MM:SS" is the run at 0, and a ':' follows it. */
  lemma HoursField(hh: string, mm: string, ss: string)
    requires AllDigits(hh)
    ensures var s := hh + ":" + mm + ":" + ss;
      DigitRun(s, 0) == |hh| && RunText(s, 0) == hh && s[|hh|] == ':'
  {
    var s := hh + ":" + mm + ":" + ss;
    assert s == hh + (":" + (mm + ":" + ss));
    RunHead(hh, ":" + (mm + ":" + ss));
  }

  /** The second field of "HH:MM:SS" is the run after the first ':', and a ':' follows it. */
  lemma MinutesField(hh: string, mm: string, ss: string)
    requires AllDigits(mm)
    ensures var s := hh + ":" + mm + ":" + ss;
      var j := |hh| + 1;
      DigitRun(s, j) == |mm| && RunText(s, j) == mm && s[j + |mm|] == ':'
  {
    var s := hh + ":" + mm + ":" + ss;
    var tail := mm + ":" + ss;
    assert s == (hh + ":") + tail;
    RunShift(hh + ":", tail, 0);
    assert tail == mm + (":" + ss);
    RunHead(mm, ":" + ss);
  }

  /** The third field of "HH:MM:SS" is the run after the second ':'. */
  lemma SecondsField(hh: string, mm: string, ss: string)
    requires AllDigits(ss)
    ensures var s := hh + ":" + mm + ":" + ss;
      DigitRun(s, |hh| + |mm| + 2) == |ss|
  {
    RunShift(hh + ":" + mm + ":", ss, 0);
    RunHead(ss, "");
    assert ss + "" == ss;
  }

  /** A duration text "HH:MM:SS" made of digit fields matches at its start,
      with HH and MM as its first two groups. */
  lemma FieldsMatch(hh: string, mm: string, ss: string)
    requires |hh| > 0 && |mm| > 0 && |ss| > 0 && AllDigits(hh) && AllDigits(mm) && AllDigits(ss)
    ensures var s := hh + ":" + mm + ":" + ss;
      && MatchAt(s, 0) && DigitRun(s, 0) == |hh|
      && RunText(s, 0) == hh && RunText(s, |hh| + 1) == mm
  {
    HoursField(hh, mm, ss);
    MinutesField(hh, mm, ss);
    SecondsField(hh, mm, ss);
    MatchFromRuns(hh + ":" + mm + ":" + ss, |hh|, |mm|);
  }

  /** The pattern matches at 0 once the first three runs are known. */
  lemma MatchFromRuns(s: string, a: nat, b: nat)
    requires a > 0 && b > 0 && a + b + 2 <= |s|
    requires DigitRun(s, 0) == a && s[a] == ':'
    requires DigitRun(s, a + 1) == b && s[a + 1 + b] == ':'
    requires DigitRun(s, a + b + 2) > 0
    ensures MatchAt(s, 0)
  {
  }

  /** The calendars read hours and minutes from the first two fields of an
      "HH:MM:00" text. */
  lemma CalendarOfFields(hh: string, mm: string)
    requires |hh| > 0 && |mm| > 0 && AllDigits(hh) && AllDigits(mm)
    ensures CalendarFormatDuration(hh + ":" + mm + ":" + "00")
      == if DigitsValue(hh) > 0 then NatToString(DigitsValue(hh)) + "h " + NatToString(DigitsValue(mm)) + "m"
         else NatToString(DigitsValue(mm)) + "m"
  {
    var s := hh + ":" + mm + ":" + "00";
    FieldsMatch(hh, mm, "00");
    assert FirstMatch(s, 0) == Some(0);
  }

  /** The calendars show a dashboard-made duration as hours and minutes, or
      minutes alone under an hour. */
  lemma CalendarShowsCreatedDuration(minutes: nat)
    ensures CalendarFormatDuration(MinutesToDuration(minutes))
      == if minutes / 60 > 0 then NatToString(minutes / 60) + "h " + NatToString(minutes % 60) + "m"
         else NatToString(minutes % 60) + "m"
  {
    var hh := Pad2(minutes / 60);
    var mm := Pad2(minutes % 60);
    assert MinutesToDuration(minutes) == hh + ":" + mm + ":" + "00" && AllDigits(hh) && AllDigits(mm)
      && |hh| > 0 && |mm| > 0
      && DigitsValue(hh) == minutes / 60 && DigitsValue(mm) == minutes % 60 by {
      DurationParts(minutes);
    }
    CalendarOfFields(hh, mm);
  }
}

=== FILE: js_number.dfy ===
/** JavaScript's `Number(s)` on a string (StringToNumber, section 7.1.4.1.1 of
    ECMA-262): surrounding white space is ignored, the empty string is 0, and
    a string outside the StringNumericLiteral grammar is NaN. The value is
    computed for optionally signed decimal integers; every other numeric
    literal (fractions, exponents, hexadecimal, Infinity) is classified as a
    number without its value. */
module JsNumber {

  import opened Strings

  datatype Num = NaN | Int(n: int) | OtherNumber

  predicate IsSign(c: char) {
    c == '+' || c == '-'
  }

  /** ExponentPart without its leading 'e': an optional sign and at least one digit. */
  predicate ExponentDigits(x: string) {
    var y := if |x| > 0 && IsSign(x[0]) then x[1..] else x;
    |y| > 0 && AllDigits(y)
  }

  /** Digits, with at most one '.', and at least one digit on one side of it. */
  predicate Mantissa(m: string) {
    var d := IndexOf(m, '.');
    if d == |m| then |m| > 0 && AllDigits(m)
    else AllDigits(m[..d]) && AllDigits(m[d + 1..]) && (d > 0 || |m| > d + 1)
  }

  function ExponentIndex(s: string): (r: nat)
    ensures r <= |s|
    ensures r < |s| ==> s[r] == 'e' || s[r] == 'E'
    ensures forall k :: 0 <= k < r ==> s[k] != 'e' && s[k] != 'E'
  {
    if |s| == 0 then 0 else if s[0] == 'e' || s[0] == 'E' then 0 else 1 + ExponentIndex(s[1..])
  }

  /** StrUnsignedDecimalLiteral. */
  predicate UnsignedDecimal(s: string) {
    s == "Infinity"
    || (var e := ExponentIndex(s);
        Mantissa(s[..e]) && (e == |s| || ExponentDigits(s[e + 1..])))
  }

  predicate IsRadixDigit(c: char, radix: nat) {
    if radix == 2 then c == '0' || c == '1'
    else if radix == 8 then '0' <= c <= '7'
    else IsDigit(c) || ('a' <= c <= 'f') || ('A' <= c <= 'F')
  }

  /** NonDecimalIntegerLiteral: 0b, 0o or 0x (either case) and at least one digit of that radix. */
  predicate NonDecimalInteger(s: string) {
    |s| > 2 && s[0] == '0'
    && var radix := if s[1] in "bB" then 2 else if s[1] in "oO" then 8 else if s[1] in "xX" then 16 else 0;
       radix != 0 && forall k :: 2 <= k < |s| ==> IsRadixDigit(s[k], radix)
  }

  /** StringNumericLiteral after the surrounding white space is gone. */
  predicate NumericLiteral(t: string) {
    t == ""
    || NonDecimalInteger(t)
    || UnsignedDecimal(t)
    || (|t| > 0 && IsSign(t[0]) && UnsignedDecimal(t[1..]))
  }

  /** An optionally signed run of decimal digits. */
  predicate SignedDigits(t: string) {
    (|t| > 0 && AllDigits(t)) || (|t| > 1 && IsSign(t[0]) && AllDigits(t[1..]))
  }

  function SignedDigitsValue(t: string): int
    requires SignedDigits(t)
  {
    if AllDigits(t) then DigitsValue(t)
    else if t[0] == '-' then 0 - DigitsValue(t[1..]) as int
    else DigitsValue(t[1..])
  }

  lemma SignedDigitsAreNumeric(t: string)
    requires SignedDigits(t)
    ensures NumericLiteral(t)
  {
    var u := if AllDigits(t) then t else t[1..];
    assert AllDigits(u) && |u| > 0;
    assert ExponentIndex(u) == |u|;
    assert u[..|u|] == u;
    assert IndexOf(u, '.') == |u|;
    assert UnsignedDecimal(u);
  }

  /** `Number(s)`. */
  function ToNumber(s: string): (r: Num)
    ensures r.NaN? <==> !NumericLiteral(JsTrim(s))
    ensures r.Int? <==> JsTrim(s) == "" || SignedDigits(JsTrim(s))
    ensures JsTrim(s) == "" ==> r == Int(0)
    ensures SignedDigits(JsTrim(s)) ==> r == Int(SignedDigitsValue(JsTrim(s)))
  {
    var t := JsTrim(s);
    if t == "" then Int(0)
    else if SignedDigits(t) then
      SignedDigitsAreNumeric(t);
      Int(SignedDigitsValue(t))
    else if NumericLiteral(t) then OtherNumber
    else NaN
  }

  /** `Number(String(n))` gives `n` back for every integer. */
  lemma ToNumberOfIntToString(i: int)
    ensures ToNumber(IntToString(i)) == Int(i)
  {
    var s := IntToString(i);
    var d := NatToString(if i < 0 then -i else i);
    NatToStringRoundTrip(if i < 0 then -i else i);
    assert !IsJsSpace(s[0]) && !IsJsSpace(s[|s| - 1]) by {
      assert s[|s| - 1] == d[|d| - 1];
      assert IsDigit(d[|d| - 1]);
      if i >= 0 {
        assert IsDigit(d[0]);
      }
    }
    assert JsTrim(s) == s;
    if i < 0 {
      assert s[1..] == d;
      assert !AllDigits(s) by { assert !IsDigit(s[0]); }
    }
  }

  /** JavaScript `Number.isNaN(Number(s))`. */
  predicate IsNaN(s: string) {
    ToNumber(s).NaN?
  }

  /** A non-empty run of decimal digits is read as the integer it spells. */
  lemma DigitsToNumber(p: string)
    requires |p| > 0 && AllDigits(p)
    ensures ToNumber(p) == Int(DigitsValue(p))
  {
    assert !IsJsSpace(p[0]) && !IsJsSpace(p[|p| - 1]) by {
      assert IsDigit(p[0]) && IsDigit(p[|p| - 1]);
    }
    assert JsTrim(p) == p;
    assert SignedDigits(p);
  }

  lemma NotANumberExample()
    ensures IsNaN("abc")
  {
    assert JsTrim("abc") == "abc";
    assert !AllDigits("abc") by { assert !IsDigit("abc"[0]); }
    assert ExponentIndex("abc") == 3;
    assert IndexOf("abc", '.') == 3;
    assert !Mantissa("abc");
  }

  lemma FractionExample()
    ensures ToNumber("1.5") == OtherNumber
  {
    assert JsTrim("1.5") == "1.5";
    assert !AllDigits("1.5") by { assert !IsDigit("1.5"[1]); }
    assert ExponentIndex("1.5") == 3;
    assert IndexOf("1.5", '.') == 1;
    assert "1.5"[..1] == "1" && "1.5"[2..] == "5";
    assert "1.5"[..3] == "1.5";
    assert UnsignedDecimal("1.5");
  }
}

=== FILE: json.dfy ===
/** JavaScript values as they come out of `JSON.parse`: the shape of response
    bodies and of error details. Objects keep their entries in insertion order
    (the order `Object.entries` lists them); a parsed object has distinct keys.
    Numbers are integers in this model. */
module Js {

  import opened Wrappers
  import opened Strings

  datatype Json =
    | JNull
    | JBool(b: bool)
    | JNum(n: int)
    | JStr(s: string)
    | JArr(items: seq<Json>)
    | JObj(entries: seq<(string, Json)>)

  /** `key in v` followed by `v[key]`: the value of the first entry with that key. */
  function Get(v: Json, key: string): (r: Option<Json>)
    ensures r.Some? ==> v.JObj? && exists i :: 0 <= i < |v.entries| && v.entries[i] == (key, r.value)
    ensures v.JObj? && (exists i :: 0 <= i < |v.entries| && v.entries[i].0 == key) ==> r.Some?
  {
    if v.JObj? then Lookup(v.entries, key) else None
  }

  function Lookup(entries: seq<(string, Json)>, key: string): (r: Option<Json>)
    ensures r.Some? ==> exists i :: 0 <= i < |entries| && entries[i] == (key, r.value)
    ensures (exists i :: 0 <= i < |entries| && entries[i].0 == key) ==> r.Some?
  {
    if |entries| == 0 then None
    else if entries[0].0 == key then Some(entries[0].1)
    else
      var r := Lookup(entries[1..], key);
      assert forall i :: 1 <= i < |entries| ==> entries[i] == entries[1..][i - 1];
      r
  }

  /** The value of the first entry with the key. */
  lemma {:induction false} LookupAt(entries: seq<(string, Json)>, key: string, i: nat)
    requires i < |entries| && entries[i].0 == key
    requires forall j :: 0 <= j < i ==> entries[j].0 != key
    ensures Lookup(entries, key) == Some(entries[i].1)
  {
    if i > 0 {
      LookupAt(entries[1..], key, i - 1);
    }
  }

  /** `key in v` for a value of type object. */
  predicate Has(v: Json, key: string) {
    Get(v, key).Some?
  }

  /** The string held at `key`, when the value there is a string. */
  function GetString(v: Json, key: string): (r: Option<string>)
    ensures r.Some? <==> Get(v, key).Some? && Get(v, key).value.JStr?
  {
    match Get(v, key)
    case Some(JStr(s)) => Some(s)
    case _ => None
  }

  /** JavaScript truthiness. */
  predicate Truthy(v: Json) {
    match v
    case JNull => false
    case JBool(b) => b
    case JNum(n) => n != 0
    case JStr(s) => s != ""
    case JArr(_) => true
    case JObj(_) => true
  }

  /** `String(v)`: arrays join their elements with ",", rendering null as "". */
  function ToJsString(v: Json): string
    decreases v, 1
  {
    match v
    case JNull => "null"
    case JBool(b) => if b then "true" else "false"
    case JNum(n) => IntToString(n)
    case JStr(s) => s
    case JArr(items) => Join(seq(|items|, i requires 0 <= i < |items| => ElementString(items[i], v)), ",")
    case JObj(_) => "[object Object]"
  }

  function ElementString(item: Json, parent: Json): string
    requires item < parent
    decreases parent, 0
  {
    if item.JNull? then "" else ToJsString(item)
  }

  /** `Object.entries(v)`; None where it throws (on null). */
  function Entries(v: Json): (r: Option<seq<(string, Json)>>)
    ensures r.None? <==> v.JNull?
    ensures v.JObj? ==> r == Some(v.entries)
    ensures v.JArr? ==> r.Some? && |r.value| == |v.items|
  {
    match v
    case JNull => None
    case JObj(entries) => Some(entries)
    case JArr(items) => Some(seq(|items|, i requires 0 <= i < |items| => (NatToString(i), items[i])))
    case JStr(s) => Some(seq(|s|, i requires 0 <= i < |s| => (NatToString(i), JStr([s[i]]))))
    case _ => Some([])
  }
}

=== FILE: navigation.dfy ===
/** The client's navigation decisions: the two route guards
    (`ProtectedRoute.tsx`, `CreatorRoute.tsx`), the guard each path of the
    route table in `App.tsx` sits behind, and the avatar menu of `NavBar.tsx`
    (the avatar picture's address, the Home link's target and the logout
    action). */
module Navigation {

  import opened Wrappers
  import opened Strings
  import opened Domain
  import opened AuthStore
  import opened AuthPages

  /** What a guarded route renders: the loading card, a `<Navigate replace>`
      (carrying the requested path in its state when it has one), or the
      guarded page itself. */
  datatype View = Loading | Redirect(target: string, from: Option<string>) | Page

  /** `ProtectedRoute`: wait while the session is being restored, send a
      visitor without a user to /login remembering where they were going,
      render the page for anybody signed in. */
  function ProtectedRoute(state: AuthState, pathname: string): (v: View)
    ensures state.isLoading <==> v == Loading
    ensures !state.isLoading && state.user.None? <==> v == Redirect("/login", Some(pathname))
    ensures !state.isLoading && state.user.Some? <==> v == Page
  {
    if state.isLoading then Loading
    else if state.user.None? then Redirect("/login", Some(pathname))
    else Page
  }

  /** `CreatorRoute`: as `ProtectedRoute`, but a signed-in user whose role is
      not CREATOR is sent to /dashboard (with no remembered path). */
  function CreatorRoute(state: AuthState, pathname: string): (v: View)
    ensures state.isLoading <==> v == Loading
    ensures !state.isLoading && state.user.None? <==> v == Redirect("/login", Some(pathname))
    ensures !state.isLoading && state.user.Some? && state.user.value.role != CREATOR <==> v == Redirect("/dashboard", None)
    ensures v == Page <==> !state.isLoading && state.user.Some? && state.user.value.role == CREATOR
  {
    if state.isLoading then Loading
    else if state.user.None? then Redirect("/login", Some(pathname))
    else if state.user.value.role != CREATOR then Redirect("/dashboard", None)
    else Page
  }

  /** The creator guard is the stricter one: whatever it lets through, the
      plain guard lets through too, and for a creator the two agree. */
  lemma CreatorRouteStricter(state: AuthState, pathname: string)
    ensures CreatorRoute(state, pathname) == Page ==> ProtectedRoute(state, pathname) == Page
    ensures state.user.Some? && state.user.value.role == CREATOR ==>
      CreatorRoute(state, pathname) == ProtectedRoute(state, pathname)
  {
  }

  // ---- the route table ----

  datatype Guard = Open | Protected | CreatorOnly

  /** The form in which React Router compares a location with a static
      route path: ASCII letters regardless of case (the matcher's pattern
      carries the "i" flag) and trailing slashes ignored (the pattern
      accepts any number of slashes at its end). */
  function RouteKey(path: string): (k: string)
    ensures |k| <= |path|
    ensures |k| > 0 ==> k[|k| - 1] != '/'
    ensures forall i :: 0 <= i < |k| ==> !('A' <= k[i] <= 'Z')
  {
    Lower(StripEndChar(path, '/'))
  }

  /** A trailing slash never changes which route a location matches. */
  lemma TrailingSlashIgnored(path: string)
    ensures RouteKey(path + "/") == RouteKey(path)
  {
    var p := path + "/";
    assert p[..|p| - 1] == path;
  }

  /** Stripping trailing slashes and lowering letters commute. */
  lemma {:induction false} StripLowerCommute(path: string)
    ensures StripEndChar(Lower(path), '/') == Lower(StripEndChar(path, '/'))
    decreases |path|
  {
    if |path| > 0 && path[|path| - 1] == '/' {
      assert Lower(path)[..|path| - 1] == Lower(path[..|path| - 1]);
      StripLowerCommute(path[..|path| - 1]);
    }
  }

  /** Letter case never changes which route a location matches. */
  lemma CaseIgnored(path: string)
    ensures RouteKey(Lower(path)) == RouteKey(path)
  {
    StripLowerCommute(path);
    var k := StripEndChar(path, '/');
    assert Lower(Lower(k)) == Lower(k);
  }

  /** The guard `App.tsx` wraps around the page a location matches; a
      location matching no route is redirected to "/" by the catch-all
      route, which is open. */
  function GuardOf(path: string): (g: Guard)
    ensures g == Protected <==> RouteKey(path) in {"/dashboard", "/profile", "/settings"}
    ensures g == CreatorOnly <==> RouteKey(path) == "/creator"
  {
    var key := RouteKey(path);
    if key in {"/dashboard", "/profile", "/settings"} then Protected
    else if key == "/creator" then CreatorOnly
    else Open
  }

  /** The guard depends only on the route key: "/Dashboard" and
      "/dashboard/" are as guarded as "/dashboard". */
  lemma GuardIgnoresCaseAndSlash(path: string)
    ensures GuardOf(path + "/") == GuardOf(path)
    ensures GuardOf(Lower(path)) == GuardOf(path)
  {
    TrailingSlashIgnored(path);
    CaseIgnored(path);
  }

  /** What visiting `path` renders. */
  function Visit(state: AuthState, path: string): (v: View)
    ensures GuardOf(path) == Open ==> v == Page
    ensures v == Page && !state.isLoading && state.user.None? ==> GuardOf(path) == Open
  {
    match GuardOf(path)
    case Open => Page
    case Protected => ProtectedRoute(state, path)
    case CreatorOnly => CreatorRoute(state, path)
  }

  /** No guard redirects into another redirect: every target a guard sends a
      settled visitor to renders its page for that same visitor. */
  lemma RedirectsSettle(state: AuthState, path: string)
    requires !state.isLoading
    ensures Visit(state, path).Redirect? ==> Visit(state, Visit(state, path).target) == Page
  {
  }

  // ---- the avatar menu ----

  const DefaultAvatar := "/Avatar/Avatar 1.png"

  /** `getAvatarSrc()`: the default picture when the user has no avatar, an
      absolute URL unchanged, any other value rooted at "/". */
  function AvatarSrc(user: Option<User>): (r: string)
    ensures user.None? || user.value.avatar == "" ==> r == DefaultAvatar
    ensures user.Some? && IsAbsoluteUrl(user.value.avatar) ==> r == user.value.avatar
    ensures user.Some? && user.value.avatar != "" && !IsAbsoluteUrl(user.value.avatar) ==>
      StartsWith(r, "/") && (r == user.value.avatar || r == "/" + user.value.avatar)
    ensures user.Some? && StartsWith(user.value.avatar, "/") ==> r == user.value.avatar
    ensures IsAbsoluteUrl(r) || StartsWith(r, "/")
  {
    if user.Some? && user.value.avatar != "" then
      var a := user.value.avatar;
      if StartsWith(a, "http://") || StartsWith(a, "https://") then a
      else if StartsWith(a, "/Avatar/") || StartsWith(a, "Avatar/") then
        (if StartsWith(a, "/") then a else "/" + a)
      else if StartsWith(a, "/") then a else "/" + a
    else DefaultAvatar
  }

  /** Storing the computed address as the avatar changes nothing: the
      rooting step applies once. */
  lemma {:induction false} AvatarSrcIdempotent(user: User)
    ensures AvatarSrc(Some(user.(avatar := AvatarSrc(Some(user))))) == AvatarSrc(Some(user))
  {
    var r := AvatarSrc(Some(user));
    if !IsAbsoluteUrl(r) {
      assert StartsWith(r, "/");
    }
  }

  /** The two path forms of the picture in the public Avatar folder name the same file. */
  lemma AvatarFolderForms(user: User, file: string)
    ensures AvatarSrc(Some(user.(avatar := "Avatar/" + file))) == AvatarSrc(Some(user.(avatar := "/Avatar/" + file)))
  {
    var a := "Avatar/" + file;
    assert !StartsWith(a, "/") && !StartsWith(a, "http://") && !StartsWith(a, "https://") by {
      assert a[0] == 'A';
    }
    assert StartsWith(a, "Avatar/");
    var b := "/Avatar/" + file;
    assert StartsWith(b, "/") && !IsAbsoluteUrl(b) by {
      assert b[0] == '/';
    }
    assert "/" + a == b;
  }

  /** The menu's Home link: /creator for a creator, /dashboard otherwise. */
  function DashboardPath(user: Option<User>): (p: string)
    ensures p == "/creator" <==> user.Some? && user.value.role == CREATOR
    ensures p != "/creator" ==> p == "/dashboard"
  {
    if user.Some? && user.value.role == CREATOR then "/creator" else "/dashboard"
  }

  /** The Home link always lands on the signed-in user's own page, the same
      place an OAuth sign-in without a requested path sends them. */
  lemma HomeLinkOpens(state: AuthState)
    requires !state.isLoading && state.user.Some?
    ensures Visit(state, DashboardPath(state.user)) == Page
    ensures DashboardPath(state.user) == RoleHome(state.user.value.role)
  {
  }

  /** The menu and the current location. */
  datatype Menu = Menu(store: Store, isOpen: bool, pathname: string)

  /** `handleLogout`: sign out, close the menu, and go to "/" unless already there. */
  function HandleLogout(m: Menu): (r: (Menu, Option<string>))
    ensures r.0.store == Logout(m.store)
    ensures !r.0.isOpen
    ensures r.0.pathname == m.pathname
    ensures r.1.Some? <==> m.pathname != "/"
    ensures r.1.Some? ==> r.1.value == "/"
  {
    (Menu(Logout(m.store), false, m.pathname), if m.pathname != "/" then Some("/") else None)
  }

  /** After logging out, every guarded page sends the visitor to /login and
      the navigation bar shows the Login and Sign-up links again. */
  lemma LogoutLocksGuardedPages(m: Menu, path: string)
    requires !m.store.state.isLoading
    requires GuardOf(path) != Open
    ensures Visit(HandleLogout(m).0.store.state, path) == Redirect("/login", Some(path))
    ensures NavRight(HandleLogout(m).0.store.state.user) == GuestLinks
  {
  }

  /** The right-hand side of the navigation bar. */
  datatype NavRightView = AvatarMenu(src: string, home: string) | GuestLinks

  function NavRight(user: Option<User>): (v: NavRightView)
    ensures user.None? <==> v == GuestLinks
    ensures v.AvatarMenu? ==> v.src == AvatarSrc(user) && v.home == DashboardPath(user)
  {
    if user.Some? then AvatarMenu(AvatarSrc(user), DashboardPath(user)) else GuestLinks
  }
}

=== FILE: payments.dfy ===
/** The payment side of the server: the `create_payment_order` decision
    ladder (`backend/bookings/payment_views.py`) and the parameters of a
    Stripe checkout session (`backend/bookings/payments.py`). The gateway
    calls themselves are oracles; amounts are exact decimals, written as
    `real`.

    As written, neither path can run: the view module imports a name the
    payments module does not define, which keeps the whole URL configuration
    from loading (see `Server.Serve`), and the checkout reads two settings the
    settings module never assigns. Even with the import repaired, the order
    path is taken by the booking router listed before it (see
    `Server.ResolveBookings`). Each is modelled twice, as written and
    corrected. */
module Payments {

  import opened Wrappers
  import opened Strings
  import opened Js
  import opened Domain
  import opened Server
  import opened BookingsApi
  import opened Settings

  // ---- create_payment_order ----

  /** The order the gateway returns. */
  datatype Order = Order(id: string, amount: int, currency: string)

  /** The 201 body: the order plus the configured public key. */
  datatype OrderReply = OrderReply(orderId: string, amount: int, currency: string, keyId: string)

  const NotConfigured := Reply(503, Detail("Payment gateway is not configured."))
  const BookingIdRequired := Reply(400, Detail("booking_id is required."))
  const BookingNotFound := Reply(404, Detail("Booking not found."))
  const AlreadyPaid := Reply(400, Detail("Booking already paid."))

  /** `Booking.objects.get(id=booking_id, user=request.user)`: the
      requester's own booking with that id. */
  function OwnBooking(user: int, bookingId: int, table: seq<BookingRow>): (k: Option<nat>)
    ensures k.Some? ==> k.value < |table| && table[k.value].id == bookingId && table[k.value].user == user
    ensures k.None? ==> forall i :: 0 <= i < |table| ==> !(table[i].id == bookingId && table[i].user == user)
  {
    FindBooking(table, (b: BookingRow) => b.id == bookingId && b.user == user)
  }

  /** The ladder shared by the code as written and the corrected version;
      they differ only in which payment statuses count as already paid. In
      order: authentication (401), the gateway key (503), a truthy
      `booking_id` (400), the requester's own booking (404), not yet paid
      (400), then the gateway's order (201) or its failure (500). */
  function OrderLadder(req: Requester, keyId: string, bookingId: Option<int>, table: seq<BookingRow>,
                       order: Result<Order, string>, paid: string -> bool): (r: Answer<OrderReply>)
    ensures req.Anonymous? ==> r == Refused(Denied(req))
    ensures req.Member? && keyId == "" ==> r == Refused(NotConfigured)
    ensures req.Member? && keyId != "" && (bookingId.None? || bookingId.value == 0) ==> r == Refused(BookingIdRequired)
    ensures (req.Member? && keyId != "" && bookingId.Some? && bookingId.value != 0 &&
             OwnBooking(req.id, bookingId.value, table).None?) ==> r == Refused(BookingNotFound)
    ensures r.Answered? <==>
      req.Member? && keyId != "" && bookingId.Some? && bookingId.value != 0 &&
      OwnBooking(req.id, bookingId.value, table).Some? &&
      !paid(table[OwnBooking(req.id, bookingId.value, table).value].paymentStatus) && order.Success?
    ensures r.Answered? ==> r.status == 201 && r.value == OrderReply(order.value.id, order.value.amount, order.value.currency, keyId)
    ensures r.Refused? && r.reply.status == 500 ==> order.Failure? && r.reply == Reply(500, Detail("Failed to create payment order: " + order.error))
  {
    if req.Anonymous? then Refused(Denied(req))
    else if keyId == "" then Refused(NotConfigured)
    else if bookingId.None? || bookingId.value == 0 then Refused(BookingIdRequired)
    else match OwnBooking(req.id, bookingId.value, table)
      case None => Refused(BookingNotFound)
      case Some(k) =>
        if paid(table[k].paymentStatus) then Refused(AlreadyPaid)
        else match order
          case Failure(m) => Refused(Reply(500, Detail("Failed to create payment order: " + m)))
          case Success(o) => Answered(201, OrderReply(o.id, o.amount, o.currency, keyId))
  }

  /** The code as written: only the payment status "captured" counts as
      paid. */
  function CreatePaymentOrderAsWritten(req: Requester, keyId: string, bookingId: Option<int>, table: seq<BookingRow>,
                                       order: Result<Order, string>): (r: Answer<OrderReply>)
    ensures (req.Member? && keyId != "" && bookingId.Some? && bookingId.value != 0 &&
             OwnBooking(req.id, bookingId.value, table).Some?) ==>
      (r == Refused(AlreadyPaid) <==> table[OwnBooking(req.id, bookingId.value, table).value].paymentStatus == "captured")
  {
    OrderLadder(req, keyId, bookingId, table, order, s => s == "captured")
  }

  /** Whether a payment status means the booking is paid for: "paid" is what
      `verify_payment` records, "captured" the gateway's own term. */
  predicate IsPaid(status: string) {
    status == "paid" || status == "captured"
  }

  /** The corrected ladder: a booking whose payment was verified is refused
      a second order. */
  function CreatePaymentOrder(req: Requester, keyId: string, bookingId: Option<int>, table: seq<BookingRow>,
                              order: Result<Order, string>): (r: Answer<OrderReply>)
    ensures (req.Member? && keyId != "" && bookingId.Some? && bookingId.value != 0 &&
             OwnBooking(req.id, bookingId.value, table).Some?) ==>
      (r == Refused(AlreadyPaid) <==> IsPaid(table[OwnBooking(req.id, bookingId.value, table).value].paymentStatus))
    ensures r.Answered? ==>
      (req.Member? && bookingId.Some? &&
       var k := OwnBooking(req.id, bookingId.value, table);
       k.Some? && !IsPaid(table[k.value].paymentStatus))
  {
    OrderLadder(req, keyId, bookingId, table, order, IsPaid)
  }

  /** A booking confirmed by `verify_payment` (payment status "paid") still
      gets a fresh order from the ladder as written. */
  lemma PaidBookingReorderedAsWritten(user: int, id: int, session: int, now: int, price: string,
                                      ref: string, intent: string, order: Order)
    requires id != 0
    ensures var b := Settle(NewBooking(id, user, session, now), Checkout(Some(ref), Some(intent), "paid"), price);
      b.status == CONFIRMED &&
      CreatePaymentOrderAsWritten(Member(user, USER), "key", Some(id), [b], Success(order)).Answered?
    ensures var b := Settle(NewBooking(id, user, session, now), Checkout(Some(ref), Some(intent), "paid"), price);
      CreatePaymentOrder(Member(user, USER), "key", Some(id), [b], Success(order)) == Refused(AlreadyPaid)
  {
    var b := Settle(NewBooking(id, user, session, now), Checkout(Some(ref), Some(intent), "paid"), price);
    assert OwnBooking(user, id, [b]) == Some(0);
  }

  /** With the corrected ladder, once a payment is verified as paid no
      further order is issued for that booking. */
  lemma NoOrderAfterVerify(req: Requester, pk: int, sessionId: Option<string>, config: map<string, string>,
                           c: Checkout, nullIntentError: string,
                           table: seq<BookingRow>, sessions: seq<SessionRow>, origin: Option<string>,
                           keyId: string, order: Result<Order, string>)
    requires c.paymentStatus == "paid"
    requires VerifyPayment(req, pk, sessionId, config, Retrieved(c), nullIntentError, table, sessions, origin).0.Answered?
    requires forall i, j :: 0 <= i < j < |table| ==> table[i].id != table[j].id
    ensures var t := VerifyPayment(req, pk, sessionId, config, Retrieved(c), nullIntentError, table, sessions, origin).1;
      CreatePaymentOrder(req, keyId, Some(pk), t, order).Refused?
  {
    var t := VerifyPayment(req, pk, sessionId, config, Retrieved(c), nullIntentError, table, sessions, origin).1;
    var k := Locate(req, pk, table, sessions).value;
    assert t[k].id == pk && t[k].user == req.id && t[k].paymentStatus == "paid";
    if pk != 0 && keyId != "" {
      var o := OwnBooking(req.id, pk, t);
      assert o.Some?;
      assert o.value == k;
    }
  }

  // ---- loading the view module ----

  /** `from .payments import <name>`: an ImportError unless the module defines it. */
  function ImportFromPayments(defined: set<string>, name: string): (r: Result<(), string>)
    ensures r.Success? <==> name in defined
    ensures r.Failure? ==> r.error == "cannot import name '" + name + "' from 'bookings.payments'"
  {
    ImportFrom("bookings.payments", defined, [name])
  }

  /** The view a POST to the order path reaches, once the URL configuration
      has loaded: the order ladder, or, when the router's detail pattern takes
      the path first, the booking viewset's detail route. */
  function OrderPathView(urls: BookingsUrls, req: Requester, keyId: string, bookingId: Option<int>,
                         table: seq<BookingRow>, order: Result<Order, string>): Answer<OrderReply>
  {
    match ResolveBookings(urls, OrderPath)
    case PaymentOrderView => CreatePaymentOrder(req, keyId, bookingId, table, order)
    case BookingDetail(_) => Refused(DetailPost(req))
    case _ => Refused(NotFound)
  }

  /** A POST to create-payment-order/, given the names the payments module and
      the users views define and the order of `bookings/urls.py`'s patterns.
      If either import fails, the URL configuration does not load and the
      request fails like every other one; otherwise it goes to whichever view
      the path resolves to. */
  function PaymentOrderRoute(paymentsDefined: set<string>, usersViewsDefined: set<string>, urls: BookingsUrls,
                             req: Requester, keyId: string, bookingId: Option<int>, table: seq<BookingRow>,
                             order: Result<Order, string>): (r: Answer<OrderReply>)
    ensures !UrlConfLoads(paymentsDefined, usersViewsDefined) <==> r == Refused(ServerError)
    ensures UrlConfLoads(paymentsDefined, usersViewsDefined) && urls == RouterFirst ==> r == Refused(DetailPost(req))
    ensures UrlConfLoads(paymentsDefined, usersViewsDefined) && urls == OrderPathFirst ==>
      r == CreatePaymentOrder(req, keyId, bookingId, table, order)
  {
    OrderPathShadowed(OrderPath);
    Serve(paymentsDefined, usersViewsDefined, OrderPathView(urls, req, keyId, bookingId, table, order))
  }

  /** The route as the repository ships it. */
  function PaymentOrderRouteAsWritten(req: Requester, keyId: string, bookingId: Option<int>,
                                      table: seq<BookingRow>, order: Result<Order, string>): (r: Answer<OrderReply>)
    ensures r.Refused? && r.reply.status == 500
  {
    EveryRouteFailsAsWritten(OrderPathView(RouterFirst, req, keyId, bookingId, table, order));
    PaymentOrderRoute(PaymentsModuleNames, UsersViewsNames, RouterFirst, req, keyId, bookingId, table, order)
  }

  /** As shipped, every request to the route fails before the view runs, even
      from a signed-in user with an unpaid booking and a working gateway, and
      defining the order function alone does not change that. */
  lemma OrderRouteFailsAsWritten(req: Requester, keyId: string, bookingId: Option<int>,
                                 table: seq<BookingRow>, order: Result<Order, string>)
    ensures PaymentOrderRouteAsWritten(req, keyId, bookingId, table, order) == Refused(ServerError)
    ensures ImportFromPayments(PaymentsModuleNames, OrderFunctionName).Failure?
    ensures PaymentOrderRoute(PaymentsModuleNames + {OrderFunctionName}, UsersViewsNames, RouterFirst,
                              req, keyId, bookingId, table, order) == Refused(ServerError)
  {
    EveryRouteFailsAsWritten(OrderPathView(RouterFirst, req, keyId, bookingId, table, order));
  }

  /** Repairing both imports is not enough: with the router's include listed
      first, the POST lands on the booking detail route, which refuses it as
      unauthenticated (401) or as a method not allowed (405), and the order
      ladder never runs. */
  lemma OrderRouteShadowedAsWritten(req: Requester, keyId: string, bookingId: Option<int>,
                                    table: seq<BookingRow>, order: Result<Order, string>)
    ensures var r := PaymentOrderRoute(PaymentsModuleNames + {OrderFunctionName}, UsersViewsNames + {UsersUrlImports[0]},
                                       RouterFirst, req, keyId, bookingId, table, order);
      && r == Refused(DetailPost(req))
      && (req.Anonymous? ==> r.reply.status == 401)
      && (req.Member? ==> r.reply == PostNotAllowed)
      && !r.Answered?
      && (req.Member? ==> r != CreatePaymentOrder(req, keyId, bookingId, table, order))
  {
    RepairedServerServes(OrderPathView(RouterFirst, req, keyId, bookingId, table, order));
    LadderNeverNotAllowed(req, keyId, bookingId, table, order);
  }

  /** The ladder never answers 405: its refusals are 401, 503, 400, 404 and
      500, so a 405 always comes from the detail route. */
  lemma LadderNeverNotAllowed(req: Requester, keyId: string, bookingId: Option<int>,
                              table: seq<BookingRow>, order: Result<Order, string>)
    ensures var r := CreatePaymentOrder(req, keyId, bookingId, table, order);
      r.Refused? ==> r.reply.status in {401, 503, 400, 404, 500}
  {
  }

  /** With the URL configuration loading and the order path listed before the
      router, the route runs the ladder: a signed-in user's unpaid booking with
      a working gateway gets its order, and a booking that was verified as paid
      does not. */
  lemma OrderRouteRunsLadder(paymentsDefined: set<string>, usersViewsDefined: set<string>, user: int, role: Role,
                             keyId: string, id: int, table: seq<BookingRow>, o: Order)
    requires UrlConfLoads(paymentsDefined, usersViewsDefined) && keyId != "" && id != 0
    requires OwnBooking(user, id, table).Some?
    ensures var r := PaymentOrderRoute(paymentsDefined, usersViewsDefined, OrderPathFirst, Member(user, role), keyId,
                                       Some(id), table, Success(o));
      var b := table[OwnBooking(user, id, table).value];
      && (!IsPaid(b.paymentStatus) ==> r == Answered(201, OrderReply(o.id, o.amount, o.currency, keyId)))
      && (IsPaid(b.paymentStatus) ==> r == Refused(AlreadyPaid))
  {
  }

  // ---- Stripe checkout parameters ----

  datatype LineItem = LineItem(currency: string, name: string, description: string, unitAmount: int, quantity: int)

  datatype Metadata = Metadata(bookingId: int, customerName: Option<string>)

  /** The keyword arguments of `stripe.checkout.Session.create`;
      `customerEmail` is None when the key is left out. */
  datatype CheckoutParams = CheckoutParams(
    paymentMethodTypes: seq<string>,
    lineItems: seq<LineItem>,
    mode: string,
    successUrl: string,
    cancelUrl: string,
    clientReferenceId: string,
    metadata: Metadata,
    billingAddressCollection: string,
    customerEmail: Option<string>)

  /** Python's `int()` of a decimal: truncation toward zero. */
  function Trunc(x: real): (n: int)
    ensures x >= 0.0 ==> n as real <= x < n as real + 1.0
    ensures x < 0.0 ==> n as real - 1.0 < x <= n as real
  {
    if x >= 0.0 then x.Floor else -((-x).Floor)
  }

  /** An amount in the currency's smallest unit: `int(amount * 100)`. */
  function SmallestUnit(amount: real): int {
    Trunc(amount * 100.0)
  }

  /** A price with two decimal places converts exactly; a negative amount
      with a third decimal is cut toward zero, not floored. */
  lemma SmallestUnitExact(cents: int)
    ensures SmallestUnit(cents as real / 100.0) == cents
    ensures SmallestUnit(-0.015) == -1
  {
    assert (cents as real / 100.0) * 100.0 == cents as real;
    assert -0.015 * 100.0 == -1.5;
  }

  const SuccessPrefix := "/dashboard?payment=success&booking_id="

  /** An exception raised by the server code: its class and message. */
  datatype Raised = Raised(kind: string, message: string)

  /** `create_stripe_checkout_session` up to the Stripe call, given the
      settings' attributes: the secret key is read first (an AttributeError
      when unassigned) and must be non-empty, then the library must be
      installed, then the frontend URL is read for the return URLs. The
      parameters name one line item of quantity 1 priced at the amount in
      the smallest unit, and tie the checkout to the booking through its
      reference and metadata. */
  function CheckoutRequest(config: map<string, string>, stripeInstalled: bool, amount: real,
                           bookingId: int, title: string, email: Option<string>, name: Option<string>,
                           currency: string): (r: Result<CheckoutParams, Raised>)
    ensures StripeSecretKeyName !in config <==>
      r == Failure(Raised("AttributeError", "'Settings' object has no attribute 'STRIPE_SECRET_KEY'"))
    ensures (StripeSecretKeyName in config && config[StripeSecretKeyName] == "") <==>
      r == Failure(Raised("ValueError", "Stripe credentials not configured"))
    ensures (StripeSecretKeyName in config && config[StripeSecretKeyName] != "" && !stripeInstalled) <==>
      r == Failure(Raised("ImportError", "stripe package is not installed"))
    ensures r.Success? <==>
      StripeSecretKeyName in config && config[StripeSecretKeyName] != "" && stripeInstalled && FrontendUrlName in config
    ensures r.Success? ==> |r.value.lineItems| == 1 && r.value.lineItems[0].quantity == 1 && r.value.mode == "payment"
    ensures r.Success? ==> r.value.lineItems[0] == LineItem(currency, title, "Booking #" + IntToString(bookingId), SmallestUnit(amount), 1)
    ensures r.Success? ==> r.value.clientReferenceId == IntToString(bookingId) && r.value.metadata.bookingId == bookingId
    ensures r.Success? ==> r.value.successUrl == config[FrontendUrlName] + SuccessPrefix + IntToString(bookingId)
    ensures r.Success? ==> r.value.cancelUrl == config[FrontendUrlName] + "/dashboard?payment=cancelled"
    ensures r.Success? ==> (r.value.customerEmail.Some? <==> Present(email)) && (Present(email) ==> r.value.customerEmail == email)
    ensures r.Success? ==> (r.value.metadata.customerName.Some? <==> Present(name)) && (Present(name) ==> r.value.metadata.customerName == name)
  {
    NoAttributeMessages();
    match Attr(config, StripeSecretKeyName)
    case Failure(e) => Failure(Raised("AttributeError", e))
    case Success(secretKey) =>
      if secretKey == "" then Failure(Raised("ValueError", "Stripe credentials not configured"))
      else if !stripeInstalled then Failure(Raised("ImportError", "stripe package is not installed"))
      else match Attr(config, FrontendUrlName)
        case Failure(e) => Failure(Raised("AttributeError", e))
        case Success(frontendUrl) =>
          var item := LineItem(currency, title, "Booking #" + IntToString(bookingId), SmallestUnit(amount), 1);
          Success(CheckoutParams(
            ["card"], [item], "payment",
            frontendUrl + SuccessPrefix + IntToString(bookingId),
            frontendUrl + "/dashboard?payment=cancelled",
            IntToString(bookingId),
            Metadata(bookingId, if Present(name) then name else None),
            "required",
            if Present(email) then email else None))
  }

  /** The checkout as the repository configures it. */
  function CheckoutRequestAsWritten(env: Env, stripeInstalled: bool, amount: real, bookingId: int, title: string,
                                    email: Option<string>, name: Option<string>, currency: string)
    : (r: Result<CheckoutParams, Raised>)
    ensures r.Failure?
  {
    CheckoutRequest(PaymentSettings(env), stripeInstalled, amount, bookingId, title, email, name, currency)
  }

  /** As configured, the checkout never gets past its first line: reading
      the unassigned secret key raises an AttributeError, not the ValueError
      the function raises for an empty key. */
  lemma CheckoutAlwaysRaisesAsWritten(env: Env, stripeInstalled: bool, amount: real, bookingId: int, title: string,
                                      email: Option<string>, name: Option<string>, currency: string)
    ensures CheckoutRequestAsWritten(env, stripeInstalled, amount, bookingId, title, email, name, currency)
      == Failure(Raised("AttributeError", "'Settings' object has no attribute 'STRIPE_SECRET_KEY'"))
  {
  }

  /** The success URL hands the booking id back: what follows the fixed
      prefix reads as the id again. */
  lemma SuccessUrlCarriesBooking(p: CheckoutParams, frontendUrl: string, bookingId: nat)
    requires p.successUrl == frontendUrl + SuccessPrefix + IntToString(bookingId)
    ensures ParseNat(p.successUrl[|frontendUrl + SuccessPrefix|..]) == Some(bookingId)
  {
    assert p.successUrl[|frontendUrl + SuccessPrefix|..] == NatToString(bookingId);
    ParseNatToString(bookingId);
  }

  /** With the secret key assigned, a checkout created for a booking passes
      `verify_payment`'s reference check for that booking; once Stripe
      reports it paid, verifying it confirms the booking. */
  lemma CheckoutVerifies(p: CheckoutParams, req: Requester, b: BookingRow, sessionId: Option<string>,
                         config: map<string, string>, intent: string, nullIntentError: string,
                         table: seq<BookingRow>, sessions: seq<SessionRow>, origin: Option<string>)
    requires p.clientReferenceId == IntToString(b.id)
    requires StripeSecretKeyName in config
    requires req.Member? && Locate(req, b.id, table, sessions).Some?
    requires table[Locate(req, b.id, table, sessions).value] == b && b.user == req.id
    requires Present(sessionId)
    ensures var r := VerifyPayment(req, b.id, sessionId, config, Retrieved(Checkout(Some(p.clientReferenceId), Some(intent), "paid")),
                                   nullIntentError, table, sessions, origin);
      r.0.Answered? && r.0.value.booking.status == CONFIRMED
  {
  }
}

=== FILE: remove_comments.dfy ===
/** The repository's comment-stripping script (`remove_comments.py`): the
    CSS, TypeScript/JavaScript, configuration-file and Python scanners, the
    per-line clean-up shared by the last two, and the per-file dispatch.
    Reading and writing files is left to the caller: a file is its text,
    or None when it cannot be read. */
module RemoveComments {

  import opened Wrappers
  import opened Strings

  /** Outside any string literal, or inside one opened by `delim`. */
  datatype Mode = Code | Quoted(delim: char)

  /** The quotes the line scanners know. */
  predicate IsQuote(c: char) {
    c == '"' || c == '\''
  }

  /** The TS/JS scanner also knows template literals. */
  predicate IsTsQuote(c: char) {
    IsQuote(c) || c == '`'
  }

  /** Concatenation regroups. */
  lemma ConcatAssoc(x: string, y: string, z: string)
    ensures x + (y + z) == x + y + z
  {
  }

  // ---- block comments ----

  /** The text starts with an opener: a slash followed by a star. */
  predicate OpensBlock(s: string) {
    |s| >= 2 && s[0] == '/' && s[1] == '*'
  }

  /** A closer, a star followed by a slash, starts at `k`. */
  predicate ClosesAt(t: string, k: int)
    requires 0 <= k < |t| - 1
  {
    t[k] == '*' && t[k + 1] == '/'
  }

  /** No closer anywhere in `t`. */
  predicate NoClose(t: string) {
    forall k :: 0 <= k < |t| - 1 ==> !ClosesAt(t, k)
  }

  /** No opener anywhere in `t`. */
  predicate NoOpen(t: string) {
    forall k :: 0 <= k < |t| - 1 ==> !(t[k] == '/' && t[k + 1] == '*')
  }

  /** How much of the text after an opener the inner loop consumes:
      everything up to and including the first closer; when there is none,
      everything but the last character, since the loop stops once fewer
      than two characters are left. */
  function SkipBlock(t: string): (n: nat)
    ensures n <= |t|
    decreases |t|
  {
    if |t| < 2 then 0
    else if t[0] == '*' && t[1] == '/' then 2
    else 1 + SkipBlock(t[1..])
  }

  /** The first closer ends the comment. */
  lemma {:induction false} SkipBlockFirstClose(t: string)
    requires !NoClose(t)
    ensures var n := SkipBlock(t); 2 <= n && ClosesAt(t, n - 2) && NoClose(t[..n - 1])
    decreases |t|
  {
    if !(t[0] == '*' && t[1] == '/') {
      var k :| 0 <= k < |t| - 1 && ClosesAt(t, k);
      assert k > 0;
      assert ClosesAt(t[1..], k - 1);
      SkipBlockFirstClose(t[1..]);
      var n := SkipBlock(t[1..]);
      assert t[1..][n - 2] == t[n - 1] && t[1..][n - 1] == t[n];
      assert NoClose(t[..n]) by {
        forall j | 0 <= j < n - 1 ensures !ClosesAt(t[..n], j) {
          if j > 0 {
            assert !ClosesAt(t[1..][..n - 1], j - 1);
          } else {
            assert !(t[0] == '*' && t[1] == '/');
          }
        }
      }
    }
  }

  /** Without a closer the loop stops one character short of the end. */
  lemma {:induction false} SkipBlockOpen(t: string)
    requires NoClose(t)
    ensures SkipBlock(t) == if |t| == 0 then 0 else |t| - 1
    decreases |t|
  {
    if |t| >= 2 {
      assert !ClosesAt(t, 0);
      assert NoClose(t[1..]) by {
        forall k | 0 <= k < |t| - 2 ensures !ClosesAt(t[1..], k) {
          assert !ClosesAt(t, k + 1);
        }
      }
      SkipBlockOpen(t[1..]);
    }
  }

  /** A comment body without a closer, followed by a closer, is consumed exactly. */
  lemma {:induction false} SkipBlockClosed(body: string, b: string)
    requires NoClose(body)
    ensures SkipBlock(body + "*/" + b) == |body| + 2
    decreases |body|
  {
    var t := body + "*/" + b;
    if |body| > 0 {
      assert t[1..] == body[1..] + "*/" + b;
      assert NoClose(body[1..]) by {
        forall k | 0 <= k < |body| - 2 ensures !ClosesAt(body[1..], k) {
          assert !ClosesAt(body, k + 1);
        }
      }
      SkipBlockClosed(body[1..], b);
      if |body| >= 2 {
        assert !ClosesAt(body, 0);
      } else {
        assert t[1] == '*';
      }
    }
  }

  // ---- remove_css_comments ----

  /** `remove_css_comments` as a definition: every block comment is dropped,
      everything else is copied. */
  function Css(s: string): (r: string)
    ensures |r| <= |s|
    decreases |s|
  {
    if |s| == 0 then ""
    else if OpensBlock(s) then
      var t := s[2..];
      Css(t[SkipBlock(t)..])
    else [s[0]] + Css(s[1..])
  }

  /** One copied character. */
  lemma CssCopyStep(s: string)
    requires |s| > 0 && !OpensBlock(s)
    ensures Css(s) == [s[0]] + Css(s[1..])
  {
  }

  /** One dropped comment. */
  lemma CssSkipStep(s: string)
    requires OpensBlock(s)
    ensures Css(s) == Css(s[2..][SkipBlock(s[2..])..])
  {
  }

  /** The scanning loop of `remove_css_comments`. */
  method StripCss(content: string) returns (r: string)
    ensures r == Css(content)
  {
    r := "";
    var i := 0;
    while i < |content|
      invariant 0 <= i <= |content|
      invariant r + Css(content[i..]) == Css(content)
    {
      if i < |content| - 1 && content[i] == '/' && content[i + 1] == '*' {
        ghost var s := content[i..];
        assert OpensBlock(s);
        i := i + 2;
        ghost var start := i;
        assert s[2..] == content[start..];
        while i < |content| - 1
          invariant start <= i <= |content|
          invariant i - start + SkipBlock(content[i..]) == SkipBlock(content[start..])
        {
          if content[i] == '*' && content[i + 1] == '/' {
            assert SkipBlock(content[i..]) == 2;
            i := i + 2;
            break;
          }
          assert content[i..][1..] == content[i + 1..];
          i := i + 1;
        }
        assert i == start + SkipBlock(content[start..]);
        assert content[start..][SkipBlock(content[start..])..] == content[i..];
        CssSkipStep(s);
      } else {
        ghost var s := content[i..];
        assert s[1..] == content[i + 1..];
        CssCopyStep(s);
        ConcatAssoc(r, [content[i]], Css(content[i + 1..]));
        r := r + [content[i]];
        i := i + 1;
      }
    }
  }

  /** Text without an opener passes through unchanged. */
  lemma {:induction false} CssNoComment(s: string)
    requires NoOpen(s)
    ensures Css(s) == s
    decreases |s|
  {
    if |s| > 0 {
      assert NoOpen(s[1..]) by {
        forall k | 0 <= k < |s| - 2 ensures !(s[1..][k] == '/' && s[1..][k + 1] == '*') {
          assert !(s[k + 1] == '/' && s[k + 2] == '*');
        }
      }
      CssNoComment(s[1..]);
      if |s| >= 2 {
        assert !(s[0] == '/' && s[1] == '*');
      }
    }
  }

  /** Comment-free text that does not end in '/' is copied in front of
      whatever follows. */
  lemma {:induction false} CssPrefix(a: string, x: string)
    requires NoOpen(a) && (|a| == 0 || a[|a| - 1] != '/')
    ensures Css(a + x) == a + Css(x)
    decreases |a|
  {
    if |a| > 0 {
      var s := a + x;
      if |a| >= 2 {
        assert !(a[0] == '/' && a[1] == '*');
      }
      assert s[0] == a[0];
      assert |a| == 1 ==> a[0] != '/';
      assert !OpensBlock(s);
      assert Css(s) == [a[0]] + Css(s[1..]);
      assert s[1..] == a[1..] + x;
      assert NoOpen(a[1..]) by {
        forall k | 0 <= k < |a| - 2 ensures !(a[1..][k] == '/' && a[1..][k + 1] == '*') {
          assert !(a[k + 1] == '/' && a[k + 2] == '*');
        }
      }
      assert |a| > 1 ==> a[1..][|a| - 2] == a[|a| - 1];
      CssPrefix(a[1..], x);
      assert [a[0]] + a[1..] == a;
    } else {
      assert a + x == x;
    }
  }

  /** A terminated comment at the start is skipped whole. */
  lemma CssBlockStep(body: string, b: string)
    requires NoClose(body)
    ensures Css("/*" + body + "*/" + b) == Css(b)
  {
    var x := "/*" + body + "*/" + b;
    assert OpensBlock(x);
    assert x[2..] == body + "*/" + b;
    SkipBlockClosed(body, b);
    assert (body + "*/" + b)[|body| + 2..] == b;
  }

  /** A terminated comment is removed and nothing around it changes. */
  lemma CssDropsComment(a: string, body: string, b: string)
    requires NoOpen(a) && (|a| == 0 || a[|a| - 1] != '/')
    requires NoClose(body)
    ensures Css(a + "/*" + body + "*/" + b) == a + Css(b)
  {
    var x := "/*" + body + "*/" + b;
    assert a + "/*" + body + "*/" + b == a + x;
    CssBlockStep(body, b);
    CssPrefix(a, x);
  }

  /** An unterminated comment is removed except for the file's last
      character, which the outer loop still copies. */
  lemma CssUnterminated(a: string, body: string)
    requires NoOpen(a) && (|a| == 0 || a[|a| - 1] != '/')
    requires NoClose(body) && |body| > 0
    ensures Css(a + "/*" + body) == a + [body[|body| - 1]]
  {
    var x := "/*" + body;
    var last := body[|body| - 1];
    assert a + "/*" + body == a + x;
    CssOpenComment(body);
    assert Css(x) == [last];
    CssPrefix(a, x);
    assert Css(a + x) == a + [last];
  }

  lemma CssOpenComment(body: string)
    requires NoClose(body) && |body| > 0
    ensures Css("/*" + body) == [body[|body| - 1]]
  {
    var x := "/*" + body;
    assert OpensBlock(x) && x[2..] == body;
    SkipBlockOpen(body);
    assert body[|body| - 1..] == [body[|body| - 1]];
    CssOne(body[|body| - 1]);
  }

  lemma CssOne(c: char)
    ensures Css([c]) == [c]
  {
    assert [c][1..] == [];
  }

  // ---- remove_ts_js_comments ----

  /** The scanner of `remove_ts_js_comments` from a given state. A backslash
      copies itself and the next character, in or out of a literal. Outside
      literals a quote or backtick opens one, "//" drops the rest of the line
      but keeps its newline, and a block comment is dropped. With `fixed` false this
      is the code as written, whose loop advances once more after a block
      comment and so also drops the character that follows it; with `fixed`
      true the scan resumes right after the closer, as the CSS scanner does. */
  function Ts(s: string, m: Mode, escape: bool, fixed: bool): (r: string)
    ensures |r| <= |s|
    decreases |s|, 1
  {
    if |s| == 0 then ""
    else if escape then [s[0]] + Ts(s[1..], m, false, fixed)
    else if s[0] == '\\' then [s[0]] + Ts(s[1..], m, true, fixed)
    else if m.Quoted? then [s[0]] + Ts(s[1..], if s[0] == m.delim then Code else m, false, fixed)
    else if IsTsQuote(s[0]) then [s[0]] + Ts(s[1..], Quoted(s[0]), false, fixed)
    else if StartsComment(s) then Comment(s, fixed)
    else [s[0]] + Ts(s[1..], Code, false, fixed)
  }

  /** A slash followed by a slash or a star, outside literals. */
  predicate StartsComment(s: string) {
    |s| >= 2 && s[0] == '/' && (s[1] == '/' || s[1] == '*')
  }

  /** The scan from a comment opener on: a line comment is dropped up to
      its newline, which is kept; a block comment is dropped through its
      closer (and, as written, one character more). */
  function Comment(s: string, fixed: bool): (r: string)
    requires StartsComment(s)
    ensures |r| <= |s|
    decreases |s|, 0
  {
    if s[1] == '/' then
      var k := IndexOf(s, '\n');
      if k < |s| then "\n" + Ts(s[k + 1..], Code, false, fixed) else ""
    else
      var t := s[2..];
      var rest := t[SkipBlock(t)..];
      if fixed then Ts(rest, Code, false, fixed)
      else if |rest| == 0 then ""
      else Ts(rest[1..], Code, false, fixed)
  }

  /** `remove_ts_js_comments` as written. */
  function StripTsAsWritten(content: string): (r: string)
    ensures |r| <= |content|
  {
    Ts(content, Code, false, false)
  }

  /** `remove_ts_js_comments` with the block-comment exit corrected. */
  function StripTs(content: string): (r: string)
    ensures |r| <= |content|
  {
    Ts(content, Code, false, true)
  }

  /** Nothing the TS/JS scanner reacts to. */
  predicate PlainTs(a: string) {
    forall k :: 0 <= k < |a| ==> a[k] != '/' && a[k] != '\\' && !IsTsQuote(a[k])
  }

  /** One plain character is copied. */
  lemma TsPlainStep(s: string, fixed: bool)
    requires |s| > 0 && s[0] != '/' && s[0] != '\\' && !IsTsQuote(s[0])
    ensures Ts(s, Code, false, fixed) == [s[0]] + Ts(s[1..], Code, false, fixed)
  {
  }

  /** Plain code is copied in front of whatever follows. */
  lemma {:induction false} TsPrefix(a: string, x: string, fixed: bool)
    requires PlainTs(a)
    ensures Ts(a + x, Code, false, fixed) == a + Ts(x, Code, false, fixed)
    decreases |a|
  {
    if |a| > 0 {
      var s := a + x;
      assert s[0] == a[0];
      TsPlainStep(s, fixed);
      assert s[1..] == a[1..] + x;
      assert PlainTs(a[1..]) by {
        forall k | 0 <= k < |a| - 1 ensures a[1..][k] != '/' && a[1..][k] != '\\' && !IsTsQuote(a[1..][k]) {
          assert a[1..][k] == a[k + 1];
        }
      }
      TsPrefix(a[1..], x, fixed);
      assert [a[0]] + a[1..] == a;
    } else {
      assert a + x == x;
    }
  }

  /** A line comment and its text go; the newline ending it stays. */
  lemma TsLineCommentStep(c: string, b: string, fixed: bool)
    requires '\n' !in c
    ensures Ts("//" + c + "\n" + b, Code, false, fixed) == "\n" + Ts(b, Code, false, fixed)
  {
    var x := "//" + c + "\n" + b;
    assert x[0] == '/' && x[1] == '/' && x[2 + |c|] == '\n';
    IndexOfFirst(x, '\n', 2 + |c|);
    assert x[2 + |c| + 1..] == b;
  }

  /** A "//" comment goes up to its newline; the newline stays. */
  lemma TsDropsLineComment(a: string, c: string, b: string, fixed: bool)
    requires PlainTs(a) && '\n' !in c
    ensures Ts(a + "//" + c + "\n" + b, Code, false, fixed) == a + "\n" + Ts(b, Code, false, fixed)
  {
    var x := "//" + c + "\n" + b;
    assert a + "//" + c + "\n" + b == a + x;
    TsPrefix(a, x, fixed);
    TsLineCommentStep(c, b, fixed);
  }

  /** A "//" comment on the last line, without a newline, ends the output. */
  lemma TsDropsLastLineComment(a: string, c: string, fixed: bool)
    requires PlainTs(a) && '\n' !in c
    ensures Ts(a + "//" + c, Code, false, fixed) == a
  {
    var x := "//" + c;
    assert a + "//" + c == a + x;
    TsPrefix(a, x, fixed);
    assert x[0] == '/' && x[1] == '/';
    assert Ts(x, Code, false, fixed) == "";
  }

  /** The scan after a terminated block comment resumes right after its
      closer, or, as written, one character later. */
  lemma TsBlockStep(body: string, b: string, fixed: bool)
    requires NoClose(body)
    ensures Ts("/*" + body + "*/" + b, Code, false, fixed) ==
      if fixed then Ts(b, Code, false, fixed)
      else if |b| == 0 then ""
      else Ts(b[1..], Code, false, fixed)
  {
    var x := "/*" + body + "*/" + b;
    assert StartsComment(x) && x[1] == '*';
    assert Ts(x, Code, false, fixed) == Comment(x, fixed);
    assert x[2..] == body + "*/" + b;
    SkipBlockClosed(body, b);
    assert (body + "*/" + b)[|body| + 2..] == b;
  }

  /** The corrected scanner removes a block comment and keeps what follows. */
  lemma TsDropsBlockComment(a: string, body: string, b: string)
    requires PlainTs(a) && NoClose(body)
    ensures StripTs(a + "/*" + body + "*/" + b) == a + StripTs(b)
  {
    var x := "/*" + body + "*/" + b;
    assert a + "/*" + body + "*/" + b == a + x;
    TsBlockStep(body, b, true);
    TsPrefix(a, x, true);
  }

  /** As written, the scanner also loses the character right after the closer. */
  lemma BlockCommentEatsNextChar(a: string, body: string, c: char, b: string)
    requires PlainTs(a) && NoClose(body)
    ensures StripTsAsWritten(a + "/*" + body + "*/" + [c] + b) == a + Ts(b, Code, false, false)
  {
    var x := "/*" + body + "*/" + ([c] + b);
    assert a + "/*" + body + "*/" + [c] + b == a + x;
    TsBlockStep(body, [c] + b, false);
    assert ([c] + b)[1..] == b;
    TsPrefix(a, x, false);
  }

  /** The smallest case: a one-character block comment between "a" and "b"
      takes the "b" with it as written, and leaves it once corrected. */
  lemma BlockCommentCounterexample()
    ensures StripTsAsWritten("a/*x*/b") == "a"
    ensures StripTs("a/*x*/b") == "ab"
  {
    assert PlainTs("a");
    assert NoClose("x");
    BlockCommentEatsNextChar("a", "x", 'b', "");
    assert "a" + "/*" + "x" + "*/" + ['b'] + "" == "a/*x*/b";
    TsDropsBlockComment("a", "x", "b");
    assert "a" + "/*" + "x" + "*/" + "b" == "a/*x*/b";
    assert Ts("b", Code, false, true) == "b";
  }

  /** Inside a literal one character is copied, closing it if it is the quote. */
  lemma TsQuotedStep(s: string, q: char, fixed: bool)
    requires |s| > 0 && s[0] != '\\'
    ensures Ts(s, Quoted(q), false, fixed) == [s[0]] + Ts(s[1..], if s[0] == q then Code else Quoted(q), false, fixed)
  {
  }

  /** Inside a literal nothing is a comment: the body up to the closing
      quote is copied, line and block comment markers included. */
  lemma {:induction false} TsLiteralBody(body: string, q: char, b: string, fixed: bool)
    requires q != '\\' && q !in body && '\\' !in body
    ensures Ts(body + [q] + b, Quoted(q), false, fixed) == body + [q] + Ts(b, Code, false, fixed)
    decreases |body|
  {
    var s := body + [q] + b;
    if |body| == 0 {
      assert s[0] == q && s[1..] == b;
      TsQuotedStep(s, q, fixed);
    } else {
      assert s[0] == body[0] && s[1..] == body[1..] + [q] + b;
      assert body[0] != q && body[0] != '\\' by { assert body[0] in body; }
      TsQuotedStep(s, q, fixed);
      assert forall x :: x in body[1..] ==> x in body;
      TsLiteralBody(body[1..], q, b, fixed);
      assert [body[0]] + body[1..] == body;
    }
  }

  /** A quoted literal is copied whole, comment markers inside it included. */
  lemma TsKeepsLiteral(q: char, body: string, b: string, fixed: bool)
    requires IsTsQuote(q) && q !in body && '\\' !in body
    ensures Ts([q] + body + [q] + b, Code, false, fixed) == [q] + body + [q] + Ts(b, Code, false, fixed)
  {
    var s := [q] + body + [q] + b;
    assert s[1..] == body + [q] + b;
    TsLiteralBody(body, q, b, fixed);
  }

  /** A backslash copies the next character without acting on it: an
      escaped quote opens no literal and an escaped '/' starts no comment. */
  lemma TsEscape(c: char, b: string, m: Mode, fixed: bool)
    ensures Ts(['\\', c] + b, m, false, fixed) == ['\\', c] + Ts(b, m, false, fixed)
  {
    var s := ['\\', c] + b;
    assert s[1..] == [c] + b;
    assert s[1..][1..] == b;
  }

  // ---- the line scanners of remove_config_comments and remove_python_comments ----

  /** The two line-oriented strippers differ only in when '#' starts a comment. */
  datatype Dialect = Config | Python

  /** The literal state after one character: an escaped character or a
      backslash changes nothing, a quote opens a literal, and the quote
      that opened it closes it. */
  function NextMode(m: Mode, c: char, escape: bool): (n: Mode)
    ensures escape || c == '\\' ==> n == m
    ensures !escape && c != '\\' && m.Code? ==> (n.Quoted? <==> IsQuote(c)) && (n.Quoted? ==> n.delim == c)
    ensures !escape && c != '\\' && m.Quoted? ==> (n.Code? <==> c == m.delim) && (n.Quoted? ==> n == m)
  {
    if escape || c == '\\' then m
    else match m
      case Quoted(q) => if c == q then Code else m
      case Code => if IsQuote(c) then Quoted(c) else Code
  }

  /** The scan of one line from index `i`: the text kept before the comment.
      A backslash copies itself and the next character; a quote opens or
      closes a literal; outside literals '#' ends the line, except that in
      Python a '#' right after a quote character is kept. */
  function ScanLine(line: string, i: nat, m: Mode, escape: bool, d: Dialect): (r: string)
    requires i <= |line|
    ensures |r| <= |line| - i
    decreases |line| - i
  {
    if i == |line| then ""
    else
      var c := line[i];
      if !escape && c == '#' && m.Code? && (d == Config || i == 0 || !IsQuote(line[i - 1])) then ""
      else [c] + ScanLine(line, i + 1, NextMode(m, c, escape), !escape && c == '\\', d)
  }

  /** No comment character, quote or backslash. */
  predicate PlainLine(line: string) {
    forall k :: 0 <= k < |line| ==> line[k] != '#' && line[k] != '\\' && !IsQuote(line[k])
  }

  /** Outside literals, the scan keeps exactly the text before a '#'. */
  lemma {:induction false} ScanCutsAtHash(a: string, c: string, i: nat, d: Dialect)
    requires i <= |a| && PlainLine(a)
    ensures ScanLine(a + "#" + c, i, Code, false, d) == a[i..]
    decreases |a| - i
  {
    var line := a + "#" + c;
    if i < |a| {
      assert line[i] == a[i];
      ScanCutsAtHash(a, c, i + 1, d);
    } else {
      assert line[i] == '#';
      if i > 0 { assert line[i - 1] == a[|a| - 1]; }
    }
  }

  /** A plain line is kept whole. */
  lemma {:induction false} ScanPlain(line: string, i: nat, d: Dialect)
    requires i <= |line| && PlainLine(line)
    ensures ScanLine(line, i, Code, false, d) == line[i..]
    decreases |line| - i
  {
    if i < |line| {
      ScanPlain(line, i + 1, d);
    }
  }

  /** A backslash copies itself and the next character, in or out of a
      literal: the escaped character neither opens nor closes a literal and
      an escaped '#' cuts nothing. */
  lemma ScanEscape(line: string, i: nat, m: Mode, d: Dialect)
    requires i + 1 < |line| && line[i] == '\\'
    ensures ScanLine(line, i, m, false, d) == line[i..i + 2] + ScanLine(line, i + 2, m, false, d)
  {
    assert line[i..i + 2] == [line[i], line[i + 1]];
  }

  /** One character the scan keeps, and the state it moves to. */
  lemma ScanKeeps(line: string, i: nat, m: Mode, escape: bool, d: Dialect)
    requires i < |line|
    requires escape || line[i] != '#' || m.Quoted? || (d == Python && i > 0 && IsQuote(line[i - 1]))
    ensures ScanLine(line, i, m, escape, d) ==
      [line[i]] + ScanLine(line, i + 1, NextMode(m, line[i], escape), !escape && line[i] == '\\', d)
  {
  }

  /** A character that is no comment character, quote or backslash is
      copied outside literals. */
  lemma ScanPlainStep(line: string, i: nat, d: Dialect)
    requires i < |line| && line[i] != '#' && line[i] != '\\' && !IsQuote(line[i])
    ensures ScanLine(line, i, Code, false, d) == [line[i]] + ScanLine(line, i + 1, Code, false, d)
  {
  }

  /** A stretch without comment characters, quotes or backslashes is copied
      as it is. */
  lemma {:induction false} ScanPlainRun(line: string, i: nat, j: nat, d: Dialect)
    requires i <= j <= |line|
    requires forall k :: i <= k < j ==> line[k] != '#' && line[k] != '\\' && !IsQuote(line[k])
    ensures ScanLine(line, i, Code, false, d) == line[i..j] + ScanLine(line, j, Code, false, d)
    decreases j - i
  {
    if i < j {
      ScanPlainStep(line, i, d);
      ScanPlainRun(line, i + 1, j, d);
      assert line[i..j] == [line[i]] + line[i + 1..j];
      ConcatAssoc([line[i]], line[i + 1..j], ScanLine(line, j, Code, false, d));
    }
  }

  /** Outside literals an unescaped '#' ends the scan, unless Python's
      rule keeps it after a quote. */
  lemma ScanStopsAtHash(line: string, i: nat, d: Dialect)
    requires i < |line| && line[i] == '#'
    requires d == Config || i == 0 || !IsQuote(line[i - 1])
    ensures ScanLine(line, i, Code, false, d) == ""
  {
  }

  /** The scan of a line whose only special characters before its first
      '#' are one backslash pair. */
  lemma ScanEscapeRun(line: string, p: nat, n: nat, d: Dialect)
    requires p + 2 <= n < |line| && line[p] == '\\' && line[n] == '#'
    requires forall k :: 0 <= k < p ==> line[k] != '#' && line[k] != '\\' && !IsQuote(line[k])
    requires forall k :: p + 2 <= k < n ==> line[k] != '#' && line[k] != '\\' && !IsQuote(line[k])
    requires d == Config || !IsQuote(line[n - 1])
    ensures ScanLine(line, 0, Code, false, d) == line[..n]
  {
    ScanStopsAtHash(line, n, d);
    ScanPlainRun(line, p + 2, n, d);
    assert line[p + 2..n] + "" == line[p + 2..n];
    ScanEscape(line, p, Code, d);
    ScanPlainRun(line, 0, p, d);
    ConcatAssoc(line[0..p], line[p..p + 2], line[p + 2..n]);
    assert line[..n] == line[0..p] + line[p..p + 2] + line[p + 2..n];
  }

  /** An escaped character changes nothing about the scan around it: an
      escaped quote opens no literal, so a later '#' still cuts the line,
      and an escaped '#' is kept. Only Python's quote-before-'#' rule looks
      at the escaped character, when the '#' follows it directly. */
  lemma ScanEscapeKept(a: string, e: char, b: string, c: string, d: Dialect)
    requires PlainLine(a) && PlainLine(b)
    requires |b| > 0 || d == Config || !IsQuote(e)
    ensures ScanLine(a + ['\\', e] + b + "#" + c, 0, Code, false, d) == a + ['\\', e] + b
  {
    var line := a + ['\\', e] + b + "#" + c;
    var n := |a| + 2 + |b|;
    assert line[n - 1] == if |b| > 0 then b[|b| - 1] else e;
    assert forall k :: |a| + 2 <= k < n ==> line[k] == b[k - |a| - 2];
    assert forall k :: 0 <= k < |a| ==> line[k] == a[k];
    ScanEscapeRun(line, |a|, n, d);
    assert line[..n] == a + ['\\', e] + b;
  }

  /** The Python rule: after an empty literal such as `''` the '#' follows
      a quote and is kept, so the rest of the line stays, while the
      configuration scanner cuts there. */
  lemma HashAfterQuote(a: string, q: char, c: string)
    requires PlainLine(a) && PlainLine(c) && IsQuote(q)
    ensures ScanLine(a + [q, q] + "#" + c, 0, Code, false, Python) == a + [q, q] + "#" + c
    ensures ScanLine(a + [q, q] + "#" + c, 0, Code, false, Config) == a + [q, q]
  {
    HashAfterQuoteKept(a, q, c);
    HashAfterQuoteCut(a, q, c);
  }

  /** The scan up to an empty literal opened at `n`. */
  lemma EmptyLiteralRun(line: string, n: nat, q: char, d: Dialect)
    requires n + 2 <= |line| && PlainLine(line[..n]) && IsQuote(q)
    requires line[n] == q && line[n + 1] == q
    ensures ScanLine(line, 0, Code, false, d) == line[..n + 2] + ScanLine(line, n + 2, Code, false, d)
  {
    assert forall k :: 0 <= k < n ==> line[k] == line[..n][k];
    assert NextMode(Code, q, false) == Quoted(q);
    assert NextMode(Quoted(q), q, false) == Code;
    ScanPlainRun(line, 0, n, d);
    ScanKeeps(line, n, Code, false, d);
    ScanKeeps(line, n + 1, Quoted(q), false, d);
    var rest := ScanLine(line, n + 2, Code, false, d);
    assert [q] + ([q] + rest) == [q, q] + rest;
    ConcatAssoc(line[0..n], [q, q], rest);
    assert line[..n + 2] == line[0..n] + [q, q];
  }

  /** Python keeps the rest of the line. */
  lemma HashAfterQuoteKept(a: string, q: char, c: string)
    requires PlainLine(a) && PlainLine(c) && IsQuote(q)
    ensures ScanLine(a + [q, q] + "#" + c, 0, Code, false, Python) == a + [q, q] + "#" + c
  {
    var line := a + [q, q] + "#" + c;
    var n := |a|;
    assert line[..n] == a && line[n] == q && line[n + 1] == q && line[n + 2] == '#';
    EmptyLiteralRun(line, n, q, Python);
    assert line[..n + 2] == a + [q, q];
    assert forall k :: n + 3 <= k < |line| ==> line[k] == c[k - n - 3];
    assert line[n + 3..|line|] == c;
    ScanKeeps(line, n + 2, Code, false, Python);
    ScanPlainRun(line, n + 3, |line|, Python);
    assert ScanLine(line, n + 2, Code, false, Python) == "#" + c;
  }

  /** The configuration scanner cuts at the '#'. */
  lemma HashAfterQuoteCut(a: string, q: char, c: string)
    requires PlainLine(a) && IsQuote(q)
    ensures ScanLine(a + [q, q] + "#" + c, 0, Code, false, Config) == a + [q, q]
  {
    var line := a + [q, q] + "#" + c;
    var n := |a|;
    assert line[..n] == a && line[n] == q && line[n + 1] == q && line[n + 2] == '#';
    EmptyLiteralRun(line, n, q, Config);
    assert line[..n + 2] == a + [q, q];
    ScanStopsAtHash(line, n + 2, Config);
  }

  // ---- assembling the lines ----

  /** A line with nothing but blanks, as `str.strip` sees it. */
  predicate Blank(x: string) {
    PyStrip(x) == ""
  }

  /** The append step: a blank line is kept only first or after a
      non-blank line. */
  function Keep(acc: seq<string>, x: string): (r: seq<string>)
    ensures r == acc + [x] || r == acc
    ensures r == acc <==> x == "" && |acc| > 0 && Blank(acc[|acc| - 1])
  {
    if x != "" || |acc| == 0 || !Blank(acc[|acc| - 1]) then acc + [x] else acc
  }

  /** The cleaned line: scanned, then right-stripped. */
  function CleanLine(line: string, d: Dialect): (r: string)
    ensures |r| <= |line|
    ensures |r| > 0 ==> !IsPySpace(r[|r| - 1])
  {
    PyRStrip(ScanLine(line, 0, Code, false, d))
  }

  /** The loop over the lines, quote state starting afresh on every line. */
  function Collect(acc: seq<string>, lines: seq<string>, d: Dialect): (r: seq<string>)
    ensures |acc| <= |r| <= |acc| + |lines|
    ensures r[..|acc|] == acc
    decreases |lines|
  {
    if |lines| == 0 then acc
    else Collect(Keep(acc, CleanLine(lines[0], d)), lines[1..], d)
  }

  /** `remove_config_comments` and the line part of `remove_python_comments`:
      split at "\n", clean every line, join with "\n". The Python version's
      two `re.sub` calls with an empty pattern replace nothing, so they are
      not part of it. */
  function StripLines(content: string, d: Dialect): (r: string) {
    Join(Collect([], Split(content, '\n'), d), "\n")
  }

  /** No output line ends in a blank, and no two output lines are both empty. */
  predicate Tidy(lines: seq<string>) {
    (forall i :: 0 <= i < |lines| ==> |lines[i]| == 0 || !IsPySpace(lines[i][|lines[i]| - 1])) &&
    (forall i :: 0 <= i < |lines| - 1 ==> lines[i] != "" || lines[i + 1] != "")
  }

  /** The loop keeps its output tidy. */
  lemma {:induction false} CollectTidy(acc: seq<string>, lines: seq<string>, d: Dialect)
    requires Tidy(acc)
    ensures Tidy(Collect(acc, lines, d))
    decreases |lines|
  {
    if |lines| > 0 {
      var x := CleanLine(lines[0], d);
      var acc1 := Keep(acc, x);
      assert Tidy(acc1) by {
        if acc1 != acc {
          assert acc1[|acc|] == x;
          if x == "" && |acc| > 0 {
            assert !Blank(acc[|acc| - 1]);
            assert acc[|acc| - 1] != "";
          }
        }
      }
      CollectTidy(acc1, lines[1..], d);
    }
  }

  /** Every output line is right-stripped, there are never two empty lines
      in a row, and there are never more lines than went in. */
  lemma StripLinesShape(content: string, d: Dialect)
    ensures var out := Collect([], Split(content, '\n'), d);
      Tidy(out) && |out| <= |Split(content, '\n')| && StripLines(content, d) == Join(out, "\n")
  {
    CollectTidy([], Split(content, '\n'), d);
  }

  /** A right-stripped line with some text is not blank. */
  lemma {:induction false} NotBlank(x: string)
    requires |x| > 0 && !IsPySpace(x[|x| - 1])
    ensures !Blank(x)
  {
    var l := PyLStrip(x);
    LStripKeepsEnd(x);
    assert |l| > 0 && !IsPySpace(l[|l| - 1]);
    assert PyRStrip(l) == l;
  }

  lemma {:induction false} LStripKeepsEnd(x: string)
    requires |x| > 0 && !IsPySpace(x[|x| - 1])
    ensures |PyLStrip(x)| > 0 && PyLStrip(x)[|PyLStrip(x)| - 1] == x[|x| - 1]
    decreases |x|
  {
    if IsPySpace(x[0]) {
      assert |x| > 1;
      assert x[1..][|x| - 2] == x[|x| - 1];
      LStripKeepsEnd(x[1..]);
    }
  }

  /** Plain tidy lines go through the loop untouched. */
  lemma {:induction false} CollectPlain(acc: seq<string>, lines: seq<string>, d: Dialect)
    requires Tidy(acc + lines)
    requires forall i :: 0 <= i < |lines| ==> PlainLine(lines[i])
    ensures Collect(acc, lines, d) == acc + lines
    decreases |lines|
  {
    if |lines| > 0 {
      var x := lines[0];
      var all := acc + lines;
      assert all[|acc|] == x;
      ScanPlain(x, 0, d);
      assert x[0..] == x;
      assert CleanLine(x, d) == x by {
        if |x| > 0 { assert !IsPySpace(all[|acc|][|x| - 1]); }
      }
      if x == "" && |acc| > 0 {
        assert all[|acc| - 1] == acc[|acc| - 1];
        assert acc[|acc| - 1] != "";
        NotBlank(acc[|acc| - 1]);
      }
      assert Keep(acc, x) == acc + [x];
      assert acc + [x] + lines[1..] == all;
      CollectPlain(acc + [x], lines[1..], d);
    }
  }

  /** A file whose lines hold no comment character, quote or backslash,
      end in no blank and are never empty twice in a row comes back as it
      was. */
  lemma StripLinesUnchanged(content: string, d: Dialect)
    requires forall i :: 0 <= i < |Split(content, '\n')| ==> PlainLine(Split(content, '\n')[i])
    requires Tidy(Split(content, '\n'))
    ensures StripLines(content, d) == content
  {
    var lines := Split(content, '\n');
    assert [] + lines == lines;
    CollectPlain([], lines, d);
    JoinSplit(content, '\n');
  }

  /** The comment is removed from a line of a configuration file. */
  lemma ConfigCutsComment(a: string, c: string)
    requires PlainLine(a) && '\n' !in a && '\n' !in c
    ensures StripLines(a + "#" + c, Config) == PyRStrip(a)
  {
    var line := a + "#" + c;
    assert '\n' !in line;
    SplitNone(line, '\n');
    ScanCutsAtHash(a, c, 0, Config);
    assert a[0..] == a;
    assert Collect([], [line], Config) == [PyRStrip(a)] by {
      assert Keep([], PyRStrip(a)) == [PyRStrip(a)];
      assert [line][1..] == [];
    }
  }

  // ---- process_file ----

  /** The index of the last `c`, -1 when there is none. */
  function LastIndexOf(s: string, c: char): (r: int)
    ensures -1 <= r < |s|
    ensures r >= 0 ==> s[r] == c
    ensures forall k :: r < k < |s| ==> s[k] != c
    decreases |s|
  {
    if |s| == 0 then -1
    else if s[|s| - 1] == c then |s| - 1
    else LastIndexOf(s[..|s| - 1], c)
  }

  /** The last `c` is at `k` when there is none after it. */
  lemma {:induction false} LastIndexOfAt(s: string, c: char, k: int)
    requires -1 <= k < |s| && (k >= 0 ==> s[k] == c)
    requires forall j :: k < j < |s| ==> s[j] != c
    ensures LastIndexOf(s, c) == k
    decreases |s|
  {
    if |s| > 0 && s[|s| - 1] != c {
      LastIndexOfAt(s[..|s| - 1], c, k);
    }
  }

  /** `Path.suffix` of a file name: from the last '.' on, unless that '.'
      starts the name or ends it. */
  function Suffix(name: string): (ext: string)
    ensures ext == "" || (ext[0] == '.' && '.' !in ext[1..] && |ext| >= 2 && |ext| < |name| && EndsWith(name, ext))
  {
    var i := LastIndexOf(name, '.');
    if 0 < i < |name| - 1 then
      assert forall k :: 0 <= k < |name| - i - 1 ==> name[i..][1..][k] == name[i + 1 + k];
      name[i..]
    else ""
  }

  /** Which scanner a file gets. */
  datatype Handler = PythonFile | ScriptFile | StyleFile | ConfigFile | Skipped

  /** The dispatch of `process_file`: on the lower-cased suffix, with three
      configuration files recognised by name. */
  function HandlerFor(name: string): (h: Handler)
    ensures Lower(Suffix(name)) == ".py" <==> h == PythonFile
    ensures Lower(Suffix(name)) in {".ts", ".tsx", ".js", ".jsx"} <==> h == ScriptFile
    ensures Lower(Suffix(name)) == ".css" <==> h == StyleFile
    ensures h == ConfigFile ==> (name in {"nginx.conf", "Dockerfile", "docker-entrypoint.sh"} ||
      Lower(Suffix(name)) in {".yaml", ".yml", ".conf", ".sh"})
    ensures h == Skipped <==>
      (Lower(Suffix(name)) !in {".py", ".ts", ".tsx", ".js", ".jsx", ".css", ".yaml", ".yml", ".conf", ".sh"} &&
       name !in {"nginx.conf", "Dockerfile", "docker-entrypoint.sh"})
  {
    var ext := Lower(Suffix(name));
    if ext == ".py" then PythonFile
    else if ext in {".ts", ".tsx", ".js", ".jsx"} then ScriptFile
    else if ext == ".css" then StyleFile
    else if name in {"nginx.conf", "Dockerfile", "docker-entrypoint.sh"} || ext in {".yaml", ".yml", ".conf", ".sh"} then ConfigFile
    else Skipped
  }

  /** The new content a handler produces. */
  function Rewrite(h: Handler, content: string): string
    requires h != Skipped
  {
    match h
    case PythonFile => StripLines(content, Python)
    case ScriptFile => StripTs(content)
    case StyleFile => Css(content)
    case ConfigFile => StripLines(content, Config)
  }

  /** The text `open(..., 'r')` hands back: universal newlines turn every
      "\r\n" and every lone "\r" into "\n". */
  function ReadText(raw: string): (t: string)
    ensures '\r' !in t
    ensures |t| <= |raw|
    decreases |raw|
  {
    if |raw| == 0 then ""
    else if raw[0] == '\r' then
      "\n" + ReadText(if |raw| > 1 && raw[1] == '\n' then raw[2..] else raw[1..])
    else [raw[0]] + ReadText(raw[1..])
  }

  /** How many characters the first character of the text read takes up:
      two for a "\r\n" pair, one otherwise. */
  function ReadTextStep(raw: string): (k: nat)
    requires |raw| > 0
    ensures k <= |raw| && ReadText(raw) == ReadText(raw[..1]) + ReadText(raw[k..])
  {
    if raw[0] == '\r' && |raw| > 1 && raw[1] == '\n' then 2 else 1
  }

  /** A file without carriage returns is read as it is. */
  lemma {:induction false} ReadTextPlain(raw: string)
    requires '\r' !in raw
    ensures ReadText(raw) == raw
    decreases |raw|
  {
    if |raw| > 0 {
      assert raw[0] in raw;
      assert forall k :: 0 <= k < |raw| - 1 ==> raw[1..][k] == raw[k + 1];
      ReadTextPlain(raw[1..]);
    }
  }

  /** A Windows line ending is read as a single "\n", whatever comes before it. */
  lemma {:induction false} ReadTextCrLf(a: string, b: string)
    ensures ReadText(a + "\r\n" + b) == ReadText(a) + "\n" + ReadText(b)
    decreases |a|
  {
    var s := a + "\r\n" + b;
    if |a| == 0 {
      assert s[2..] == b;
    } else {
      var k := ReadTextStep(a);
      assert ReadTextStep(s) == k by {
        assert s[0] == a[0] && s[1] == if |a| > 1 then a[1] else '\r';
      }
      assert s[k..] == a[k..] + "\r\n" + b;
      ReadTextCrLf(a[k..], b);
      ConcatAssoc(ReadText(s[..1]), ReadText(a[k..]) + "\n", ReadText(b));
      ConcatAssoc(ReadText(s[..1]), ReadText(a[k..]), "\n");
    }
  }

  /** What `process_file` did: whether it reports a change, and the text it
      wrote back, if it wrote. */
  datatype Outcome = Outcome(changed: bool, written: Option<string>)

  /** `process_file` on the bytes on disk decoded as text (`raw`, None when
      the file cannot be read): the scanners see the newline-translated
      text, and the comparison and the written text use it too, so a file
      that is rewritten comes back with "\n" line endings. An unreadable
      file, an unknown kind or an unchanged text gives False and writes
      nothing; otherwise the new text is written and True comes back unless
      the write fails. */
  function ProcessFile(name: string, raw: Option<string>, writeOk: bool): (r: Outcome)
    ensures raw.None? ==> r == Outcome(false, None)
    ensures HandlerFor(name) == Skipped ==> r == Outcome(false, None)
    ensures r.written.Some? <==> (raw.Some? && HandlerFor(name) != Skipped &&
      Rewrite(HandlerFor(name), ReadText(raw.value)) != ReadText(raw.value))
    ensures r.written.Some? ==> r.written.value == Rewrite(HandlerFor(name), ReadText(raw.value))
    ensures r.changed <==> r.written.Some? && writeOk
  {
    if raw.None? then Outcome(false, None)
    else
      var content := ReadText(raw.value);
      var h := HandlerFor(name);
      if h == Skipped then Outcome(false, None)
      else
        var out := Rewrite(h, content);
        if out != content then Outcome(writeOk, Some(out)) else Outcome(false, None)
  }

  /** The suffix decides regardless of case. */
  lemma UpperCaseSuffix()
    ensures HandlerFor("App.TSX") == ScriptFile
  {
    LastIndexOfAt("App.TSX", '.', 3);
    assert Suffix("App.TSX") == ".TSX";
    assert Lower(".TSX") == ".tsx";
  }

  /** The three named files count as configuration without a suffix. */
  lemma DockerfileIsConfig()
    ensures HandlerFor("Dockerfile") == ConfigFile
  {
    LastIndexOfAt("Dockerfile", '.', -1);
    assert Suffix("Dockerfile") == "";
    assert Lower("") == "";
  }

  /** A name whose only '.' comes first has no suffix, so ".sh" is skipped. */
  lemma DotFileSkipped()
    ensures HandlerFor(".sh") == Skipped
  {
    LastIndexOfAt(".sh", '.', 0);
    assert Suffix(".sh") == "";
    assert Lower("") == "";
  }

  /** A stylesheet without comments is reported unchanged and not written,
      whatever its line endings: the comparison is with the text as read. */
  lemma CleanStylesheetUntouched(name: string, raw: string, writeOk: bool)
    requires HandlerFor(name) == StyleFile && NoOpen(ReadText(raw))
    ensures ProcessFile(name, Some(raw), writeOk) == Outcome(false, None)
  {
    CssNoComment(ReadText(raw));
  }
}

=== FILE: server.dfy ===
/** The server's shared vocabulary: replies, the requesting user, HTTP verbs,
    and the rows of the session and booking tables
    (`backend/sessions/models.py`, `backend/bookings/models.py`). Tables are
    sequences in insertion order; timestamps are integers; a decimal price is
    kept as the text the API renders for it. */
module Server {

  import opened Wrappers
  import opened Strings
  import opened Js
  import opened Domain

  /** A reply: its status code and JSON body. */
  datatype Reply = Reply(status: int, body: Json)

  /** `{"detail": message}`. */
  function Detail(message: string): Json {
    JObj([("detail", JStr(message))])
  }

  /** A view's result: a refusal with its reply, or a status with the value
      the serializer renders. */
  datatype Answer<T> = Refused(reply: Reply) | Answered(status: int, value: T)

  /** The user a request is authenticated as (JSON Web Token authentication),
      or none. */
  datatype Requester = Anonymous | Member(id: int, role: Role)

  const NotAuthenticatedText := "Authentication credentials were not provided."
  const PermissionDeniedText := "You do not have permission to perform this action."

  /** A failed permission check: 401 for a request without credentials (the
      token authentication answers with a challenge), 403 for a signed-in user. */
  function Denied(r: Requester): (reply: Reply)
    ensures r.Anonymous? <==> reply.status == 401
    ensures r.Member? <==> reply.status == 403
  {
    if r.Anonymous? then Reply(401, Detail(NotAuthenticatedText))
    else Reply(403, Detail(PermissionDeniedText))
  }

  const NotFound := Reply(404, Detail("Not found."))

  datatype Verb = GET | HEAD | OPTIONS | POST | PUT | PATCH | DELETE

  /** `permissions.SAFE_METHODS`. */
  predicate IsSafe(v: Verb) {
    v == GET || v == HEAD || v == OPTIONS
  }

  /** A stored session. `imageFile` is the stored file's URL, None when no file is attached. */
  datatype SessionRow = SessionRow(
    id: int,
    title: string,
    description: string,
    price: string,
    creator: int,
    image: string,
    imageFile: Option<string>,
    startTime: int,
    duration: string,
    createdAt: int,
    updatedAt: int)

  /** A stored booking. */
  datatype BookingRow = BookingRow(
    id: int,
    user: int,
    session: int,
    status: BookingStatus,
    paymentId: string,
    paymentStatus: string,
    amountPaid: Option<string>,
    createdAt: int)

  /** The row with the given id, the first one if several claim it. */
  function FindSession(table: seq<SessionRow>, id: int): (r: Option<nat>)
    ensures r.Some? ==> r.value < |table| && table[r.value].id == id
    ensures r.Some? ==> forall j :: 0 <= j < r.value ==> table[j].id != id
    ensures r.None? ==> forall j :: 0 <= j < |table| ==> table[j].id != id
  {
    if |table| == 0 then None
    else if table[0].id == id then Some(0)
    else match FindSession(table[1..], id)
      case None => None
      case Some(k) => Some(k + 1)
  }

  /** The index of the first booking satisfying `p`. */
  function FindBooking(table: seq<BookingRow>, p: BookingRow -> bool): (r: Option<nat>)
    ensures r.Some? ==> r.value < |table| && p(table[r.value])
    ensures r.Some? ==> forall j :: 0 <= j < r.value ==> !p(table[j])
    ensures r.None? ==> forall j :: 0 <= j < |table| ==> !p(table[j])
  {
    if |table| == 0 then None
    else if p(table[0]) then Some(0)
    else match FindBooking(table[1..], p)
      case None => None
      case Some(k) => Some(k + 1)
  }


  // ---- loading the URL configuration ----

  function CannotImport(name: string, mod: string): string {
    "cannot import name '" + name + "' from '" + mod + "'"
  }

  /** `from <mod> import <names>`: the names are bound in order, and the
      first one the module does not define raises ImportError. */
  function ImportFrom(mod: string, defined: set<string>, names: seq<string>): (r: Result<(), string>)
    ensures r.Success? <==> forall i :: 0 <= i < |names| ==> names[i] in defined
    ensures r.Failure? ==>
      exists i :: 0 <= i < |names| && names[i] !in defined && r.error == CannotImport(names[i], mod)
               && forall j :: 0 <= j < i ==> names[j] in defined
    decreases |names|
  {
    if |names| == 0 then Success(())
    else if names[0] !in defined then Failure(CannotImport(names[0], mod))
    else ImportFrom(mod, defined, names[1..])
  }

  /** The names `bookings/payments.py` defines at module level. */
  const PaymentsModuleNames: set<string> := {"settings", "Decimal", "stripe", "create_stripe_checkout_session"}

  /** The names `users/views.py` defines at module level. */
  const UsersViewsNames: set<string> := {
    "settings", "get_user_model", "google_requests", "google_id_token", "generics", "permissions", "status",
    "throttling", "Response", "RefreshToken", "requests", "GitHubAccessTokenSerializer", "GitHubCodeSerializer",
    "GoogleIdTokenSerializer", "RegisterSerializer", "UserSerializer", "User", "LoginThrottle", "RegisterThrottle",
    "RegisterView", "MeView", "GoogleLoginView", "GitHubLoginView"}

  /** What `payment_views.py` imports from the payments module. */
  const OrderFunctionName := "create_razorpay_order"

  /** What `users/urls.py` imports from the users views. */
  const UsersUrlImports := ["BecomeCreatorView", "GitHubLoginView", "GoogleLoginView", "MeView", "RegisterView"]

  /** The imports of the URL configuration that depend on the repository's
      own names: `bookings/urls.py` loads `payment_views.py`, which imports the
      order function, and `users/urls.py` imports five views. */
  predicate UrlConfLoads(paymentsDefined: set<string>, usersViewsDefined: set<string>) {
    && ImportFrom("bookings.payments", paymentsDefined, [OrderFunctionName]).Success?
    && ImportFrom("users.views", usersViewsDefined, UsersUrlImports).Success?
  }

  /** The answer of a server whose URL configuration could not be imported:
      Django's generic error page, which is not JSON (null here). */
  const ServerError := Reply(500, JNull)

  /** Any request. Django resolves it against the URL configuration, which it
      imports as a whole, every app's `urls.py` included; when that import
      fails no view runs, whatever the route, and the answer is the generic
      server error. Otherwise the request gets its view's answer. */
  function Serve<T>(paymentsDefined: set<string>, usersViewsDefined: set<string>, view: Answer<T>): (r: Answer<T>)
    ensures UrlConfLoads(paymentsDefined, usersViewsDefined) ==> r == view
    ensures !UrlConfLoads(paymentsDefined, usersViewsDefined) ==> r == Refused(ServerError)
  {
    if UrlConfLoads(paymentsDefined, usersViewsDefined) then view else Refused(ServerError)
  }

  /** As shipped, no route of the server answers with its view: both imports
      fail, and supplying either missing name alone does not help. */
  lemma EveryRouteFailsAsWritten<T>(view: Answer<T>)
    ensures Serve(PaymentsModuleNames, UsersViewsNames, view) == Refused(ServerError)
    ensures !UrlConfLoads(PaymentsModuleNames + {OrderFunctionName}, UsersViewsNames)
    ensures !UrlConfLoads(PaymentsModuleNames, UsersViewsNames + {UsersUrlImports[0]})
    ensures ImportFrom("users.views", UsersViewsNames, UsersUrlImports) == Failure(CannotImport("BecomeCreatorView", "users.views"))
  {
    assert OrderFunctionName !in PaymentsModuleNames by {
      assert OrderFunctionName[7] == 'r' && "create_stripe_checkout_session"[7] == 's';
      assert OrderFunctionName[0] == 'c' && "settings"[0] == 's' && "Decimal"[0] == 'D' && "stripe"[0] == 's';
    }
    assert UsersUrlImports[0] !in UsersViewsNames by {
      var n := UsersUrlImports[0];
      assert n[0] == 'B' && |n| == 17;
    }
  }

  /** With both names defined, every request reaches its view. */
  lemma RepairedServerServes<T>(view: Answer<T>)
    ensures Serve(PaymentsModuleNames + {OrderFunctionName}, UsersViewsNames + {UsersUrlImports[0]}, view) == view
  {
    var u := UsersViewsNames + {UsersUrlImports[0]};
    assert forall i :: 0 <= i < |UsersUrlImports| ==> UsersUrlImports[i] in u;
  }

  // ---- resolving a path below the bookings prefix ----

  /** A path segment the router's lookup group `[^/.]+` accepts. */
  predicate IsLookup(s: string) {
    |s| > 0 && forall i :: 0 <= i < |s| ==> s[i] != '/' && s[i] != '.'
  }

  /** The views `bookings/urls.py` hands a request to. */
  datatype BookingsView = BookingList | BookingDetail(pk: string) | BookingVerify(pk: string) | PaymentOrderView | NoMatch

  const OrderPath := "create-payment-order/"
  const VerifySuffix := "/verify_payment/"

  /** The order of the two entries of `urlpatterns`: as shipped the router's
      include comes first. */
  datatype BookingsUrls = RouterFirst | OrderPathFirst

  /** The router registered with the empty prefix, for a path without '.'
      (the format-suffix patterns need one): the list pattern `^$`, then the
      detail pattern `^(?P<pk>[^/.]+)/$`, then the `verify_payment` action. */
  function RouterMatch(path: string): (r: Option<BookingsView>)
    ensures r == Some(BookingList) <==> path == ""
    ensures r.Some? && r.value.BookingDetail? <==>
      |path| >= 2 && path[|path| - 1] == '/' && IsLookup(path[..|path| - 1])
    ensures r.Some? && r.value.BookingDetail? ==> path == r.value.pk + "/"
    ensures r.Some? ==> !r.value.PaymentOrderView? && !r.value.NoMatch?
  {
    var n := |VerifySuffix|;
    if path == "" then Some(BookingList)
    else if path[|path| - 1] == '/' && IsLookup(path[..|path| - 1]) then Some(BookingDetail(path[..|path| - 1]))
    else if |path| > n && path[|path| - n..] == VerifySuffix && IsLookup(path[..|path| - n]) then
      Some(BookingVerify(path[..|path| - n]))
    else None
  }

  /** Django tries the patterns in order and the first match wins. */
  function ResolveBookings(urls: BookingsUrls, path: string): (v: BookingsView)
    ensures urls == OrderPathFirst && path == OrderPath ==> v == PaymentOrderView
    ensures RouterMatch(path).Some? && (urls == RouterFirst || path != OrderPath) ==> v == RouterMatch(path).value
    ensures RouterMatch(path).None? ==> (v == PaymentOrderView <==> path == OrderPath) && (v == NoMatch <==> path != OrderPath)
  {
    if urls == OrderPathFirst && path == OrderPath then PaymentOrderView
    else match RouterMatch(path)
      case Some(view) => view
      case None => if path == OrderPath then PaymentOrderView else NoMatch
  }

  /** As shipped the order path is taken by the detail pattern, as a booking
      whose key is "create-payment-order"; listing the order path first
      reaches the order view and changes the resolution of no other path. */
  lemma {:induction false} OrderPathShadowed(path: string)
    ensures ResolveBookings(RouterFirst, OrderPath) == BookingDetail("create-payment-order")
    ensures ResolveBookings(OrderPathFirst, OrderPath) == PaymentOrderView
    ensures path != OrderPath ==> ResolveBookings(OrderPathFirst, path) == ResolveBookings(RouterFirst, path)
  {
    var pk := "create-payment-order";
    assert OrderPath[..|OrderPath| - 1] == pk;
    assert IsLookup(pk) by {
      forall i | 0 <= i < |pk| ensures pk[i] != '/' && pk[i] != '.' {
        assert pk[i] in "createpaymnod-";
      }
    }
  }

  const PostNotAllowed := Reply(405, Detail("Method \"POST\" not allowed."))

  /** A POST to the booking viewset's detail route. The route maps only GET
      (`retrieve`): the viewset has no update or destroy mixin. The permission
      check runs before the method is looked up, so an anonymous request is
      refused as unauthenticated and a signed-in one as a method not allowed. */
  function DetailPost(req: Requester): (reply: Reply)
    ensures req.Anonymous? <==> reply == Denied(req)
    ensures req.Member? <==> reply == PostNotAllowed
    ensures reply.status == 401 || reply.status == 405
  {
    if req.Anonymous? then Denied(req) else PostNotAllowed
  }
}

=== FILE: sessions_api.dfy ===
/** The sessions API of the server (`backend/sessions/`): the permission
    predicates, the serializer's `image_url` precedence and read-only fields,
    the listing order and its failure reply, creation, and the
    `upload_image` action. The request's scheme and host, the upload's stored
    URL and "now" are parameters. */
module SessionsApi {

  import opened Wrappers
  import opened Strings
  import opened Js
  import opened Domain
  import opened Server
  import opened Sorting

  // ---- permissions ----

  /** `SessionPermission.has_permission`: anybody may read; only a signed-in
      CREATOR may write. */
  predicate HasPermission(verb: Verb, req: Requester) {
    IsSafe(verb) || (req.Member? && req.role == CREATOR)
  }

  /** `SessionPermission.has_object_permission`: anybody may read a session;
      only its own creator, holding the CREATOR role, may change it. */
  predicate HasObjectPermission(verb: Verb, req: Requester, row: SessionRow) {
    IsSafe(verb) || (req.Member? && req.role == CREATOR && row.creator == req.id)
  }

  /** What the two checks together grant for a change: exactly the session's
      own creator with the CREATOR role; a user who owns the row but lost the
      role is refused. */
  lemma WriteAccess(verb: Verb, req: Requester, row: SessionRow)
    requires !IsSafe(verb)
    ensures HasPermission(verb, req) && HasObjectPermission(verb, req, row) <==>
      req.Member? && req.role == CREATOR && row.creator == req.id
    ensures req.Member? && req.role == USER && row.creator == req.id ==> !HasObjectPermission(verb, req, row)
    ensures HasObjectPermission(verb, req, row) ==> HasPermission(verb, req)
  {
  }

  // ---- serialisation ----

  /** `request.build_absolute_uri(url)` for the URLs file storage hands out:
      an address with a scheme is kept, a root-relative path (`/media/...`)
      is prefixed with the request's scheme and host. */
  function AbsoluteUri(origin: string, url: string): string {
    if IsAbsoluteUrl(url) then url else origin + url
  }

  /** How a stored file's URL is rendered: made absolute when the serializer
      has the request, relative otherwise. */
  function FileUrl(url: string, origin: Option<string>): string {
    if origin.Some? then AbsoluteUri(origin.value, url) else url
  }

  /** `get_image_url`: the uploaded file wins over the typed-in `image`
      address; "" only when the session has neither. */
  function ImageUrl(row: SessionRow, origin: Option<string>): (r: string)
    ensures Present(row.imageFile) && origin.Some? && IsAbsoluteUrl(row.imageFile.value) ==> r == row.imageFile.value
    ensures Present(row.imageFile) && origin.Some? && !IsAbsoluteUrl(row.imageFile.value) ==>
      r == origin.value + row.imageFile.value
    ensures Present(row.imageFile) && origin.None? ==> r == row.imageFile.value
    ensures !Present(row.imageFile) ==> r == row.image
    ensures r == "" <==> !Present(row.imageFile) && row.image == ""
  {
    if Present(row.imageFile) then FileUrl(row.imageFile.value, origin) else row.image
  }

  /** `SessionSerializer(row).data`: every column as stored, the file as its
      rendered URL (null when there is none), plus the computed `image_url`. */
  function SerializeSession(row: SessionRow, origin: Option<string>): (s: Session)
    ensures s.id == row.id && s.creator == row.creator && s.title == row.title
    ensures s.startTime == row.startTime && s.createdAt == row.createdAt && s.updatedAt == row.updatedAt
    ensures s.imageFile.Some? <==> Present(row.imageFile)
    ensures s.imageUrl == Some(ImageUrl(row, origin))
  {
    Session(row.id, row.title, row.description, row.price, row.creator, row.image,
            if Present(row.imageFile) then Some(FileUrl(row.imageFile.value, origin)) else None,
            Some(ImageUrl(row, origin)), row.startTime, row.duration, row.createdAt, row.updatedAt)
  }

  /** The picture the client's calendars pick for a served session
      (`image_url || image_file || image`) is always the server's `image_url`:
      the two precedence rules agree. */
  lemma ServedPicture(row: SessionRow, origin: Option<string>)
    ensures EventImage(SerializeSession(row, origin)) == ImageUrl(row, origin)
  {
  }

  function SerializeAll(rows: seq<SessionRow>, origin: Option<string>): (r: seq<Session>)
    ensures |r| == |rows|
    ensures forall i :: 0 <= i < |rows| ==> r[i] == SerializeSession(rows[i], origin)
  {
    if |rows| == 0 then [] else [SerializeSession(rows[0], origin)] + SerializeAll(rows[1..], origin)
  }

  // ---- listing ----

  function NegStart(row: SessionRow): int {
    -row.startTime
  }

  /** `order_by("-start_time")`: the same rows, latest start first. The
      database leaves the order of rows starting together open; in this model
      they keep the table's order. */
  function NewestFirst(table: seq<SessionRow>): (r: seq<SessionRow>)
    ensures multiset(r) == multiset(table)
    ensures forall i, j :: 0 <= i < j < |r| ==> r[i].startTime >= r[j].startTime
  {
    var r := SortBy(table, NegStart);
    assert forall i, j :: 0 <= i < j < |r| ==> NegStart(r[i]) <= NegStart(r[j]);
    r
  }

  const ListFailed := Reply(500, Detail("An error occurred while fetching sessions."))

  /** `SessionViewSet.list`: open to everybody; every session, latest start
      first, or the fixed 500 reply when the query raises (`failure`). */
  function ListSessions(table: seq<SessionRow>, failure: bool, origin: Option<string>): (r: Answer<seq<Session>>)
    ensures failure <==> r == Refused(ListFailed)
    ensures r.Answered? ==> r.status == 200 && |r.value| == |table|
    ensures r.Answered? ==> forall i, j :: 0 <= i < j < |r.value| ==> r.value[i].startTime >= r.value[j].startTime
    ensures r.Answered? ==> forall row :: row in table ==> SerializeSession(row, origin) in r.value
  {
    if failure then Refused(ListFailed)
    else
      var rows := NewestFirst(table);
      var out := SerializeAll(rows, origin);
      assert forall row :: row in table ==> row in multiset(rows);
      Answered(200, out)
  }

  // ---- creation ----

  /** The writable fields of a validated creation request. `id`, `creator`,
      `created_at`, `updated_at` and `image_url` are read-only, so a value the
      client sends for them never reaches the row. */
  datatype SessionInput = SessionInput(
    title: string,
    description: string,
    price: string,
    image: string,
    imageFile: Option<string>,
    startTime: int,
    duration: string)

  /** The row `perform_create` saves: the requester becomes the creator and
      both timestamps are "now". */
  function NewRow(input: SessionInput, id: int, creator: int, now: int): (row: SessionRow)
    ensures row.id == id && row.creator == creator && row.createdAt == now && row.updatedAt == now
    ensures row.title == input.title && row.startTime == input.startTime && row.imageFile == input.imageFile
  {
    SessionRow(id, input.title, input.description, input.price, creator, input.image,
               input.imageFile, input.startTime, input.duration, now, now)
  }

  /** A creation request: the permission check first, then the serializer's
      verdict (`fields`, its error map on failure), then the insert and a 201
      with the stored session. */
  function CreateSession(req: Requester, fields: Result<SessionInput, Json>, table: seq<SessionRow>,
                         newId: int, now: int, origin: Option<string>): (r: (Answer<Session>, seq<SessionRow>))
    ensures !HasPermission(POST, req) ==> r == (Refused(Denied(req)), table)
    ensures HasPermission(POST, req) && fields.Failure? ==> r == (Refused(Reply(400, fields.error)), table)
    ensures r.0.Answered? <==> req.Member? && req.role == CREATOR && fields.Success?
    ensures r.0.Answered? ==> r.0.status == 201 && |r.1| == |table| + 1 && r.1[..|table|] == table
    ensures r.0.Answered? ==> r.1[|table|] == NewRow(fields.value, newId, req.id, now)
    ensures r.0.Answered? ==> r.0.value == SerializeSession(r.1[|table|], origin) && r.0.value.creator == req.id
  {
    if !HasPermission(POST, req) then (Refused(Denied(req)), table)
    else match fields
      case Failure(errs) => (Refused(Reply(400, errs)), table)
      case Success(input) =>
        var row := NewRow(input, newId, req.id, now);
        (Answered(201, SerializeSession(row, origin)), table + [row])
  }

  /** Whatever the client claims as the creator, the stored session belongs
      to whoever sent the request. */
  lemma CreatorIsRequester(req: Requester, input: SessionInput, table: seq<SessionRow>, newId: int, now: int,
                           origin: Option<string>)
    requires req.Member? && req.role == CREATOR
    ensures var r := CreateSession(req, Success(input), table, newId, now, origin);
      r.0.Answered? && r.1[|table|].creator == req.id && HasObjectPermission(PATCH, req, r.1[|table|])
  {
  }

  // ---- upload_image ----

  const NoImage := Reply(400, Detail("No image file provided."))

  /** `upload_image`: the view permission (401 or 403), the lookup (404), the
      object permission (403), then the file check (400); on success the file
      is attached, `updated_at` moves to "now", and the serialised session
      comes back with 200. `file` is the stored upload's URL, None when the
      request has no "image" part. */
  function UploadImage(req: Requester, pk: int, file: Option<string>, table: seq<SessionRow>,
                       now: int, origin: Option<string>): (r: (Answer<Session>, seq<SessionRow>))
    ensures !HasPermission(POST, req) ==> r == (Refused(Denied(req)), table)
    ensures HasPermission(POST, req) && FindSession(table, pk).None? ==> r == (Refused(NotFound), table)
    ensures r.0.Refused? ==> r.1 == table
    ensures r.0.Answered? <==>
      req.Member? && req.role == CREATOR && FindSession(table, pk).Some? &&
      table[FindSession(table, pk).value].creator == req.id && file.Some?
    ensures r.0.Answered? ==>
      var k := FindSession(table, pk).value;
      r.0.status == 200 && |r.1| == |table| &&
      r.1[k] == table[k].(imageFile := file, updatedAt := now) &&
      (forall j :: 0 <= j < |table| && j != k ==> r.1[j] == table[j]) &&
      r.0.value == SerializeSession(r.1[k], origin)
    ensures (HasPermission(POST, req) && FindSession(table, pk).Some? &&
             table[FindSession(table, pk).value].creator != req.id) ==> r == (Refused(Denied(req)), table)
    ensures (HasPermission(POST, req) && FindSession(table, pk).Some? &&
             table[FindSession(table, pk).value].creator == req.id && file.None?) ==> r == (Refused(NoImage), table)
  {
    if !HasPermission(POST, req) then (Refused(Denied(req)), table)
    else match FindSession(table, pk)
      case None => (Refused(NotFound), table)
      case Some(k) =>
        if !HasObjectPermission(POST, req, table[k]) then (Refused(Denied(req)), table)
        else if file.None? then (Refused(NoImage), table)
        else
          var row := table[k].(imageFile := file, updatedAt := now);
          (Answered(200, SerializeSession(row, origin)), table[k := row])
  }

  /** The view's own "not the creator" test after `get_object` can never
      fire: the object permission it runs after already demands ownership. */
  lemma UploadOwnerTestRedundant(req: Requester, row: SessionRow)
    requires HasObjectPermission(POST, req, row)
    ensures req.Member? && row.creator == req.id
  {
  }

  /** After a successful upload every client view shows the uploaded file. */
  lemma UploadShows(req: Requester, pk: int, url: string, table: seq<SessionRow>, now: int, origin: Option<string>)
    requires url != ""
    requires UploadImage(req, pk, Some(url), table, now, origin).0.Answered?
    ensures EventImage(UploadImage(req, pk, Some(url), table, now, origin).0.value) == FileUrl(url, origin)
  {
    var r := UploadImage(req, pk, Some(url), table, now, origin);
    var k := FindSession(table, pk).value;
    ServedPicture(r.1[k], origin);
  }
}

=== FILE: settings.dfy ===
/** The configuration rules of `backend/config/settings.py` that are more
    than constants: the local `.env` loader (Python's `splitlines`, the line
    parser, the never-overwrite rule and the order of the two files), the
    comma-separated host and origin lists, and the DEBUG flag. The process
    environment is a map from name to value; a file is its text, or None when
    it is missing or cannot be read as UTF-8. */
module Settings {

  import opened Wrappers
  import opened Strings

  type Env = map<string, string>

  // ---- str.splitlines() ----

  /** The characters Python's `str.splitlines` breaks at. */
  predicate IsLineBreak(c: char) {
    c == '\n' || c == '\r' || c == '\U{000B}' || c == '\U{000C}' || c == '\U{001C}' || c == '\U{001D}' ||
    c == '\U{001E}' || c == '\U{0085}' || c == '\U{2028}' || c == '\U{2029}'
  }

  /** The index of the first line break, |s| when there is none. */
  function BreakAt(s: string): (i: nat)
    ensures i <= |s|
    ensures i < |s| ==> IsLineBreak(s[i])
    ensures forall k :: 0 <= k < i ==> !IsLineBreak(s[k])
  {
    if |s| == 0 then 0 else if IsLineBreak(s[0]) then 0 else 1 + BreakAt(s[1..])
  }

  /** `s.splitlines()`: the lines without their endings; "\r\n" is one
      ending, and a final ending does not start an empty last line. */
  function SplitLines(s: string): (lines: seq<string>)
    ensures forall i, k :: 0 <= i < |lines| && 0 <= k < |lines[i]| ==> !IsLineBreak(lines[i][k])
    ensures |lines| == 0 <==> |s| == 0
    decreases |s|
  {
    if |s| == 0 then []
    else
      var i := BreakAt(s);
      if i == |s| then [s]
      else
        var skip := if s[i] == '\r' && i + 1 < |s| && s[i + 1] == '\n' then 2 else 1;
        [s[..i]] + SplitLines(s[i + skip..])
  }

  predicate NoBreaks(line: string) {
    forall k :: 0 <= k < |line| ==> !IsLineBreak(line[k])
  }

  /** Lines written one per line, each ended by `ending`. */
  function Unlines(lines: seq<string>, ending: string): string {
    if |lines| == 0 then "" else lines[0] + ending + Unlines(lines[1..], ending)
  }

  /** Splitting text written one line per "\n" or per "\r\n" gives the lines
      back. */
  lemma {:induction false} SplitLinesUnlines(lines: seq<string>, ending: string)
    requires ending == "\n" || ending == "\r\n"
    requires forall i :: 0 <= i < |lines| ==> NoBreaks(lines[i])
    ensures SplitLines(Unlines(lines, ending)) == lines
    decreases |lines|
  {
    if |lines| > 0 {
      var rest := Unlines(lines[1..], ending);
      assert Unlines(lines, ending) == lines[0] + ending + rest;
      SplitLinesCons(lines[0], ending, rest);
      assert forall i :: 0 <= i < |lines| - 1 ==> lines[1..][i] == lines[i + 1];
      SplitLinesUnlines(lines[1..], ending);
      assert [lines[0]] + lines[1..] == lines;
    }
  }

  /** The first line ends at its line ending. */
  lemma SplitLinesCons(x: string, ending: string, rest: string)
    requires ending == "\n" || ending == "\r\n"
    requires NoBreaks(x)
    ensures SplitLines(x + ending + rest) == [x] + SplitLines(rest)
  {
    var s := x + ending + rest;
    assert s[|x|] == ending[0];
    assert BreakAt(s) == |x| by {
      assert s == x + (ending + rest);
      BreakAtPrefix(x, ending + rest);
    }
    if ending == "\r\n" {
      assert s[|x| + 1] == '\n';
    }
    assert s[|x| + |ending|..] == rest;
    assert s[..|x|] == x;
  }

  lemma {:induction false} BreakAtPrefix(x: string, t: string)
    requires NoBreaks(x) && |t| > 0 && IsLineBreak(t[0])
    ensures BreakAt(x + t) == |x|
    decreases |x|
  {
    if |x| > 0 {
      assert (x + t)[1..] == x[1..] + t;
      BreakAtPrefix(x[1..], t);
    } else {
      assert x + t == t;
    }
  }

  // ---- one line ----

  /** The loop body of `_load_env_file` up to the write: strip the line;
      skip it when blank, a comment, or without '='; otherwise split at the
      first '=' and clean both halves. */
  function ParseLine(raw: string): (r: Option<(string, string)>)
    ensures r.None? <==> PyStrip(raw) == "" || StartsWith(PyStrip(raw), "#") || '=' !in PyStrip(raw)
    ensures r.Some? ==> '=' !in r.value.0 && PyStrip(r.value.0) == r.value.0
    ensures r.Some? ==> |r.value.1| == 0 || (r.value.1[0] != '\'' && r.value.1[|r.value.1| - 1] != '\'')
  {
    var line := PyStrip(raw);
    if line == "" || StartsWith(line, "#") || '=' !in line then None
    else
      var i := IndexOf(line, '=');
      Some((CleanKey(line[..i]), CleanValue(line[i + 1..])))
  }

  /** The key: the text before the first '=', stripped of blanks. */
  function CleanKey(part: string): (k: string)
    ensures '=' !in part ==> '=' !in k
    ensures PyStrip(k) == k
  {
    PyStripWithin(part);
    PyStripTwice(part);
    PyStrip(part)
  }

  /** The value: stripped of blanks, then of '"', then of "'". */
  function CleanValue(part: string): (v: string)
    ensures |v| == 0 || (v[0] != '\'' && v[|v| - 1] != '\'')
  {
    PyStripChar(PyStripChar(PyStrip(part), '"'), '\'')
  }

  /** A value that survives the parser unchanged: no blanks or quotes at its ends. */
  predicate PlainValue(v: string) {
    |v| == 0 || (!IsPySpace(v[0]) && !IsPySpace(v[|v| - 1]) && v[0] !in "\"'" && v[|v| - 1] !in "\"'")
  }

  /** A key the parser reads back as written. */
  predicate PlainKey(k: string) {
    |k| > 0 && '=' !in k && k[0] != '#' && !IsPySpace(k[0]) && !IsPySpace(k[|k| - 1])
  }

  /** A stripped line `k=rest` with no '=' in `k` parses into the cleaned halves. */
  lemma ParseLineAt(line: string, k: string, rest: string)
    requires line == k + "=" + rest && |k| > 0 && k[0] != '#' && '=' !in k
    requires !IsPySpace(k[0]) && !IsPySpace(line[|line| - 1])
    ensures ParseLine(line) == Some((CleanKey(k), CleanValue(rest)))
  {
    assert line[0] == k[0];
    assert PyStrip(line) == line;
    assert !StartsWith(line, "#") by { assert line[0] != '#'; }
    assert line[|k|] == '=';
    IndexOfFirst(line, '=', |k|);
    assert line[..|k|] == k;
    assert line[|k| + 1..] == rest;
  }

  lemma CleanKeyPlain(k: string)
    requires PlainKey(k)
    ensures CleanKey(k) == k
  {
  }

  lemma CleanValuePlain(v: string)
    requires PlainValue(v)
    ensures CleanValue(v) == v
  {
    StripCharNoop(v, '"');
    StripCharNoop(v, '\'');
  }

  lemma CleanValueQuoted(v: string)
    requires PlainValue(v)
    ensures CleanValue("\"" + v + "\"") == v
  {
    var q := "\"" + v + "\"";
    assert PyStrip(q) == q;
    StripQuotes(v);
  }

  /** Writing `key=value` and parsing it gives the pair back, with or
      without double quotes around the value. */
  lemma ParseLineRoundTrip(k: string, v: string)
    requires PlainKey(k) && PlainValue(v)
    ensures ParseLine(k + "=" + v) == Some((k, v))
    ensures ParseLine(k + "=\"" + v + "\"") == Some((k, v))
  {
    ParsePlain(k, v);
    ParseQuoted(k, v);
  }

  lemma ParsePlain(k: string, v: string)
    requires PlainKey(k) && PlainValue(v)
    ensures ParseLine(k + "=" + v) == Some((k, v))
  {
    var line := k + "=" + v;
    assert !IsPySpace(line[|line| - 1]) by {
      if |v| > 0 { assert line[|line| - 1] == v[|v| - 1]; } else { assert line[|line| - 1] == '='; }
    }
    ParseLineAt(line, k, v);
    CleanKeyPlain(k);
    CleanValuePlain(v);
  }

  lemma ParseQuoted(k: string, v: string)
    requires PlainKey(k) && PlainValue(v)
    ensures ParseLine(k + "=\"" + v + "\"") == Some((k, v))
  {
    var q := "\"" + v + "\"";
    var qline := k + "=" + q;
    assert k + "=\"" + v + "\"" == qline;
    assert qline[|qline| - 1] == '"';
    CleanKeyPlain(k);
    CleanValueQuoted(v);
    ParseLineAt(qline, k, q);
  }

  lemma StripCharNoop(v: string, c: char)
    requires |v| == 0 || (v[0] != c && v[|v| - 1] != c)
    ensures PyStripChar(v, c) == v
  {
  }

  lemma StripQuotes(v: string)
    requires PlainValue(v)
    ensures PyStripChar(PyStripChar("\"" + v + "\"", '"'), '\'') == v
  {
    var q := "\"" + v + "\"";
    assert q[1..] == v + "\"";
    var t := StripStartChar(v + "\"", '"');
    assert StripStartChar(q, '"') == t;
    if |v| == 0 {
      assert t == "";
      assert StripEndChar(t, '"') == "";
    } else {
      assert t == v + "\"";
      assert (v + "\"")[..|v|] == v;
      assert StripEndChar(t, '"') == StripEndChar(v, '"');
      assert StripEndChar(v, '"') == v;
    }
    StripCharNoop(v, '\'');
  }

  // ---- loading ----

  /** A parsed line: the key and value it sets, None for a skipped line. */
  type Entry = Option<(string, string)>

  /** `ParseLine` over every line of a file. */
  function ParseAll(lines: seq<string>): (r: seq<Entry>)
    ensures |r| == |lines|
    ensures forall i :: 0 <= i < |lines| ==> r[i] == ParseLine(lines[i])
  {
    if |lines| == 0 then [] else [ParseLine(lines[0])] + ParseAll(lines[1..])
  }

  /** One parsed line applied to the environment: written only when its key
      is non-empty and not set yet. */
  function Apply(env: Env, e: Entry): (r: Env)
    ensures forall k :: k in env ==> k in r && r[k] == env[k]
    ensures forall k :: k in r && k !in env ==> k != "" && e == Some((k, r[k]))
  {
    match e
    case Some((key, value)) => if key != "" && key !in env then env[key := value] else env
    case None => env
  }

  /** A parsed line carrying a NUL character: `os.environ[key] = value`
      raises ValueError for it. */
  predicate HasNul(e: Entry) {
    e.Some? && ('\0' in e.value.0 || '\0' in e.value.1)
  }

  /** A line whose write would happen and raise: a new, non-empty key with a
      NUL in it or in its value. */
  predicate Raises(env: Env, e: Entry) {
    HasNul(e) && e.value.0 != "" && e.value.0 !in env
  }

  /** The loop over the file's parsed lines. A write that raises ends the
      load: the `except` around the loop returns, keeping what the earlier
      lines set. */
  function LoadEntries(env: Env, es: seq<Entry>): (r: Env)
    ensures forall k :: k in env ==> k in r && r[k] == env[k]
    ensures forall k :: k in r && k !in env ==> k != "" && Some((k, r[k])) in es
    ensures forall k :: k in r && k !in env ==> '\0' !in k && '\0' !in r[k]
    decreases |es|
  {
    if |es| == 0 || Raises(env, es[0]) then env
    else
      var env1 := Apply(env, es[0]);
      var r := LoadEntries(env1, es[1..]);
      assert forall x :: x in es[1..] ==> x in es;
      r
  }

  /** A line that raises stops the load there: the result is the load of
      the lines before it. */
  lemma {:induction false} RaiseKeepsPrefix(env: Env, es: seq<Entry>, i: nat)
    requires i < |es| && Raises(LoadEntries(env, es[..i]), es[i])
    ensures LoadEntries(env, es) == LoadEntries(env, es[..i])
    decreases i
  {
    if i > 0 && !Raises(env, es[0]) {
      assert es[..i][0] == es[0] && es[..i][1..] == es[1..][..i - 1];
      RaiseKeepsPrefix(Apply(env, es[0]), es[1..], i - 1);
    } else if i > 0 {
      assert es[..i][0] == es[0];
    } else {
      assert es[..0] == [];
    }
  }

  /** Whether a parsed line sets `key`. */
  predicate Defines(e: Entry, key: string) {
    e.Some? && e.value.0 == key
  }

  /** The first line that defines a key decides its value. */
  lemma {:induction false} FirstWins(env: Env, es: seq<Entry>, i: nat, k: string, v: string)
    requires i < |es| && es[i] == Some((k, v)) && k != "" && k !in env
    requires forall j :: 0 <= j < i ==> !Defines(es[j], k)
    requires forall j :: 0 <= j <= i ==> !HasNul(es[j])
    ensures k in LoadEntries(env, es) && LoadEntries(env, es)[k] == v
    decreases i
  {
    var env1 := Apply(env, es[0]);
    assert !HasNul(es[0]);
    if i > 0 {
      assert !Defines(es[0], k);
      assert k !in env1;
      FirstWins(env1, es[1..], i - 1, k, v);
    }
  }

  /** `_load_env_file(path)`: a missing or unreadable file changes nothing,
      and nothing it adds holds a NUL. */
  function LoadFile(env: Env, file: Option<string>): (r: Env)
    ensures file.None? ==> r == env
    ensures forall k :: k in env ==> k in r && r[k] == env[k]
    ensures forall k :: k in r && k !in env ==> '\0' !in k && '\0' !in r[k]
  {
    if file.None? then env else LoadEntries(env, ParseAll(SplitLines(file.value)))
  }

  /** Start-up: `backend/.env` first, then the repository root's `.env`. */
  function Startup(environ: Env, backendFile: Option<string>, rootFile: Option<string>): (r: Env)
    ensures forall k :: k in environ ==> k in r && r[k] == environ[k]
  {
    LoadFile(LoadFile(environ, backendFile), rootFile)
  }

  /** A variable the process did not have, defined in `backend/.env`, takes
      that file's first definition whatever the root file says. */
  lemma BackendFileWins(environ: Env, backend: string, rootFile: Option<string>, i: nat, k: string, v: string)
    requires i < |SplitLines(backend)| && ParseLine(SplitLines(backend)[i]) == Some((k, v)) && k != "" && k !in environ
    requires forall j :: 0 <= j < i ==> !Defines(ParseLine(SplitLines(backend)[j]), k)
    requires forall j :: 0 <= j <= i ==> !HasNul(ParseLine(SplitLines(backend)[j]))
    ensures k in Startup(environ, Some(backend), rootFile) && Startup(environ, Some(backend), rootFile)[k] == v
  {
    var es := ParseAll(SplitLines(backend));
    FirstWins(environ, es, i, k, v);
  }

  /** A one-line file `key=value` sets exactly that variable, when unset;
      a NUL in the value makes the write raise, and nothing is set. */
  lemma LoadOneLine(env: Env, k: string, v: string)
    requires PlainKey(k) && PlainValue(v) && k !in env && '\0' !in k
    requires NoBreaks(k) && NoBreaks(v)
    ensures '\0' !in v ==> LoadFile(env, Some(k + "=" + v + "\n")) == env[k := v]
    ensures '\0' in v ==> LoadFile(env, Some(k + "=" + v + "\n")) == env
  {
    var line := k + "=" + v;
    assert k + "=" + v + "\n" == line + "\n";
    NoBreaksJoin(k, v);
    OneLine(line);
    ParsePlain(k, v);
    assert ParseAll([line]) == [Some((k, v))];
    LoadOneEntry(env, k, v);
  }

  lemma NoBreaksJoin(k: string, v: string)
    requires NoBreaks(k) && NoBreaks(v)
    ensures NoBreaks(k + "=" + v)
  {
    var line := k + "=" + v;
    forall j | 0 <= j < |line| ensures !IsLineBreak(line[j]) {
      if j < |k| { assert line[j] == k[j]; }
      else if j > |k| { assert line[j] == v[j - |k| - 1]; }
    }
  }

  /** A line and its "\n" split into that line alone. */
  lemma OneLine(line: string)
    requires NoBreaks(line)
    ensures SplitLines(line + "\n") == [line]
  {
    SplitLinesCons(line, "\n", "");
    assert line + "\n" + "" == line + "\n";
  }

  lemma LoadOneEntry(env: Env, k: string, v: string)
    requires k != "" && k !in env && '\0' !in k
    ensures '\0' !in v ==> LoadEntries(env, [Some((k, v))]) == env[k := v]
    ensures '\0' in v ==> LoadEntries(env, [Some((k, v))]) == env
  {
    var es: seq<Entry> := [Some((k, v))];
    assert es[1..] == [];
    assert Apply(env, es[0]) == env[k := v];
  }

  // ---- settings read from the environment ----

  /** `os.getenv(name, default)`. */
  function GetEnv(env: Env, name: string, default: string): (r: string)
    ensures name in env ==> r == env[name]
    ensures name !in env ==> r == default
  {
    if name in env then env[name] else default
  }

  /** `[x.strip() for x in s.split(",") if x.strip()]`. */
  function CommaList(s: string): (r: seq<string>)
    ensures forall i :: 0 <= i < |r| ==> r[i] != "" && PyStrip(r[i]) == r[i] && ',' !in r[i]
  {
    Entries(Split(s, ','))
  }

  function Entries(parts: seq<string>): (r: seq<string>)
    requires forall i :: 0 <= i < |parts| ==> ',' !in parts[i]
    ensures |r| <= |parts|
    ensures forall i :: 0 <= i < |r| ==> r[i] != "" && PyStrip(r[i]) == r[i] && ',' !in r[i]
  {
    if |parts| == 0 then []
    else
      var t := PyStrip(parts[0]);
      PyStripWithin(parts[0]);
      PyStripTwice(parts[0]);
      (if t == "" then [] else [t]) + Entries(parts[1..])
  }

  /** A list written with ", " between plain entries reads back as the same
      list. */
  lemma {:induction false} CommaListJoin(items: seq<string>)
    requires |items| >= 1
    requires forall i :: 0 <= i < |items| ==> items[i] != "" && ',' !in items[i] && PyStrip(items[i]) == items[i]
    ensures CommaList(Join(items, ",")) == items
  {
    SplitJoin(items, ',');
    EntriesPlain(items);
  }

  lemma {:induction false} EntriesPlain(items: seq<string>)
    requires forall i :: 0 <= i < |items| ==> items[i] != "" && ',' !in items[i] && PyStrip(items[i]) == items[i]
    ensures Entries(items) == items
    decreases |items|
  {
    if |items| > 0 {
      EntriesPlain(items[1..]);
      assert [items[0]] + items[1..] == items;
    }
  }

  /** The list is built entry by entry: the first entry, stripped and kept
      only when not blank, then the rest. */
  lemma CommaListCons(a: string, b: string)
    requires ',' !in a
    ensures CommaList(a + "," + b) == Entries([a]) + CommaList(b)
  {
    SplitCons(a, b, ',');
    assert a + "," + b == a + [','] + b;
    assert ([a] + Split(b, ','))[1..] == Split(b, ',');
  }

  /** Blank entries and blanks around entries are dropped:
      "a, ,b," reads as [a, b]. */
  lemma CommaListDropsBlanks(a: string, b: string)
    requires a != "" && ',' !in a && PyStrip(a) == a
    requires b != "" && ',' !in b && PyStrip(b) == b
    ensures CommaList(a + ", ," + b + ",") == [a, b]
  {
    var t2 := b + "," + "";
    var t1 := " " + "," + t2;
    var t0 := a + "," + t1;
    assert t0 == a + ", ," + b + ",";
    SplitNone("", ',');
    assert CommaList("") == [] by { EntriesOne(""); }
    CommaListCons(b, "");
    EntriesOne(b);
    assert CommaList(t2) == [b];
    CommaListCons(" ", t2);
    EntriesOne(" ");
    assert CommaList(t1) == [b];
    CommaListCons(a, t1);
    EntriesOne(a);
  }

  /** A single piece: kept stripped unless blank. */
  lemma EntriesOne(x: string)
    requires ',' !in x
    ensures Entries([x]) == if PyStrip(x) == "" then [] else [PyStrip(x)]
  {
    assert [x][1..] == [];
  }

  /** `DEBUG`: on unless `DJANGO_DEBUG` is set to something other than "1". */
  function Debug(env: Env): (on: bool)
    ensures "DJANGO_DEBUG" !in env ==> on
    ensures "DJANGO_DEBUG" in env ==> (on <==> env["DJANGO_DEBUG"] == "1")
  {
    GetEnv(env, "DJANGO_DEBUG", "1") == "1"
  }

  /** `ALLOWED_HOSTS`: every host when unset. */
  function AllowedHosts(env: Env): (hosts: seq<string>)
    ensures "DJANGO_ALLOWED_HOSTS" !in env ==> hosts == ["*"]
    ensures "DJANGO_ALLOWED_HOSTS" in env ==> hosts == CommaList(env["DJANGO_ALLOWED_HOSTS"])
  {
    CommaListJoin(["*"]);
    CommaList(GetEnv(env, "DJANGO_ALLOWED_HOSTS", "*"))
  }

  const ViteLocalhost := "http://localhost:5173"
  const ViteLoopback := "http://127.0.0.1:5173"
  const Localhost := "http://localhost"
  const Loopback := "http://127.0.0.1"

  /** `CORS_ALLOWED_ORIGINS`: the Vite development server on its two local
      addresses when unset. */
  function CorsOrigins(env: Env): (origins: seq<string>)
    ensures "CORS_ALLOWED_ORIGINS" !in env ==> origins == [ViteLocalhost, ViteLoopback]
    ensures "CORS_ALLOWED_ORIGINS" in env ==> origins == CommaList(env["CORS_ALLOWED_ORIGINS"])
  {
    TwoUrls(ViteLocalhost, ViteLoopback);
    CommaList(GetEnv(env, "CORS_ALLOWED_ORIGINS", ViteLocalhost + "," + ViteLoopback))
  }

  /** `CSRF_TRUSTED_ORIGINS`: the two local hosts when unset. */
  function CsrfOrigins(env: Env): (origins: seq<string>)
    ensures "CSRF_TRUSTED_ORIGINS" !in env ==> origins == [Localhost, Loopback]
    ensures "CSRF_TRUSTED_ORIGINS" in env ==> origins == CommaList(env["CSRF_TRUSTED_ORIGINS"])
  {
    TwoUrls(Localhost, Loopback);
    CommaList(GetEnv(env, "CSRF_TRUSTED_ORIGINS", Localhost + "," + Loopback))
  }

  // ---- the attributes the payment code reads ----

  const StripeSecretKeyName := "STRIPE_SECRET_KEY"
  const FrontendUrlName := "FRONTEND_URL"

  /** The payment attributes the settings module assigns: the gateway's two
      keys, read from the environment with "" as the default. Nothing in the
      module assigns `STRIPE_SECRET_KEY` or `FRONTEND_URL`. */
  function PaymentSettings(env: Env): (s: map<string, string>)
    ensures s.Keys == {"RAZORPAY_KEY_ID", "RAZORPAY_KEY_SECRET"}
    ensures StripeSecretKeyName !in s && FrontendUrlName !in s
    ensures "RAZORPAY_KEY_ID" in env ==> s["RAZORPAY_KEY_ID"] == env["RAZORPAY_KEY_ID"]
    ensures "RAZORPAY_KEY_ID" !in env ==> s["RAZORPAY_KEY_ID"] == ""
  {
    map["RAZORPAY_KEY_ID" := GetEnv(env, "RAZORPAY_KEY_ID", ""),
        "RAZORPAY_KEY_SECRET" := GetEnv(env, "RAZORPAY_KEY_SECRET", "")]
  }

  /** `settings.NAME`: the assigned value, or the message of the
      AttributeError Django's settings object raises for a name the
      module never assigns. */
  function Attr(s: map<string, string>, name: string): (r: Result<string, string>)
    ensures r.Success? <==> name in s
    ensures r.Success? ==> r.value == s[name]
    ensures r.Failure? ==> r.error == "'Settings' object has no attribute '" + name + "'"
  {
    if name in s then Success(s[name]) else Failure("'Settings' object has no attribute '" + name + "'")
  }

  /** The two missing payment settings raise different messages. */
  lemma NoAttributeMessages()
    ensures Attr(map[], StripeSecretKeyName).error == "'Settings' object has no attribute 'STRIPE_SECRET_KEY'"
    ensures Attr(map[], FrontendUrlName).error == "'Settings' object has no attribute 'FRONTEND_URL'"
    ensures Attr(map[], StripeSecretKeyName).error != Attr(map[], FrontendUrlName).error
  {
    var a := Attr(map[], StripeSecretKeyName).error;
    var b := Attr(map[], FrontendUrlName).error;
    assert a[36] == 'S' && b[36] == 'F';
  }

  /** An entry with no comma and no blank at either end reads back alone. */
  lemma OneEntry(a: string)
    requires |a| > 0 && ',' !in a && !IsPySpace(a[0]) && !IsPySpace(a[|a| - 1])
    ensures Entries([a]) == [a] && CommaList(a) == [a]
  {
    EntriesOne(a);
    SplitNone(a, ',');
  }

  /** Two such entries joined by a comma read back as the pair. */
  lemma TwoUrls(a: string, b: string)
    requires |a| > 0 && ',' !in a && !IsPySpace(a[0]) && !IsPySpace(a[|a| - 1])
    requires |b| > 0 && ',' !in b && !IsPySpace(b[0]) && !IsPySpace(b[|b| - 1])
    ensures CommaList(a + "," + b) == [a, b]
  {
    CommaListCons(a, b);
    OneEntry(a);
    OneEntry(b);
  }
}

=== FILE: sorting.dfy ===
/** Stable insertion sort by an integer key, and order-preserving filtering:
    the `Array.prototype.sort`/`filter` and Django `order_by` shapes the model
    uses for listings. */
module Sorting {

  predicate SortedBy<T>(s: seq<T>, key: T -> int) {
    forall i, j :: 0 <= i < j < |s| ==> key(s[i]) <= key(s[j])
  }

  /** Inserts `x` in front of the first element whose key is not smaller. */
  function Insert<T>(x: T, s: seq<T>, key: T -> int): (r: seq<T>)
    requires SortedBy(s, key)
    ensures SortedBy(r, key)
    ensures multiset(r) == multiset(s) + multiset{x}
    ensures |r| == |s| + 1
    ensures key(r[0]) == key(x) || (|s| > 0 && key(r[0]) == key(s[0]))
  {
    if |s| == 0 || key(x) <= key(s[0]) then [x] + s
    else
      var rest := Insert(x, s[1..], key);
      assert s == [s[0]] + s[1..];
      assert key(s[0]) <= key(rest[0]);
      [s[0]] + rest
  }

  /** Sorts `s` by ascending key; elements with equal keys keep their order. */
  function SortBy<T>(s: seq<T>, key: T -> int): (r: seq<T>)
    ensures SortedBy(r, key)
    ensures multiset(r) == multiset(s)
    ensures |r| == |s|
  {
    if |s| == 0 then []
    else
      assert s == [s[0]] + s[1..];
      Insert(s[0], SortBy(s[1..], key), key)
  }

  /** One more element of a prefix. */
  lemma TakeNext<T>(s: seq<T>, i: nat)
    requires i < |s|
    ensures s[..i + 1] == s[..i] + [s[i]]
  {
  }

  /** `s.filter(keep)`. */
  function Filter<T>(s: seq<T>, keep: T -> bool): (r: seq<T>)
    ensures |r| <= |s|
  {
    if |s| == 0 then []
    else if keep(s[0]) then [s[0]] + Filter(s[1..], keep)
    else Filter(s[1..], keep)
  }

  /** What `filter` promises: only kept elements, each taken from `s`, and
      every element of `s` that `keep` accepts. */
  lemma {:induction false} FilterFacts<T>(s: seq<T>, keep: T -> bool)
    ensures forall i :: 0 <= i < |Filter(s, keep)| ==> keep(Filter(s, keep)[i])
    ensures multiset(Filter(s, keep)) <= multiset(s)
    ensures forall x :: x in s && keep(x) ==> x in Filter(s, keep)
  {
    if |s| > 0 {
      var rest := s[1..];
      FilterFacts(rest, keep);
      var fr := Filter(rest, keep);
      assert s == [s[0]] + rest;
      if keep(s[0]) {
        var r := [s[0]] + fr;
        assert Filter(s, keep) == r;
        forall i | 0 <= i < |r| ensures keep(r[i]) {
          if i > 0 {
            assert r[i] == fr[i - 1];
          }
        }
      } else {
        assert Filter(s, keep) == fr;
      }
    }
  }

  /** Inserting goes in front of the elements with an equal key, so among
      the elements of any one key `x` comes first and the rest keep their
      order. */
  lemma {:induction false} InsertStable<T>(x: T, s: seq<T>, key: T -> int, same: T -> bool)
    requires SortedBy(s, key)
    requires forall y, z :: same(y) && same(z) ==> key(y) == key(z)
    ensures Filter(Insert(x, s, key), same) == Filter([x], same) + Filter(s, same)
  {
    FilterSingleton(x, same);
    if |s| == 0 || key(x) <= key(s[0]) {
      FilterAppend([x], s, same);
    } else {
      var rest := s[1..];
      assert s == [s[0]] + rest;
      assert SortedBy(rest, key);
      InsertStable(x, rest, key, same);
      FilterAppend([s[0]], Insert(x, rest, key), same);
      FilterAppend([s[0]], rest, same);
      FilterSingleton(s[0], same);
      assert !(same(x) && same(s[0]));
    }
  }

  /** The sort is stable: the elements of any one key come out in the order
      they went in. */
  lemma {:induction false} SortByStable<T>(s: seq<T>, key: T -> int, same: T -> bool)
    requires forall y, z :: same(y) && same(z) ==> key(y) == key(z)
    ensures Filter(SortBy(s, key), same) == Filter(s, same)
  {
    if |s| > 0 {
      var rest := s[1..];
      assert s == [s[0]] + rest;
      SortByStable(rest, key, same);
      InsertStable(s[0], SortBy(rest, key), key, same);
      FilterAppend([s[0]], rest, same);
    }
  }

  /** Filtering and then sorting: exactly the kept elements of `s`, in key order. */
  lemma FilterSortFacts<T>(s: seq<T>, keep: T -> bool, key: T -> int)
    ensures forall x :: x in SortBy(Filter(s, keep), key) <==> x in s && keep(x)
    ensures forall i :: 0 <= i < |SortBy(Filter(s, keep), key)| ==> keep(SortBy(Filter(s, keep), key)[i])
    ensures SortedBy(SortBy(Filter(s, keep), key), key)
  {
    var kept := Filter(s, keep);
    var rows := SortBy(kept, key);
    FilterFacts(s, keep);
    assert forall x :: x in rows <==> x in multiset(kept);
    assert forall x :: x in kept ==> x in multiset(s);
    forall i | 0 <= i < |rows| ensures keep(rows[i]) {
      assert rows[i] in multiset(kept);
      var j :| 0 <= j < |kept| && kept[j] == rows[i];
    }
  }

  /** Filtering by `p` and by its negation `q` together keeps as many
      elements as there are. */
  lemma {:induction false} FilterPartition<T>(s: seq<T>, p: T -> bool, q: T -> bool)
    requires forall i :: 0 <= i < |s| ==> q(s[i]) == !p(s[i])
    ensures |Filter(s, p)| + |Filter(s, q)| == |s|
  {
    if |s| > 0 {
      var rest := s[1..];
      assert q(s[0]) == !p(s[0]);
      forall i | 0 <= i < |rest| ensures q(rest[i]) == !p(rest[i]) {
        assert rest[i] == s[i + 1];
      }
      FilterPartition(rest, p, q);
    }
  }

  /** Filtering keeps the relative order: it distributes over concatenation. */
  lemma {:induction false} FilterAppend<T>(a: seq<T>, b: seq<T>, keep: T -> bool)
    ensures Filter(a + b, keep) == Filter(a, keep) + Filter(b, keep)
  {
    if |a| > 0 {
      assert (a + b)[1..] == a[1..] + b;
      FilterAppend(a[1..], b, keep);
    } else {
      assert a + b == b;
    }
  }

  /** A filter that keeps everything is the identity. */
  lemma {:induction false} FilterKeepsAll<T>(s: seq<T>, keep: T -> bool)
    requires forall i :: 0 <= i < |s| ==> keep(s[i])
    ensures Filter(s, keep) == s
  {
    if |s| > 0 {
      FilterKeepsAll(s[1..], keep);
    }
  }

  lemma FilterSingleton<T>(x: T, keep: T -> bool)
    ensures Filter([x], keep) == if keep(x) then [x] else []
  {
    assert [x][1..] == [];
  }
}

=== FILE: strings.dfy ===
/** Character classes and string operations shared by the client (JavaScript)
    and server (Python) models: prefix tests, trimming, splitting and joining,
    and decimal rendering and parsing of integers. */
module Strings {

  import opened Wrappers

  predicate IsDigit(c: char) {
    '0' <= c <= '9'
  }

  predicate IsAsciiLetter(c: char) {
    ('a' <= c <= 'z') || ('A' <= c <= 'Z')
  }

  /** JavaScript's white space and line terminators, the set `String.prototype.trim` removes. */
  predicate IsJsSpace(c: char) {
    c == '\t' || c == '\n' || c == '\U{000B}' || c == '\U{000C}' || c == '\r' || c == ' '
    || c == '\U{00A0}' || c == '\U{1680}' || ('\U{2000}' <= c <= '\U{200A}')
    || c == '\U{2028}' || c == '\U{2029}' || c == '\U{202F}' || c == '\U{205F}'
    || c == '\U{3000}' || c == '\U{FEFF}'
  }

  /** Python's `str.isspace` characters, the set `str.strip()` removes. */
  predicate IsPySpace(c: char) {
    c == '\t' || c == '\n' || c == '\U{000B}' || c == '\U{000C}' || c == '\r'
    || ('\U{001C}' <= c <= '\U{001F}') || c == ' ' || c == '\U{0085}' || c == '\U{00A0}'
    || c == '\U{1680}' || ('\U{2000}' <= c <= '\U{200A}') || c == '\U{2028}' || c == '\U{2029}'
    || c == '\U{202F}' || c == '\U{205F}' || c == '\U{3000}'
  }

  predicate AllDigits(s: string) {
    forall i :: 0 <= i < |s| ==> IsDigit(s[i])
  }

  predicate StartsWith(s: string, prefix: string) {
    |prefix| <= |s| && s[..|prefix|] == prefix
  }

  predicate EndsWith(s: string, suffix: string) {
    |suffix| <= |s| && s[|s| - |suffix|..] == suffix
  }

  /** An address with an explicit http or https scheme. */
  predicate IsAbsoluteUrl(s: string) {
    StartsWith(s, "http://") || StartsWith(s, "https://")
  }

  /** `s.includes(sub)` / Python's `sub in s`. */
  predicate Contains(s: string, sub: string) {
    exists i :: 0 <= i <= |s| - |sub| && StartsWith(s[i..], sub)
  }

  lemma ContainsWitness(s: string, sub: string, i: int)
    requires 0 <= i <= |s| - |sub| && s[i..i + |sub|] == sub
    ensures Contains(s, sub)
  {
    assert StartsWith(s[i..], sub);
  }

  /** Removes the leading characters that satisfy `drop`. */
  function TrimStart(s: string, drop: char -> bool): (r: string)
    ensures |r| <= |s|
    ensures forall k :: 0 <= k < |s| - |r| ==> drop(s[k])
    ensures |r| > 0 ==> !drop(r[0])
  {
    if |s| > 0 && drop(s[0]) then TrimStart(s[1..], drop) else s
  }

  /** Removes the trailing characters that satisfy `drop`. */
  function TrimEnd(s: string, drop: char -> bool): (r: string)
    ensures |r| <= |s|
    ensures forall k :: |r| <= k < |s| ==> drop(s[k])
    ensures |r| > 0 ==> !drop(r[|r| - 1]) && r[0] == s[0]
  {
    if |s| > 0 && drop(s[|s| - 1]) then TrimEnd(s[..|s| - 1], drop) else s
  }

  /** Removes both leading and trailing characters that satisfy `drop`. */
  function Trim(s: string, drop: char -> bool): (r: string)
    ensures |r| <= |s|
    ensures |r| > 0 ==> !drop(r[0]) && !drop(r[|r| - 1])
    ensures |s| == 0 || (!drop(s[0]) && !drop(s[|s| - 1])) ==> r == s
  {
    TrimEnd(TrimStart(s, drop), drop)
  }

  /** JavaScript `s.trim()`. */
  function JsTrim(s: string): string {
    Trim(s, IsJsSpace)
  }

  /** Python `s.strip()`. */
  function PyStrip(s: string): (r: string)
    ensures |r| <= |s|
    ensures |r| > 0 ==> !IsPySpace(r[0]) && !IsPySpace(r[|r| - 1])
    ensures |s| == 0 || (!IsPySpace(s[0]) && !IsPySpace(s[|s| - 1])) ==> r == s
  {
    PyRStrip(PyLStrip(s))
  }

  /** Stripping twice strips nothing more. */
  lemma PyStripTwice(s: string)
    ensures PyStrip(PyStrip(s)) == PyStrip(s)
  {
  }

  /** Every character of the stripped text comes from the text. */
  lemma PyStripWithin(s: string)
    ensures forall x :: x in PyStrip(s) ==> x in s
  {
    PyLStripWithin(s);
    PyRStripWithin(PyLStrip(s));
  }

  lemma {:induction false} PyLStripWithin(s: string)
    ensures forall x :: x in PyLStrip(s) ==> x in s
    decreases |s|
  {
    if |s| > 0 && IsPySpace(s[0]) {
      assert s == [s[0]] + s[1..];
      PyLStripWithin(s[1..]);
    }
  }

  lemma {:induction false} PyRStripWithin(s: string)
    ensures forall x :: x in PyRStrip(s) ==> x in s
    decreases |s|
  {
    if |s| > 0 && IsPySpace(s[|s| - 1]) {
      assert s == s[..|s| - 1] + [s[|s| - 1]];
      PyRStripWithin(s[..|s| - 1]);
    }
  }

  /** Stripping removes only white space: any other character is in the
      stripped text exactly when it is in the text. */
  lemma PyStripKeeps(s: string, x: char)
    requires !IsPySpace(x)
    ensures x in PyStrip(s) <==> x in s
  {
    PyStripWithin(s);
    if x in s {
      PyLStripKeeps(s, x);
      PyRStripKeeps(PyLStrip(s), x);
    }
  }

  lemma {:induction false} PyLStripKeeps(s: string, x: char)
    requires !IsPySpace(x) && x in s
    ensures x in PyLStrip(s)
    decreases |s|
  {
    if |s| > 0 && IsPySpace(s[0]) {
      assert s == [s[0]] + s[1..];
      PyLStripKeeps(s[1..], x);
    }
  }

  lemma {:induction false} PyRStripKeeps(s: string, x: char)
    requires !IsPySpace(x) && x in s
    ensures x in PyRStrip(s)
    decreases |s|
  {
    if |s| > 0 && IsPySpace(s[|s| - 1]) {
      assert s == s[..|s| - 1] + [s[|s| - 1]];
      PyRStripKeeps(s[..|s| - 1], x);
    }
  }

  /** Python `s.lstrip()`. */
  function PyLStrip(s: string): (r: string)
    ensures |r| <= |s|
    ensures |r| > 0 ==> !IsPySpace(r[0])
  {
    if |s| > 0 && IsPySpace(s[0]) then PyLStrip(s[1..]) else s
  }

  /** Python `s.rstrip()`. */
  function PyRStrip(s: string): (r: string)
    ensures |r| <= |s|
    ensures |r| > 0 ==> !IsPySpace(r[|r| - 1]) && r[0] == s[0]
  {
    if |s| > 0 && IsPySpace(s[|s| - 1]) then PyRStrip(s[..|s| - 1]) else s
  }

  /** Removes the leading copies of `c`. */
  function StripStartChar(s: string, c: char): (r: string)
    ensures |r| <= |s|
    ensures |r| > 0 ==> r[0] != c
  {
    if |s| > 0 && s[0] == c then StripStartChar(s[1..], c) else s
  }

  /** Removes the trailing copies of `c`. */
  function StripEndChar(s: string, c: char): (r: string)
    ensures |r| <= |s|
    ensures |r| > 0 ==> r[|r| - 1] != c && r[0] == s[0]
  {
    if |s| > 0 && s[|s| - 1] == c then StripEndChar(s[..|s| - 1], c) else s
  }

  /** Python `s.strip(c)` for a one-character argument. */
  function PyStripChar(s: string, c: char): (r: string)
    ensures |r| <= |s|
    ensures |r| > 0 ==> r[0] != c && r[|r| - 1] != c
    ensures |s| == 0 || (s[0] != c && s[|s| - 1] != c) ==> r == s
  {
    StripEndChar(StripStartChar(s, c), c)
  }

  /** The index of the first occurrence of `c`, or |s| when there is none. */
  function IndexOf(s: string, c: char): (r: nat)
    ensures r <= |s|
    ensures r < |s| ==> s[r] == c
    ensures forall k :: 0 <= k < r ==> s[k] != c
  {
    if |s| == 0 then 0 else if s[0] == c then 0 else 1 + IndexOf(s[1..], c)
  }

  /** `s.split(sep)` with a one-character separator (JavaScript and Python
      agree on it): the pieces between separators, always at least one. */
  function Split(s: string, sep: char): (r: seq<string>)
    ensures |r| >= 1
    ensures forall i :: 0 <= i < |r| ==> sep !in r[i]
    decreases |s|
  {
    var k := IndexOf(s, sep);
    if k == |s| then [s] else [s[..k]] + Split(s[k + 1..], sep)
  }

  /** The text up to the first separator is the first piece. */
  lemma SplitCons(a: string, b: string, sep: char)
    requires sep !in a
    ensures Split(a + [sep] + b, sep) == [a] + Split(b, sep)
  {
    var s := a + [sep] + b;
    assert s[|a|] == sep;
    IndexOfFirst(s, sep, |a|);
    assert s[..|a|] == a;
    assert s[|a| + 1..] == b;
  }

  /** Text without the separator is one piece. */
  lemma SplitNone(a: string, sep: char)
    requires sep !in a
    ensures Split(a, sep) == [a]
  {
  }

  /** `parts.join(sep)`. */
  function Join(parts: seq<string>, sep: string): string {
    if |parts| == 0 then ""
    else if |parts| == 1 then parts[0]
    else parts[0] + sep + Join(parts[1..], sep)
  }

  /** Splitting and joining back with the same separator is the identity. */
  lemma {:induction false} JoinSplit(s: string, sep: char)
    ensures Join(Split(s, sep), [sep]) == s
    decreases |s|
  {
    var k := IndexOf(s, sep);
    if k < |s| {
      var a := s[..k];
      var rest := s[k + 1..];
      assert s == a + [sep] + rest;
      assert sep !in a by {
        forall j | 0 <= j < |a| ensures a[j] != sep {
          assert a[j] == s[j];
        }
      }
      JoinSplit(rest, sep);
      SplitCons(a, rest, sep);
      JoinCons(a, Split(rest, sep), [sep]);
    }
  }

  lemma JoinCons(a: string, parts: seq<string>, sep: string)
    requires |parts| >= 1
    ensures Join([a] + parts, sep) == a + sep + Join(parts, sep)
  {
    assert ([a] + parts)[1..] == parts;
  }

  /** Splitting a join of separator-free pieces gives the pieces back. */
  lemma {:induction false} SplitJoin(parts: seq<string>, sep: char)
    requires |parts| >= 1
    requires forall i :: 0 <= i < |parts| ==> sep !in parts[i]
    ensures Split(Join(parts, [sep]), sep) == parts
    decreases |parts|
  {
    var p := parts[0];
    if |parts| == 1 {
      assert IndexOf(p, sep) == |p|;
    } else {
      var rest := Join(parts[1..], [sep]);
      var s := p + [sep] + rest;
      assert Join(parts, [sep]) == s;
      assert s[|p|] == sep;
      assert IndexOf(s, sep) == |p| by {
        assert forall k :: 0 <= k < |p| ==> s[k] == p[k];
        IndexOfFirst(s, sep, |p|);
      }
      assert s[..|p|] == p;
      assert s[|p| + 1..] == rest;
      SplitJoin(parts[1..], sep);
      assert parts == [p] + parts[1..];
    }
  }

  lemma IndexOfFirst(s: string, c: char, k: nat)
    requires k < |s| && s[k] == c
    requires forall j :: 0 <= j < k ==> s[j] != c
    ensures IndexOf(s, c) == k
  {
  }

  // ---- decimal integers ----

  function DigitChar(d: nat): (c: char)
    requires d < 10
    ensures IsDigit(c)
  {
    ('0' as int + d) as char
  }

  function DigitValue(c: char): (d: nat)
    requires IsDigit(c)
    ensures d < 10
  {
    (c as int - '0' as int)
  }

  /** The value of a string of decimal digits (leading zeros allowed; "" is 0). */
  function DigitsValue(s: string): nat
    requires AllDigits(s)
  {
    if |s| == 0 then 0 else DigitsValue(s[..|s| - 1]) * 10 + DigitValue(s[|s| - 1])
  }

  /** `String(n)` for a non-negative integer: decimal, no leading zeros. */
  function NatToString(n: nat): (r: string)
    ensures |r| >= 1 && AllDigits(r)
    ensures |r| > 1 ==> r[0] != '0'
  {
    if n < 10 then [DigitChar(n)] else NatToString(n / 10) + [DigitChar(n % 10)]
  }

  /** `String(i)` for any integer. */
  function IntToString(i: int): (r: string)
    ensures |r| >= 1
    ensures i < 0 <==> r[0] == '-'
  {
    if i < 0 then "-" + NatToString(-i) else NatToString(i)
  }

  lemma {:induction false} NatToStringRoundTrip(n: nat)
    ensures DigitsValue(NatToString(n)) == n
  {
    if n >= 10 {
      var a := NatToString(n / 10);
      var s := a + [DigitChar(n % 10)];
      NatToStringRoundTrip(n / 10);
      assert s[..|s| - 1] == a;
    }
  }

  lemma NatToStringInjective(m: nat, n: nat)
    requires NatToString(m) == NatToString(n)
    ensures m == n
  {
    NatToStringRoundTrip(m);
    NatToStringRoundTrip(n);
  }

  /** Parses a non-empty run of decimal digits. */
  function ParseNat(s: string): (r: Option<nat>)
    ensures r.Some? <==> |s| > 0 && AllDigits(s)
  {
    if |s| > 0 && AllDigits(s) then Some(DigitsValue(s)) else None
  }

  lemma ParseNatToString(n: nat)
    ensures ParseNat(NatToString(n)) == Some(n)
  {
    NatToStringRoundTrip(n);
  }

  /** `s.padStart(width, c)`. */
  function PadStart(s: string, width: nat, c: char): (r: string)
    ensures |r| == if |s| >= width then |s| else width
    ensures EndsWith(r, s)
    ensures forall k :: 0 <= k < |r| - |s| ==> r[k] == c
  {
    if |s| >= width then s else seq(width - |s|, _ => c) + s
  }

  function UpperChar(c: char): (u: char)
    ensures !('a' <= u <= 'z')
  {
    if 'a' <= c <= 'z' then (c as int - 32) as char else c
  }

  function LowerChar(c: char): (l: char)
    ensures !('A' <= l <= 'Z')
  {
    if 'A' <= c <= 'Z' then (c as int + 32) as char else c
  }

  /** `s.lower()`, on the ASCII letters. */
  function Lower(s: string): (r: string)
    ensures |r| == |s|
    ensures forall i :: 0 <= i < |r| ==> r[i] == LowerChar(s[i])
  {
    seq(|s|, i requires 0 <= i < |s| => LowerChar(s[i]))
  }

  /** A lowered text holds no upper-case ASCII letter. */
  lemma LowerNoUpper(s: string)
    ensures forall x :: x in Lower(s) ==> !('A' <= x <= 'Z')
  {
    var l := Lower(s);
    forall x | x in l ensures !('A' <= x <= 'Z') {
      var i :| 0 <= i < |l| && l[i] == x;
    }
  }
}

=== FILE: uri.dfy ===
/** JavaScript's `encodeURIComponent` (section 19.2.6.5 of ECMA-262): every
    character outside the unreserved set `A-Z a-z 0-9 - _ . ! ~ * ' ( )` is
    replaced by the percent-encoded bytes of its UTF-8 form (section 2.1 of
    RFC 3986, section 3 of RFC 3629), hex digits in upper case. Strings are
    sequences of Unicode scalar values, so the lone-surrogate error case does
    not arise. `Decode` is the matching `decodeURIComponent`, the partner the
    round trip is proved against. */
module Uri {

  import opened Wrappers
  import opened Strings

  predicate Unreserved(c: char) {
    IsAsciiLetter(c) || IsDigit(c) || c in "-_.!~*'()"
  }

  // ---- UTF-8 ----

  predicate IsScalar(v: int) {
    (0 <= v < 0xD800) || (0xE000 <= v < 0x11_0000)
  }

  predicate IsByte(b: int) {
    0 <= b < 256
  }

  /** The UTF-8 bytes of one scalar value. */
  function Utf8(c: char): (bs: seq<int>)
    ensures 1 <= |bs| <= 4
    ensures forall i :: 0 <= i < |bs| ==> IsByte(bs[i])
  {
    var v := c as int;
    if v < 0x80 then [v]
    else if v < 0x800 then [0xC0 + v / 64, 0x80 + v % 64]
    else if v < 0x1_0000 then [0xE0 + v / 4096, 0x80 + (v / 64) % 64, 0x80 + v % 64]
    else [0xF0 + v / 262144, 0x80 + (v / 4096) % 64, 0x80 + (v / 64) % 64, 0x80 + v % 64]
  }

  /** The length of the sequence a lead byte starts; 0 for a byte that cannot lead. */
  function Utf8Length(b: int): nat {
    if 0 <= b < 0x80 then 1
    else if 0xC2 <= b < 0xE0 then 2
    else if 0xE0 <= b < 0xF0 then 3
    else if 0xF0 <= b < 0xF5 then 4
    else 0
  }

  predicate IsContinuation(b: int) {
    0x80 <= b < 0xC0
  }

  /** Decodes one complete UTF-8 sequence; None for a malformed, overlong or surrogate one. */
  function Utf8Decode(bs: seq<int>): (r: Option<char>)
    ensures r.Some? ==> |bs| >= 1 && Utf8Length(bs[0]) == |bs|
  {
    if |bs| == 0 || Utf8Length(bs[0]) != |bs| then None
    else if |bs| == 1 then Some(bs[0] as char)
    else if exists i :: 1 <= i < |bs| && !IsContinuation(bs[i]) then None
    else
      var v :=
        if |bs| == 2 then (bs[0] - 0xC0) * 64 + (bs[1] - 0x80)
        else if |bs| == 3 then ((bs[0] - 0xE0) * 64 + (bs[1] - 0x80)) * 64 + (bs[2] - 0x80)
        else (((bs[0] - 0xF0) * 64 + (bs[1] - 0x80)) * 64 + (bs[2] - 0x80)) * 64 + (bs[3] - 0x80);
      var least := if |bs| == 2 then 0x80 else if |bs| == 3 then 0x800 else 0x1_0000;
      if least <= v && IsScalar(v) then Some(v as char) else None
  }

  /** Decoding the bytes `Utf8` produces gives the character back. */
  lemma Utf8RoundTrip(c: char)
    ensures Utf8Decode(Utf8(c)) == Some(c)
  {
    var v := c as int;
    if 0x80 <= v < 0x800 {
      TwoByteForm(v);
    } else if 0x800 <= v < 0x1_0000 {
      ThreeByteForm(v);
    } else if v >= 0x1_0000 {
      FourByteForm(v);
    }
  }

  lemma TwoByteForm(v: int)
    requires 0x80 <= v < 0x800
    ensures 0xC2 <= 0xC0 + v / 64 < 0xE0 && IsContinuation(0x80 + v % 64)
    ensures (v / 64) * 64 + v % 64 == v
  {
  }

  lemma ThreeByteForm(v: int)
    requires 0x800 <= v < 0x1_0000
    ensures 0xE0 <= 0xE0 + v / 4096 < 0xF0
    ensures IsContinuation(0x80 + (v / 64) % 64) && IsContinuation(0x80 + v % 64)
    ensures ((v / 4096) * 64 + (v / 64) % 64) * 64 + v % 64 == v
  {
    assert v == (v / 64) * 64 + v % 64;
    assert v / 64 == (v / 4096) * 64 + (v / 64) % 64;
  }

  lemma FourByteForm(v: int)
    requires 0x1_0000 <= v < 0x11_0000
    ensures 0xF0 <= 0xF0 + v / 262144 < 0xF5
    ensures IsContinuation(0x80 + (v / 4096) % 64) && IsContinuation(0x80 + (v / 64) % 64) && IsContinuation(0x80 + v % 64)
    ensures (((v / 262144) * 64 + (v / 4096) % 64) * 64 + (v / 64) % 64) * 64 + v % 64 == v
  {
    assert v == (v / 64) * 64 + v % 64;
    assert v / 64 == (v / 4096) * 64 + (v / 64) % 64;
    assert v / 4096 == (v / 262144) * 64 + (v / 4096) % 64;
  }

  // ---- percent-encoding ----

  function HexDigit(n: nat): (c: char)
    requires n < 16
  {
    "0123456789ABCDEF"[n]
  }

  function HexValue(c: char): Option<nat> {
    if '0' <= c <= '9' then Some(c as int - '0' as int)
    else if 'A' <= c <= 'F' then Some(c as int - 'A' as int + 10)
    else if 'a' <= c <= 'f' then Some(c as int - 'a' as int + 10)
    else None
  }

  lemma HexValueOfDigit(n: nat)
    requires n < 16
    ensures HexValue(HexDigit(n)) == Some(n)
  {
  }

  /** "%XX" for one byte. */
  function PercentByte(b: int): (s: string)
    requires IsByte(b)
    ensures |s| == 3 && s[0] == '%'
  {
    ['%', HexDigit(b / 16), HexDigit(b % 16)]
  }

  function PercentBytes(bs: seq<int>): (s: string)
    requires forall i :: 0 <= i < |bs| ==> IsByte(bs[i])
    ensures |s| == 3 * |bs|
  {
    if |bs| == 0 then "" else PercentByte(bs[0]) + PercentBytes(bs[1..])
  }

  function EncodeChar(c: char): (s: string)
    ensures Unreserved(c) ==> s == [c]
    ensures !Unreserved(c) ==> |s| == 3 * |Utf8(c)| && s[0] == '%'
  {
    if Unreserved(c) then [c] else PercentBytes(Utf8(c))
  }

  /** `encodeURIComponent(s)`. */
  function Encode(s: string): (r: string)
    ensures |r| >= |s|
    ensures (forall i :: 0 <= i < |s| ==> Unreserved(s[i])) ==> r == s
  {
    if |s| == 0 then "" else EncodeChar(s[0]) + Encode(s[1..])
  }

  // ---- decoding ----

  /** The byte a "%XX" at the front of `s` stands for. */
  function ReadByte(s: string): (r: Option<int>)
    ensures r.Some? ==> IsByte(r.value) && |s| >= 3
  {
    if |s| < 3 || s[0] != '%' then None
    else match (HexValue(s[1]), HexValue(s[2]))
      case (Some(h), Some(l)) => if h < 16 && l < 16 then Some(h * 16 + l) else None
      case _ => None
  }

  function ReadBytes(s: string, n: nat): (r: Option<seq<int>>)
    ensures r.Some? ==> |r.value| == n && |s| >= 3 * n
  {
    if n == 0 then Some([])
    else match ReadByte(s)
      case None => None
      case Some(b) =>
        match ReadBytes(s[3..], n - 1)
        case None => None
        case Some(rest) => Some([b] + rest)
  }

  /** `decodeURIComponent(s)`; None where it throws a URIError. */
  function Decode(s: string): (r: Option<string>)
    decreases |s|
  {
    if |s| == 0 then Some("")
    else if s[0] != '%' then
      match Decode(s[1..]) case None => None case Some(t) => Some([s[0]] + t)
    else
      match ReadByte(s)
      case None => None
      case Some(b) =>
        var n := Utf8Length(b);
        if n == 0 then None
        else match ReadBytes(s, n)
          case None => None
          case Some(bs) =>
            match Utf8Decode(bs)
            case None => None
            case Some(c) =>
              match Decode(s[3 * n..]) case None => None case Some(t) => Some([c] + t)
  }

  /** "%XX" reads back as the byte it encodes, and the rest follows it. */
  lemma ReadPercentByte(b: int, t: string)
    requires IsByte(b)
    ensures ReadByte(PercentByte(b) + t) == Some(b)
    ensures (PercentByte(b) + t)[3..] == t
  {
    HexValueOfDigit(b / 16);
    HexValueOfDigit(b % 16);
    var s := PercentByte(b) + t;
    assert s[1] == HexDigit(b / 16) && s[2] == HexDigit(b % 16);
  }

  lemma {:induction false} ReadPercentBytes(bs: seq<int>, t: string)
    requires forall i :: 0 <= i < |bs| ==> IsByte(bs[i])
    ensures ReadBytes(PercentBytes(bs) + t, |bs|) == Some(bs)
    decreases |bs|
  {
    if |bs| > 0 {
      var u := PercentBytes(bs[1..]) + t;
      assert PercentBytes(bs) + t == PercentByte(bs[0]) + u;
      ReadPercentByte(bs[0], u);
      ReadPercentBytes(bs[1..], t);
      assert [bs[0]] + bs[1..] == bs;
    }
  }

  /** One step of `Decode` over a percent-encoded character: the bytes read
      decode to `c`, and decoding carries on after them. */
  lemma DecodeStep(s: string, bs: seq<int>, c: char, t: string)
    requires |s| > 0 && s[0] == '%' && |bs| > 0
    requires ReadByte(s) == Some(bs[0]) && ReadBytes(s, |bs|) == Some(bs)
    requires Utf8Decode(bs) == Some(c)
    requires |s| >= 3 * |bs| && s[3 * |bs|..] == t
    ensures Decode(s) == (match Decode(t) case None => None case Some(u) => Some([c] + u))
  {
  }

  /** Decoding one percent-encoded character and then the rest. */
  lemma DecodeEncodedBytes(c: char, t: string)
    requires !Unreserved(c)
    ensures Decode(EncodeChar(c) + t) == (match Decode(t) case None => None case Some(u) => Some([c] + u))
  {
    var bs := Utf8(c);
    var s := PercentBytes(bs) + t;
    assert s == PercentByte(bs[0]) + (PercentBytes(bs[1..]) + t);
    ReadPercentByte(bs[0], PercentBytes(bs[1..]) + t);
    ReadPercentBytes(bs, t);
    Utf8RoundTrip(c);
    assert s[3 * |bs|..] == t;
    DecodeStep(s, bs, c, t);
  }

  /** Decoding one encoded character and then the rest. */
  lemma DecodeEncodedChar(c: char, t: string)
    ensures Decode(EncodeChar(c) + t) == (match Decode(t) case None => None case Some(u) => Some([c] + u))
  {
    if Unreserved(c) {
      var s := EncodeChar(c) + t;
      assert c != '%';
      assert s[1..] == t;
    } else {
      DecodeEncodedBytes(c, t);
    }
  }

  /** `decodeURIComponent(encodeURIComponent(s)) == s`. */
  lemma {:induction false} DecodeEncode(s: string)
    ensures Decode(Encode(s)) == Some(s)
  {
    if |s| > 0 {
      DecodeEncode(s[1..]);
      DecodeEncodedChar(s[0], Encode(s[1..]));
      assert s == [s[0]] + s[1..];
    }
  }
}

=== FILE: users_api.dfy ===
/** The accounts API of the server (`backend/users/serializers.py`,
    `backend/users/views.py`): the registration serializer's field cleaning
    and validators, the registration reply, the profile merge the Google and
    GitHub sign-ins share, and the decision ladders of those two views.

    The user table is a map from e-mail address to account, which models the
    exact-match lookups `filter(email=...)` and `get_or_create(email=...)`.
    Token minting, Google's token verification and GitHub's HTTP API are
    oracles passed in as parameters. */
module UsersApi {

  import opened Wrappers
  import opened Strings
  import opened Js
  import opened Domain
  import opened Server

  /** A stored account: the serialised fields plus the password it was created with. */
  datatype Account = Account(id: int, email: string, name: string, avatar: string, role: Role, password: string)

  type Accounts = map<string, Account>

  /** The table is keyed by each account's own e-mail. */
  predicate WellKeyed(db: Accounts) {
    forall e :: e in db ==> db[e].email == e
  }

  /** The token pair minted for an account. */
  datatype Tokens = Tokens(access: string, refresh: string)

  function RoleName(role: Role): string {
    match role
    case USER => "USER"
    case CREATOR => "CREATOR"
  }

  /** `UserSerializer(user).data`: id, email, name, avatar and role, in that
      order, and never the password. */
  function UserJson(a: Account): (j: Json)
    ensures j.JObj? && |j.entries| == 5
    ensures forall i :: 0 <= i < |j.entries| ==> j.entries[i].0 != "password"
    ensures Get(j, "email") == Some(JStr(a.email)) && Get(j, "role") == Some(JStr(RoleName(a.role)))
  {
    var entries := [("id", JNum(a.id)), ("email", JStr(a.email)), ("name", JStr(a.name)),
                    ("avatar", JStr(a.avatar)), ("role", JStr(RoleName(a.role)))];
    LookupAt(entries, "email", 1);
    LookupAt(entries, "role", 4);
    JObj(entries)
  }

  // ---- field cleaning ----

  const RequiredText := "This field is required."
  const BlankText := "This field may not be blank."
  /** The message of the null-character validator every `CharField` carries. */
  const NullCharactersText := "Null characters are not allowed."

  function MaxLengthText(n: nat): string {
    "Ensure this field has no more than " + NatToString(n) + " characters."
  }

  function MinLengthText(n: nat): string {
    "Ensure this field has at least " + NatToString(n) + " characters."
  }

  /** A required `CharField` (blank not allowed, whitespace trimmed): missing,
      then blank after Python's `strip()`, then the field's validators in the
      order the field declares them (maximum length, minimum length, no null
      character), every failing one adding its message. The fourth built-in
      validator, against surrogate code points, cannot fire on a `char`,
      which is a Unicode scalar value. */
  function CleanChar(raw: Option<string>, minLength: nat, maxLength: Option<nat>): (r: Result<string, seq<string>>)
    ensures raw.None? ==> r == Failure([RequiredText])
    ensures r.Success? <==> raw.Some? && PyStrip(raw.value) != "" && |PyStrip(raw.value)| >= minLength
                            && (maxLength.Some? ==> |PyStrip(raw.value)| <= maxLength.value)
                            && '\0' !in raw.value
    ensures r.Success? ==> r.value == PyStrip(raw.value)
    ensures r.Failure? ==> |r.error| > 0
    ensures raw.Some? && PyStrip(raw.value) != "" && '\0' in raw.value ==> r.Failure? && NullCharactersText in r.error
  {
    if raw.None? then Failure([RequiredText])
    else
      var v := PyStrip(raw.value);
      PyStripKeeps(raw.value, '\0');
      if v == "" then Failure([BlankText])
      else
        var errs := (if maxLength.Some? && |v| > maxLength.value then [MaxLengthText(maxLength.value)] else [])
                    + (if |v| < minLength then [MinLengthText(minLength)] else [])
                    + (if '\0' in v then [NullCharactersText] else []);
        if |errs| == 0 then Success(v) else Failure(errs)
  }

  /** A `validate_<field>` method's single message, as the field's message list. */
  function FieldCheck(r: Result<string, string>): (f: Result<string, seq<string>>)
    ensures f.Success? <==> r.Success?
    ensures r.Success? ==> f.value == r.value
    ensures r.Failure? ==> f.error == [r.error]
  {
    match r
    case Success(v) => Success(v)
    case Failure(m) => Failure([m])
  }

  // ---- the registration validators ----

  /** `value.lower().strip()`. */
  function NormalizeEmail(value: string): (r: string)
    ensures forall i :: 0 <= i < |r| ==> !('A' <= r[i] <= 'Z')
    ensures |r| > 0 ==> !IsPySpace(r[0]) && !IsPySpace(r[|r| - 1])
  {
    PyStripWithin(Lower(value));
    LowerNoUpper(value);
    var r := PyStrip(Lower(value));
    assert forall i :: 0 <= i < |r| ==> r[i] in r;
    r
  }

  /** Normalising twice is normalising once. */
  lemma NormalizeEmailIdempotent(value: string)
    ensures NormalizeEmail(NormalizeEmail(value)) == NormalizeEmail(value)
  {
    var r := NormalizeEmail(value);
    assert Lower(r) == r;
    if |r| > 0 {
      assert PyStrip(r) == r;
    }
  }

  /** `validate_email`: lower-case and strip, then reject an address some account already has. */
  function ValidateEmail(value: string, existing: Accounts): (r: Result<string, string>)
    ensures r.Success? <==> NormalizeEmail(value) != "" && NormalizeEmail(value) !in existing
    ensures r.Success? ==> r.value == NormalizeEmail(value)
    ensures NormalizeEmail(value) != "" && NormalizeEmail(value) in existing ==> r == Failure("A user with this email already exists.")
  {
    if value == "" then Failure("Email is required.")
    else
      var v := NormalizeEmail(value);
      if v == "" then Failure("Email cannot be empty.")
      else if v in existing then Failure("A user with this email already exists.")
      else Success(v)
  }

  /** The text checks the serializer delegates: Django's address validator,
      and Python's `str.isalpha` and `str.isdigit`, which consult the Unicode
      character database. All three are parameters. */
  datatype TextChecks = TextChecks(isEmail: string -> bool, isAlpha: char -> bool, isDigit: char -> bool)

  /** On ASCII the Unicode classes are the Latin letters and the decimal digits. */
  predicate AsciiAgrees(checks: TextChecks) {
    forall c: char :: c as int < 128 ==>
      (checks.isAlpha(c) <==> IsAsciiLetter(c)) && (checks.isDigit(c) <==> IsDigit(c))
  }

  predicate HasLetter(s: string, checks: TextChecks) {
    exists i :: 0 <= i < |s| && checks.isAlpha(s[i])
  }

  predicate HasDigit(s: string, checks: TextChecks) {
    exists i :: 0 <= i < |s| && checks.isDigit(s[i])
  }

  /** `validate_password`: at least 8 characters, one letter and one digit. */
  function ValidatePassword(value: string, checks: TextChecks): (r: Result<string, string>)
    ensures r.Success? <==> |value| >= 8 && HasLetter(value, checks) && HasDigit(value, checks)
    ensures r.Success? ==> r.value == value
    ensures |value| >= 8 && !(HasLetter(value, checks) && HasDigit(value, checks)) ==>
      r == Failure("Password must contain at least one letter and one number.")
  {
    if value == "" then Failure("Password is required.")
    else if |value| < 8 then Failure("Password must be at least 8 characters long.")
    else if !(HasLetter(value, checks) && HasDigit(value, checks)) then Failure("Password must contain at least one letter and one number.")
    else Success(value)
  }

  lemma PasswordExamples(checks: TextChecks)
    requires AsciiAgrees(checks)
    ensures ValidatePassword("password", checks) == Failure("Password must contain at least one letter and one number.")
    ensures ValidatePassword("passw0rd", checks) == Success("passw0rd")
    ensures ValidatePassword("abc123", checks).Failure?
  {
    var bad := "password";
    assert !HasDigit(bad, checks) by {
      forall i | 0 <= i < |bad| ensures !checks.isDigit(bad[i]) {
        assert bad[i] as int < 128;
      }
    }
    var good := "passw0rd";
    assert good[0] as int < 128 && good[5] as int < 128;
    assert checks.isAlpha(good[0]) && checks.isDigit(good[5]);
  }

  /** Letters need not be Latin: a Cyrillic password with digits passes once
      its letters are letters to Python. */
  lemma CyrillicPasswordAccepted(checks: TextChecks)
    requires AsciiAgrees(checks) && checks.isAlpha('\U{043F}')
    ensures ValidatePassword("\U{043F}\U{0430}\U{0440}\U{043E}\U{043B}\U{044C}123", checks).Success?
  {
    var pw := "\U{043F}\U{0430}\U{0440}\U{043E}\U{043B}\U{044C}123";
    assert pw[0] == '\U{043F}' && pw[6] == '1' && pw[6] as int < 128;
    assert checks.isDigit(pw[6]);
  }

  /** `validate_name`: stripped, non-empty, at most 150 characters. */
  function ValidateName(value: string): (r: Result<string, string>)
    ensures r.Success? <==> PyStrip(value) != "" && |PyStrip(value)| <= 150
    ensures r.Success? ==> r.value == PyStrip(value)
  {
    if value == "" then Failure("Name is required.")
    else
      var v := PyStrip(value);
      if v == "" then Failure("Name cannot be empty.")
      else if |v| > 150 then Failure("Name must be 150 characters or less.")
      else Success(v)
  }

  /** A successful validator is a fixed point: its output validates to itself. */
  lemma ValidatorsStable(email: string, name: string, existing: Accounts)
    ensures ValidateName(name).Success? ==> ValidateName(ValidateName(name).value) == ValidateName(name)
    ensures ValidateEmail(email, existing).Success? ==>
      ValidateEmail(ValidateEmail(email, existing).value, existing) == ValidateEmail(email, existing)
  {
    NormalizeEmailIdempotent(email);
    var n := PyStrip(name);
    if |n| > 0 {
      assert PyStrip(n) == n;
    }
  }

  // ---- the registration serializer and view ----

  /** The registration request's fields as sent; `role` is accepted and ignored. */
  datatype RegisterData = RegisterData(
    email: Option<string>,
    name: Option<string>,
    password: Option<string>,
    avatar: Option<string>,
    role: Option<string>)

  /** The cleaned values of one registration. */
  datatype Cleaned = Cleaned(email: string, name: string, password: string, avatar: string)

  /** The email field: a `CharField` clean with the address-format validator
      after the null-character one, then `validate_email`. */
  function EmailField(raw: Option<string>, checks: TextChecks, existing: Accounts): (r: Result<string, seq<string>>)
    ensures r.Success? ==> r.value == NormalizeEmail(r.value) && r.value !in existing
    ensures r.Success? <==> CleanChar(raw, 0, None).Success? && checks.isEmail(CleanChar(raw, 0, None).value)
                            && ValidateEmail(CleanChar(raw, 0, None).value, existing).Success?
    ensures r.Failure? ==> |r.error| > 0
    ensures raw.Some? && PyStrip(raw.value) != "" && '\0' in raw.value ==> r.Failure? && NullCharactersText in r.error
  {
    if raw.None? then Failure([RequiredText])
    else
      var v := PyStrip(raw.value);
      PyStripKeeps(raw.value, '\0');
      if v == "" then Failure([BlankText])
      else
        var errs := (if '\0' in v then [NullCharactersText] else [])
                    + (if !checks.isEmail(v) then ["Enter a valid email address."] else []);
        if |errs| > 0 then Failure(errs)
        else
          NormalizeEmailIdempotent(v);
          FieldCheck(ValidateEmail(v, existing))
  }

  function NameField(raw: Option<string>): (r: Result<string, seq<string>>)
    ensures r.Success? ==> r.value != "" && |r.value| <= 150 && '\0' !in r.value
    ensures r.Failure? ==> |r.error| > 0
  {
    match CleanChar(raw, 0, Some(150))
    case Failure(e) => Failure(e)
    case Success(v) =>
      PyStripWithin(raw.value);
      PyStripWithin(v);
      FieldCheck(ValidateName(v))
  }

  function PasswordField(raw: Option<string>, checks: TextChecks): (r: Result<string, seq<string>>)
    ensures r.Success? ==> |r.value| >= 8 && HasLetter(r.value, checks) && HasDigit(r.value, checks) && '\0' !in r.value
    ensures r.Success? <==> CleanChar(raw, 8, None).Success? && HasLetter(CleanChar(raw, 8, None).value, checks)
                            && HasDigit(CleanChar(raw, 8, None).value, checks)
    ensures r.Failure? ==> |r.error| > 0
  {
    match CleanChar(raw, 8, None)
    case Failure(e) => Failure(e)
    case Success(v) =>
      PyStripWithin(raw.value);
      FieldCheck(ValidatePassword(v, checks))
  }

  /** One `[field, messages]` pair per failing field, in the serializer's field order. */
  function FieldErrors(email: Result<string, seq<string>>, name: Result<string, seq<string>>,
                       password: Result<string, seq<string>>): (errs: seq<(string, seq<string>)>)
    ensures |errs| == 0 <==> email.Success? && name.Success? && password.Success?
  {
    (if email.Failure? then [("email", email.error)] else [])
    + (if name.Failure? then [("name", name.error)] else [])
    + (if password.Failure? then [("password", password.error)] else [])
  }

  /** `serializer.is_valid()` and `validate`: the cleaned fields, or the
      field errors. A client-supplied role is never among the cleaned values. */
  function RegisterFields(data: RegisterData, checks: TextChecks, existing: Accounts): (r: Result<Cleaned, seq<(string, seq<string>)>>)
    ensures r.Success? ==> r.value.email !in existing && r.value.email == NormalizeEmail(r.value.email)
    ensures r.Success? ==> r.value.name != "" && |r.value.name| <= 150
    ensures r.Success? ==> |r.value.password| >= 8 && HasLetter(r.value.password, checks) && HasDigit(r.value.password, checks)
    ensures r.Success? ==> '\0' !in r.value.name && '\0' !in r.value.password
    ensures r.Failure? ==> |r.error| > 0
    ensures r.Success? ==> EmailField(data.email, checks, existing).Success? && r.value.email == EmailField(data.email, checks, existing).value
    ensures EmailField(data.email, checks, existing).Failure? ==>
      r.Failure? && r.error[0] == ("email", EmailField(data.email, checks, existing).error)
  {
    var e := EmailField(data.email, checks, existing);
    var n := NameField(data.name);
    var p := PasswordField(data.password, checks);
    var errs := FieldErrors(e, n, p);
    if |errs| > 0 then Failure(errs)
    else Success(Cleaned(e.value, n.value, p.value, data.avatar.GetOr("")))
  }

  /** A list of messages as JSON strings. */
  function Strs(ms: seq<string>): (js: seq<Json>)
    ensures |js| == |ms| && forall i :: 0 <= i < |ms| ==> js[i] == JStr(ms[i])
  {
    seq(|ms|, i requires 0 <= i < |ms| => JStr(ms[i]))
  }

  /** `serializer.errors` as JSON: each field maps to its list of messages. */
  function ErrorsJson(errs: seq<(string, seq<string>)>): (j: Json)
    ensures j.JObj? && |j.entries| == |errs|
    ensures forall i :: 0 <= i < |errs| ==> j.entries[i] == (errs[i].0, JArr(Strs(errs[i].1)))
  {
    JObj(seq(|errs|, i requires 0 <= i < |errs| => (errs[i].0, JArr(Strs(errs[i].1)))))
  }

  /** The 400 reply for a request that fails validation. */
  function ValidationFailed(errs: seq<(string, seq<string>)>): Json {
    JObj([("detail", JStr("Validation failed")), ("errors", ErrorsJson(errs))])
  }

  /** The 201 reply of a registration. */
  function Registered(a: Account, tokens: Tokens): Json {
    JObj([("user", UserJson(a)), ("access", JStr(tokens.access)), ("refresh", JStr(tokens.refresh)),
          ("message", JStr("User registered successfully"))])
  }

  /** The account `create` stores for cleaned values: role USER, whatever was sent. */
  function NewAccount(c: Cleaned, id: int): (a: Account)
    ensures a.role == USER && a.email == c.email && a.id == id
  {
    Account(id, c.email, c.name, c.avatar, USER, c.password)
  }

  /** `RegisterView.create` once `is_valid()` has given its verdict: 400 with
      the field errors, 400 when saving raises (`saved` is the new id or the
      exception's text), 201 with the user and a token pair otherwise. */
  function RegisterReply(fields: Result<Cleaned, seq<(string, seq<string>)>>, db: Accounts, saved: Result<int, string>, tokens: Tokens): (r: (Reply, Accounts))
    ensures fields.Failure? ==> r == (Reply(400, ValidationFailed(fields.error)), db)
    ensures fields.Success? && saved.Failure? ==> r == (Reply(400, Detail("Error creating user: " + saved.error)), db)
    ensures r.0.status == 201 <==> fields.Success? && saved.Success?
    ensures r.0.status == 201 ==>
      && r.1 == db[fields.value.email := NewAccount(fields.value, saved.value)]
      && r.0.body == Registered(NewAccount(fields.value, saved.value), tokens)
    ensures r.0.status != 201 ==> r.1 == db
  {
    match fields
    case Failure(errs) => (Reply(400, ValidationFailed(errs)), db)
    case Success(c) =>
      match saved
      case Failure(m) => (Reply(400, Detail("Error creating user: " + m)), db)
      case Success(id) => (Reply(201, Registered(NewAccount(c, id), tokens)), db[c.email := NewAccount(c, id)])
  }

  /** `RegisterView.create`: the serializer's verdict on the request, then the reply. */
  function Register(data: RegisterData, checks: TextChecks, db: Accounts, saved: Result<int, string>, tokens: Tokens): (r: (Reply, Accounts))
  {
    RegisterReply(RegisterFields(data, checks, db), db, saved, tokens)
  }

  /** A reply for an address not yet taken never alters an existing account
      and adds at most one, keyed by its e-mail, with role USER. */
  lemma RegisterReplyOnlyAdds(fields: Result<Cleaned, seq<(string, seq<string>)>>, db: Accounts, saved: Result<int, string>, tokens: Tokens)
    requires fields.Success? ==> fields.value.email !in db
    ensures var r := RegisterReply(fields, db, saved, tokens);
      && (forall e :: e in db ==> e in r.1 && r.1[e] == db[e])
      && (forall e :: e in r.1 && e !in db ==> r.1[e].role == USER && r.1[e].email == e)
      && (r.0.status == 201 <==> |r.1.Keys| == |db.Keys| + 1)
      && (r.0.status != 201 ==> r.1 == db)
  {
    var r := RegisterReply(fields, db, saved, tokens);
    assert r.0.status == 201 ==> r.1.Keys == db.Keys + {fields.value.email};
  }

  /** Registration never alters an existing account; it adds at most one,
      under its normalised e-mail, with role USER. */
  lemma RegisterOnlyAdds(data: RegisterData, checks: TextChecks, db: Accounts, saved: Result<int, string>, tokens: Tokens)
    ensures var r := Register(data, checks, db, saved, tokens);
      && (forall e :: e in db ==> e in r.1 && r.1[e] == db[e])
      && (forall e :: e in r.1 && e !in db ==> r.1[e].role == USER && r.1[e].email == e)
      && (r.0.status == 201 <==> |r.1.Keys| == |db.Keys| + 1)
  {
    var f := RegisterFields(data, checks, db);
    RegisterReplyOnlyAdds(f, db, saved, tokens);
  }

  /** An address a field accepted is refused once an account holds it. */
  lemma EmailTaken(raw: Option<string>, checks: TextChecks, db: Accounts, db2: Accounts)
    requires EmailField(raw, checks, db).Success?
    requires EmailField(raw, checks, db).value in db2
    ensures EmailField(raw, checks, db2) == Failure(["A user with this email already exists."])
  {
    var v := CleanChar(raw, 0, None).value;
    NormalizeEmailIdempotent(v);
  }

  /** The same registration sent twice: the second is refused on its e-mail. */
  lemma RegisterTwice(data: RegisterData, checks: TextChecks, db: Accounts, id: int, saved: Result<int, string>, tokens: Tokens)
    requires Register(data, checks, db, Success(id), tokens).0.status == 201
    ensures var db2 := Register(data, checks, db, Success(id), tokens).1;
      && Register(data, checks, db2, saved, tokens).0.status == 400
      && RegisterFields(data, checks, db2).Failure?
      && RegisterFields(data, checks, db2).error[0] == ("email", ["A user with this email already exists."])
  {
    var f := RegisterFields(data, checks, db);
    var db2 := Register(data, checks, db, Success(id), tokens).1;
    assert db2 == db[f.value.email := NewAccount(f.value, id)];
    EmailTaken(data.email, checks, db, db2);
  }

  // ---- MeView ----

  /** `UserSerializer` on update: id, email and role are read-only, so only
      the name and the avatar a client sends are written. */
  function UpdateMe(a: Account, name: Option<string>, avatar: Option<string>, role: Option<Role>, email: Option<string>): (r: Account)
    ensures r.id == a.id && r.email == a.email && r.role == a.role && r.password == a.password
    ensures r.name == name.GetOr(a.name) && r.avatar == avatar.GetOr(a.avatar)
  {
    a.(name := name.GetOr(a.name), avatar := avatar.GetOr(a.avatar))
  }

  // ---- the shared OAuth sign-in ----

  /** The part of an address before its first '@' (`email.split("@", 1)[0]`). */
  function LocalPart(email: string): (r: string)
    ensures '@' !in r
    ensures StartsWith(email, r)
    ensures |r| < |email| ==> email[|r|] == '@'
  {
    email[..IndexOf(email, '@')]
  }

  /** The profile refresh of an existing account: a provider value fills a
      field only when the stored one is empty; the flag says whether any
      field was filled. */
  function MergeProfile(a: Account, name: string, avatar: string): (r: (Account, bool))
    ensures a.name != "" ==> r.0.name == a.name
    ensures a.name == "" ==> r.0.name == name
    ensures a.avatar != "" ==> r.0.avatar == a.avatar
    ensures a.avatar == "" ==> r.0.avatar == avatar
    ensures r.0.id == a.id && r.0.email == a.email && r.0.role == a.role && r.0.password == a.password
    ensures r.1 <==> r.0 != a
  {
    var withAvatar := if avatar != "" && a.avatar == "" then a.(avatar := avatar) else a;
    var withName := if name != "" && withAvatar.name == "" then withAvatar.(name := name) else withAvatar;
    (withName, (avatar != "" && a.avatar == "") || (name != "" && a.name == ""))
  }

  /** Merging the same profile again changes nothing. */
  lemma MergeProfileIdempotent(a: Account, name: string, avatar: string)
    ensures MergeProfile(MergeProfile(a, name, avatar).0, name, avatar) == (MergeProfile(a, name, avatar).0, false)
  {
  }

  /** `get_or_create(email=..., defaults={name, avatar})` and the merge: a
      new account (role USER, no password) or the merged existing one, stored
      under the e-mail. */
  function SignIn(db: Accounts, email: string, name: string, avatar: string, newId: int): (r: (Account, Accounts))
    ensures r.1 == db[email := r.0]
    ensures r.0.email == email || email in db
    ensures email !in db ==> r.0 == Account(newId, email, name, avatar, USER, "")
    ensures email in db ==> r.0 == MergeProfile(db[email], name, avatar).0
  {
    if email in db then
      var merged := MergeProfile(db[email], name, avatar).0;
      (merged, db[email := merged])
    else
      var a := Account(newId, email, name, avatar, USER, "");
      (a, db[email := a])
  }

  /** Signing in twice with the same profile stores the same table as once. */
  lemma SignInStable(db: Accounts, email: string, name: string, avatar: string, id1: int, id2: int)
    ensures var first := SignIn(db, email, name, avatar, id1);
      SignIn(first.1, email, name, avatar, id2) == first
  {
    var first := SignIn(db, email, name, avatar, id1);
    if email in db {
      MergeProfileIdempotent(db[email], name, avatar);
    }
    assert first.1[email := first.0] == first.1;
  }

  /** A signed-in account keeps the table keyed by e-mail. */
  lemma SignInKeepsKeys(db: Accounts, email: string, name: string, avatar: string, newId: int)
    requires WellKeyed(db)
    ensures SignIn(db, email, name, avatar, newId).0.email == email
    ensures WellKeyed(SignIn(db, email, name, avatar, newId).1)
  {
  }

  /** The 200 reply of both OAuth views. */
  function SignedInReply(a: Account, tokens: Tokens): Json {
    JObj([("access", JStr(tokens.access)), ("refresh", JStr(tokens.refresh)), ("user", UserJson(a))])
  }

  // ---- GoogleLoginView ----

  /** The claims of a verified Google ID token that the view reads. */
  datatype GoogleClaims = GoogleClaims(email: Option<string>, name: Option<string>, picture: Option<string>)

  const GoogleUnconfigured := "Google OAuth client ID is not configured on the server. Set GOOGLE_OAUTH_CLIENT_ID."

  /** `GoogleLoginView.post`. `verified` is the verification oracle's answer
      for the credential (None when it raises). */
  function GoogleLogin(clientId: string, credential: Option<string>, verified: Option<GoogleClaims>,
                       db: Accounts, newId: int, tokens: Tokens): (r: (Reply, Accounts))
    ensures clientId == "" ==> r == (Reply(500, Detail(GoogleUnconfigured)), db)
    ensures clientId != "" && CleanChar(credential, 0, None).Failure? ==>
      r == (Reply(400, ErrorsJson([("credential", CleanChar(credential, 0, None).error)])), db)
    ensures clientId != "" && CleanChar(credential, 0, None).Success? && verified.None? ==>
      r == (Reply(400, Detail("Invalid Google credential.")), db)
    ensures clientId != "" && CleanChar(credential, 0, None).Success? && verified.Some? && !Present(verified.value.email) ==>
      r == (Reply(400, Detail("Google account email missing.")), db)
    ensures r.0.status == 200 <==> clientId != "" && CleanChar(credential, 0, None).Success? && verified.Some? && Present(verified.value.email)
    ensures r.0.status == 200 ==>
      var c := verified.value;
      var s := SignIn(db, c.email.value, OrElse(c.name, Some(LocalPart(c.email.value))).value, OrElse(c.picture, Some("")).value, newId);
      r == (Reply(200, SignedInReply(s.0, tokens)), s.1)
  {
    if clientId == "" then (Reply(500, Detail(GoogleUnconfigured)), db)
    else match CleanChar(credential, 0, None)
      case Failure(e) => (Reply(400, ErrorsJson([("credential", e)])), db)
      case Success(_) =>
        match verified
        case None => (Reply(400, Detail("Invalid Google credential.")), db)
        case Some(c) =>
          if !Present(c.email) then (Reply(400, Detail("Google account email missing.")), db)
          else
            var email := c.email.value;
            var name := OrElse(c.name, Some(LocalPart(email))).value;
            var avatar := OrElse(c.picture, Some("")).value;
            var s := SignIn(db, email, name, avatar, newId);
            (Reply(200, SignedInReply(s.0, tokens)), s.1)
  }

  /** A Google sign-in never replaces a name or picture the account already has. */
  lemma GoogleKeepsCustomProfile(clientId: string, credential: Option<string>, c: GoogleClaims,
                                 db: Accounts, newId: int, tokens: Tokens)
    requires GoogleLogin(clientId, credential, Some(c), db, newId, tokens).0.status == 200
    requires c.email.value in db
    ensures var stored := GoogleLogin(clientId, credential, Some(c), db, newId, tokens).1[c.email.value];
      && (db[c.email.value].name != "" ==> stored.name == db[c.email.value].name)
      && (db[c.email.value].avatar != "" ==> stored.avatar == db[c.email.value].avatar)
      && stored.role == db[c.email.value].role
  {
  }

  // ---- GitHubLoginView ----

  /** The fields of GitHub's `/user` reply that the view reads. */
  datatype GithubProfile = GithubProfile(email: Option<string>, name: Option<string>, login: Option<string>, avatarUrl: Option<string>)

  /** One entry of GitHub's `/user/emails` list. */
  datatype EmailEntry = EmailEntry(primary: bool, email: Option<string>)

  /** The index of the first entry marked primary. */
  function FirstPrimary(entries: seq<EmailEntry>): (r: Option<nat>)
    ensures r.Some? ==> r.value < |entries| && entries[r.value].primary
    ensures r.Some? ==> forall j :: 0 <= j < r.value ==> !entries[j].primary
    ensures r.None? ==> forall j :: 0 <= j < |entries| ==> !entries[j].primary
  {
    if |entries| == 0 then None
    else if entries[0].primary then Some(0)
    else match FirstPrimary(entries[1..])
      case None => None
      case Some(i) => Some(i + 1)
  }

  /** The address GitHub's e-mail list offers: the first primary entry's, else the first entry's. */
  function ListedEmail(entries: seq<EmailEntry>): (r: Option<string>)
    ensures FirstPrimary(entries).Some? ==> r == entries[FirstPrimary(entries).value].email
    ensures FirstPrimary(entries).None? && |entries| > 0 ==> r == entries[0].email
    ensures |entries| == 0 ==> r.None?
  {
    match FirstPrimary(entries)
    case Some(i) => entries[i].email
    case None => if |entries| > 0 then entries[0].email else None
  }

  /** The e-mail the view settles on: the profile's, else the listed one when
      the e-mail list was fetched (status 200); `emails` is None otherwise. */
  function GithubEmail(profile: GithubProfile, emails: Option<seq<EmailEntry>>): (r: Option<string>)
    ensures Present(profile.email) ==> r == profile.email
    ensures !Present(profile.email) && emails.Some? ==> r == OrElse(profile.email, ListedEmail(emails.value))
    ensures !Present(profile.email) && emails.None? ==> r == profile.email
  {
    if Present(profile.email) then profile.email
    else match emails
      case Some(es) => OrElse(profile.email, ListedEmail(es))
      case None => profile.email
  }

  /** A primary entry wins over earlier non-primary ones. */
  lemma PrimaryWins(profile: GithubProfile, es: seq<EmailEntry>, i: nat)
    requires !Present(profile.email)
    requires i < |es| && es[i].primary && forall j :: 0 <= j < i ==> !es[j].primary
    requires Present(es[i].email)
    ensures GithubEmail(profile, Some(es)) == es[i].email
  {
    assert FirstPrimary(es) == Some(i);
  }

  /** The e-mail settled on once the profile is in, or the text of the
      e-mail request's error; the list is asked for only when the profile has no e-mail. */
  function ChosenEmail(p: GithubProfile, emails: Result<Option<seq<EmailEntry>>, string>): (r: Result<Option<string>, string>)
    ensures Present(p.email) ==> r == Success(p.email)
    ensures !Present(p.email) && emails.Failure? ==> r == Failure(emails.error)
    ensures !Present(p.email) && emails.Success? ==> r == Success(GithubEmail(p, emails.value))
  {
    if Present(p.email) then Success(p.email)
    else match emails
      case Failure(e) => Failure(e)
      case Success(es) => Success(GithubEmail(p, es))
  }

  /** `_exchange_code_for_token`: None without both OAuth settings, else the
      token endpoint's answer (`exchanged`, None when the request fails). */
  function ExchangeCode(clientId: string, clientSecret: string, exchanged: Option<string>): (r: Option<string>)
    ensures clientId == "" || clientSecret == "" ==> r.None?
    ensures clientId != "" && clientSecret != "" ==> r == exchanged
  {
    if clientId == "" || clientSecret == "" then None else exchanged
  }

  /** What GitHub's API answered: `profile` is the `/user` reply or the text
      of the request error; `emails` is the `/user/emails` reply (asked only
      when the profile has no e-mail), None for a non-200 status. */
  datatype GithubApi = GithubApi(profile: Result<GithubProfile, string>, emails: Result<Option<seq<EmailEntry>>, string>)

  const NoGithubInput := "Either 'code' or 'access_token' is required."
  const NoGithubToken := "Failed to obtain GitHub access token."
  const NoGithubEmail := "GitHub account email not available. Please ensure your GitHub account has a public email."

  /** The access token the view goes on with, or the 400 reply that ends it.
      A `code` is preferred to an `access_token`. */
  function GithubToken(code: Option<string>, accessToken: Option<string>, clientId: string, clientSecret: string,
                       exchanged: Option<string>): (r: Result<string, Json>)
    ensures Present(code) && CleanChar(code, 0, None).Success? ==>
      r == (if Present(ExchangeCode(clientId, clientSecret, exchanged)) then Success(ExchangeCode(clientId, clientSecret, exchanged).value)
            else Failure(Detail(NoGithubToken)))
    ensures !Present(code) && Present(accessToken) && CleanChar(accessToken, 0, None).Success? ==> r == Success(accessToken.value)
    ensures !Present(code) && !Present(accessToken) ==> r == Failure(Detail(NoGithubInput))
    ensures r.Success? ==> r.value != ""
  {
    if Present(code) then
      match CleanChar(code, 0, None)
      case Failure(e) => Failure(ErrorsJson([("code", e)]))
      case Success(_) =>
        var t := ExchangeCode(clientId, clientSecret, exchanged);
        if Present(t) then Success(t.value) else Failure(Detail(NoGithubToken))
    else if Present(accessToken) then
      match CleanChar(accessToken, 0, None)
      case Failure(e) => Failure(ErrorsJson([("access_token", e)]))
      case Success(_) => Success(accessToken.value)
    else Failure(Detail(NoGithubInput))
  }

  /** `GitHubLoginView.post`. */
  function GithubLogin(code: Option<string>, accessToken: Option<string>, clientId: string, clientSecret: string,
                       exchanged: Option<string>, api: GithubApi, db: Accounts, newId: int, tokens: Tokens): (r: (Reply, Accounts))
    ensures GithubToken(code, accessToken, clientId, clientSecret, exchanged).Failure? ==>
      r == (Reply(400, GithubToken(code, accessToken, clientId, clientSecret, exchanged).error), db)
    ensures r.0.status == 200 || r.0.status == 400
    ensures r.0.status == 400 ==> r.1 == db
    ensures GithubToken(code, accessToken, clientId, clientSecret, exchanged).Success? && api.profile.Failure? ==>
      r == (Reply(400, Detail("Failed to verify GitHub token: " + api.profile.error)), db)
    ensures r.0.status == 200 ==>
      && GithubToken(code, accessToken, clientId, clientSecret, exchanged).Success?
      && api.profile.Success?
      && var p := api.profile.value;
         && ChosenEmail(p, api.emails).Success? && Present(ChosenEmail(p, api.emails).value)
         && var email := ChosenEmail(p, api.emails).value.value;
         var s := SignIn(db, email, OrElse(OrElse(p.name, p.login), Some(LocalPart(email))).value, OrElse(p.avatarUrl, Some("")).value, newId);
         r == (Reply(200, SignedInReply(s.0, tokens)), s.1)
  {
    match GithubToken(code, accessToken, clientId, clientSecret, exchanged)
    case Failure(body) => (Reply(400, body), db)
    case Success(_) =>
      match api.profile
      case Failure(e) => (Reply(400, Detail("Failed to verify GitHub token: " + e)), db)
      case Success(p) =>
        match ChosenEmail(p, api.emails)
        case Failure(e) => (Reply(400, Detail("Failed to verify GitHub token: " + e)), db)
        case Success(email) =>
          if !Present(email) then (Reply(400, Detail(NoGithubEmail)), db)
          else
            var e := email.value;
            var name := OrElse(OrElse(p.name, p.login), Some(LocalPart(e))).value;
            var avatar := OrElse(p.avatarUrl, Some("")).value;
            var s := SignIn(db, e, name, avatar, newId);
            (Reply(200, SignedInReply(s.0, tokens)), s.1)
  }

  /** A code that cannot be exchanged (the server lacks the OAuth settings)
      is refused even when a usable access token is sent alongside it; a code
      holding a null character is refused by its field instead. */
  lemma CodeShadowsAccessToken(code: string, token: string, exchanged: Option<string>, api: GithubApi,
                               db: Accounts, newId: int, tokens: Tokens)
    requires PyStrip(code) != ""
    ensures '\0' !in code ==>
      GithubLogin(Some(code), Some(token), "", "", exchanged, api, db, newId, tokens) == (Reply(400, Detail(NoGithubToken)), db)
    ensures '\0' in code ==>
      GithubLogin(Some(code), Some(token), "", "", exchanged, api, db, newId, tokens)
        == (Reply(400, ErrorsJson([("code", [NullCharactersText])])), db)
  {
    assert Present(Some(code)) by {
      assert |PyStrip(code)| <= |code|;
    }
    if '\0' in code {
      PyStripKeeps(code, '\0');
      var v := PyStrip(code);
      assert '\0' in v && v != "";
      var none: seq<string> := [];
      assert none + none + [NullCharactersText] == [NullCharactersText];
      assert CleanChar(Some(code), 0, None) == Failure([NullCharactersText]);
    }
  }
}

=== FILE: wrappers.dfy ===
/** Option and Result: the "value or nothing" and "value or error" shapes used
    for JavaScript's null/undefined and for thrown errors and HTTP error replies. */
module Wrappers {

  datatype Option<+T> = None | Some(value: T) {

    /** The value, or a default when there is none. */
    function GetOr(default: T): T {
      match this
      case Some(v) => v
      case None => default
    }
  }

  datatype Result<+R, +E> = Success(value: R) | Failure(error: E)
}
